=== FILE: README.md ===
# ISAR remote rendering SDK: a Dafny model of its core logic

ISAR is Hololight's remote-rendering SDK. A Unity application on a server renders frames
for a thin client on a headset or phone. The client sends back poses, input events and the
results of its AR subsystems as custom messages. This project models the logic the server
side runs on those messages, in Dafny, and proves properties of it.

- **C interface.** The packed version layout and its constants (`version.h`). The error,
  connection-state and SDP enumerations and the handle sentinels (`types.h`). The input
  messages (`input_types.h`): event types and their names, the tagged event union and its
  factory functions, and the spatial-input and message-type ranges.
- **Input on the Unity side.** The right-handed to left-handed conversion of every input
  event, and the geometry copies and flips it uses. The `RemotingServer` queue of converted
  events, drained once per frame through a per-type handler table into a map of source
  states. The flag predicates of interaction sources, their states and their poses. The
  26-slot hand joint array.
- **Configuration.** The clamping of the signaling and render settings, enum lookup with a
  fallback, the diagnostic bit set, and the structs handed to the native library.
- **Debug signaling.** Length-prefixed UTF-8 XML framing, the receive loop that gives a
  body at most three reads, and the `Version`/`Sdp`/`IceCandidate` element schema. The
  DNS-SD instance name taken from the configuration.
- **AR subsystems over custom messages.** The plane, image-tracking, raycast, QR-code and
  touch messages, with their validation and decoding. The trackables with their "first
  pending change wins" rule, the shared trackables database, and the change sets reported
  to Unity. Plane detection mode, image library upload and raycast requests are included.
- **Connection-state machines.** The loader's restart after a lost connection, the event
  listener's registration, the anchor provider's run gating and status mapping, the QR
  watching flag, and the legacy `RemoteCamera` pose-timestamp filter.
- **Helpers.** The assembly-definition platform check and the 2048-slot timing ring buffer
  with its order statistics.

Floats are kept as their IEEE-754 binary32 bit patterns. The code only negates them, copies
them, or reads and writes them little-endian, so no float arithmetic is needed; the timing
statistics use reals. Native calls, GUIDs, clocks, locks and the network are parameters of
the operations that use them.

Where the code and its documentation disagree, the model follows the code. For the plane,
touch, raycast and QR-code messages, whose checks or byte order look wrong, each handler
takes a flag that selects the check as written or a corrected one. The as-written reading is
the code's behaviour, and the properties the code evidently intends are proved of the
corrected one. `HlrInputType_MAX` is modelled as written: it is defined from the input
*event* count. These are listed under Findings.

Functions without a contract of their own (for example `Geometry.FlipVector3`,
`InputConvert.ConvertJoint`, `MessageHeader.ReadHeader`, `RemotingServer.Drain`,
`Statistics.Mode` and `TouchManager.Process`) are covered by the lemma rows about them, such
as `Geometry.FlipVector3Spec` and `RemotingServer.DrainRaisesInQueueOrder`.

## Model

| member | source | states |
|---|---|---|
| VersionBits.PackMonotonicMajor | include/remoting/version.h:9-10 | with every field in its width, a larger major packs to a larger value whatever the minor and patch fields |
| VersionBits.PackMonotonicMinor | include/remoting/version.h:9-10 | with equal majors, a larger minor packs to a larger value whatever the patch |
| VersionBits.PackMonotonicPatch | include/remoting/version.h:9-10 | with equal majors and minors, a larger patch packs to a larger value |
| VersionBits.PackInjective | include/remoting/version.h:9-10 | in-range triples pack to the same value exactly when they are equal |
| Version.Default | com.hololight.isar/Runtime/Native/Version.cs:14-20 | the default constructor yields an invalid version |
| Version.GetMajor | include/remoting/version.h:23 | the major field is below 1024 for every packed value |
| Version.GetMinor | include/remoting/version.h:24 | the minor field is below 1024 for every packed value |
| Version.GetPatch | include/remoting/version.h:25 | the patch field is below 4096 for every packed value |
| Version.EqualIsIdentity | com.hololight.isar/Runtime/Native/Version.cs:37-50 | `==` holds exactly when the versions are the same packed value, and `!=` exactly when they differ |
| Version.GetInvertsMake | com.hololight.isar/Runtime/Native/Version.cs:22-68 | unpacking a version made from in-range fields gives back each field |
| Version.MakeInvertsGet | include/remoting/version.h:9-25 | packing the three unpacked fields of any 32-bit value gives that value back, so the layout covers all 32 bits |
| Version.MakeValid | include/remoting/version.h:9-20 | an in-range triple packs to the invalid version 0 exactly when all three fields are zero |
| Version.Constants | include/remoting/version.h:14-18 | the latest version unpacks to 2.6.0, the next-major, next-minor and next-patch constants to 3.6.0, 2.7.0 and 2.6.1, and they increase in the order patch, minor, major |
| Version.ToSystemVersion | com.hololight.isar/Runtime/Native/Version.cs:76-83 | the `System.Version` fields are within the field widths |
| Version.ToSystemVersionOfMake | com.hololight.isar/Runtime/Native/Version.cs:22-83 | converting a version made from in-range fields gives those fields as major, minor and build |
| Version.ParseFieldsRoundTrip | com.hololight.isar/Runtime/Native/Version.cs:85-88 | three decimal numbers joined by dots split back into the same three numbers |
| Version.ParseToString | com.hololight.isar/Runtime/Native/Version.cs:85-88 | `ToString` is "major.minor.patch" in decimal: parsing its text gives back the same packed value for every version |
| AnchorStatus.StatusCode | Packages/com.hololight.isar/Runtime/Native/Anchor.cs:16-32 | NOT_CONNECTED is 0, SUCCESS is 1, FAILURE is 13, and every status lies between 0 and 13 |
| AnchorStatus.StatusFromCode | Packages/com.hololight.isar/Runtime/Native/Anchor.cs:16-32 | an integer names a status exactly when it lies between 0 and 13 |
| AnchorStatus.StatusCodeRoundTrip | Packages/com.hololight.isar/Runtime/Native/Anchor.cs:16-32 | statuses and the codes 0 to 13 are in one-to-one correspondence |
| AnchorStatus.TrackingCode | Packages/com.hololight.isar/Runtime/Native/Anchor.cs:9-14 | the anchor tracking states NONE, LIMITED and TRACKING have the numbers of the AR Foundation tracking states None, Limited and Tracking |
| AnchorStatus.CheckAnchoringError | Packages/com.hololight.isar/Runtime/Native/Anchor.cs:49-82 | a status value gets the message of its case, and a value outside the enum gets the catch-all message |
| AnchorStatus.CatchAllOnlyForSuccess | Packages/com.hololight.isar/Runtime/Native/Anchor.cs:51-80 | of all statuses only SUCCESS, which has no case of its own, falls through to the catch-all message |
| AnchorStatus.MessagesDistinct | Packages/com.hololight.isar/Runtime/Native/Anchor.cs:53-80 | no two statuses are reported with the same message |
| AnchorStatus.CheckAnchoringErrorSpec | Packages/com.hololight.isar/Runtime/Native/Anchor.cs:49-82 | the catch-all message is returned exactly for SUCCESS and for values outside the enum, and two different status values never get the same message |
| AnchorProvider.Create | Packages/com.hololight.isar/Runtime/ARSubsystems/Anchor/IsarXRAnchorSubsystem.cs:196-199 | the provider is running exactly when the native provider was created |
| AnchorProvider.Start | Packages/com.hololight.isar/Runtime/ARSubsystems/Anchor/IsarXRAnchorSubsystem.cs:201-204 | after Start the provider is running |
| AnchorProvider.Stop | Packages/com.hololight.isar/Runtime/ARSubsystems/Anchor/IsarXRAnchorSubsystem.cs:206-209 | after Stop the provider is not running |
| AnchorProvider.StatusOperation | Packages/com.hololight.isar/Runtime/ARSubsystems/Anchor/IsarXRAnchorSubsystem.cs:237-538 | the boolean operations call the native library exactly while running, and answer true exactly when running and the native status is SUCCESS |
| AnchorProvider.TryAddAnchor | Packages/com.hololight.isar/Runtime/ARSubsystems/Anchor/IsarXRAnchorSubsystem.cs:216-235 | the call reaches the native library exactly while running; it answers true exactly on SUCCESS, and the anchor is the default one while stopped and the native one otherwise |
| AnchorProvider.GetChanges | Packages/com.hololight.isar/Runtime/ARSubsystems/Anchor/IsarXRAnchorSubsystem.cs:256-288 | while stopped there are no changes and no native call; while running the changes are the native ones |
| AnchorProvider.ExportAnchors | Packages/com.hololight.isar/Runtime/ARSubsystems/Anchor/IsarXRAnchorSubsystem.cs:296-326 | the export succeeds exactly when running and the status is SUCCESS, and then carries a copy of the exported bytes; otherwise it carries no data |
| AnchorProvider.EnumeratePersistedAnchorNames | Packages/com.hololight.isar/Runtime/ARSubsystems/Anchor/IsarXRAnchorSubsystem.cs:358-397 | names are copied exactly on SUCCESS while running, and success is reported only when at least one name came back |
| AnchorProvider.CreateAnchorFromPersistedName | Packages/com.hololight.isar/Runtime/ARSubsystems/Anchor/IsarXRAnchorSubsystem.cs:541-572 | the result succeeds exactly when running and the status is SUCCESS, and carries the native id then and the default id otherwise |
| AnchorProvider.StoppedProviderIsInert | Packages/com.hololight.isar/Runtime/ARSubsystems/Anchor/IsarXRAnchorSubsystem.cs:201-572 | after Stop no operation calls the native library and each one fails or is empty whatever the library would answer; after Start each is decided by the native status alone |
| AnchorProvider.FailureIsExplained | Packages/com.hololight.isar/Runtime/ARSubsystems/Anchor/IsarXRAnchorSubsystem.cs:246-350 | while running, an operation fails on a status in the enum exactly when the logged warning carries a message other than the catch-all |
| AsmDef.SingleOrDefault | com.hololight.isar/Editor/AsmDefPlatformSupportCheck.cs:119-130 | the lookup throws exactly when the platform is listed more than once; otherwise it finds the platform exactly when it is listed |
| AsmDef.IsEditorOnlyAssembly | com.hololight.isar/Editor/AsmDefPlatformSupportCheck.cs:147-157 | an assembly is editor-only exactly when its include list is the single entry "Editor" |
| AsmDef.Warns | com.hololight.isar/Editor/AsmDefPlatformSupportCheck.cs:48-51 | the check warns about an assembly exactly when it does not support the platform and is not editor-only, and fails when the support test throws |
| AsmDef.PlatformSupportRule | com.hololight.isar/Editor/AsmDefPlatformSupportCheck.cs:105-145 | a non-empty include list admits exactly the platforms it names, else a non-empty exclude list admits exactly those it does not name, else every platform is admitted; the deciding list throws when it names the platform twice |
| AsmDef.IncludeTakesPrecedence | com.hololight.isar/Editor/AsmDefPlatformSupportCheck.cs:116-136 | with a non-empty include list the exclude list has no effect |
| AsmDef.EmptyListIsNoList | com.hololight.isar/Editor/AsmDefPlatformSupportCheck.cs:109-126 | an empty list and a missing list decide the same way |
| AsmDef.EditorOnlyNeverWarns | com.hololight.isar/Editor/AsmDefPlatformSupportCheck.cs:48-157 | an editor-only assembly is never warned about and supports only the platform named "Editor" |
| TrackableChanges.PendingTracks | Packages/com.hololight.isar/Runtime/ARSubsystems/PlanesDetection/IsarXRPlaneSubsystem.cs:118-130 | the tracks reported as added (or updated) are at most as many as the trackables |
| TrackableChanges.PendingRemovals | Packages/com.hololight.isar/Runtime/ARSubsystems/PlanesDetection/IsarXRPlaneSubsystem.cs:131-133 | the ids reported as removed are at most as many as the trackables |
| TrackableChanges.Cleared | Packages/com.hololight.isar/Runtime/ARSubsystems/PlanesDetection/IsarXRPlaneSubsystem.cs:118-122 | after the walk every trackable of the kind has its change flag cleared and the others are as they were |
| TrackableChanges.PendingTracksAppend | Packages/com.hololight.isar/Runtime/ARSubsystems/PlanesDetection/IsarXRPlaneSubsystem.cs:116-136 | the walk over two stretches of the database reports the changes of the first, then those of the second |
| TrackableChanges.PendingRemovalsAppend | Packages/com.hololight.isar/Runtime/ARSubsystems/PlanesDetection/IsarXRPlaneSubsystem.cs:116-136 | the removals of two stretches are those of the first followed by those of the second |
| TrackableChanges.PendingSplit | Packages/com.hololight.isar/Runtime/ARSubsystems/PlanesDetection/IsarXRPlaneSubsystem.cs:118-136 | one more trackable walked appends its own change, if pending, to the list of its update type |
| TrackableChanges.Collect | Packages/com.hololight.isar/Runtime/ARSubsystems/PlanesDetection/IsarXRPlaneSubsystem.cs:116-136 | the walk clears every flag of its kind and reports, in list order, each pending addition and update as its track and each pending removal as its id; a pending None is reported nowhere |
| TrackableChanges.RemoveAllIds | Packages/com.hololight.isar/Runtime/ARSubsystems/PlanesDetection/IsarXRPlaneSubsystem.cs:144 | deleting the reported ids never lengthens the database |
| TrackableChanges.GetChanges | Packages/com.hololight.isar/Runtime/ARSubsystems/PlanesDetection/IsarXRPlaneSubsystem.cs:95-147 | the reported changes are the pending ones of the kind in list order, and the database after is the cleared one with the reported removals deleted |
| TrackableChanges.RemoveAllTracks | Packages/com.hololight.isar/Runtime/ARSubsystems/PlanesDetection/IsarXRPlaneSubsystem.cs:150-160 | every live trackable of the kind is marked removed and every other trackable is left as it was |
| TrackableChanges.RemoveAllTracksLeavesNoneLive | Packages/com.hololight.isar/Runtime/ARSubsystems/PlanesDetection/IsarXRPlaneSubsystem.cs:150-160 | afterwards no trackable of the kind is live, and each that was live is pending removal |
| TrackableChanges.SettledDistinct | Packages/com.hololight.isar/Runtime/ARSubsystems/Trackable/TrackablesDatabase.cs:102-109 | a database whose tracks carry their own ids has no two trackables with the same id |
| TrackableChanges.WithoutMembers | Packages/com.hololight.isar/Runtime/ARSubsystems/Trackable/TrackablesDatabase.cs:102-109 | filtering out a set of ids keeps exactly the trackables whose id is not in it |
| TrackableChanges.WithoutAppend | Packages/com.hololight.isar/Runtime/ARSubsystems/Trackable/TrackablesDatabase.cs:102-109 | filtering distributes over concatenation |
| TrackableChanges.WithoutNone | Packages/com.hololight.isar/Runtime/ARSubsystems/Trackable/TrackablesDatabase.cs:102-109 | filtering out ids no trackable carries changes nothing |
| TrackableChanges.WithoutSplice | Packages/com.hololight.isar/Runtime/ARSubsystems/Trackable/TrackablesDatabase.cs:102-109 | filtering out the one carrier of the ids from between two stretches that carry none leaves the two stretches joined |
| TrackableChanges.RemoveByIdIsWithout | Packages/com.hololight.isar/Runtime/ARSubsystems/Trackable/TrackablesDatabase.cs:102-109 | with distinct ids, deleting the first trackable with an id is filtering that id out |
| TrackableChanges.WithoutTwice | Packages/com.hololight.isar/Runtime/ARSubsystems/Trackable/TrackablesDatabase.cs:102-109 | filtering out two sets one after the other is filtering out their union |
| TrackableChanges.WithoutKeepsDistinct | Packages/com.hololight.isar/Runtime/ARSubsystems/Trackable/TrackablesDatabase.cs:102-109 | filtering keeps the ids distinct |
| TrackableChanges.IdSet | Packages/com.hololight.isar/Runtime/ARSubsystems/PlanesDetection/IsarXRPlaneSubsystem.cs:144 | the set of the reported ids has exactly their members |
| TrackableChanges.RemoveAllIdsIsWithout | Packages/com.hololight.isar/Runtime/ARSubsystems/PlanesDetection/IsarXRPlaneSubsystem.cs:144 | with distinct ids, deleting reported ids one by one leaves exactly the trackables carrying none of them, in order |
| TrackableChanges.GetChangesRemovesExactly | Packages/com.hololight.isar/Runtime/ARSubsystems/PlanesDetection/IsarXRPlaneSubsystem.cs:116-144 | with distinct ids, after GetChanges a trackable remains exactly when it was not pending removal, and an id is reported removed exactly when its trackable was pending removal |
| TrackableChanges.RemovalsAreCarried | Packages/com.hololight.isar/Runtime/ARSubsystems/PlanesDetection/IsarXRPlaneSubsystem.cs:131-133 | with distinct ids, a trackable's id is among the removals exactly when it was pending removal |
| TrackableChanges.RemovalsAreIds | Packages/com.hololight.isar/Runtime/ARSubsystems/PlanesDetection/IsarXRPlaneSubsystem.cs:131-133 | every reported removal is the id of some trackable |
| DnsSd.IndexOfString | com.hololight.isar/Runtime/Signaling/DnsSd.cs:45 | the ordinal search finds the first position at or after the start where the key occurs, and reports none only when the key occurs nowhere there |
| DnsSd.IndexOfChar | com.hololight.isar/Runtime/Signaling/DnsSd.cs:50-55 | the character search finds the first position at or after the start holding the character, and none only when no later position holds it |
| DnsSd.QuotedAfter | com.hololight.isar/Runtime/Signaling/DnsSd.cs:50-64 | the text taken between two quotes holds no double quote, is no longer than the file, and when not empty stands in the file between two double quotes at or after the start |
| DnsSd.ParseServiceName | com.hololight.isar/Runtime/Signaling/DnsSd.cs:34-71 | the parsed name holds no double quote, is "" when the file has no "dnssd-name" key, and when not empty stands in the file between two double quotes; which text it is, is stated by DnsSd.ParseWrittenName |
| DnsSd.KeyFoundAfterQuoteFree | com.hololight.isar/Runtime/Signaling/DnsSd.cs:43-46 | a key written after text without a double quote is found exactly where it was written |
| DnsSd.KeyFoundFirst | com.hololight.isar/Runtime/Signaling/DnsSd.cs:45 | a key written after text in which no occurrence of it starts is found exactly where it was written |
| DnsSd.QuoteFreeKeyFirst | com.hololight.isar/Runtime/Signaling/DnsSd.cs:45 | text without a double quote holds no start of the "dnssd-name" key |
| DnsSd.SecondKeyCharAbsent | com.hololight.isar/Runtime/Signaling/DnsSd.cs:45 | text without the key's second character holds no start of the key, even when it holds quoted keys |
| DnsSd.QuotedKeyBeforeName | com.hololight.isar/Runtime/Signaling/DnsSd.cs:34-71 | the config `{"role": "server", "dnssd-name": "<name>"}` yields exactly `<name>` |
| DnsSd.QuotedAfterAt | com.hololight.isar/Runtime/Signaling/DnsSd.cs:50-64 | a quoted name after a stretch without a double quote is the quoted text read from the start of that stretch |
| DnsSd.IndexOfFirstOccurrence | com.hololight.isar/Runtime/Signaling/DnsSd.cs:45 | the ordinal search answers the first occurrence at or after the start |
| DnsSd.IndexOfCharFirst | com.hololight.isar/Runtime/Signaling/DnsSd.cs:50-55 | the character search answers its first occurrence at or after the start |
| DnsSd.QuoteAfter | com.hololight.isar/Runtime/Signaling/DnsSd.cs:49-50 | the first double quote after a quote-free stretch is the one written after it |
| DnsSd.ParseWrittenName | com.hololight.isar/Runtime/Signaling/DnsSd.cs:34-71 | a config written as text with no earlier "dnssd-name" key (other quoted keys and values may come first), the key, a separator without a double quote and a quoted name yields exactly that name |
| DnsSd.QuotedAfterWritten | com.hololight.isar/Runtime/Signaling/DnsSd.cs:50-64 | the text between the quotes written after a quote-free stretch is read back |
| DnsSd.NoQuoteAfter | com.hololight.isar/Runtime/Signaling/DnsSd.cs:50-52 | no double quote is found in a stretch that holds none |
| DnsSd.MissingOpeningQuoteIsEmpty | com.hololight.isar/Runtime/Signaling/DnsSd.cs:50-70 | a first "dnssd-name" key, after any text without an earlier key, with no double quote after it yields "" |
| DnsSd.MissingClosingQuoteIsEmpty | com.hololight.isar/Runtime/Signaling/DnsSd.cs:55-70 | a first "dnssd-name" key followed by an opening quote but no closing one yields "" |
| DnsSd.InstanceName | com.hololight.isar/Runtime/Signaling/DnsSd.cs:19-26 | the instance name is the configured name when it has a visible character and exactly the user's name when it is missing, empty or only white space |
| DnsSd.ConfiguredInstanceName | com.hololight.isar/Runtime/Signaling/DnsSd.cs:19-71 | for a written config whose first "dnssd-name" key may follow other keys, the instance name is the configured name when it has a visible character and the user's name otherwise |
| EventListener.Route | Packages/com.hololight.isar/Runtime/IsarEventListener.cs:14-24 | CONNECTED is reported as OnConnected, and every other state as OnDisconnected |
| EventListener.RegisterEvents | Packages/com.hololight.isar/Runtime/IsarEventListener.cs:26-38 | without a server or once registered nothing changes; otherwise the handler is subscribed once more, OnConnected is called exactly when the server is connected, and the listener is registered |
| EventListener.UnregisterRemotingEvents | Packages/com.hololight.isar/Runtime/IsarEventListener.cs:40-52 | unless registered with a server nothing changes; otherwise OnDisconnected is called exactly when the server is connected, one subscription is removed, and the listener is no longer registered |
| EventListener.ConnectionStateChanged | Packages/com.hololight.isar/Runtime/IsarEventListener.cs:14-31 | a state change appends one routed callback per subscription and changes nothing else |
| EventListener.Repeat | Packages/com.hololight.isar/Runtime/IsarEventListener.cs:31 | n copies of a callback |
| EventListener.Start | Packages/com.hololight.isar/Runtime/IsarEventListener.cs:69-75 | both builds call RegisterEvents; the legacy build first takes the server from the camera, so RegisterEvents runs against the camera's server |
| EventListener.OnEnable | Packages/com.hololight.isar/Runtime/IsarEventListener.cs:77-80 | enabling keeps a listener subscribed exactly when registered |
| EventListener.OnDisable | Packages/com.hololight.isar/Runtime/IsarEventListener.cs:82-85 | disabling keeps a listener subscribed exactly when registered |
| EventListener.RegisterIdempotent | Packages/com.hololight.isar/Runtime/IsarEventListener.cs:26-38 | registering twice is registering once, whatever the connection does in between, and without a server registering does nothing |
| EventListener.UnregisterIdempotent | Packages/com.hololight.isar/Runtime/IsarEventListener.cs:40-52 | unregistering twice is unregistering once |
| EventListener.ValidPreserved | Packages/com.hololight.isar/Runtime/IsarEventListener.cs:12-52 | every operation keeps the listener subscribed at most once and exactly while registered, so a state change reaches a registered listener exactly once and an unregistered one never |
| EventListener.RegisterThenUnregister | Packages/com.hololight.isar/Runtime/IsarEventListener.cs:26-52 | registering and unregistering around one connection calls OnConnected once and then OnDisconnected once, and leaves no subscription |
| Geometry.Neg | Packages/com.hololight.isar/Runtime/Utils/Convert.cs:13 | multiplying a float by -1 keeps its magnitude bits and inverts its sign bit |
| Geometry.NegInvolution | Packages/com.hololight.isar/Runtime/Utils/Convert.cs:13-50 | negating twice gives the float back |
| Geometry.NegChanges | Packages/com.hololight.isar/Runtime/Utils/Convert.cs:13-50 | negation never leaves a float unchanged; +0.0 becomes -0.0 |
| Geometry.Vector3CopyBijective | Packages/com.hololight.isar/Runtime/Utils/Convert.cs:23-26 | the native-to-Unity vector copy is a bijection and loses nothing |
| Geometry.QuaternionCopyBijective | Packages/com.hololight.isar/Runtime/Utils/Convert.cs:42-45 | the native-to-Unity quaternion copy, w last, is a bijection and loses nothing |
| Geometry.MatrixToUnity | Packages/com.hololight.isar/Runtime/Utils/Convert.cs:60-71 | every matrix cell is copied to the cell of the same row and column, with no change of handedness |
| Geometry.NegateLine2 | Packages/com.hololight.isar/Runtime/Utils/Convert.cs:73-89 | exactly the cells of line 2, a column or a row, are negated and every other cell is kept |
| Geometry.FlipVector2Spec | Packages/com.hololight.isar/Runtime/Utils/Convert.cs:11-21 | flipping a Vector2 keeps x, changes y to its negation, and flipping twice restores the vector |
| Geometry.FlipVector3Spec | Packages/com.hololight.isar/Runtime/Utils/Convert.cs:28-38 | flipping a Vector3 keeps x and y, changes z to its negation, and flipping twice restores the vector |
| Geometry.FlipQuaternionSpec | Packages/com.hololight.isar/Runtime/Utils/Convert.cs:47-58 | flipping a quaternion keeps z and w, negates x and y, always changes it, and flipping twice restores it |
| Geometry.FlipColumnMajorSpec | Packages/com.hololight.isar/Runtime/Utils/Convert.cs:73-80 | the column-major flip negates exactly column 2 and is an involution |
| Geometry.FlipRowMajorSpec | Packages/com.hololight.isar/Runtime/Utils/Convert.cs:82-89 | the row-major flip negates exactly row 2 and is an involution |
| Geometry.Transpose | Packages/com.hololight.isar/Runtime/Utils/Convert.cs:73-89 | cell (row, col) of the transpose is cell (col, row) of the matrix |
| Geometry.FlipsAreTransposes | Packages/com.hololight.isar/Runtime/Utils/Convert.cs:73-89 | the column-major flip of a transposed matrix is the transpose of its row-major flip |
| HandJoints.Length | Packages/com.hololight.isar/Runtime/Native/Input/HandPose.cs:93-96 | a hand pose has one slot per joint kind, 26 in all |
| HandJoints.GetJoint | Packages/com.hololight.isar/Runtime/Native/Input/HandPose.cs:99-133 | reading succeeds exactly for an index between 0 and 25 and gives that joint's slot; any other index throws |
| HandJoints.SetJoint | Packages/com.hololight.isar/Runtime/Native/Input/HandPose.cs:134-166 | writing succeeds exactly for an index between 0 and 25 |
| HandJoints.GetAfterSet | Packages/com.hololight.isar/Runtime/Native/Input/HandPose.cs:99-166 | reading a slot after writing it gives the value written, and every other slot keeps its value |
| HandJoints.TryGetJoint | Packages/com.hololight.isar/Runtime/Native/Input/HandPose.cs:184-188 | the single lookup answers true with the slot of the joint kind, and throws exactly where the indexer does |
| HandJoints.TryGetJoints | Packages/com.hololight.isar/Runtime/Native/Input/HandPose.cs:190-198 | the poses of the listed kinds are copied in order; the copy stops with a throw exactly at the first kind outside the enum or at the end of a shorter output array, and output entries not reached keep their values |
| ImageTracking.Lookup | Packages/com.hololight.isar/Runtime/ARSubsystems/ImageTracker/IsarXRImageTrackingSubsystem.cs:249 | the library lookup finds nothing exactly when no entry has the id, and a found image is stored under that id |
| ImageTracking.StartImages | Packages/com.hololight.isar/Runtime/ARSubsystems/ImageTracker/IsarXRImageTrackingSubsystem.cs:51-63 | starting creates the custom-message sender and changes nothing else |
| ImageTracking.SetLibrary | Packages/com.hololight.isar/Runtime/ARSubsystems/ImageTracker/IsarXRImageTrackingSubsystem.cs:75-88 | an ISAR library is taken and marked for sending; any other library leaves the provider unchanged |
| ImageTracking.ImageToTrackPayload | Packages/com.hololight.isar/Runtime/ARSubsystems/ImageTracker/IsarXRImageTrackingSubsystem.cs:267-283 | there is a payload exactly when the image has a texture, and it is twelve bytes longer than the JPEG bytes |
| ImageTracking.ReadImageToTrack | Packages/com.hololight.isar/Runtime/ARSubsystems/ImageTracker/IsarXRImageTrackingSubsystem.cs:269-273 | an image-to-track payload is readable exactly when it holds the twelve header bytes |
| ImageTracking.ImageToTrackRoundTrip | Packages/com.hololight.isar/Runtime/ARSubsystems/ImageTracker/IsarXRImageTrackingSubsystem.cs:267-275 | the payload carries the id, the image type MOVING, the width and the JPEG bytes |
| ImageTracking.SendImage | Packages/com.hololight.isar/Runtime/ARSubsystems/ImageTracker/IsarXRImageTrackingSubsystem.cs:259-276 | without a sender nothing is sent; without a texture the send throws; otherwise an image-to-track message with that payload is sent |
| ImageTracking.SendAll | Packages/com.hololight.isar/Runtime/ARSubsystems/ImageTracker/IsarXRImageTrackingSubsystem.cs:105-108 | at most one message per library entry; nothing without a sender; one per entry when no exception stops the loop |
| ImageTracking.SendAllSendsEach | Packages/com.hololight.isar/Runtime/ARSubsystems/ImageTracker/IsarXRImageTrackingSubsystem.cs:259-276 | with a sender and every texture present, every entry is sent, in order, with its id, MOVING, its width and its bytes |
| ImageTracking.SendAllStopsAtMissingTexture | Packages/com.hololight.isar/Runtime/ARSubsystems/ImageTracker/IsarXRImageTrackingSubsystem.cs:259-280 | the first entry without a texture stops the loop with an exception, after sending exactly the entries before it |
| ImageTracking.OnConnectionStateChanged | Packages/com.hololight.isar/Runtime/ARSubsystems/ImageTracker/IsarXRImageTrackingSubsystem.cs:149-175 | connecting marks the images for sending and leaves the database alone; any other state marks every live image removed and keeps the sending flag |
| ImageTracking.GetChanges | Packages/com.hololight.isar/Runtime/ARSubsystems/ImageTracker/IsarXRImageTrackingSubsystem.cs:96-147 | when connected with images to send, the library is sent first and a missing library or texture throws out with nothing collected; once the library is sent the send flag is cleared, so it is sent once per connect; the pending image changes are then reported and the removals deleted |
| ImageTracking.UpdateTypeOf | Packages/com.hololight.isar/Runtime/ARSubsystems/ImageTracker/IsarXRImageTrackingSubsystem.cs:185-199 | IMAGE_ADDED, IMAGE_UPDATED and IMAGE_REMOVED stand for Added, Updated and Removed, and every other message type is ignored |
| ImageTracking.CopyAsWritten | Packages/com.hololight.isar/Runtime/ARSubsystems/ImageTracker/IsarXRImageTrackingSubsystem.cs:203-204 | the copy as written takes 44 bytes starting after the type word |
| ImageTracking.CopyCorrected | Packages/com.hololight.isar/Runtime/ARSubsystems/ImageTracker/IsarXRImageTrackingSubsystem.cs:203-204 | the corrected copy takes the 40 bytes that follow the type word inside the message |
| ImageTracking.ImageCopyOverreads | Packages/com.hololight.isar/Runtime/ARSubsystems/ImageTracker/IsarXRImageTrackingSubsystem.cs:179-204 | for a message of exactly 44 bytes the copy as written ends with the 4 bytes after the message |
| ImageTracking.ImageCopiesReadAlike | Packages/com.hololight.isar/Runtime/ARSubsystems/ImageTracker/IsarXRImageTrackingSubsystem.cs:205-238 | the parse reads only the first ten words, so the two copies give the same report |
| ImageTracking.ReadImageMessage | Packages/com.hololight.isar/Runtime/ARSubsystems/ImageTracker/IsarXRImageTrackingSubsystem.cs:177-238 | a message shorter than 44 bytes gives nothing, and a read report has the update its type word names |
| ImageTracking.ReportWords | Packages/com.hololight.isar/Runtime/ARSubsystems/ImageTracker/IsarXRImageTrackingSubsystem.cs:205-238 | a report is ten words |
| ImageTracking.EncodeImageMessage | Packages/com.hololight.isar/Runtime/ARSubsystems/ImageTracker/IsarXRImageTrackingSubsystem.cs:179 | an image message is exactly 44 bytes |
| ImageTracking.ReportWordsRoundTrip | Packages/com.hololight.isar/Runtime/ARSubsystems/ImageTracker/IsarXRImageTrackingSubsystem.cs:205-238 | parsing the words of a report, with position and rotation flipped back, gives the report |
| ImageTracking.ImageMessageRoundTrip | Packages/com.hololight.isar/Runtime/ARSubsystems/ImageTracker/IsarXRImageTrackingSubsystem.cs:177-238 | an added, updated or removed message reads back as its update and its report |
| ImageTracking.UpdateImage | Packages/com.hololight.isar/Runtime/ARSubsystems/ImageTracker/IsarXRImageTrackingSubsystem.cs:243-257 | an addition throws without a library or for an unknown id; another update throws when no image has the id; a success adds at most one trackable with the new id and keeps every other one's identity |
| ImageTracking.AddedImageAppended | Packages/com.hololight.isar/Runtime/ARSubsystems/ImageTracker/IsarXRImageTrackingSubsystem.cs:247-256 | an added image is appended as a new tracking image of its reference image, pending as added, even when an image with that id already exists |
| ImageTracking.KnownImageRemoved | Packages/com.hololight.isar/Runtime/ARSubsystems/ImageTracker/IsarXRImageTrackingSubsystem.cs:245-256 | a removal of a known image with nothing pending leaves it pending removal and not tracking, and changes no other entry |
| ImageTracking.UpdateImageSettled | Packages/com.hololight.isar/Runtime/ARSubsystems/ImageTracker/IsarXRImageTrackingSubsystem.cs:243-257 | an update with a fresh id keeps every track carrying its own distinct id |
| ImageTracking.OnCustomMessageReceived | Packages/com.hololight.isar/Runtime/ARSubsystems/ImageTracker/IsarXRImageTrackingSubsystem.cs:177-241 | a message that is too short or of another type leaves the database unchanged |
| ImageTracking.AddedMessageAppends | Packages/com.hololight.isar/Runtime/ARSubsystems/ImageTracker/IsarXRImageTrackingSubsystem.cs:177-257 | an image-added message for an image of the library appends its trackable, pending as added |
| InputConvert.ConvertHandPose | Packages/com.hololight.isar/Runtime/Native/Input/Convert.cs:70-79 | the loop converts every one of the 26 joints in its own slot |
| InputConvert.ConvertJointSpec | Packages/com.hololight.isar/Runtime/Native/Input/Convert.cs:62-68 | the joint conversion changes Position.Z, Orientation.X and Orientation.Y to their negations, keeps every other component, and undoes itself |
| InputConvert.ConvertHeadPoseSpec | Packages/com.hololight.isar/Runtime/Native/Input/Convert.cs:95-100 | the head conversion negates the Z of position, forward and up, keeps every other component, and undoes itself |
| InputConvert.ConvertSourcePoseSpec | Packages/com.hololight.isar/Runtime/Native/Input/Convert.cs:81-93 | the source-pose conversion negates Z of both velocities and both positions and X and Y of both orientations, keeps accuracy and flags, and undoes itself |
| InputConvert.ConvertHandInvolution | Packages/com.hololight.isar/Runtime/Native/Input/Convert.cs:70-79 | converting a hand pose twice gives it back |
| InputConvert.ConvertSourceStateInvolution | Packages/com.hololight.isar/Runtime/Native/Input/Convert.cs:102-108 | the state conversion undoes itself and leaves the source, the select amount, the flags and the loss risk untouched |
| InputConvert.DispatchTableMatchesTypes | Packages/com.hololight.isar/Runtime/Native/Input/Convert.cs:25-235 | the table has one converter per event type, in enum order, and the converter at an event's own type code converts it as the per-type reference says |
| InputConvert.SelectedAndTapped | Packages/com.hololight.isar/Runtime/Native/Input/Convert.cs:160-165 | a selection is left alone, and a tap converts only its head pose and keeps its source, source pose and tap count |
| InputConvert.ToUnityInvolution | Packages/com.hololight.isar/Runtime/Native/Input/Convert.cs:110-235 | converting any event twice gives it back |
| InputConvert.GestureBothInvolution | Packages/com.hololight.isar/Runtime/Native/Input/Convert.cs:167-235 | converting a gesture's source and head pose twice gives it back and keeps its source |
| InputConvert.ToUnityCoordinateSystemAsWritten | Packages/com.hololight.isar/Runtime/Native/Input/Convert.cs:9-22 | as written a conversion succeeds exactly for type words below 18 and keeps the type word |
| InputConvert.GuardAsWrittenIsDead | Packages/com.hololight.isar/Runtime/Native/Input/Convert.cs:13-17 | the range check as written never fires, so an out-of-range type is stopped only by the table index |
| InputConvert.ToUnityCoordinateSystem | Packages/com.hololight.isar/Runtime/Native/Input/Convert.cs:9-22 | with the corrected guard, a success keeps the type word |
| InputConvert.ToUnityCoordinateSystemSpec | Packages/com.hololight.isar/Runtime/Native/Input/Convert.cs:9-22 | with the corrected guard exactly the type words from 18 up are rejected by the range check, an event whose type word matches its arguments is converted as the reference says, and converting twice returns it |
| InputConvert.GuardFixKeepsConversions | Packages/com.hololight.isar/Runtime/Native/Input/Convert.cs:13-19 | the corrected guard fails on exactly the same events as the code as written and converts every other one identically |
| InputTypes.EventTypeToStr | include/remoting/input_types.h:114-145 | every name starts with the enum's prefix, and exactly the codes up to COUNT get a name other than the UNKNOWN one |
| InputTypes.EventTypeFromStr | include/remoting/input_types.h:114-145 | a name read back gives a code up to COUNT that is stringified to that name |
| InputTypes.EventTypeSuffixesDistinct | include/remoting/input_types.h:84-111 | the enumerator names of the event types are pairwise distinct |
| InputTypes.EventTypeStrRoundTrip | include/remoting/input_types.h:114-145 | every code up to COUNT is recovered from its name, and the fallback name of a larger code names no code |
| InputTypes.EventTypeNamesInjective | include/remoting/input_types.h:114-145 | distinct codes up to COUNT have distinct names |
| InputTypes.TypeCode | include/remoting/input_types.h:84-111 | every event has a type code below COUNT (18), and codes below 5 are exactly the interaction-source events |
| InputTypes.View | include/remoting/input_types.h:557-593 | reading the union through the member the type word selects gives an event of that type |
| InputTypes.CreateSourceDetected | include/remoting/input_types.h:756-763 | the factory's struct reads back through its type as a source-detected event with the given state |
| InputTypes.CreateSourceLost | include/remoting/input_types.h:765-772 | the factory's struct reads back as a source-lost event with the given state |
| InputTypes.CreateSourcePressed | include/remoting/input_types.h:774-781 | the factory's struct reads back as a source-pressed event with the given state |
| InputTypes.CreateSourceUpdated | include/remoting/input_types.h:783-790 | the factory's struct reads back as a source-updated event with the given state |
| InputTypes.CreateSourceReleased | include/remoting/input_types.h:792-799 | the factory's struct reads back as a source-released event with the given state |
| InputTypes.CreateSelected | include/remoting/input_types.h:850-855 | a selected event writes only its type and keeps the blank data |
| InputTypes.CreateTapped | include/remoting/input_types.h:857-870 | the factory's struct reads back as a tap with the given source, poses and count |
| InputTypes.CreateHoldStarted | include/remoting/input_types.h:872-883 | the factory's struct reads back as a hold-started gesture with the given source and poses |
| InputTypes.CreateHoldCompleted | include/remoting/input_types.h:885-896 | the factory's struct reads back as a hold-completed gesture with the given source and poses |
| InputTypes.CreateHoldCanceled | include/remoting/input_types.h:898-909 | the factory's struct reads back as a hold-canceled gesture with the given source and poses |
| InputTypes.CreateManipulationStarted | include/remoting/input_types.h:911-922 | the factory's struct reads back as a manipulation-started gesture with the given source and poses |
| InputTypes.CreateManipulationUpdated | include/remoting/input_types.h:924-937 | the factory's struct reads back as a manipulation update with the given source, poses and delta |
| InputTypes.CreateManipulationCompleted | include/remoting/input_types.h:939-952 | the factory's struct reads back as a completed manipulation with the given source, poses and delta |
| InputTypes.CreateManipulationCanceled | include/remoting/input_types.h:954-965 | the factory's struct reads back as a canceled manipulation with the given source and poses |
| InputTypes.CreateNavigationStarted | include/remoting/input_types.h:967-980 | the factory's struct reads back as a navigation start with the given source, poses and rails flags |
| InputTypes.CreateNavigationUpdated | include/remoting/input_types.h:982-997 | the factory's struct reads back as a navigation update with the given source, poses, rails flags and offset |
| InputTypes.CreateNavigationCompleted | include/remoting/input_types.h:999-1014 | the factory's struct reads back as a completed navigation with the given source, poses, rails flags and offset |
| InputTypes.CreateNavigationCanceled | include/remoting/input_types.h:1016-1029 | the factory's struct reads back as a canceled navigation with the given source, poses and rails flags |
| InputTypes.ViewEncode | include/remoting/input_types.h:756-1029 | every factory writes its event's type, and reading back through that type returns exactly the factory's arguments |
| InputTypes.EncodeInjective | include/remoting/input_types.h:756-1029 | distinct events never produce the same struct |
| InputTypes.SpatialInputTypeToStr | include/remoting/input_types.h:163-177 | each code up to COUNT gets the prefixed name of its enumerator, and every other code the UNKNOWN name |
| InputTypes.InputTypeMaxAsWrittenOverreaches | include/remoting/input_types.h:147-159 | as written the range MIN..MAX (MAX = 17) contains codes that are not spatial input types, MAX among them |
| InputTypes.InputTypeRangeExact | include/remoting/input_types.h:147-177 | with MAX = COUNT - 1 the range MIN..MAX holds exactly the spatial input types, and each has a name of its own |
| InputTypes.CreateSpatialInput | include/remoting/input_types.h:801-844 | each source factory writes its own input type and stores the state through the source-detected member |
| InputTypes.QrMessageTypeMaxAsWrittenOverreaches | include/remoting/input_types.h:1152-1170 | as written MAX is 17, so the range reaches ten codes past ENUMERATION_COMPLETED that are not QR message types |
| InputTypes.QrMessageTypeRangeExact | include/remoting/input_types.h:1152-1170 | with MAX = COUNT - 1 the range MIN..MAX holds exactly the QR message types |
| InputTypes.MessageTypeCode | include/remoting/input_types.h:1219-1229 | every message type's code lies in MIN..MAX |
| InputTypes.MessageTypeRangeExact | include/remoting/input_types.h:1219-1229 | the message type codes fill MIN..MAX exactly, one code per type |
| Loader.Initialized | Packages/com.hololight.isar/Runtime/BaseIsarLoader.cs:291-352 | a freshly initialized loader is disconnected, not running, not listening, subscribed to connection reports, and has nothing posted |
| Loader.Start | Packages/com.hololight.isar/Runtime/BaseIsarLoader.cs:354-366 | the loader runs and signaling listens exactly when the subsystems start; otherwise the loader is unchanged and the answer is false |
| Loader.Stop | Packages/com.hololight.isar/Runtime/BaseIsarLoader.cs:368-380 | signaling is disposed and the loader stops running whatever the subsystems answer, and the answer is theirs |
| Loader.OnConnectionStateChanged | Packages/com.hololight.isar/Runtime/BaseIsarLoader.cs:439-508 | the reported state replaces the stored one; a restart is posted exactly on a disconnect, or on a failure after a live connection, while not deinitializing; signaling is disposed on a connect or on a failure after a disconnect; a failure after a failure changes nothing |
| Loader.NativeConnectionStateChanged | Packages/com.hololight.isar/Runtime/BaseIsarLoader.cs:39-50 | a native report runs the loader's full connection handler (posted restart, listening flag) while subscribed, and changes nothing otherwise |
| Loader.RunPosted | Packages/com.hololight.isar/Runtime/BaseIsarLoader.cs:462-474 | the posted restart stops, resets and starts a running loader, leaving it running exactly when the subsystems start; a stopped loader is left alone |
| Loader.Deinitialize | Packages/com.hololight.isar/Runtime/BaseIsarLoader.cs:384-428 | a live connection is reported as lost without posting a restart, the handler is unsubscribed, and the answer is the subsystems' |
| Loader.ConnectionRules | Packages/com.hololight.isar/Runtime/BaseIsarLoader.cs:439-508 | the per-state consequences of a report, case by case: connect, disconnect, failure after connect, after disconnect and after failure |
| Loader.DisconnectRestarts | Packages/com.hololight.isar/Runtime/BaseIsarLoader.cs:455-474 | a disconnect followed by the posted action resets a running loader once and restarts it, and leaves a stopped one stopped and not reset |
| Loader.DeinitializeNeverRestarts | Packages/com.hololight.isar/Runtime/BaseIsarLoader.cs:393-416 | deinitializing a connected loader posts no restart, and later reports no longer reach it |
| Loader.DisconnectOutsideDeinitializePosts | Packages/com.hololight.isar/Runtime/BaseIsarLoader.cs:455-475 | the same disconnect outside deinitialization does post a restart |
| MessageHeader.GetBytes | Packages/com.hololight.isar/Runtime/Native/ImageTracking/MessageHeader.cs:20-32 | the header is 12 bytes: the message id, the total size and the position, each as four little-endian bytes in that order |
| MessageHeader.HeaderRoundTrip | Packages/com.hololight.isar/Runtime/Native/ImageTracking/MessageHeader.cs:12-32 | a receiver reading the first 12 bytes gets back the three fields the header was constructed with, whatever bytes follow |
| CustomMessageTypes.Code | Packages/com.hololight.isar/Runtime/Native/CustomMessage/MessageType.cs:3-25 | every message type has a code from 1 to 20, and none uses 14 to 17 |
| CustomMessageTypes.FromCode | Packages/com.hololight.isar/Runtime/Native/CustomMessage/MessageType.cs:3-25 | a code that names a type names the one whose code it is |
| CustomMessageTypes.CodeRoundTrip | Packages/com.hololight.isar/Runtime/Native/CustomMessage/MessageType.cs:3-25 | the codes are distinct, every type reads back from its code, and a code reads as nothing exactly when no type has it |
| PlaneMessage.HalfTowardZero | Packages/com.hololight.isar/Runtime/ARSubsystems/PlanesDetection/IsarXRPlaneSubsystem.cs:251 | the polygon word count is halved with C#'s truncation toward zero, for negative counts too |
| PlaneMessage.ParsePlane | Packages/com.hololight.isar/Runtime/ARSubsystems/PlanesDetection/IsarXRPlaneSubsystem.cs:202-267 | a plane that parses consumes its 17 fixed words and two words per polygon point and stays inside the copy; fewer than 17 words left raises a read past the end |
| PlaneMessage.ParsePlanes | Packages/com.hololight.isar/Runtime/ARSubsystems/PlanesDetection/IsarXRPlaneSubsystem.cs:200-271 | the loop hands on at most the announced number of planes, and exactly that many when no exception ends it |
| PlaneMessage.ReadCopy | Packages/com.hololight.isar/Runtime/ARSubsystems/PlanesDetection/IsarXRPlaneSubsystem.cs:192-198 | a copy shorter than the count word raises a read past the end before any plane |
| PlaneMessage.ReadMessage | Packages/com.hololight.isar/Runtime/ARSubsystems/PlanesDetection/IsarXRPlaneSubsystem.cs:183-191 | a message too short for its type word can only end in a read past the end |
| PlaneMessage.EncodeMessage | Packages/com.hololight.isar/Runtime/ARSubsystems/PlanesDetection/IsarXRPlaneSubsystem.cs:194-267 | the message a client sends for a list of planes: 8 bytes plus 68 per plane plus 8 per polygon point |
| PlaneMessage.PolygonAt | Packages/com.hololight.isar/Runtime/ARSubsystems/PlanesDetection/IsarXRPlaneSubsystem.cs:255-267 | the reversed loop with the handedness flip reads back the boundary the client wrote, point for point and in order |
| PlaneMessage.FixedAt | Packages/com.hololight.isar/Runtime/ARSubsystems/PlanesDetection/IsarXRPlaneSubsystem.cs:202-253 | the 17 fixed words read back as the plane's id, state, subsumption, pose (flipped back to Unity's handedness), center, size, alignment and point count |
| PlaneMessage.PlaneAt | Packages/com.hololight.isar/Runtime/ARSubsystems/PlanesDetection/IsarXRPlaneSubsystem.cs:202-267 | a plane's words parse back to that plane wherever they sit, and the parse resumes just after them |
| PlaneMessage.PlanesAt | Packages/com.hololight.isar/Runtime/ARSubsystems/PlanesDetection/IsarXRPlaneSubsystem.cs:200-271 | planes written one after another parse back in order with no exception |
| PlaneMessage.CopyRoundTrip | Packages/com.hololight.isar/Runtime/ARSubsystems/PlanesDetection/IsarXRPlaneSubsystem.cs:194-271 | past the count the guard alone decides: the intended guard always hands the planes back, the guard as written only when some polygon has a point |
| PlaneMessage.CorrectedRoundTrip | Packages/com.hololight.isar/Runtime/ARSubsystems/PlanesDetection/IsarXRPlaneSubsystem.cs:177-271 | with a strict length guard every encodable list of planes is handed on whole and in order |
| PlaneMessage.AsWrittenRoundTrip | Packages/com.hololight.isar/Runtime/ARSubsystems/PlanesDetection/IsarXRPlaneSubsystem.cs:197 | with the guard as written a list of planes is handed on exactly when some polygon has a point, and is dropped otherwise |
| PlaneMessage.ExactSizeMessageDropped | Packages/com.hololight.isar/Runtime/ARSubsystems/PlanesDetection/IsarXRPlaneSubsystem.cs:197 | one tracked plane with no boundary, a 76-byte message, is dropped as written and delivered with the strict guard |
| PlaneSubsystem.Start | Packages/com.hololight.isar/Runtime/ARSubsystems/PlanesDetection/IsarXRPlaneSubsystem.cs:53-67 | starting creates the sender and leaves the connection, the mode and the pending send as they were |
| PlaneSubsystem.SetRequestedMode | Packages/com.hololight.isar/Runtime/ARSubsystems/PlanesDetection/IsarXRPlaneSubsystem.cs:36-46 | a requested mode is current at once and is marked to be sent to the client |
| PlaneSubsystem.RawMode | Packages/com.hololight.isar/Runtime/ARSubsystems/PlanesDetection/IsarXRPlaneSubsystem.cs:312-318 | the mode is sent unchanged or as 3, and the sent value has the horizontal and vertical flags exactly when the requested mode has them |
| PlaneSubsystem.RawModeIdempotent | Packages/com.hololight.isar/Runtime/ARSubsystems/PlanesDetection/IsarXRPlaneSubsystem.cs:312-318 | converting an already converted mode changes nothing |
| PlaneSubsystem.AllModesSentAsAxes | Packages/com.hololight.isar/Runtime/ARSubsystems/PlanesDetection/IsarXRPlaneSubsystem.cs:312-318 | all three detection flags together are sent as horizontal plus vertical, and a single flag or none is sent as it is |
| PlaneSubsystem.BoolByte | Packages/com.hololight.isar/Runtime/ARSubsystems/PlanesDetection/IsarXRPlaneSubsystem.cs:310 | the flag byte is non-zero exactly when planes are to be sent |
| PlaneSubsystem.ConfigRoundTrip | Packages/com.hololight.isar/Runtime/ARSubsystems/PlanesDetection/IsarXRPlaneSubsystem.cs:309-318 | the five-byte configuration payload reads back as the send flag and the converted mode |
| PlaneSubsystem.SendPlaneConfig | Packages/com.hololight.isar/Runtime/ARSubsystems/PlanesDetection/IsarXRPlaneSubsystem.cs:301-321 | nothing is sent without a sender; otherwise a plane-detection config message carrying the flag and the converted mode |
| PlaneSubsystem.OnConnectionStateChanged | Packages/com.hololight.isar/Runtime/ARSubsystems/PlanesDetection/IsarXRPlaneSubsystem.cs:167-175 | the state is stored; connecting marks the mode for sending and leaves the planes alone; anything else marks every added or updated plane as removed and leaves no live plane |
| PlaneSubsystem.BeforeCollect | Packages/com.hololight.isar/Runtime/ARSubsystems/PlanesDetection/IsarXRPlaneSubsystem.cs:102-112 | a pending switch to no detection marks every live plane as removed before the report is collected |
| PlaneSubsystem.GetChanges | Packages/com.hololight.isar/Runtime/ARSubsystems/PlanesDetection/IsarXRPlaneSubsystem.cs:95-148 | nothing happens while disconnected; once connected a pending mode is sent and cleared, and the report lists the planes pending as added, updated and removed, whose flags are cleared and whose removed entries are deleted |
| PlaneSubsystem.DetectionOffReportsNoPlanes | Packages/com.hololight.isar/Runtime/ARSubsystems/PlanesDetection/IsarXRPlaneSubsystem.cs:104-111 | after switching detection off the next report adds and updates no plane |
| PlaneSubsystem.SubsumedId | Packages/com.hololight.isar/Runtime/ARSubsystems/PlanesDetection/IsarXRPlaneSubsystem.cs:294-296 | a plane that is not subsumed, or whose subsuming plane is unknown, gets the invalid id |
| PlaneSubsystem.UpdatePlane | Packages/com.hololight.isar/Runtime/ARSubsystems/PlanesDetection/IsarXRPlaneSubsystem.cs:275-299 | an update adds at most one entry, a new one being a plane with the new id, and keeps every existing entry's ids and kind |
| PlaneSubsystem.KnownPlaneUpdated | Packages/com.hololight.isar/Runtime/ARSubsystems/PlanesDetection/IsarXRPlaneSubsystem.cs:279-283 | a known plane's entry alone changes: it takes the reported polygon, pose and state and is pending as removed when Limited and as updated otherwise, unless a change was already pending |
| PlaneSubsystem.UntrackedPlaneDropped | Packages/com.hololight.isar/Runtime/ARSubsystems/PlanesDetection/IsarXRPlaneSubsystem.cs:285-287 | an unknown plane that is not tracking leaves the database unchanged |
| PlaneSubsystem.NewPlaneAdded | Packages/com.hololight.isar/Runtime/ARSubsystems/PlanesDetection/IsarXRPlaneSubsystem.cs:285-298 | an unknown tracking plane is appended after the existing entries, pending as added, with the new id and the reported polygon and pose |
| PlaneSubsystem.ShadowedPlaneAddedAgain | Packages/com.hololight.isar/Runtime/ARSubsystems/PlanesDetection/IsarXRPlaneSubsystem.cs:279 | when the first trackable with a plane's remote id is an image, every tracking report of that plane appends another plane |
| PlaneSubsystem.UpdatePlaneSettled | Packages/com.hololight.isar/Runtime/ARSubsystems/PlanesDetection/IsarXRPlaneSubsystem.cs:275-299 | an update with a new id keeps the database's own ids distinct and its pending flags consistent |
| PlaneSubsystem.LimitedPlaneReportedRemoved | Packages/com.hololight.isar/Runtime/ARSubsystems/PlanesDetection/IsarXRPlaneSubsystem.cs:283 | a known plane reported Limited with nothing pending is among the removals of the next report |
| PlaneSubsystem.ApplyRecords | Packages/com.hololight.isar/Runtime/ARSubsystems/PlanesDetection/IsarXRPlaneSubsystem.cs:200-271 | applying a message's planes adds at most one entry per plane |
| PlaneSubsystem.ApplyRecordsSettled | Packages/com.hololight.isar/Runtime/ARSubsystems/PlanesDetection/IsarXRPlaneSubsystem.cs:200-271 | applying a message's planes with fresh ids keeps the database settled |
| PlaneSubsystem.OnCustomMessageReceived | Packages/com.hololight.isar/Runtime/ARSubsystems/PlanesDetection/IsarXRPlaneSubsystem.cs:177-273 | with detection off every message is ignored; a message the length check drops is ignored, whether the check is the code's `<=` or the corrected `<`; an exception can only come from a results message that passed the check |
| PlaneSubsystem.MessageKeepsSettled | Packages/com.hololight.isar/Runtime/ARSubsystems/PlanesDetection/IsarXRPlaneSubsystem.cs:177-273 | whatever message arrives, under either length check, fresh ids keep the database settled |
| PlaneSubsystem.ResultsMessageApplied | Packages/com.hololight.isar/Runtime/ARSubsystems/PlanesDetection/IsarXRPlaneSubsystem.cs:177-273 | a results message built from planes and received with detection on applies exactly those planes, in order, and raises nothing: always under the corrected check, and under the code's check exactly when the planes have a boundary point between them; a message without one is dropped as written |
| PlaneSubsystem.BoundlessPlaneDroppedAsWritten | Packages/com.hololight.isar/Runtime/ARSubsystems/PlanesDetection/IsarXRPlaneSubsystem.cs:194-197 | a message carrying one tracking plane with no boundary points is dropped by the code's check, while the corrected check adds the plane |
| PlaneSubsystem.GetBoundary | Packages/com.hololight.isar/Runtime/ARSubsystems/PlanesDetection/IsarXRPlaneSubsystem.cs:80-93 | a boundary is returned only as the polygon of a plane with that track id, and an unknown id leaves the boundary untouched |
| PlaneSubsystem.NewPlaneBoundary | Packages/com.hololight.isar/Runtime/ARSubsystems/PlanesDetection/IsarXRPlaneSubsystem.cs:80-93 | a newly tracked plane's boundary is found under its new id and is the reported polygon |
| QrCode.Or80 | Packages/com.hololight.isar.examples/QrCode/QrCodeExample.cs:353 | setting the high bit keeps the low seven bits and yields a byte of at least 0x80 |
| QrCode.ShiftRight | Packages/com.hololight.isar.examples/QrCode/QrCodeExample.cs:337-365 | the right-to-left walk shifts the whole array right by one bit: each byte is halved and takes its left neighbour's low bit as its high bit, the first byte gets a zero, and the returned carry is the last byte's low bit |
| QrCode.ShiftHalves | Packages/com.hololight.isar.examples/QrCode/QrCodeExample.cs:337-365 | a one-bit shift halves the array read as a big-endian number, and the carry is the bit lost |
| QrCode.ShiftFour | Packages/com.hololight.isar.examples/QrCode/QrCodeExample.cs:317-320 | four shifts divide the big-endian value by 16 |
| QrCode.ShiftNibble | Packages/com.hololight.isar.examples/QrCode/QrCodeExample.cs:316-320 | the four shifts keep the length and drop the lowest nibble of the bit stream |
| QrCode.Slice | Packages/com.hololight.isar.examples/QrCode/QrCodeExample.cs:325 | decoding a range succeeds exactly when the count is non-negative and the range lies inside the array, and then yields exactly those bytes |
| QrCode.PayloadAsWritten | Packages/com.hololight.isar.examples/QrCode/QrCodeExample.cs:322-333 | as written: one count byte below version 10; from version 10 a 16-bit count read low byte first |
| QrCode.Count16 | Packages/com.hololight.isar.examples/QrCode/QrCodeExample.cs:328-332 | the intended 16-bit count: the first byte is its high byte and the second its low byte, as the QR bit stream stores it |
| QrCode.Payload | Packages/com.hololight.isar.examples/QrCode/QrCodeExample.cs:322-333 | corrected: below version 10 the byte after the mode is the count; from version 10 the next two bytes, high byte first, are the count; a too-short array faults |
| QrCode.GetQRCodeData | Packages/com.hololight.isar.examples/QrCode/QrCodeExample.cs:306-335 | as written the payload is read from the array shifted by a nibble with the little-endian count, and corrected with the big-endian count; an array shorter than two bytes faults and a payload is never longer than the data |
| QrCode.CountReadingsAgree | Packages/com.hololight.isar.examples/QrCode/QrCodeExample.cs:322-333 | below version 10 the two count readings give the same result, and from version 10 they do when the two count bytes are equal and below 0x80 |
| QrCode.PayloadRoundTrip | Packages/com.hololight.isar.examples/QrCode/QrCodeExample.cs:306-335 | for every version, the payload of a byte-mode segment (mode nibble, count, data, trailing bits) is read back exactly |
| QrCode.LittleEndianCountFails | Packages/com.hololight.isar.examples/QrCode/QrCodeExample.cs:331-332 | a version-10 code holding five bytes reads the count 0x0500 as written and fails, while the corrected reader returns the five bytes |
| QrCode.StartWatching | Packages/com.hololight.isar.examples/QrCode/QrCodeExample.cs:158-192 | watching starts exactly when it was not and the API is connected and does not throw; the device is a head-mounted display exactly when the render config has two views; anything else leaves the example unchanged |
| QrCode.StopWatching | Packages/com.hololight.isar.examples/QrCode/QrCodeExample.cs:195-217 | the API is stopped only while watching and connected; unless it throws the flag is cleared and the visualizers are scheduled for destruction, and a throw changes nothing |
| QrCode.OnConnectionStateChanged | Packages/com.hololight.isar.examples/QrCode/QrCodeExample.cs:22-29 | a lost or failed connection stops watching and schedules the visualizers' destruction; a connection changes nothing |
| QrCode.OnEnumerationCompleted | Packages/com.hololight.isar.examples/QrCode/QrCodeExample.cs:300-304 | a completed enumeration clears the watching flag and nothing else |
| QrCode.StepWatching | Packages/com.hololight.isar.examples/QrCode/QrCodeExample.cs:22-304 | a successful start sets the flag, a clearing event clears it, and any other event leaves it |
| QrCode.WatchingIffStartStands | Packages/com.hololight.isar.examples/QrCode/QrCodeExample.cs:22-304 | starting unwatched, the example is watching after a run of events exactly when some successful start is followed by no clearing event |
| QrCode.NoStartNoWatching | Packages/com.hololight.isar.examples/QrCode/QrCodeExample.cs:158-192 | without a successful start the flag never comes on |
| Raycast.TrackCorrectTypeRule | Packages/com.hololight.isar/Runtime/ARSubsystems/Raycast/IsarXRRaycastSubsystem.cs:201-241 | the chain of flag tests accepts a hit type exactly when the mask holds every type or shares a type bit with the hit |
| Raycast.MaskCases | Packages/com.hololight.isar/Runtime/ARSubsystems/Raycast/IsarXRRaycastSubsystem.cs:203-210 | a mask holding every type accepts any hit, a mask holding every plane kind accepts any plane hit, and the empty mask accepts nothing |
| Raycast.IdFor | Packages/com.hololight.isar/Runtime/ARSubsystems/Raycast/IsarXRRaycastSubsystem.cs:183-188 | a hit carries the track id of the first trackable with the reported ISAR id, and the invalid id when there is none |
| Raycast.Allowed | Packages/com.hololight.isar/Runtime/ARSubsystems/Raycast/IsarXRRaycastSubsystem.cs:190-191 | the kept hits are exactly the read hits the mask accepts, in order |
| Raycast.ReadHitsPastEnd | Packages/com.hololight.isar/Runtime/ARSubsystems/Raycast/IsarXRRaycastSubsystem.cs:150-192 | the hit loop runs past the copied bytes exactly when they are too short for the announced count, and otherwise reads one hit per index |
| Raycast.OnCustomMessageReceived | Packages/com.hololight.isar/Runtime/ARSubsystems/Raycast/IsarXRRaycastSubsystem.cs:123-199 | other message types change nothing; every hit-results message of a representable length signals the waiting raycast and touches nothing else but the stored hits; any stored hits are all of accepted types |
| Raycast.CorrectedCountFits | Packages/com.hololight.isar/Runtime/ARSubsystems/Raycast/IsarXRRaycastSubsystem.cs:142-146 | with an unwrapped length check an accepted count is not negative and the hits fill the message exactly |
| Raycast.CorrectedHitsRoundTrip | Packages/com.hololight.isar/Runtime/ARSubsystems/Raycast/IsarXRRaycastSubsystem.cs:123-199 | with an unwrapped length check, a hit-results message for any list of hits stores exactly the hits the mask accepts, each with its trackable's id and its pose back in Unity's handedness, and signals |
| Raycast.AsWrittenAcceptsHonestCount | Packages/com.hololight.isar/Runtime/ARSubsystems/Raycast/IsarXRRaycastSubsystem.cs:145 | a message whose count matches its length passes the check as written too |
| Raycast.WrappedCountAcceptedAsWritten | Packages/com.hololight.isar/Runtime/ARSubsystems/Raycast/IsarXRRaycastSubsystem.cs:143-150 | the count 2^29 in an 8-byte message passes the wrapping check, replaces the stored hits by none and throws reading past the copy; the unwrapped check rejects it and keeps the stored hits |
| Raycast.ScreenPointRoundTrip | Packages/com.hololight.isar/Runtime/ARSubsystems/Raycast/IsarXRRaycastSubsystem.cs:243-256 | the screen-point request reads back as the point's x and y |
| Raycast.RayRoundTrip | Packages/com.hololight.isar/Runtime/ARSubsystems/Raycast/IsarXRRaycastSubsystem.cs:258-278 | the ray request, flipped to the client's handedness, reads back as the origin and direction |
| Raycast.RaycastScreenPoint | Packages/com.hololight.isar/Runtime/ARSubsystems/Raycast/IsarXRRaycastSubsystem.cs:91-102 | without a sender nothing is sent and nothing changes; otherwise the mask is stored and a screen-point request carrying the point is sent |
| Raycast.RaycastRay | Packages/com.hololight.isar/Runtime/ARSubsystems/Raycast/IsarXRRaycastSubsystem.cs:68-79 | without a sender nothing is sent and nothing changes; otherwise the mask is stored and a ray request carrying origin and direction is sent |
| Raycast.AwaitHits | Packages/com.hololight.isar/Runtime/ARSubsystems/Raycast/IsarXRRaycastSubsystem.cs:81-88 | an unsignalled wait returns no hits and changes nothing; a signalled one resets the event and returns the stored hits, or none if no message was accepted |
| Raycast.RaycastReturnsAllowedHits | Packages/com.hololight.isar/Runtime/ARSubsystems/Raycast/IsarXRRaycastSubsystem.cs:68-199 | a ray request answered by a well-formed hit-results message returns exactly the reported hits the request's mask accepts |
| Raycast.StartRaycast | Packages/com.hololight.isar/Runtime/ARSubsystems/Raycast/IsarXRRaycastSubsystem.cs:42-56 | starting creates the message sender and changes nothing else |
| Raycast.OnConnectionStateChanged | Packages/com.hololight.isar/Runtime/ARSubsystems/Raycast/IsarXRRaycastSubsystem.cs:115-121 | a connection change only records the new state |
| RemoteCamera.OnConnectionStateChanged | com.hololight.isar/Runtime/RemoteCamera.cs:200-228 | a connection subscribes the pose handler once more; a disconnect unsubscribes it, forgets the last timestamp and starts a reset and restart, keeping the pose; a failure changes nothing |
| RemoteCamera.HandleViewPose | com.hololight.isar/Runtime/RemoteCamera.cs:231-256 | a pose no newer than the last one taken changes nothing; a newer one becomes the last timestamp, and becomes the pose to render exactly when the lock is taken in time |
| RemoteCamera.HandleTwice | com.hololight.isar/Runtime/RemoteCamera.cs:233-239 | handling the same pose twice is handling it once |
| RemoteCamera.DeliverViewPose | com.hololight.isar/Runtime/RemoteCamera.cs:208-214 | with the handler subscribed several times a pose has the effect of one delivery, and with none it has no effect |
| RemoteCamera.Update | com.hololight.isar/Runtime/RemoteCamera.cs:258-281 | a frame is sent exactly when the server is initialized, a pose has been taken and more than 16 ms have passed; it carries the timestamp of the pose it shows and records the frame time, and otherwise nothing changes |
| RemoteCamera.TakenTimestampsIncrease | com.hololight.isar/Runtime/RemoteCamera.cs:231-256 | over a run of arrivals the timestamps taken increase strictly, all exceed the one before the run, and the last taken is the camera's last timestamp |
| RemoteCamera.PoseNotAhead | com.hololight.isar/Runtime/RemoteCamera.cs:231-256 | the pose to render never has a timestamp newer than the last one taken |
| RemoteCamera.FrameNotAhead | com.hololight.isar/Runtime/RemoteCamera.cs:231-281 | a sent frame never carries a timestamp newer than the last one taken |
| RemoteCamera.DisconnectForgetsTimestamp | com.hololight.isar/Runtime/RemoteCamera.cs:210-216 | after a disconnect any pose with a positive timestamp is taken again, however new the earlier ones were |
| RemotingConfig.Lookup | Packages/com.hololight.isar/Runtime/IsarRemotingConfig.cs:201 | a key is found exactly when some table entry has it, and what is found is the value of such an entry |
| RemotingConfig.LookupDistinct | Packages/com.hololight.isar/Runtime/IsarRemotingConfig.cs:186-203 | in a table with distinct keys every entry is found under its own key |
| RemotingConfig.EnumTableKeysDistinct | Packages/com.hololight.isar/Runtime/IsarRemotingConfig.cs:186-199 | the eleven keys of the enum table are distinct |
| RemotingConfig.TableIndex | Packages/com.hololight.isar/Runtime/IsarRemotingConfig.cs:186-199 | every enum value sits in the table under its JSON key, an underscore and its JSON spelling |
| RemotingConfig.ParseEnum | Packages/com.hololight.isar/Runtime/IsarRemotingConfig.cs:184-204 | a result is always of the requested enum type; on a table hit it succeeds exactly when the entry is of that type and yields it; on a miss it succeeds exactly when the key's fallback is an enum of that type and yields it; it throws KeyNotFoundException exactly when both the table and the fallback dictionary lack the key, and InvalidCastException in every other failure |
| RemotingConfig.ParseEnumOfName | Packages/com.hololight.isar/Runtime/IsarRemotingConfig.cs:184-204 | every enum value is read back from its own JSON spelling under its own key |
| RemotingConfig.ParseEnumMissingValue | Packages/com.hololight.isar/Runtime/IsarRemotingConfig.cs:23-55 | a null value under a known key gives that key's fallback: server, d3d11, h264-uwp, h264-uwp, default |
| RemotingConfig.CastTo | Packages/com.hololight.isar/Runtime/IsarRemotingConfig.cs:15-21 | the cast of a boxed value to an enum type succeeds exactly on an enum value of that type, yields that value, and otherwise throws InvalidCastException |
| RemotingConfig.KeySplit | Packages/com.hololight.isar/Runtime/IsarRemotingConfig.cs:201 | a key and value whose concatenation with an underscore equals a table key are that table key's JSON key and spelling, since neither of those holds an underscore |
| RemotingConfig.TableEntryShape | Packages/com.hololight.isar/Runtime/IsarRemotingConfig.cs:186-199 | every table key is its value's JSON key, an underscore and the value's JSON spelling |
| RemotingConfig.KeyOfInjective | Packages/com.hololight.isar/Runtime/IsarRemotingConfig.cs:102-106 | the five enum types are read from five distinct keys |
| RemotingConfig.TableHit | Packages/com.hololight.isar/Runtime/IsarRemotingConfig.cs:201 | a table hit under a key and value names an entry whose JSON key is that key and whose spelling is that value |
| RemotingConfig.ParseEnumAtCallSites | Packages/com.hololight.isar/Runtime/IsarRemotingConfig.cs:102-106 | at the five call sites, which pass each enum's own key, parsing never throws and yields the table's value when the spelling names one and the key's fallback otherwise |
| RemotingConfig.ParseEnumUnknownValue | Packages/com.hololight.isar/Runtime/IsarRemotingConfig.cs:184-204 | a value that spells none of the requested enum's values, null included, yields the key's fallback |
| RemotingConfig.ParseEnumOtherKeys | Packages/com.hololight.isar/Runtime/IsarRemotingConfig.cs:15-66 | under any key other than the five enum keys, parsing throws KeyNotFoundException when the fallback dictionary lacks the key and InvalidCastException when it holds a string, number, list or settings object there (for a number, see "## Left out") |
| RemotingConfig.CheckSignaling | Packages/com.hololight.isar/Runtime/IsarRemotingConfig.cs:217-230 | an address is never changed; a port from 1024 to 65535 is kept and any other becomes 9999 |
| RemotingConfig.CheckSignalingIdempotent | Packages/com.hololight.isar/Runtime/IsarRemotingConfig.cs:217-230 | a configuration is left alone exactly when its port is in range, so checking twice is checking once |
| RemotingConfig.CheckRender | Packages/com.hololight.isar/Runtime/IsarRemotingConfig.cs:286-313 | the result always has an even width and height, one or two views and a non-negative bandwidth and frame rate; each field is kept when valid and replaced by the HoloLens2 fallback otherwise |
| RemotingConfig.CheckRenderFixesValid | Packages/com.hololight.isar/Runtime/IsarRemotingConfig.cs:286-313 | a configuration is left alone exactly when it is valid, so checking twice is checking once |
| RemotingConfig.FallbacksPassChecks | Packages/com.hololight.isar/Runtime/IsarRemotingConfig.cs:40-41 | the fallback signaling and render configurations pass their own checks |
| RemotingConfig.CopyRender | Packages/com.hololight.isar/Runtime/IsarRemotingConfig.cs:247-255 | a copy equals the original in every field |
| RemotingConfig.AsStruct | Packages/com.hololight.isar/Runtime/IsarRemotingConfig.cs:257-260 | every field reaches the native struct as the same 32-bit pattern, the bandwidth as the encoder bit rate |
| RemotingConfig.AsStructOfChecked | Packages/com.hololight.isar/Runtime/IsarRemotingConfig.cs:257-313 | after the check the view count, bit rate and frame rate reach the native side with their values unchanged |
| RemotingConfig.DiagnosticBitsSpec | Packages/com.hololight.isar/Runtime/IsarRemotingConfig.cs:446-461 | each diagnostic bit is set exactly when its option string occurs, and no other bit is ever set |
| RemotingConfig.DiagnosticBitsIgnoreOrder | Packages/com.hololight.isar/Runtime/IsarRemotingConfig.cs:455-460 | options with the same strings in any order or repetition give the same bits |
| RemotingConfig.BitsFromFlags | Packages/com.hololight.isar/Runtime/IsarRemotingConfig.cs:380-386 | two option sets with no bits beyond the three flags are equal when their flags agree |
| RemotingConfig.MakeRemotingConfigStruct | Packages/com.hololight.isar/Runtime/IsarRemotingConfig.cs:446-461 | the struct carries the given enums, and each diagnostic flag is set exactly when its option string is listed |
| RemotingServer.Handles | com.hololight.isar/Runtime/RemotingServer.cs:202-218 | each handler reads and raises the event type it is named for, one of the 18 input event types |
| RemotingServer.InitializeInputEvents | com.hololight.isar/Runtime/RemotingServer.cs:220-248 | every slot of the handler table is filled, and slot t holds the handler for event type t |
| RemotingServer.HandlerTableIsInitialized | com.hololight.isar/Runtime/RemotingServer.cs:220-248 | the table as a value has one entry per event type, each for its own type |
| RemotingServer.NumSourceStates | com.hololight.isar/Runtime/RemotingServer.cs:111 | the count of source states is the number of distinct source ids stored |
| RemotingServer.OnConnectionStateChanged | com.hololight.isar/Runtime/RemotingServer.cs:64-70 | the state is stored and marked as changed, and the source states and the queue are untouched |
| RemotingServer.OnInputEventReceived | com.hololight.isar/Runtime/RemotingServer.cs:290-303 | exactly one event is appended to the queue, with the received type: converted when its type matches its arguments, unconverted when the conversion rejects its type |
| RemotingServer.DispatchSourceStates | com.hololight.isar/Runtime/RemotingServer.cs:152-200 | Detected, Pressed, Updated and Released store the state under its source id, Lost removes exactly that id, no other event touches the map, and every state stays under its own id |
| RemotingServer.DrainRaisesInQueueOrder | com.hololight.isar/Runtime/RemotingServer.cs:267-280 | the drain raises exactly one event per queued event of a valid type, in queue order, whatever the subscribers throw, and raises nothing for an invalid type |
| RemotingServer.DrainKeepsKeys | com.hololight.isar/Runtime/RemotingServer.cs:267-280 | draining keeps every state under its own source id |
| RemotingServer.HandleEvents | com.hololight.isar/Runtime/RemotingServer.cs:256-281 | the queue is emptied and a pending state change is reported once, before the input events; with nothing pending and nothing queued nothing changes |
| RemotingServer.EnumerateValues | com.hololight.isar/Runtime/RemotingServer.cs:107 | one value per key is copied, each a value of the dictionary, and every value of the dictionary is among them |
| RemotingServer.GetCurrentReading | com.hololight.isar/Runtime/RemotingServer.cs:100-109 | a null array throws and an array shorter than the states throws; otherwise the front of the array holds exactly the stored states, the rest is untouched, and their number is returned |
| SourceFlags.HasSingleFlag | com.hololight.isar/Runtime/Native/Input/InteractionSourcePose.cs:44-88 | for a single-bit flag, the HasFlag test and the non-zero mask test agree |
| SourceFlags.StateFlagValue | com.hololight.isar/Runtime/Native/Input/InteractionSourceState.cs:27-37 | each state flag is a single bit, from 1 << 0 to 1 << 6 |
| SourceFlags.StateFlagsDisjoint | com.hololight.isar/Runtime/Native/Input/InteractionSourceState.cs:27-37 | two state flags share a bit exactly when they are the same flag |
| SourceFlags.StateFlagsIndependent | com.hololight.isar/Runtime/Native/Input/InteractionSourceState.cs:64-125 | no state predicate holds on empty flags, and adding one flag turns on that predicate and leaves every other as it was |
| SourceFlags.SingleStateFlag | com.hololight.isar/Runtime/Native/Input/InteractionSourceState.cs:64-125 | a state whose flags are one flag satisfies that flag's predicate and no other, and a state with no flags satisfies none |
| SourceFlags.CapabilityValue | com.hololight.isar/Runtime/Native/Input/InteractionSource.cs:25-33 | each capability flag is a single bit: 1, 2, 4, 8, 16 |
| SourceFlags.CapabilitiesDisjoint | com.hololight.isar/Runtime/Native/Input/InteractionSource.cs:25-33 | two capability flags share a bit exactly when they are the same flag |
| SourceFlags.SupportsAsWrittenReadsPointing | com.hololight.isar/Runtime/Native/Input/InteractionSource.cs:61-104 | as written every Supports property answers whether the source supports pointing: a grasp-only source reports no grasp support and a pointing-only source reports all five |
| SourceFlags.SupportsReadsOwnBit | com.hololight.isar/Runtime/Native/Input/InteractionSource.cs:25-33 | reading each capability's own bit, a source with one flag supports exactly that capability and a source with none supports nothing |
| SourceFlags.PoseFlagValue | com.hololight.isar/Runtime/Native/Input/InteractionSourcePose.cs:17-26 | each pose flag is a single bit from 1 to 32 |
| SourceFlags.PoseFlagsDisjoint | com.hololight.isar/Runtime/Native/Input/InteractionSourcePose.cs:17-26 | two pose flags share a bit exactly when they are the same flag |
| SourceFlags.TryGetVector | com.hololight.isar/Runtime/Native/Input/InteractionSourcePose.cs:44-89 | a position or velocity is reported valid exactly when its pose flag is set, whether checked with HasFlag or with a non-zero mask |
| SourceFlags.TryGetOrientation | com.hololight.isar/Runtime/Native/Input/InteractionSourcePose.cs:65-76 | a grip or pointer orientation is reported valid exactly when its pose flag is set |
| SourceFlags.TryGetPosition | com.hololight.isar/Runtime/Native/Input/InteractionSourcePose.cs:39-42 | the plain position accessor is the grip position accessor |
| SourceFlags.PoseFlagsIndependent | com.hololight.isar/Runtime/Native/Input/InteractionSourcePose.cs:39-89 | a pose with one vector flag reports exactly that vector valid and neither orientation, and the values handed out do not depend on the flags |
| Statistics.Safe | com.hololight.isar/Runtime/Utils/Statistics.cs:25-48 | the buffer never exceeds 2048 entries: the elapsed time is appended while it fills and overwrites the slot at the index once full; the index moves on and wraps to 0 |
| Statistics.Feed | com.hololight.isar/Runtime/Utils/Statistics.cs:25-48 | any history of measurements leaves a state within the ring-buffer bounds |
| Statistics.Latest | com.hololight.isar/Runtime/Utils/Statistics.cs:30-43 | the newest position of a history that lands in a slot is below the history's length, within the last 2048, and equal to the slot modulo 2048 |
| Statistics.FeedKeepsNewest | com.hololight.isar/Runtime/Utils/Statistics.cs:25-48 | after any history the buffer holds the newest 2048 measurements, each in the slot its position modulo 2048 names, and the index is the history's length modulo 2048 |
| Statistics.CountBounded | com.hololight.isar/Runtime/Utils/Statistics.cs:18-36 | the count never passes 2048, and reaches it once 2048 measurements have been taken |
| Statistics.OrderedSpec | com.hololight.isar/Runtime/Utils/Statistics.cs:58 | the ordered copy is ascending and holds the same values with the same multiplicities |
| Statistics.Update | com.hololight.isar/Runtime/Utils/Statistics.cs:51-76 | with no measurements nothing changes, and the measurements and index are never touched |
| Statistics.UpdateOrderStatistics | com.hololight.isar/Runtime/Utils/Statistics.cs:57-70 | the fastest and slowest figures are the least and greatest measurements, the median lies between them and is the middle ordered value, or the mean of the two middle ones for an even count |
| Statistics.AverageBounded | com.hololight.isar/Runtime/Utils/Statistics.cs:72 | the average lies between the fastest and the slowest measurement |
| Statistics.ModeSpec | com.hololight.isar/Runtime/Utils/Statistics.cs:74 | the mode is a measurement that no other value occurs more often than, and no value occurring as often appears before its first occurrence |
| Statistics.MaxOccurrencesSpec | com.hololight.isar/Runtime/Utils/Statistics.cs:74 | no value occurs more often than the largest group, and some value occurs that often |
| Statistics.InsertSorted | com.hololight.isar/Runtime/Utils/Statistics.cs:58 | inserting into an ascending sequence keeps it ascending |
| Statistics.InsertMultiset | com.hololight.isar/Runtime/Utils/Statistics.cs:58 | inserting adds exactly the inserted value |
| TouchManager.ReadTouchAsWritten | Packages/com.hololight.isar.mrtk/Runtime/Devices/TouchScreen/IsarXRSDKTouchManager.cs:77-99 | as written, a message is read exactly when its first int32 is TOUCH_DATA and the whole message holds at least 20 bytes |
| TouchManager.ReadTouch | Packages/com.hololight.isar.mrtk/Runtime/Devices/TouchScreen/IsarXRSDKTouchManager.cs:77-99 | as intended, a message is read exactly when its first int32 is TOUCH_DATA and it holds the type plus five floats |
| TouchManager.TouchRoundTrip | Packages/com.hololight.isar.mrtk/Runtime/Devices/TouchScreen/IsarXRSDKTouchManager.cs:77-99 | a touch message written by the client reads back as the five floats it carries |
| TouchManager.TouchReadsPastEnd | Packages/com.hololight.isar.mrtk/Runtime/Devices/TouchScreen/IsarXRSDKTouchManager.cs:85-89 | a TOUCH_DATA message of exactly 20 bytes passes the length check, and its vertical factor is taken from the four bytes after the message |
| TouchManager.TouchReadingsAgree | Packages/com.hololight.isar.mrtk/Runtime/Devices/TouchScreen/IsarXRSDKTouchManager.cs:85-99 | on messages long enough for both, the as-written and the intended readings agree |
| TouchManager.PhaseOf | Packages/com.hololight.isar.mrtk/Runtime/Devices/TouchScreen/IsarXRSDKTouchManager.cs:105-106 | a float phase of zero (either sign) begins a touch, 2.0 moves it, and every other value, NaN included, ends it |
| TouchManager.MakeTouch | Packages/com.hololight.isar.mrtk/Runtime/Devices/TouchScreen/IsarXRSDKTouchManager.cs:101-116 | the touch carries the message's position and phase on finger 1, and a delta exactly when it does not begin and a touch is already queued, measured from the last queued touch |
| TouchManager.ReadTouchBy | Packages/com.hololight.isar.mrtk/Runtime/Devices/TouchScreen/IsarXRSDKTouchManager.cs:77-99 | the handler reads a message with the code's 20-byte check or the corrected 24-byte check, as chosen |
| TouchManager.OnCustomMessageReceived | Packages/com.hololight.isar.mrtk/Runtime/Devices/TouchScreen/IsarXRSDKTouchManager.cs:77-118 | under the code's check or the corrected one, a message that does not read as a touch changes nothing; one that does sets both projection factors and queues exactly its touch at the end |
| TouchManager.ShortTouchQueuedAsWritten | Packages/com.hololight.isar.mrtk/Runtime/Devices/TouchScreen/IsarXRSDKTouchManager.cs:85-116 | as written, a 20-byte TOUCH_DATA message queues a touch whose vertical factor is the four bytes after the message; the corrected check leaves the manager unchanged |
| TouchManager.ClientTouchQueuedEitherWay | Packages/com.hololight.isar.mrtk/Runtime/Devices/TouchScreen/IsarXRSDKTouchManager.cs:77-118 | a touch message written by the client is queued with its five floats under either check |
| TouchManager.AddTouchController | Packages/com.hololight.isar.mrtk/Runtime/Devices/TouchScreen/IsarXRSDKTouchManager.cs:213-250 | the finger gets a controller, reused if it had one and new with a fresh id otherwise, which takes the touch, starts touching and is reported detected; other fingers keep theirs |
| TouchManager.UpdateTouchData | Packages/com.hololight.isar.mrtk/Runtime/Devices/TouchScreen/IsarXRSDKTouchManager.cs:254-271 | a finger without a controller changes nothing; otherwise only its controller's touch data changes |
| TouchManager.RemoveTouchController | Packages/com.hololight.isar.mrtk/Runtime/Devices/TouchScreen/IsarXRSDKTouchManager.cs:275-295 | a finger without a controller changes nothing; otherwise its controller ends its touch, is scheduled for source lost and leaves the active touches, and no event is raised yet |
| TouchManager.Update | Packages/com.hololight.isar.mrtk/Runtime/Devices/TouchScreen/IsarXRSDKTouchManager.cs:121-184 | the touch queue is empty afterwards |
| TouchManager.UpdateSpec | Packages/com.hololight.isar.mrtk/Runtime/Devices/TouchScreen/IsarXRSDKTouchManager.cs:121-184 | Update keeps every controller filed under its finger with distinct ids, and raises the scheduled source lost events, in order, before any event of this frame's touches |
| TouchManager.ProcessAllValid | Packages/com.hololight.isar.mrtk/Runtime/Devices/TouchScreen/IsarXRSDKTouchManager.cs:137-180 | processing a sequence of touches keeps the bookkeeping and only appends events |
| TouchManager.TouchLifecycle | Packages/com.hololight.isar.mrtk/Runtime/Devices/TouchScreen/IsarXRSDKTouchManager.cs:121-295 | a touch that begins is reported detected on that Update; when it ends, its controller is scheduled, and the following Update reports it lost, so touch up and source lost are a frame apart |
| TouchManager.OneTouchUpdate | Packages/com.hololight.isar.mrtk/Runtime/Devices/TouchScreen/IsarXRSDKTouchManager.cs:128-181 | an Update with nothing scheduled and one queued touch processes exactly that touch |
| Trackables.IsLive | Packages/com.hololight.isar.arsubsystems/Runtime/Trackable/IsarTrackable.cs:10-16 | Added and Updated are exactly the update types whose values lie strictly between None and Removed |
| Trackables.NewPlane | Packages/com.hololight.isar.arsubsystems/Runtime/PlanesDetection/IsarTrackedPlane.cs:11-14 | a new plane has nothing pending, the default plane as its track, and the remote id it was made for |
| Trackables.UpdateTrackedPlane | Packages/com.hololight.isar.arsubsystems/Runtime/PlanesDetection/IsarTrackedPlane.cs:16-26 | the update type is taken only when nothing is pending; the plane carries the trackable's own id and the given data, the polygon is the given one, and a change is pending afterwards |
| Trackables.Remove | Packages/com.hololight.isar.arsubsystems/Runtime/PlanesDetection/IsarTrackedPlane.cs:28-32 | a removal is pending afterwards, whatever was pending before, and the track is untouched |
| Trackables.Consume | Packages/com.hololight.isar.arsubsystems/Runtime/Trackable/IsarTrackable.cs:23 | clearing the flag leaves nothing pending and changes nothing else |
| Trackables.FirstPlaneChangeWins | Packages/com.hololight.isar.arsubsystems/Runtime/PlanesDetection/IsarTrackedPlane.cs:16-26 | after any run of updates the pending type is the one pending before, or the first update's if nothing was, while the data is the last update's |
| Trackables.ConsumedPlaneTakesNextType | Packages/com.hololight.isar.arsubsystems/Runtime/PlanesDetection/IsarTrackedPlane.cs:19 | once a consumer clears the flag, the next update's type is taken again |
| Trackables.NewImage | Packages/com.hololight.isar/Runtime/ARSubsystems/ImageTracker/IsarTrackedImage.cs:17-24 | a new tracked image is a moving image for its reference image, with nothing pending |
| Trackables.UpdateTrackedImageData | Packages/com.hololight.isar/Runtime/ARSubsystems/ImageTracker/IsarTrackedImage.cs:26-38 | the update type is taken only when nothing is pending, the image is tracking exactly when the resulting type is Added or Updated, and a change is pending afterwards |
| Trackables.RemovedImageStaysRemoved | Packages/com.hololight.isar/Runtime/ARSubsystems/ImageTracker/IsarTrackedImage.cs:26-44 | a pending removal survives any later update, which then reports the image as not tracking |
| TrackablesDatabase.AddTrack | Packages/com.hololight.isar/Runtime/ARSubsystems/Trackable/TrackablesDatabase.cs:12-20 | adding appends exactly the trackable and keeps every earlier entry, so the count grows by one |
| TrackablesDatabase.IndexOfIsarId | Packages/com.hololight.isar/Runtime/ARSubsystems/Trackable/TrackablesDatabase.cs:42 | the position found is the first whose remote id matches, and none is found exactly when no entry matches |
| TrackablesDatabase.IndexOfTrackId | Packages/com.hololight.isar/Runtime/ARSubsystems/Trackable/TrackablesDatabase.cs:58 | the position found is the first whose track carries the id, and none is found exactly when no entry carries it |
| TrackablesDatabase.GetTrack | Packages/com.hololight.isar/Runtime/ARSubsystems/Trackable/TrackablesDatabase.cs:38-44 | the lookup gives the first trackable with the remote id, and null exactly when there is none |
| TrackablesDatabase.GetTrackOfKind | Packages/com.hololight.isar/Runtime/ARSubsystems/Trackable/TrackablesDatabase.cs:46-52 | the typed lookup gives the first match when it has the kind asked for, and null otherwise, even if a later match has that kind |
| TrackablesDatabase.GetTrackById | Packages/com.hololight.isar/Runtime/ARSubsystems/Trackable/TrackablesDatabase.cs:54-60 | the lookup by trackable id gives an entry carrying that id, and null exactly when no entry carries it |
| TrackablesDatabase.GetTrackByIdOfKind | Packages/com.hololight.isar/Runtime/ARSubsystems/Trackable/TrackablesDatabase.cs:62-68 | the typed lookup by trackable id gives the first match when it has the kind asked for, and null otherwise |
| TrackablesDatabase.Contains | Packages/com.hololight.isar/Runtime/ARSubsystems/Trackable/TrackablesDatabase.cs:78-84 | the database contains a remote id exactly when some entry has it |
| TrackablesDatabase.ContainsId | Packages/com.hololight.isar/Runtime/ARSubsystems/Trackable/TrackablesDatabase.cs:86-92 | the database contains a trackable id exactly when some entry's track carries it |
| TrackablesDatabase.OfKind | Packages/com.hololight.isar/Runtime/ARSubsystems/Trackable/TrackablesDatabase.cs:30-36 | the filtered list holds exactly the entries of the kind |
| TrackablesDatabase.OfKindAppend | Packages/com.hololight.isar/Runtime/ARSubsystems/Trackable/TrackablesDatabase.cs:30-36 | filtering distributes over concatenation, so it keeps the list order |
| TrackablesDatabase.CountOfKind | Packages/com.hololight.isar/Runtime/ARSubsystems/Trackable/TrackablesDatabase.cs:70-76 | the count of a kind is the length of the filtered list |
| TrackablesDatabase.RemoveTrack | Packages/com.hololight.isar/Runtime/ARSubsystems/Trackable/TrackablesDatabase.cs:94-100 | removing a trackable that is absent changes nothing; otherwise exactly one copy of it leaves |
| TrackablesDatabase.RemoveById | Packages/com.hololight.isar/Runtime/ARSubsystems/Trackable/TrackablesDatabase.cs:102-110 | removing by an id no entry carries changes nothing; otherwise exactly the first entry carrying it leaves and the order of the rest is kept |
| TrackablesDatabase.RemoveByIdKeepsOthers | Packages/com.hololight.isar/Runtime/ARSubsystems/Trackable/TrackablesDatabase.cs:102-110 | a removal by id leaves the list of a kind none of whose entries carries the id unchanged |
| TrackablesDatabase.AddThenGet | Packages/com.hololight.isar/Runtime/ARSubsystems/Trackable/TrackablesDatabase.cs:14-44 | a trackable added under a new remote id is found by it |
| Types.NativeCode | include/remoting/types.h:86-119 | every named error's value is its position in the declaration, and eUnknown is forced to 0xFFFFFFFF |
| Types.ManagedCode | Packages/com.hololight.isar/Runtime/Native/Types.cs:73-105 | the C# enum gives a value exactly to the names it declares, equal to its position in the C# declaration |
| Types.FromNativeCode | include/remoting/types.h:86-119 | reading a 32-bit error value gives the name whose value it is |
| Types.NativeCodesConsecutive | include/remoting/types.h:86-119 | eNone is 0, the following errors are numbered consecutively, eUnknown is 0xFFFFFFFF, and no two names share a value |
| Types.NativeCodeRoundTrip | include/remoting/types.h:86-119 | every name reads back from its value, and exactly the values below 29 and 0xFFFFFFFF name an error |
| Types.ManagedMirrorsNative | Packages/com.hololight.isar/Runtime/Native/Types.cs:73-105 | the C# mirror declares the native names in the same order, so every shared name has the native value, and it does not declare eUnknown |
| Types.UnknownNotDeclared | include/remoting/types.h:86-118 | eUnknown is not among the consecutively numbered names of either declaration |
| Types.ConnectionStateRoundTrip | include/remoting/types.h:38-44 | DISCONNECTED, CONNECTED and FAILED read back from their values 0, 1 and 2, and every value that names a state is that state's value |
| Types.SdpTypeRoundTrip | include/remoting/types.h:30-35 | OFFER and ANSWER read back from their values 0 and 1, and every value that names a type is that type's value |
| Types.HandleSentinelsDistinct | include/remoting/types.h:24-25 | the invalid handle is the all-ones pointer, and it differs from the valid sentinel 0xc0ffee and from null |
| Bytes.LERoundTrip | Packages/com.hololight.isar/Runtime/ARSubsystems/Raycast/IsarXRRaycastSubsystem.cs:243-256 | writing a value that fits in `len` bytes least significant first and reading it back gives the value |
| Bytes.LEDecodeRoundTrip | Packages/com.hololight.isar/Runtime/ARSubsystems/Raycast/IsarXRRaycastSubsystem.cs:144 | reading any byte string least significant first and writing the value back gives the same bytes |
| Bytes.BERoundTrip | Packages/com.hololight.isar/Runtime/Signaling/DebugSignaling.cs:728-733 | writing a value that fits in `len` bytes in network order and reading it back gives the value |
| Bytes.BEDecodeRoundTrip | Packages/com.hololight.isar/Runtime/Signaling/DebugSignaling.cs:439 | reading any byte string in network order and writing the value back gives the same bytes |
| Bytes.ToInt32Congruent | Packages/com.hololight.isar/Runtime/Signaling/DebugSignaling.cs:439 | the unchecked reinterpretation of a 32-bit pattern as an int keeps its value modulo 2^32 |
| Bytes.Int32Bijection | Packages/com.hololight.isar/Runtime/Signaling/DebugSignaling.cs:439 | reinterpreting a 32-bit pattern as an int and back gives the pattern again |
| Bytes.Int32LERoundTrip | Packages/com.hololight.isar/Runtime/ARSubsystems/Raycast/IsarXRRaycastSubsystem.cs:144-180 | an int written with `BitConverter.GetBytes` anywhere in a buffer is read back by `BitConverter.ToInt32` at the same offset |
| Bytes.UInt32LERoundTrip | Packages/com.hololight.isar/Runtime/ARSubsystems/Raycast/IsarXRRaycastSubsystem.cs:156-253 | a 32-bit word written little-endian anywhere in a buffer is read back at the same offset |
| Bytes.Int32BERoundTrip | Packages/com.hololight.isar/Runtime/Signaling/DebugSignaling.cs:728-733 | the network-order bytes of an int, converted back to host order, give the int |
| Bytes.WordsRoundTrip | Packages/com.hololight.isar/Runtime/ARSubsystems/Raycast/IsarXRRaycastSubsystem.cs:150-275 | words written little-endian one after another are read back in order, whatever precedes and follows them |
| Bytes.ReadWordsSlice | Packages/com.hololight.isar/Runtime/ARSubsystems/Raycast/IsarXRRaycastSubsystem.cs:146-185 | a run of words read from the middle of a longer run is the matching slice of it |
| Utf8.EncodeAppend | Packages/com.hololight.isar/Runtime/Signaling/DebugSignaling.cs:510 | the UTF-8 encoding of a concatenation is the concatenation of the encodings |
| Utf8.EncodeEnds | Packages/com.hololight.isar/Runtime/Signaling/DebugSignaling.cs:743-745 | a string whose first and last characters are ASCII encodes to bytes that start and end with those characters |
| DebugSignaling.Frame | Packages/com.hololight.isar/Runtime/Signaling/DebugSignaling.cs:728-747 | a frame is the payload after a 4-byte length, and the length decodes in network order to the payload's length |
| DebugSignaling.SendAsync | Packages/com.hololight.isar/Runtime/Signaling/DebugSignaling.cs:728-747 | sending succeeds exactly when the buffer holds more than the four length bytes, the length is at least -3 and `length + 4` bytes fit; it writes the first `length + 4` bytes of the network-order length followed by the payload, which for a non-negative length is the length and then exactly `length` payload bytes |
| DebugSignaling.NegativeLengthSendsSignBytes | Packages/com.hololight.isar/Runtime/Signaling/DebugSignaling.cs:743-747 | a length from -3 to -1 is still sent, as its 1 to 3 leading 0xFF bytes and nothing else |
| DebugSignaling.SendsFrame | Packages/com.hololight.isar/Runtime/Signaling/DebugSignaling.cs:728-747 | a non-empty payload behind four reserved bytes goes out as its frame |
| DebugSignaling.SendElement | Packages/com.hololight.isar/Runtime/Signaling/DebugSignaling.cs:645-685 | an element the XML writer rejects for a character is not sent; any other element is sent exactly when its UTF-8 document fits a memory stream, and then as the frame of that document |
| DebugSignaling.SentPayloadsDelimited | Packages/com.hololight.isar/Runtime/Signaling/DebugSignaling.cs:743-745 | every payload the XML writer produces passes the '<'…'>' delimiter check |
| DebugSignaling.Read | Packages/com.hololight.isar/Runtime/Signaling/DebugSignaling.cs:414-460 | a read returns a prefix of the bytes still to arrive, no more than asked, and exactly as many as asked when they are there and the read is not limited |
| DebugSignaling.ReadBody | Packages/com.hololight.isar/Runtime/Signaling/DebugSignaling.cs:446-493 | the body loop reads at least one byte per pass, never more than the length, uses up a pass each time, and stops early only when the body is complete |
| DebugSignaling.ReceiveOne | Packages/com.hololight.isar/Runtime/Signaling/DebugSignaling.cs:414-504 | a turn that delivers a body consumes at least two reads; with no reads left the loop exits on a 0-byte read |
| DebugSignaling.ReceiveBodies | Packages/com.hololight.isar/Runtime/Signaling/DebugSignaling.cs:398-528 | every delivered body is non-empty, and the loop never delivers more bodies than half the reads |
| DebugSignaling.ReceiveOneFrame | Packages/com.hololight.isar/Runtime/Signaling/DebugSignaling.cs:414-504 | a frame whose reads are not split is received whole, and the network after it is the rest |
| DebugSignaling.ReceiveFrames | Packages/com.hololight.isar/Runtime/Signaling/DebugSignaling.cs:398-528 | frames of non-empty payloads on a network that never splits a read are received as exactly those payloads, in order, and the loop then ends on a 0-byte read |
| DebugSignaling.ThirdPassDroppedAsWritten | Packages/com.hololight.isar/Runtime/Signaling/DebugSignaling.cs:492-502 | as written, a three-byte message delivered one byte per read is completed by the third read and still dropped, and the loop exits |
| DebugSignaling.ThirdPassDeliveredCorrected | Packages/com.hololight.isar/Runtime/Signaling/DebugSignaling.cs:492-502 | checking for missing bytes instead delivers that message and the loop goes on until the network ends |
| DebugSignaling.ThirdPassBody | Packages/com.hololight.isar/Runtime/Signaling/DebugSignaling.cs:446-502 | a three-byte body arriving one byte per read takes all three passes: the pass counter is 0 though no byte is missing |
| DebugSignaling.ParseMessage | Packages/com.hololight.isar/Runtime/Signaling/DebugSignaling.cs:530-585 | a malformed document fails, a document without an element raises nothing, and an SDP event is raised only for the type "Answer" |
| DebugSignaling.TokensDistinct | Packages/com.hololight.isar/Runtime/Signaling/IsarXmlReaderWriter.cs:20-29 | the three element names differ, and so do the offer and answer types |
| DebugSignaling.ParseWrittenElements | Packages/com.hololight.isar/Runtime/Signaling/DebugSignaling.cs:543-573 | a written version raises a version event, an answer SDP raises an answer event, an offer raises nothing, and an ICE candidate raises a candidate event with the same fields |
| DebugSignaling.Deliver | Packages/com.hololight.isar/Runtime/Signaling/DebugSignaling.cs:524-584 | the events raised are no more than the bodies handed over |
| DebugSignaling.ReceiveLoop | Packages/com.hololight.isar/Runtime/Signaling/DebugSignaling.cs:398-528 | with no reads the loop raises nothing and ends on a 0-byte read; it never raises more events than half the reads |
| DebugSignaling.ExchangeRoundTrip | Packages/com.hololight.isar/Runtime/Signaling/DebugSignaling.cs:398-528 | elements sent one after another on a network that never splits a read are received as their payloads, in order, and the loop then ends on a 0-byte read |
| DebugSignaling.ExchangeEvents | Packages/com.hololight.isar/Runtime/Signaling/DebugSignaling.cs:398-528 | for those elements the receive loop raises, in order, the events their payloads decode to, and ends on a 0-byte read unless a decode fails |
| DebugSignaling.ExchangeDecoded | Packages/com.hololight.isar/Runtime/Signaling/DebugSignaling.cs:524-584 | if the framework's reader agrees with a reference XML reader on the sent documents, each payload decodes to its element with the text's line ends normalised |
| DebugSignaling.ParseReceivedElements | Packages/com.hololight.isar/Runtime/Signaling/DebugSignaling.cs:543-573 | after the line-end normalisation of reading, a version element still raises its version event, an answer SDP raises an answer event with the SDP's line ends normalised, and an offer raises nothing |
| DebugSignaling.IceCandidateArrives | Packages/com.hololight.isar/Runtime/Signaling/DebugSignaling.cs:543-573 | after the line-end normalisation of reading, an ICE candidate element raises its event with the mid, the m-line index and the candidate's line ends normalised |
| Decimal.NatToString | Packages/com.hololight.isar/Runtime/Signaling/IsarXmlReaderWriter.cs:137 | the invariant-culture rendering of a natural number is non-empty, all digits, without a leading zero |
| Decimal.ParseNat | Packages/com.hololight.isar/Runtime/Signaling/IsarXmlReaderWriter.cs:100 | a string is accepted exactly when it is a non-empty digit string |
| Decimal.NatRoundTrip | Packages/com.hololight.isar/Runtime/Signaling/IsarXmlReaderWriter.cs:100-137 | parsing the rendering of any natural number gives it back |
| Decimal.IntToString | Packages/com.hololight.isar/Runtime/Signaling/IsarXmlReaderWriter.cs:163 | the rendering is non-empty and starts with '-' exactly when the number is negative |
| Decimal.ParseInt | Packages/com.hololight.isar/Runtime/Signaling/IsarXmlReaderWriter.cs:119 | text that does not start with '-' never parses to a negative number |
| Decimal.IntRoundTrip | Packages/com.hololight.isar/Runtime/Signaling/IsarXmlReaderWriter.cs:119-163 | parsing the rendering of any integer gives it back |
| Decimal.ParseUInt32 | Packages/com.hololight.isar/Runtime/Signaling/IsarXmlReaderWriter.cs:100 | `uint.Parse` fails with a format error exactly when the text is not a digit string, and otherwise succeeds exactly when the value is below 2^32 |
| Decimal.ParseInt32 | Packages/com.hololight.isar/Runtime/Signaling/IsarXmlReaderWriter.cs:119 | `int.Parse` fails with a format error exactly when the text is not an optionally signed digit string, and succeeds with a value in the int32 range |
| Decimal.UInt32RoundTrip | Packages/com.hololight.isar/Runtime/Signaling/IsarXmlReaderWriter.cs:100-137 | every uint32 rendered and parsed with `uint.Parse` comes back unchanged |
| Decimal.Int32RoundTrip | Packages/com.hololight.isar/Runtime/Signaling/IsarXmlReaderWriter.cs:119-163 | every int32 rendered and parsed with `int.Parse` comes back unchanged |
| IsarXml.GetAttribute | Packages/com.hololight.isar/Runtime/Signaling/IsarXmlReaderWriter.cs:94-117 | the reader finds no value exactly when no attribute has that name, and a found value belongs to an attribute of that name |
| IsarXml.WriteVersion | Packages/com.hololight.isar/Runtime/Signaling/IsarXmlReaderWriter.cs:132-143 | the element is named `Version`, its content is the decimal version, and its `DepthAlphaEnabled` attribute is "1" or "0" |
| IsarXml.WriteSdp | Packages/com.hololight.isar/Runtime/Signaling/IsarXmlReaderWriter.cs:145-150 | the element is named `Sdp`, its content is the SDP text and its `Type` attribute is the given type |
| IsarXml.WriteIceCandidate | Packages/com.hololight.isar/Runtime/Signaling/IsarXmlReaderWriter.cs:152-169 | the element is named `IceCandidate`, carries `sdp-mid` and the decimal `mline-index`, and its content is the candidate |
| IsarXml.ReadVersion | Packages/com.hololight.isar/Runtime/Signaling/IsarXmlReaderWriter.cs:92-102 | the read fails exactly when the content is not a decimal uint32; depth alpha is read as true exactly when the attribute is "1" |
| IsarXml.ReadSdp | Packages/com.hololight.isar/Runtime/Signaling/IsarXmlReaderWriter.cs:104-112 | the type is the `Type` attribute, possibly absent, and the SDP text is the content |
| IsarXml.ReadIceCandidate | Packages/com.hololight.isar/Runtime/Signaling/IsarXmlReaderWriter.cs:114-127 | a missing m-line index fails; a success carries the parsed m-line index, the `sdp-mid` attribute and the content |
| IsarXml.VersionRoundTrip | Packages/com.hololight.isar/Runtime/Signaling/IsarXmlReaderWriter.cs:92-143 | reading a written version element gives back the version and the depth-alpha flag |
| IsarXml.SdpRoundTrip | Packages/com.hololight.isar/Runtime/Signaling/IsarXmlReaderWriter.cs:104-150 | reading a written SDP element gives back the type and the SDP text |
| IsarXml.IceCandidateRoundTrip | Packages/com.hololight.isar/Runtime/Signaling/IsarXmlReaderWriter.cs:114-169 | reading a written ICE candidate element gives back the mid, the m-line index and the candidate |
| IsarXml.DepthAlphaOnlyForOne | Packages/com.hololight.isar/Runtime/Signaling/IsarXmlReaderWriter.cs:101-139 | a version element whose depth-alpha attribute is missing or anything but "1" reads as depth alpha off |
| IsarXml.WritersWellNamed | Packages/com.hololight.isar/Runtime/Signaling/IsarXmlReaderWriter.cs:132-169 | the element and attribute names of the three writers are valid XML names, and no element repeats an attribute |
| IsarXml.TextReadBack | Packages/com.hololight.isar/Runtime/Signaling/IsarXmlReaderWriter.cs:191 | written element text reads back with "\r\n" and a lone "\r" turned into "\n", whatever new-line sequence the writer uses |
| IsarXml.TextHasNoOpenAngle | Packages/com.hololight.isar/Runtime/Signaling/IsarXmlReaderWriter.cs:191 | written element text holds no '<', so it cannot end the element early |
| IsarXml.AttributeReadBack | Packages/com.hololight.isar/Runtime/Signaling/IsarXmlReaderWriter.cs:189 | a written attribute value reads back exactly, quotes, tabs and line ends included |
| IsarXml.AttributeHasNoQuote | Packages/com.hololight.isar/Runtime/Signaling/IsarXmlReaderWriter.cs:189 | a written attribute value holds no '"', so it cannot end the value early |
| IsarXml.AttributesReadBack | Packages/com.hololight.isar/Runtime/Signaling/IsarXmlReaderWriter.cs:185-189 | the attributes written into a start tag read back as the same list, in order |
| IsarXml.ContentReadBack | Packages/com.hololight.isar/Runtime/Signaling/IsarXmlReaderWriter.cs:185-193 | what follows the attributes, an empty-tag close or the text and the end tag, reads back as the element's content with its line ends normalised |
| IsarXml.NormalizeWithoutCr | Packages/com.hololight.isar/Runtime/Signaling/IsarXmlReaderWriter.cs:191 | text without a carriage return is unchanged by line-end normalisation |
| IsarXml.Render | Packages/com.hololight.isar/Runtime/Signaling/IsarXmlReaderWriter.cs:171-198 | the document is written exactly when every character of the names, values and text is in XML's `Char` production, and a written document starts with '<' and ends with '>' |
| IsarXml.RenderReadBack | Packages/com.hololight.isar/Runtime/Signaling/IsarXmlReaderWriter.cs:171-198 | a reference XML reader reads the written document back as the element: same name, attributes in order, and the text with its line ends normalised |
| IsarXml.ElementReadBack | Packages/com.hololight.isar/Runtime/Signaling/IsarXmlReaderWriter.cs:185-193 | the element's name, its attributes and what follows them read back as the element with its text's line ends normalised |
| IsarXml.DocumentReadBack | Packages/com.hololight.isar/Runtime/Signaling/IsarXmlReaderWriter.cs:183-195 | the declaration, start tag, text and end tag, under either new-line sequence, read back as the normalised element |

## Left out

- The native engine (WebRTC, encoders, the C API's function tables) is closed source; only its C headers are public. Every call into it, and its answers, is a parameter.
- Sockets, `async`/`await`, threads, locks and the Unity main-thread dispatcher are left out. Every locked section is modelled as one atomic step, and a posted action as a recorded step that runs later.
- Floating-point arithmetic is left out: floats are binary32 bit patterns, and negation toggles the sign bit. For a NaN, `* -1` may leave the sign bit as it is on some hardware, which the model does not capture.
- Statistics.UpdateOrderStatistics: measurements are reals, so double rounding and NaN ordering are not modelled.
- RemoteCamera.HandleViewPose: time is a real number; the busy pose lock is a parameter, and a pose skipped under a busy lock still advances the timestamp, as in the code. The `StopSignaling` on connect and the signaling restart are counted, not modelled.
- JSON handling is left out: the remoting configuration's `CreateFromJSON`, the render preset JSON, and the `ToPresetsJSON` export. The configuration is given as parsed values. The IP address check only logs, so it is left out.
- Decimal.ParseUInt32: `uint.Parse` is modelled on plain digit strings. Leading or trailing whitespace, a plus sign and culture-specific digits are not modelled.
- Decimal.ParseInt32: `int.Parse` is modelled on plain digit strings with an optional minus sign. Leading or trailing whitespace, a plus sign and culture-specific digits are not modelled.
- RemotingConfig.ParseEnum: the .NET runtime unboxes a boxed `int`, or a boxed enum of another `int`-based type, to the requested enum and yields the raw number, which may name no member. The model reports `InvalidCastException` in those cases instead. They arise only under a non-enum numeric key (`port`, `width`, `height`, `numViews`, `bandwidth`, `framerate`) or under one enum's key read as another enum type, and no call site passes either (RemotingConfig.ParseEnumAtCallSites).
- RemotingConfig.ParseEnumOtherKeys: under the six numeric keys it states the model's `InvalidCastException`, not the raw number the runtime yields, for the reason given for RemotingConfig.ParseEnum.
- DNS-SD service advertising and the reading of the configuration file are left out; the file's text is a parameter.
- The bytes of the C input-event union beyond the member last written (debug fill bytes) are left out: the model reads only the member the type word names.
- Dictionary enumeration order is not specified by .NET. Where the code enumerates a dictionary (the image library, the source-state map), the order is a parameter.
- RemotingServer converts with the older copy of `Native/Input/Convert.cs` under com.hololight.isar. It has the same shape as the Packages copy, and the model uses the converter with the corrected guard. Unity's `Assert` in `HandleEvents` only logs and is left out. `QrApi.ProcessMessages` is left out.
- AnchorProvider: the asynchronous completion and timeouts of anchor operations, `DestroyAnchorProvider`, and the JPEG encoding of exported anchors are left out. An anchor export of 2^31 bytes or more is not modelled.
- ImageTracking.GetChanges: the provider collects changes even while disconnected, and a repeated IMAGE_ADDED for the same id adds a second image, both as the code does. `Destroy` and `DisposeCustomMessage` are left out. The texture's JPEG encoding is a parameter.
- Raycast: `Stop` only unsubscribes, so the sender stays and is not modelled. A rejected hit message still signals the waiting raycast. A hit message too short for its count throws after the hits parsed so far are stored, and the `finally` still signals; the model returns that state with a fault, and the exception itself is not modelled further.
- PlaneSubsystem: `Stop` only unsubscribes, so the sender stays. Detection mode 7 (horizontal and vertical) is sent as 3, as the code does. A plane whose id is first held by an image in the database is added again on every message, as the code does (PlaneSubsystem.ShadowedPlaneAddedAgain).
- Utf8.Encode: a C# string may hold a lone surrogate, on which `UTF8Encoding(false, true)` throws; Dafny characters are Unicode scalar values, so that exception is not modelled.
- RemotingServer.HandleEvents: a `ConnectionStateChanged` subscriber that throws ends the drain and leaves the rest of the queue in place; subscribers are assumed not to throw.
- QrCode.GetQRCodeData: the returned bytes are the payload; the example's `Encoding.UTF8.GetString`, which replaces invalid sequences with U+FFFD, is not modelled.
- IsarXml.Render: names are modelled only as far as the program's own tokens need (ASCII letters and '-'); the writer's full name validation, and the exception for a name that fails it, are not modelled. Apart from characters outside XML's `Char` production, the writer's other checks cannot fail on the three elements.
- DebugSignaling.ExchangeDecoded: the framework's `UTF8Encoding` decoder and `XmlReader` are a parameter, assumed to read the written documents as the reference reader of section 2.11 and section 3.3.3 of XML 1.0 does. The model does not prove that assumption about .NET.
- SourceFlags: `SourcePose` and `TryGetHandPose` are plain field reads and are left out.
- Trackables: `TrackingState` and `TrackableType` use the numeric values of AR Foundation 4.x.
- Loader: the XR subsystems, the native library and the signaling object are parameters. Their results are given, not computed.
- TouchManager: rays, projection matrices, `OnViewPoseReceived`, `Disable` and the MRTK input system are left out. Only the source detected and source lost events are recorded.
- EventListener: the model relies on Unity calling `OnEnable` before `Start`.
- AsmDef: the scanning of scenes and of assembly-definition files on disk is left out. The parsed assembly definition is a parameter.
- Types: the `INTERNAL_FORCE_INT32_SIZE` members of `HlrSdpType` and `HlrConnectionState` only widen the enums and are not values.
- The render presets, the editor UI and the sample scenes other than the QR example are not part of this model.

## Findings

| source | as written | input that shows it | evidently intended | confidence | as-written member | corrected member |
|---|---|---|---|---|---|---|
| include/remoting/input_types.h:157 | `HlrInputType_MAX = HlrInputEventType_COUNT - 1`, which is 17 | code 17 lies in MIN..MAX, but `HlrInputType_to_str` calls it UNKNOWN | MAX = `HlrInputType_COUNT - 1`, which is 4 | not executed | InputTypes.InputTypeMaxAsWrittenOverreaches | InputTypes.InputTypeRangeExact |
| include/remoting/input_types.h:1166 | `HlrQrMessageType_MAX = HlrInputEventType_COUNT - 1`, which is 17 | codes 8 to 17 lie in MIN..MAX but are not QR message types | MAX = `HlrQrMessageType_COUNT - 1`, which is 7 | not executed | InputTypes.QrMessageTypeMaxAsWrittenOverreaches | InputTypes.QrMessageTypeRangeExact |
| Packages/com.hololight.isar/Runtime/Native/Input/Convert.cs:13-14 | the range guard tests `type < Min && type > Max`, which no type satisfies | an event of type 18 passes the guard and fails only at the dispatch table index | `type < Min \|\| type > Max` | not executed | InputConvert.GuardAsWrittenIsDead | InputConvert.ToUnityCoordinateSystem |
| Packages/com.hololight.isar/Runtime/Signaling/DebugSignaling.cs:495 | after the read loop, `tries == 0` is taken as failure | a body delivered in three reads of 1 byte each: the third read completes it, leaves `tries` at 0, and the message is dropped | fail only when bytes are still missing | not executed | DebugSignaling.ThirdPassDroppedAsWritten | DebugSignaling.ThirdPassDeliveredCorrected |
| Packages/com.hololight.isar/Runtime/ARSubsystems/PlanesDetection/IsarXRPlaneSubsystem.cs:197 | a message is dropped when `length - 8 <= 68 * planeCount` | one plane with an empty boundary: a 76-byte message whose size matches its count exactly is dropped | drop only when `length - 8 < 68 * planeCount` | not executed | PlaneMessage.ExactSizeMessageDropped | PlaneMessage.CorrectedRoundTrip |
| com.hololight.isar/Runtime/Native/Input/InteractionSource.cs:61-104 | `SupportsGrasp`, `SupportsMenu`, `SupportsTouchpad` and `SupportsThumbstick` all test the pointing flag | a source whose flags are only SupportsGrasp reports no grasp support | each property tests its own flag | not executed | SourceFlags.SupportsAsWrittenReadsPointing | SourceFlags.SupportsReadsOwnBit |
| Packages/com.hololight.isar/Runtime/ARSubsystems/ImageTracker/IsarXRImageTrackingSubsystem.cs:179,201-204 | the whole message must hold 44 bytes, but 44 bytes are copied from after the 4-byte type | a 44-byte message: its last copied word is the 4 bytes after the message | copy the 40 bytes after the type word | not executed | ImageTracking.ImageCopyOverreads | ImageTracking.ImageMessageRoundTrip |
| Packages/com.hololight.isar.mrtk/Runtime/Devices/TouchScreen/IsarXRSDKTouchManager.cs:85-89 | the whole message must hold 20 bytes, but 20 bytes are copied from after the 4-byte type | a 20-byte TOUCH_DATA message: its vertical factor is read from the 4 bytes after it | require 24 bytes | not executed | TouchManager.TouchReadsPastEnd | TouchManager.TouchRoundTrip |
| Packages/com.hololight.isar/Runtime/ARSubsystems/Raycast/IsarXRRaycastSubsystem.cs:143-145 | `hitSize * hitCount` is a 32-bit product that wraps | an 8-byte message with count 2^29: 40 * 2^29 wraps to 0 and passes the check, the stored hits are cleared, and the loop reads past the copy | compare without wrap-around, so the count must fit the message | not executed | Raycast.WrappedCountAcceptedAsWritten | Raycast.CorrectedHitsRoundTrip |
| Packages/com.hololight.isar.examples/QrCode/QrCodeExample.cs:331-332 | the 16-bit character count of versions 10 and up is read with `BitConverter.ToInt16`, little-endian | a version-10 code with 5 payload bytes: the count reads as 0x0500 and decoding throws | read the count big-endian, as the QR bit stream stores it | not executed | QrCode.LittleEndianCountFails | QrCode.PayloadRoundTrip |

=== FILE: anchor.dfy ===
/** The anchor statuses and tracking states of the native anchor API (`HlrAnchorOpStatus`,
    `HlrAnchorTrackingState`) and `CheckAnchoringError`, the message logged for a status. */
module AnchorStatus {
  import opened Wrappers
  import opened Bytes
  import Trackables

  datatype OpStatus =
    | NotConnected | Ok | RequestSendFailure | BadResponse | CouldNotAddAnchor
    | AnchorAlreadyExist | PendingRequest | AnchorNotFound | ExistingStoreConnection
    | NoStoreConnection | BadTimeoutValue | ZeroResult | Timeout | OpFailure

  /** The enum values: NOT_CONNECTED is 0, SUCCESS 1, and the rest follow one by one up to
      FAILURE at 13. */
  function StatusCode(s: OpStatus): (c: int32)
    ensures 0 <= c <= 13
    ensures c == 0 <==> s == NotConnected
    ensures c == 1 <==> s == Ok
    ensures s == OpFailure <==> c == 13
  {
    match s
    case NotConnected => 0
    case Ok => 1
    case RequestSendFailure => 2
    case BadResponse => 3
    case CouldNotAddAnchor => 4
    case AnchorAlreadyExist => 5
    case PendingRequest => 6
    case AnchorNotFound => 7
    case ExistingStoreConnection => 8
    case NoStoreConnection => 9
    case BadTimeoutValue => 10
    case ZeroResult => 11
    case Timeout => 12
    case OpFailure => 13
  }

  /** The status an integer names, if any. */
  function StatusFromCode(c: int32): (r: Option<OpStatus>)
    ensures r.Some? <==> 0 <= c <= 13
  {
    if c == 0 then Some(NotConnected)
    else if c == 1 then Some(Ok)
    else if c == 2 then Some(RequestSendFailure)
    else if c == 3 then Some(BadResponse)
    else if c == 4 then Some(CouldNotAddAnchor)
    else if c == 5 then Some(AnchorAlreadyExist)
    else if c == 6 then Some(PendingRequest)
    else if c == 7 then Some(AnchorNotFound)
    else if c == 8 then Some(ExistingStoreConnection)
    else if c == 9 then Some(NoStoreConnection)
    else if c == 10 then Some(BadTimeoutValue)
    else if c == 11 then Some(ZeroResult)
    else if c == 12 then Some(Timeout)
    else if c == 13 then Some(OpFailure)
    else None
  }

  /** Codes and statuses are in one-to-one correspondence. */
  lemma StatusCodeRoundTrip(s: OpStatus, c: int32)
    ensures StatusFromCode(StatusCode(s)) == Some(s)
    ensures StatusFromCode(c).Some? ==> StatusCode(StatusFromCode(c).value) == c
  {
  }

  /** `HlrAnchorTrackingState`: NONE, LIMITED, TRACKING. */
  datatype AnchorTracking = TrackingNone | TrackingLimited | TrackingTracking

  /** The enum values 0, 1 and 2, the same numbers as the AR Foundation tracking states. */
  function TrackingCode(t: AnchorTracking): (c: int32)
    ensures c == match t
      case TrackingNone => Trackables.TrackingNone
      case TrackingLimited => Trackables.TrackingLimited
      case TrackingTracking => Trackables.TrackingTracking
    ensures 0 <= c <= 2
  {
    match t
    case TrackingNone => 0
    case TrackingLimited => 1
    case TrackingTracking => 2
  }

  /** The texts `CheckAnchoringError` logs. */
  const UnexpectedError := "Unexpected error code"
  const NotConnectedText := "ISAR client is not connected."
  const RequestSendFailureText := "Cannot send request to client (Possible network failure)."
  const BadResponseText := "Client responded with unexpected response."
  const CouldNotAddAnchorText := "Anchor could not be added. Possible cause is,there could be pending request for that anchor on current update ( deletion etc. )."
  const AnchorAlreadyExistText := "Anchor already exists in system."
  const PendingRequestText := "There is already a pending request for the requested operation."
  const AnchorNotFoundText := "Anchor could not be found on the system."
  const ExistingStoreConnectionText := "Cannot create store connection, there is already an established store conenction."
  const NoStoreConnectionText := "There is not an existing store connection."
  const BadTimeoutValueText := "The timeout value that is provided to operation is invalid."
  const ZeroResultText := "Operation returned with zero number of anchors"
  const TimeoutText := "Operation timed out."
  const OpFailureText := "Operation failed unexpectedly."

  /** The message logged for each status; SUCCESS, which is never reported as an error,
      falls through to the catch-all message. */
  function Message(s: OpStatus): string {
    match s
    case Ok => UnexpectedError
    case NotConnected => NotConnectedText
    case RequestSendFailure => RequestSendFailureText
    case BadResponse => BadResponseText
    case CouldNotAddAnchor => CouldNotAddAnchorText
    case AnchorAlreadyExist => AnchorAlreadyExistText
    case PendingRequest => PendingRequestText
    case AnchorNotFound => AnchorNotFoundText
    case ExistingStoreConnection => ExistingStoreConnectionText
    case NoStoreConnection => NoStoreConnectionText
    case BadTimeoutValue => BadTimeoutValueText
    case ZeroResult => ZeroResultText
    case Timeout => TimeoutText
    case OpFailure => OpFailureText
  }

  /** `CheckAnchoringError`: the message of the status the code names; a code outside the
      enum gets the catch-all message. */
  function CheckAnchoringError(code: int32): (m: string)
    ensures StatusFromCode(code).Some? ==> m == Message(StatusFromCode(code).value)
    ensures !(0 <= code <= 13) ==> m == UnexpectedError
  {
    match StatusFromCode(code)
    case None => UnexpectedError
    case Some(s) => Message(s)
  }

  /** Only SUCCESS shares the catch-all message. */
  lemma CatchAllOnlyForSuccess(s: OpStatus)
    ensures Message(s) == UnexpectedError <==> s == Ok
  {
  }

  /** No two statuses share a message. */
  lemma MessagesDistinct(s: OpStatus, t: OpStatus)
    requires s != t
    ensures Message(s) != Message(t)
  {
  }

  /** `CheckAnchoringError` is total, gives the catch-all message exactly for SUCCESS and
      for values outside the enum, and a message of its own to every failing status. */
  lemma CheckAnchoringErrorSpec(code: int32, other: int32)
    ensures CheckAnchoringError(code) == UnexpectedError <==> (code == 1 || !(0 <= code <= 13))
    ensures 0 <= code <= 13 && 0 <= other <= 13 && code != other ==>
      CheckAnchoringError(code) != CheckAnchoringError(other)
  {
    StatusCodeRoundTrip(Ok, code);
    if 0 <= code <= 13 {
      CatchAllOnlyForSuccess(StatusFromCode(code).value);
      StatusCodeRoundTrip(StatusFromCode(code).value, code);
      if 0 <= other <= 13 && code != other {
        StatusCodeRoundTrip(StatusFromCode(other).value, other);
        MessagesDistinct(StatusFromCode(code).value, StatusFromCode(other).value);
      }
    }
  }
}

=== FILE: anchorprovider.dfy ===
/** The anchor provider of `IsarXRAnchorSubsystem`: every operation is gated by the
    running flag and, once past the gate, succeeds exactly when the native call answers
    SUCCESS. Native calls are parameters: each operation is given what the native anchor
    API would answer and reports whether it asked. */
module AnchorProvider {
  import opened Wrappers
  import opened Bytes
  import opened Geometry
  import opened Trackables
  import opened AnchorStatus

  const Success: int32 := 1

  /** `_isNativeAnchorSystemRunning`. */
  datatype Provider = Provider(running: bool)

  /** What an operation hands back, and whether it called into the native library. */
  datatype Outcome<T> = Outcome(value: T, calledNative: bool)

  /** `XRAnchor`: the id, pose and tracking state of an anchor. */
  datatype XRAnchor = XRAnchor(trackableId: TrackableId, pose: Pose, trackingState: TrackingState)

  /** `new XRAnchor()`: every field zero. */
  const DefaultAnchor := XRAnchor(InvalidId, Pose(Vector3(0, 0, 0), Quaternion(0, 0, 0, 0)), Trackables.TrackingNone)

  /** The constructor: running iff the native provider was created. */
  function Create(created: bool): (p: Provider)
    ensures p.running == created
  {
    Provider(created)
  }

  function Start(p: Provider): (r: Provider)
    ensures r.running
  {
    Provider(true)
  }

  function Stop(p: Provider): (r: Provider)
    ensures !r.running
  {
    Provider(false)
  }

  /** The gate and the status check every boolean operation shares (`TryRemoveAnchor`,
      `ImportAnchors`, `CreateStoreConnection`, `DestroyStoreConnection`, `ClearStore`,
      `PersistAnchor` and `UnpersistAnchor`): false without a native call while stopped,
      else whether the native status is SUCCESS. */
  function StatusOperation(p: Provider, status: int32): (r: Outcome<bool>)
    ensures r.calledNative == p.running
    ensures r.value <==> p.running && status == Success
  {
    if !p.running then Outcome(false, false)
    else Outcome(status == Success, true)
  }

  /** `TryAddAnchor`: the anchor is the default one while stopped, else whatever the native
      call wrote; the answer is whether it reported SUCCESS. */
  function TryAddAnchor(p: Provider, status: int32, nativeAnchor: XRAnchor): (r: Outcome<(bool, XRAnchor)>)
    ensures r.calledNative == p.running
    ensures r.value.0 <==> p.running && status == Success
    ensures !p.running ==> r.value.1 == DefaultAnchor
    ensures p.running ==> r.value.1 == nativeAnchor
  {
    if !p.running then Outcome((false, DefaultAnchor), false)
    else Outcome((status == Success, nativeAnchor), true)
  }

  /** One set of anchor changes. */
  datatype AnchorChanges = AnchorChanges(added: seq<XRAnchor>, updated: seq<XRAnchor>, removed: seq<TrackableId>)

  /** `GetChanges`: no changes while stopped; else the native changes as acquired. */
  function GetChanges(p: Provider, native: AnchorChanges): (r: Outcome<AnchorChanges>)
    ensures r.calledNative == p.running
    ensures !p.running ==> r.value == AnchorChanges([], [], [])
    ensures p.running ==> r.value == native
  {
    if !p.running then Outcome(AnchorChanges([], [], []), false)
    else Outcome(native, true)
  }

  /** `BinaryAnchorData`; a missing array is `None`. */
  datatype BinaryAnchorData = BinaryAnchorData(isSuccess: bool, data: Option<seq<byte>>)

  /** `ExportAnchors`: on SUCCESS a copy of the `size` bytes the native call exported. */
  function ExportAnchors(p: Provider, status: int32, exported: seq<byte>): (r: Outcome<BinaryAnchorData>)
    ensures r.calledNative == p.running
    ensures r.value.isSuccess <==> p.running && status == Success
    ensures r.value.isSuccess ==> r.value.data == Some(exported)
    ensures !r.value.isSuccess ==> r.value.data.None?
  {
    if !p.running then Outcome(BinaryAnchorData(false, None), false)
    else if status == Success then Outcome(BinaryAnchorData(true, Some(exported)), true)
    else Outcome(BinaryAnchorData(false, None), true)
  }

  /** `EnumeratePersistedNamesData`; a missing array is `None`. */
  datatype NamesData = NamesData(isSuccess: bool, data: Option<seq<string>>)

  /** `EnumeratePersistedAnchorNames`: on SUCCESS the names are copied, but the call only
      reports success when there is at least one. */
  function EnumeratePersistedAnchorNames(p: Provider, status: int32, names: seq<string>): (r: Outcome<NamesData>)
    ensures r.calledNative == p.running
    ensures r.value.isSuccess <==> p.running && status == Success && |names| > 0
    ensures r.value.data.Some? <==> p.running && status == Success
    ensures r.value.data.Some? ==> r.value.data.value == names
  {
    if !p.running then Outcome(NamesData(false, None), false)
    else if status == Success then Outcome(NamesData(|names| > 0, Some(names)), true)
    else Outcome(NamesData(false, None), true)
  }

  /** `AnchorFromPersistenceData`. */
  datatype FromName = FromName(isSuccess: bool, id: TrackableId)

  /** `CreateAnchorFromPersistedName`: the native id on SUCCESS, else the default id. */
  function CreateAnchorFromPersistedName(p: Provider, status: int32, nativeId: TrackableId): (r: Outcome<FromName>)
    ensures r.calledNative == p.running
    ensures r.value.isSuccess <==> p.running && status == Success
    ensures r.value.id == if r.value.isSuccess then nativeId else InvalidId
  {
    if !p.running then Outcome(FromName(false, InvalidId), false)
    else if status == Success then Outcome(FromName(true, nativeId), true)
    else Outcome(FromName(false, InvalidId), true)
  }

  /** While stopped nothing reaches the native library and every operation fails or is
      empty, whatever the library would have answered; after `Start` each operation is
      decided by the native status alone. */
  lemma StoppedProviderIsInert(p: Provider, status: int32, anchor: XRAnchor, changes: AnchorChanges,
                                bytes: seq<byte>, names: seq<string>, id: TrackableId)
    ensures var q := Stop(p);
      && StatusOperation(q, status) == Outcome(false, false)
      && TryAddAnchor(q, status, anchor) == Outcome((false, DefaultAnchor), false)
      && GetChanges(q, changes) == Outcome(AnchorChanges([], [], []), false)
      && ExportAnchors(q, status, bytes) == Outcome(BinaryAnchorData(false, None), false)
      && EnumeratePersistedAnchorNames(q, status, names) == Outcome(NamesData(false, None), false)
      && CreateAnchorFromPersistedName(q, status, id) == Outcome(FromName(false, InvalidId), false)
    ensures var q := Start(p);
      && StatusOperation(q, status).value == (status == Success)
      && TryAddAnchor(q, status, anchor).value.0 == (status == Success)
      && GetChanges(q, changes).value == changes
  {
  }

  /** A failed operation logs the message of its status, which for every failing status in
      the enum is not the catch-all. */
  lemma FailureIsExplained(p: Provider, status: int32)
    requires p.running && 0 <= status <= 13
    ensures !StatusOperation(p, status).value <==> CheckAnchoringError(status) != UnexpectedError
  {
    CheckAnchoringErrorSpec(status, status);
  }
}

=== FILE: asmdef.dfy ===
/** The build-time check of `AsmDefPlatformSupportCheck`: whether an assembly definition
    supports the build platform, whether it is editor-only, and when the check warns. */
module AsmDef {
  import opened Wrappers

  /** `AsmDefData`: a list missing from the JSON file is `None`. */
  datatype AsmDefData = AsmDefData(name: string, includePlatforms: Option<seq<string>>,
                                   excludePlatforms: Option<seq<string>>)

  /** `SingleOrDefault` throws when more than one element matches. */
  datatype Fault = MoreThanOneMatch

  /** A list given and not empty. */
  predicate Listed(platforms: Option<seq<string>>) {
    platforms.Some? && |platforms.value| > 0
  }

  /** `SingleOrDefault(plat => plat == name)`: the one matching element, none, or a throw. */
  function SingleOrDefault(platforms: seq<string>, name: string): (r: Result<Option<string>, Fault>)
    ensures r.Success? <==> multiset(platforms)[name] <= 1
    ensures r.Success? ==> (r.value.Some? <==> name in platforms)
    ensures r.Success? && r.value.Some? ==> r.value.value == name
  {
    if |platforms| == 0 then Success(None)
    else
      var rest := SingleOrDefault(platforms[1..], name);
      assert platforms == [platforms[0]] + platforms[1..];
      if platforms[0] != name then rest
      else if rest.Failure? || rest.value.Some? then Failure(MoreThanOneMatch)
      else Success(Some(name))
  }

  /** `IsPlatformSupported`: a non-empty include list decides alone and a listed platform is
      supported; else a non-empty exclude list decides and a listed platform is not; with
      neither every platform is. The list that decides throws if it names the platform
      twice. */
  function IsPlatformSupported(platform: string, data: AsmDefData): (r: Result<bool, Fault>)
  {
    if Listed(data.includePlatforms) then
      var found := SingleOrDefault(data.includePlatforms.value, platform);
      if found.Failure? then Failure(found.error) else Success(found.value.Some?)
    else if Listed(data.excludePlatforms) then
      var found := SingleOrDefault(data.excludePlatforms.value, platform);
      if found.Failure? then Failure(found.error) else Success(found.value.None?)
    else Success(true)
  }

  /** `IsEditorOnlyAssembly`: the include list is exactly `["Editor"]`. */
  function IsEditorOnlyAssembly(data: AsmDefData): (r: bool)
    ensures r <==> data.includePlatforms == Some(["Editor"])
  {
    var included := data.includePlatforms;
    if included.Some? && |included.value| == 1 then
      assert included.value == [included.value[0]];
      included.value[0] == "Editor"
    else false
  }

  /** Whether `CheckAssemblySupport` warns about an assembly: it does not support the
      platform and is not editor-only. */
  function Warns(platform: string, data: AsmDefData): (r: Result<bool, Fault>)
    ensures r.Success? <==> IsPlatformSupported(platform, data).Success?
    ensures r.Success? ==> (r.value <==> !IsPlatformSupported(platform, data).value && !IsEditorOnlyAssembly(data))
  {
    var supported := IsPlatformSupported(platform, data);
    if supported.Failure? then Failure(supported.error)
    else Success(!supported.value && !IsEditorOnlyAssembly(data))
  }

  /** The rule stated over the lists: the include list, when given and not empty, takes
      precedence and admits exactly what it names; otherwise the exclude list, when given
      and not empty, admits exactly what it does not name; otherwise everything is
      admitted. The check fails exactly when the deciding list names the platform twice. */
  lemma PlatformSupportRule(platform: string, data: AsmDefData)
    ensures var r := IsPlatformSupported(platform, data);
      && (Listed(data.includePlatforms) ==>
          && (r.Success? <==> multiset(data.includePlatforms.value)[platform] <= 1)
          && (r.Success? ==> (r.value <==> platform in data.includePlatforms.value)))
      && (!Listed(data.includePlatforms) && Listed(data.excludePlatforms) ==>
          && (r.Success? <==> multiset(data.excludePlatforms.value)[platform] <= 1)
          && (r.Success? ==> (r.value <==> platform !in data.excludePlatforms.value)))
      && (!Listed(data.includePlatforms) && !Listed(data.excludePlatforms) ==> r == Success(true))
  {
  }

  /** The include list takes precedence: with one given, the exclude list does not matter. */
  lemma IncludeTakesPrecedence(platform: string, data: AsmDefData, exclude: Option<seq<string>>)
    requires Listed(data.includePlatforms)
    ensures IsPlatformSupported(platform, data.(excludePlatforms := exclude)) == IsPlatformSupported(platform, data)
  {
  }

  /** A list given as `[]` counts as no list at all. */
  lemma EmptyListIsNoList(platform: string, data: AsmDefData)
    ensures IsPlatformSupported(platform, data.(includePlatforms := Some([]))) ==
            IsPlatformSupported(platform, data.(includePlatforms := None))
    ensures IsPlatformSupported(platform, data.(excludePlatforms := Some([]))) ==
            IsPlatformSupported(platform, data.(excludePlatforms := None))
  {
  }

  /** An editor-only assembly is never warned about, and supports only the platform named
      "Editor". */
  lemma EditorOnlyNeverWarns(platform: string, data: AsmDefData)
    requires IsEditorOnlyAssembly(data)
    ensures Warns(platform, data) == Success(false)
    ensures IsPlatformSupported(platform, data) == Success(platform == "Editor")
  {
    var included := data.includePlatforms.value;
    assert included == ["Editor"];
    assert multiset(included)[platform] == if platform == "Editor" then 1 else 0;
  }
}

=== FILE: bytes.dfy ===
/** Bytes and fixed-width integers as the C# runtime lays them out on a little-endian host:
    `BitConverter` is little-endian, `IPAddress.HostToNetworkOrder` swaps to big-endian, and
    `int`/`uint`/`short` wrap modulo their width. */
module Bytes {

  type byte = b: int | 0 <= b < 0x100
  type uint32 = w: int | 0 <= w < 0x1_0000_0000
  type int32 = i: int | -0x8000_0000 <= i < 0x8000_0000
  type int16 = i: int | -0x8000 <= i < 0x8000

  /** 256^k */
  function Pow256(k: nat): (r: nat)
    ensures r >= 1
  {
    if k == 0 then 1 else 256 * Pow256(k - 1)
  }

  /** The value of `s` read least significant byte first. */
  function FromLE(s: seq<byte>): nat {
    if |s| == 0 then 0 else s[0] + 256 * FromLE(s[1..])
  }

  /** The low `len` bytes of `n`, least significant first. */
  function ToLE(n: nat, len: nat): (r: seq<byte>)
    ensures |r| == len
  {
    if len == 0 then [] else [n % 256] + ToLE(n / 256, len - 1)
  }

  /** The value of `s` read most significant byte first (network order). */
  function FromBE(s: seq<byte>): nat {
    if |s| == 0 then 0 else 256 * FromBE(s[..|s| - 1]) + s[|s| - 1]
  }

  /** The low `len` bytes of `n`, most significant first. */
  function ToBE(n: nat, len: nat): (r: seq<byte>)
    ensures |r| == len
  {
    if len == 0 then [] else ToBE(n / 256, len - 1) + [n % 256]
  }

  lemma DivMod256(a: int, x: nat)
    requires 0 <= a < 256
    ensures (a + 256 * x) / 256 == x
    ensures (a + 256 * x) % 256 == a
  {
  }

  lemma {:induction false} FromLEBound(s: seq<byte>)
    ensures FromLE(s) < Pow256(|s|)
  {
    if |s| > 0 {
      FromLEBound(s[1..]);
      assert FromLE(s) <= 255 + 256 * (Pow256(|s| - 1) - 1);
    }
  }

  lemma {:induction false} FromBEBound(s: seq<byte>)
    ensures FromBE(s) < Pow256(|s|)
  {
    if |s| > 0 {
      FromBEBound(s[..|s| - 1]);
      assert FromBE(s) <= 256 * (Pow256(|s| - 1) - 1) + 255;
    }
  }

  /** Encoding then decoding little-endian recovers every value that fits. */
  lemma {:induction false} LERoundTrip(n: nat, len: nat)
    requires n < Pow256(len)
    ensures FromLE(ToLE(n, len)) == n
  {
    if len > 0 {
      var r := ToLE(n, len);
      assert r[1..] == ToLE(n / 256, len - 1);
      LERoundTrip(n / 256, len - 1);
    }
  }

  /** Decoding then encoding little-endian recovers every byte string. */
  lemma {:induction false} LEDecodeRoundTrip(s: seq<byte>)
    ensures ToLE(FromLE(s), |s|) == s
  {
    if |s| > 0 {
      DivMod256(s[0], FromLE(s[1..]));
      LEDecodeRoundTrip(s[1..]);
    }
  }

  /** Encoding then decoding big-endian recovers every value that fits. */
  lemma {:induction false} BERoundTrip(n: nat, len: nat)
    requires n < Pow256(len)
    ensures FromBE(ToBE(n, len)) == n
  {
    if len > 0 {
      var r := ToBE(n, len);
      assert r[..len - 1] == ToBE(n / 256, len - 1);
      BERoundTrip(n / 256, len - 1);
    }
  }

  /** Decoding then encoding big-endian recovers every byte string. */
  lemma {:induction false} BEDecodeRoundTrip(s: seq<byte>)
    ensures ToBE(FromBE(s), |s|) == s
  {
    if |s| > 0 {
      DivMod256(s[|s| - 1], FromBE(s[..|s| - 1]));
      BEDecodeRoundTrip(s[..|s| - 1]);
    }
  }

  /** Two's-complement reinterpretation of a 32-bit pattern (an unchecked `(int)` cast). */
  function ToInt32(w: uint32): (i: int32) {
    if w < 0x8000_0000 then w else w - 0x1_0000_0000
  }

  /** The reinterpretation keeps the value modulo 2^32. */
  lemma ToInt32Congruent(w: uint32)
    ensures ToInt32(w) % 0x1_0000_0000 == w
  {
  }

  /** The 32-bit pattern of a signed value (an unchecked `(uint)` cast). */
  function ToUInt32(i: int32): (w: uint32)
    ensures ToInt32(w) == i
  {
    if i < 0 then i + 0x1_0000_0000 else i
  }

  /** Any integer truncated to 32 bits, as an unchecked `(uint)` cast of a wider value does. */
  function WrapUInt32(i: int): (w: uint32)
    ensures 0 <= i < 0x1_0000_0000 ==> w == i
  {
    i % 0x1_0000_0000
  }

  lemma Int32Bijection(w: uint32)
    ensures ToUInt32(ToInt32(w)) == w
  {
  }

  /** `BitConverter.GetBytes(int)` */
  function Int32ToLE(i: int32): (r: seq<byte>)
    ensures |r| == 4
  {
    ToLE(ToUInt32(i), 4)
  }

  /** `BitConverter.GetBytes(uint)` / a raw 32-bit word */
  function UInt32ToLE(w: uint32): (r: seq<byte>)
    ensures |r| == 4
  {
    ToLE(w, 4)
  }

  /** `BitConverter.ToUInt32(s, off)` */
  function ReadUInt32LE(s: seq<byte>, off: nat): (w: uint32)
    requires off + 4 <= |s|
  {
    FromLEBound(s[off..off + 4]);
    assert Pow256(4) == 0x1_0000_0000;
    FromLE(s[off..off + 4])
  }

  /** `BitConverter.ToInt32(s, off)` */
  function ReadInt32LE(s: seq<byte>, off: nat): int32
    requires off + 4 <= |s|
  {
    ToInt32(ReadUInt32LE(s, off))
  }

  /** `BitConverter.ToInt16(s, off)` */
  function ReadInt16LE(s: seq<byte>, off: nat): int16
    requires off + 2 <= |s|
  {
    var lo: int := s[off];
    var hi: int := s[off + 1];
    var u := lo + 256 * hi;
    if u < 0x8000 then u else u - 0x1_0000
  }

  /** `BitConverter.GetBytes(IPAddress.HostToNetworkOrder(i))`: the value in network order. */
  function Int32ToBE(i: int32): (r: seq<byte>)
    ensures |r| == 4
  {
    ToBE(ToUInt32(i), 4)
  }

  /** `IPAddress.NetworkToHostOrder(BitConverter.ToInt32(s, 0))` */
  function ReadInt32BE(s: seq<byte>): int32
    requires |s| == 4
  {
    FromBEBound(s);
    assert Pow256(4) == 0x1_0000_0000;
    ToInt32(FromBE(s))
  }

  lemma UInt32LERoundTrip(w: uint32, pre: seq<byte>, post: seq<byte>)
    ensures ReadUInt32LE(pre + UInt32ToLE(w) + post, |pre|) == w
  {
    var s := pre + UInt32ToLE(w) + post;
    assert s[|pre|..|pre| + 4] == UInt32ToLE(w);
    LERoundTrip(w, 4);
  }

  /** Writing an int32 little-endian and reading it back at the same offset gives it back. */
  lemma Int32LERoundTrip(i: int32, pre: seq<byte>, post: seq<byte>)
    ensures ReadInt32LE(pre + Int32ToLE(i) + post, |pre|) == i
  {
    UInt32LERoundTrip(ToUInt32(i), pre, post);
  }

  /** The network-order encoding of an int32 decodes back to it. */
  lemma Int32BERoundTrip(i: int32)
    ensures ReadInt32BE(Int32ToBE(i)) == i
  {
    BERoundTrip(ToUInt32(i), 4);
  }

  /** Concatenation of the little-endian encodings of a list of words. */
  function WordsToLE(ws: seq<uint32>): (r: seq<byte>)
    ensures |r| == 4 * |ws|
  {
    if |ws| == 0 then [] else UInt32ToLE(ws[0]) + WordsToLE(ws[1..])
  }

  /** Reading `n` consecutive little-endian words from offset `off`. */
  function ReadWordsLE(s: seq<byte>, off: nat, n: nat): (r: seq<uint32>)
    requires off + 4 * n <= |s|
    ensures |r| == n
    ensures forall k :: 0 <= k < n ==> r[k] == ReadUInt32LE(s, off + 4 * k)
    decreases n
  {
    if n == 0 then [] else [ReadUInt32LE(s, off)] + ReadWordsLE(s, off + 4, n - 1)
  }

  /** Words written little-endian are read back in order. */
  lemma {:induction false} WordsRoundTrip(ws: seq<uint32>, pre: seq<byte>, post: seq<byte>)
    ensures ReadWordsLE(pre + WordsToLE(ws) + post, |pre|, |ws|) == ws
    decreases |ws|
  {
    if |ws| > 0 {
      var s := pre + WordsToLE(ws) + post;
      assert s == pre + UInt32ToLE(ws[0]) + (WordsToLE(ws[1..]) + post);
      UInt32LERoundTrip(ws[0], pre, WordsToLE(ws[1..]) + post);
      assert s == (pre + UInt32ToLE(ws[0])) + WordsToLE(ws[1..]) + post;
      WordsRoundTrip(ws[1..], pre + UInt32ToLE(ws[0]), post);
    }
  }

  /** A run of words read from the middle of a longer run is the matching slice of it. */
  lemma ReadWordsSlice(s: seq<byte>, off: nat, n: nat, a: nat, m: nat)
    requires a + m <= n && off + 4 * n <= |s|
    ensures ReadWordsLE(s, off, n)[a..a + m] == ReadWordsLE(s, off + 4 * a, m)
  {
    var whole := ReadWordsLE(s, off, n);
    var part := ReadWordsLE(s, off + 4 * a, m);
    forall k | 0 <= k < m ensures whole[a + k] == part[k] {
      assert off + 4 * (a + k) == off + 4 * a + 4 * k;
    }
  }
}

=== FILE: changes.dfy ===
/** The change reporting the plane and image providers share: `GetChanges` walks the
    trackables of its kind in list order, reports each pending change in the list of its
    update type, clears the flag, and then deletes the reported removals from the database;
    `RemoveAllTracks` marks every live trackable of its kind as removed. */
module TrackableChanges {
  import opened Wrappers
  import opened Trackables
  import opened TrackablesDatabase

  /** `TrackableChanges<T>`: the added and updated tracks and the removed ids. */
  datatype Changes = Changes(added: seq<Track>, updated: seq<Track>, removed: seq<TrackableId>)

  const NoChanges := Changes([], [], [])

  /** A trackable of the kind with a change of type `u` pending. */
  predicate PendingAs(t: Trackable, kind: Kind, u: UpdateType) {
    KindOf(t) == kind && t.hasChanges && t.updateType == u
  }

  /** The tracks pending as `u`, in list order. */
  function PendingTracks(db: Database, kind: Kind, u: UpdateType): (r: seq<Track>)
    ensures |r| <= |db|
  {
    if |db| == 0 then []
    else (if PendingAs(db[0], kind, u) then [db[0].track] else []) + PendingTracks(db[1..], kind, u)
  }

  /** The ids of the tracks pending removal, in list order. */
  function PendingRemovals(db: Database, kind: Kind): (r: seq<TrackableId>)
    ensures |r| <= |db|
  {
    if |db| == 0 then []
    else (if PendingAs(db[0], kind, Removed) then [TrackIdOf(db[0])] else []) + PendingRemovals(db[1..], kind)
  }

  /** The database with every flag of the kind cleared. */
  function Cleared(db: Database, kind: Kind): (r: Database)
    ensures |r| == |db|
    ensures forall i :: 0 <= i < |db| ==> r[i] == (if KindOf(db[i]) == kind then Consume(db[i]) else db[i])
  {
    seq(|db|, i requires 0 <= i < |db| => if KindOf(db[i]) == kind then Consume(db[i]) else db[i])
  }

  lemma PendingSplit(db: Database, k: nat, kind: Kind)
    requires k < |db|
    ensures PendingTracks(db[..k + 1], kind, Added) == PendingTracks(db[..k], kind, Added) + (if PendingAs(db[k], kind, Added) then [db[k].track] else [])
    ensures PendingTracks(db[..k + 1], kind, Updated) == PendingTracks(db[..k], kind, Updated) + (if PendingAs(db[k], kind, Updated) then [db[k].track] else [])
    ensures PendingRemovals(db[..k + 1], kind) == PendingRemovals(db[..k], kind) + (if PendingAs(db[k], kind, Removed) then [TrackIdOf(db[k])] else [])
  {
    PendingTracksAppend(db[..k], [db[k]], kind, Added);
    PendingTracksAppend(db[..k], [db[k]], kind, Updated);
    PendingRemovalsAppend(db[..k], [db[k]], kind);
    assert db[..k + 1] == db[..k] + [db[k]];
  }

  lemma {:induction false} PendingTracksAppend(a: Database, b: Database, kind: Kind, u: UpdateType)
    ensures PendingTracks(a + b, kind, u) == PendingTracks(a, kind, u) + PendingTracks(b, kind, u)
    decreases |a|
  {
    if |a| == 0 {
      assert a + b == b;
    } else {
      assert (a + b)[0] == a[0] && (a + b)[1..] == a[1..] + b;
      PendingTracksAppend(a[1..], b, kind, u);
      var head := if PendingAs(a[0], kind, u) then [a[0].track] else [];
      var x := PendingTracks(a[1..], kind, u);
      var y := PendingTracks(b, kind, u);
      assert head + (x + y) == (head + x) + y;
    }
  }

  lemma {:induction false} PendingRemovalsAppend(a: Database, b: Database, kind: Kind)
    ensures PendingRemovals(a + b, kind) == PendingRemovals(a, kind) + PendingRemovals(b, kind)
    decreases |a|
  {
    if |a| == 0 {
      assert a + b == b;
    } else {
      assert (a + b)[0] == a[0] && (a + b)[1..] == a[1..] + b;
      PendingRemovalsAppend(a[1..], b, kind);
      var head := if PendingAs(a[0], kind, Removed) then [TrackIdOf(a[0])] else [];
      var x := PendingRemovals(a[1..], kind);
      var y := PendingRemovals(b, kind);
      assert head + (x + y) == (head + x) + y;
    }
  }

  /** The `foreach` of `GetChanges`: every trackable of the kind with a pending change has its
      flag cleared and its track (or, for a removal, its id) appended to the list of its
      update type; a pending None is cleared and reported nowhere. */
  method Collect(db: Database, kind: Kind) returns (r: Database, c: Changes)
    ensures r == Cleared(db, kind)
    ensures c.added == PendingTracks(db, kind, Added)
    ensures c.updated == PendingTracks(db, kind, Updated)
    ensures c.removed == PendingRemovals(db, kind)
  {
    r := db;
    c := NoChanges;
    for k := 0 to |db|
      invariant |r| == |db|
      invariant forall i :: 0 <= i < k ==> r[i] == (if KindOf(db[i]) == kind then Consume(db[i]) else db[i])
      invariant forall i :: k <= i < |db| ==> r[i] == db[i]
      invariant c.added == PendingTracks(db[..k], kind, Added)
      invariant c.updated == PendingTracks(db[..k], kind, Updated)
      invariant c.removed == PendingRemovals(db[..k], kind)
    {
      PendingSplit(db, k, kind);
      var t := r[k];
      if KindOf(t) == kind && t.hasChanges {
        r := r[k := t.(hasChanges := false)];
        match t.updateType
        case Added => c := c.(added := c.added + [t.track]);
        case Updated => c := c.(updated := c.updated + [t.track]);
        case Removed => c := c.(removed := c.removed + [TrackIdOf(t)]);
        case NoUpdate =>
      } else if KindOf(t) == kind {
        r := r[k := t.(hasChanges := false)];
      }
    }
    assert db[..|db|] == db;
  }

  /** `removedList.ForEach(id => TrackablesDatabase.Remove(id))`. */
  function RemoveAllIds(db: Database, ids: seq<TrackableId>): (r: Database)
    ensures |r| <= |db|
    decreases |ids|
  {
    if |ids| == 0 then db else RemoveAllIds(RemoveById(db, ids[0]), ids[1..])
  }

  /** `GetChanges` once connected (and after any config or image sending): collect, then
      delete the removals. */
  method GetChanges(db: Database, kind: Kind) returns (r: Database, c: Changes)
    ensures c.added == PendingTracks(db, kind, Added)
    ensures c.updated == PendingTracks(db, kind, Updated)
    ensures c.removed == PendingRemovals(db, kind)
    ensures r == RemoveAllIds(Cleared(db, kind), c.removed)
  {
    var cleared;
    cleared, c := Collect(db, kind);
    r := RemoveAllIds(cleared, c.removed);
  }

  /** `RemoveAllTracks`: every trackable of the kind whose type is Added or Updated gets a
      pending removal; the rest of the database is untouched. */
  function RemoveAllTracks(db: Database, kind: Kind): (r: Database)
    ensures |r| == |db|
    ensures forall i :: 0 <= i < |db| ==> r[i] == (if KindOf(db[i]) == kind && IsLive(db[i].updateType) then Remove(db[i]) else db[i])
  {
    seq(|db|, i requires 0 <= i < |db| => if KindOf(db[i]) == kind && IsLive(db[i].updateType) then Remove(db[i]) else db[i])
  }

  /** After `RemoveAllTracks` no trackable of the kind is live, and every one that was
      live is pending removal. */
  lemma RemoveAllTracksLeavesNoneLive(db: Database, kind: Kind)
    ensures forall i :: 0 <= i < |db| && KindOf(db[i]) == kind ==> !IsLive(RemoveAllTracks(db, kind)[i].updateType)
    ensures forall i :: 0 <= i < |db| && KindOf(db[i]) == kind && IsLive(db[i].updateType) ==>
      PendingAs(RemoveAllTracks(db, kind)[i], kind, Removed)
  {
  }

  // Removing the reported ids.

  /** No two trackables carry the same track id. */
  predicate DistinctIds(db: Database) {
    forall i, j :: 0 <= i < j < |db| ==> TrackIdOf(db[i]) != TrackIdOf(db[j])
  }

  /** Every trackable's track carries its own id, and no two trackables share one. */
  predicate Settled(db: Database) {
    && (forall i :: 0 <= i < |db| ==> TrackIdOf(db[i]) == db[i].ownId)
    && (forall i, j :: 0 <= i < j < |db| ==> db[i].ownId != db[j].ownId)
  }

  /** `newId` is no trackable's own id. */
  predicate IsNewId(db: Database, newId: TrackableId) {
    forall i :: 0 <= i < |db| ==> db[i].ownId != newId
  }

  lemma SettledDistinct(db: Database)
    requires Settled(db)
    ensures DistinctIds(db)
  {
  }

  /** The trackables whose track id is not in `ids`, in order. */
  function Without(db: Database, ids: set<TrackableId>): (r: Database)
    ensures |r| <= |db|
  {
    if |db| == 0 then []
    else
      var rest := Without(db[1..], ids);
      if TrackIdOf(db[0]) in ids then rest else [db[0]] + rest
  }

  /** The kept trackables are exactly those that carry none of the ids. */
  lemma {:induction false} WithoutMembers(db: Database, ids: set<TrackableId>)
    ensures forall t :: t in Without(db, ids) <==> t in db && TrackIdOf(t) !in ids
    decreases |db|
  {
    if |db| > 0 {
      WithoutMembers(db[1..], ids);
      assert forall t :: t in db <==> t == db[0] || t in db[1..];
    }
  }

  lemma {:induction false} WithoutAppend(a: Database, b: Database, ids: set<TrackableId>)
    ensures Without(a + b, ids) == Without(a, ids) + Without(b, ids)
    decreases |a|
  {
    if |a| == 0 {
      assert a + b == b;
    } else {
      assert (a + b)[0] == a[0] && (a + b)[1..] == a[1..] + b;
      WithoutAppend(a[1..], b, ids);
    }
  }

  lemma {:induction false} WithoutNone(db: Database, ids: set<TrackableId>)
    requires forall i :: 0 <= i < |db| ==> TrackIdOf(db[i]) !in ids
    ensures Without(db, ids) == db
    decreases |db|
  {
    if |db| > 0 {
      WithoutNone(db[1..], ids);
    }
  }

  /** Dropping the one carrier of the ids from between two stretches that carry none. */
  lemma WithoutSplice(a: Database, x: Trackable, b: Database, ids: set<TrackableId>)
    requires forall j :: 0 <= j < |a| ==> TrackIdOf(a[j]) !in ids
    requires forall j :: 0 <= j < |b| ==> TrackIdOf(b[j]) !in ids
    requires TrackIdOf(x) in ids
    ensures Without(a + [x] + b, ids) == a + b
  {
    var ax := a + [x];
    WithoutAppend(ax, b, ids);
    WithoutAppend(a, [x], ids);
    WithoutNone(a, ids);
    WithoutNone(b, ids);
    assert Without([x], ids) == Without([x][1..], ids);
    assert [x][1..] == [];
    assert Without(ax, ids) == a;
  }

  /** With distinct ids, removing the first carrier of an id removes every carrier. */
  lemma RemoveByIdIsWithout(db: Database, id: TrackableId)
    requires DistinctIds(db)
    ensures RemoveById(db, id) == Without(db, {id})
  {
    var found := IndexOfTrackId(db, id);
    if found.None? {
      WithoutNone(db, {id});
    } else {
      var i := found.value;
      var a, b := db[..i], db[i + 1..];
      assert db == a + [db[i]] + b;
      assert forall j :: 0 <= j < |b| ==> b[j] == db[i + 1 + j];
      WithoutSplice(a, db[i], b, {id});
    }
  }

  lemma {:induction false} WithoutTwice(db: Database, a: set<TrackableId>, b: set<TrackableId>)
    ensures Without(Without(db, a), b) == Without(db, a + b)
    decreases |db|
  {
    if |db| > 0 {
      WithoutTwice(db[1..], a, b);
      var rest := Without(db[1..], a);
      if TrackIdOf(db[0]) !in a {
        assert Without(db, a) == [db[0]] + rest;
        assert ([db[0]] + rest)[1..] == rest;
      }
    }
  }

  lemma WithoutKeepsDistinct(db: Database, ids: set<TrackableId>)
    requires DistinctIds(db)
    ensures DistinctIds(Without(db, ids))
    decreases |db|
  {
    if |db| > 0 {
      WithoutKeepsDistinct(db[1..], ids);
      WithoutMembers(db[1..], ids);
      var rest := Without(db[1..], ids);
      forall t | t in rest ensures TrackIdOf(t) != TrackIdOf(db[0]) {
        assert t in db[1..];
        var j :| 0 <= j < |db[1..]| && db[1..][j] == t;
        assert db[j + 1] == t;
      }
    }
  }

  /** The set of ids of a sequence. */
  function IdSet(ids: seq<TrackableId>): (s: set<TrackableId>)
    ensures forall x :: x in s <==> x in ids
  {
    set x | x in ids
  }

  /** With distinct ids, deleting the reported ids one by one leaves exactly the trackables
      that carry none of them, in order. */
  lemma {:induction false} RemoveAllIdsIsWithout(db: Database, ids: seq<TrackableId>)
    requires DistinctIds(db)
    ensures RemoveAllIds(db, ids) == Without(db, IdSet(ids))
    decreases |ids|
  {
    if |ids| == 0 {
      assert IdSet(ids) == {};
      WithoutNone(db, {});
    } else {
      RemoveByIdIsWithout(db, ids[0]);
      WithoutKeepsDistinct(db, {ids[0]});
      RemoveAllIdsIsWithout(Without(db, {ids[0]}), ids[1..]);
      WithoutTwice(db, {ids[0]}, IdSet(ids[1..]));
      assert {ids[0]} + IdSet(ids[1..]) == IdSet(ids);
    }
  }

  /** With distinct ids, `GetChanges` leaves in the database exactly the trackables that
      were not pending removal (flags of the kind cleared), in order: the removed ones are
      gone and nothing else is. */
  lemma GetChangesRemovesExactly(db: Database, kind: Kind)
    requires DistinctIds(db)
    ensures forall t :: t in RemoveAllIds(Cleared(db, kind), PendingRemovals(db, kind)) <==>
      t in Cleared(db, kind) && TrackIdOf(t) !in PendingRemovals(db, kind)
    ensures forall i :: 0 <= i < |db| ==>
      (PendingAs(db[i], kind, Removed) <==> TrackIdOf(db[i]) in PendingRemovals(db, kind))
  {
    var cleared := Cleared(db, kind);
    assert forall i :: 0 <= i < |db| ==> TrackIdOf(cleared[i]) == TrackIdOf(db[i]);
    assert DistinctIds(cleared);
    RemoveAllIdsIsWithout(cleared, PendingRemovals(db, kind));
    WithoutMembers(cleared, IdSet(PendingRemovals(db, kind)));
    RemovalsAreCarried(db, kind);
  }

  /** A trackable's id is among the reported removals exactly when it was pending removal,
      provided no two trackables share an id. */
  lemma {:induction false} RemovalsAreCarried(db: Database, kind: Kind)
    requires DistinctIds(db)
    ensures forall i :: 0 <= i < |db| ==>
      (PendingAs(db[i], kind, Removed) <==> TrackIdOf(db[i]) in PendingRemovals(db, kind))
    decreases |db|
  {
    if |db| > 0 {
      var rest := db[1..];
      assert DistinctIds(rest) by {
        forall i, j | 0 <= i < j < |rest| ensures TrackIdOf(rest[i]) != TrackIdOf(rest[j]) {
          assert rest[i] == db[i + 1] && rest[j] == db[j + 1];
        }
      }
      RemovalsAreCarried(rest, kind);
      var head := if PendingAs(db[0], kind, Removed) then [TrackIdOf(db[0])] else [];
      assert PendingRemovals(db, kind) == head + PendingRemovals(rest, kind);
      assert TrackIdOf(db[0]) !in PendingRemovals(rest, kind) by {
        RemovalsAreIds(rest, kind);
        forall j | 0 <= j < |rest| ensures TrackIdOf(rest[j]) != TrackIdOf(db[0]) {
          assert rest[j] == db[j + 1];
        }
      }
      forall i | 1 <= i < |db|
        ensures PendingAs(db[i], kind, Removed) <==> TrackIdOf(db[i]) in PendingRemovals(db, kind)
      {
        assert db[i] == rest[i - 1];
        assert TrackIdOf(db[i]) != TrackIdOf(db[0]);
      }
    }
  }

  /** Every reported removal is the id of some trackable. */
  lemma {:induction false} RemovalsAreIds(db: Database, kind: Kind)
    ensures forall x :: x in PendingRemovals(db, kind) ==> exists j :: 0 <= j < |db| && TrackIdOf(db[j]) == x
    decreases |db|
  {
    if |db| > 0 {
      RemovalsAreIds(db[1..], kind);
      forall x | x in PendingRemovals(db[1..], kind) ensures exists j :: 0 <= j < |db| && TrackIdOf(db[j]) == x {
        var j :| 0 <= j < |db[1..]| && TrackIdOf(db[1..][j]) == x;
        assert db[j + 1] == db[1..][j];
      }
    }
  }
}

=== FILE: debugsignaling.dfy ===
/** The debug-signaling channel: each message is a 4-byte big-endian length followed by a
    UTF-8 XML document. The receive loop reads the length, then the body in at most three
    reads, and hands each body to `ParseMessage`, which raises the matching event. */
module DebugSignaling {
  import opened Wrappers
  import opened Bytes
  import opened IsarXml
  import Decimal
  import Utf8

  const LengthSize: nat := 4
  const MaxTries: nat := 3
  const OpenAngle: byte := 0x3C
  const CloseAngle: byte := 0x3E

  // Sending.

  /** The wire form of one payload. */
  function Frame(payload: seq<byte>): (r: seq<byte>)
    requires |payload| < 0x8000_0000
    ensures |r| == LengthSize + |payload| && r[LengthSize..] == payload
    ensures ReadInt32BE(r[..LengthSize]) == |payload|
  {
    Int32BERoundTrip(|payload|);
    var r := Int32ToBE(|payload|) + payload;
    assert r[..LengthSize] == Int32ToBE(|payload|);
    r
  }

  datatype SendError =
    | BufferTooShort    // `CopyTo` of the length, or the read of the first payload byte
    | BadLength         // the index of the last payload byte is outside the buffer
    | StreamTooLong     // a `MemoryStream` holds at most `int.MaxValue` bytes
    | WriteRejected     // the XML writer's `CheckCharacters` rejected a character

  /** `SendAsync(message, length)`: the length in network order overwrites the first four
      bytes, and the first `length + 4` bytes of the buffer are written. The last-byte read
      `message[length - 1 + 4]` throws unless that index is inside the buffer, so a length
      of -3 to -1 still sends 1 to 3 bytes. The check that the payload is delimited by '<'
      and '>' only reports. */
  function SendAsync(message: seq<byte>, length: int32): (r: Result<seq<byte>, SendError>)
    ensures r.Success? <==> |message| > LengthSize && -3 <= length && LengthSize + length <= |message|
    ensures r.Success? ==> r.value == (Int32ToBE(length) + message[LengthSize..])[..LengthSize + length]
    ensures r.Success? && 0 <= length ==> r.value == Int32ToBE(length) + message[LengthSize..LengthSize + length]
  {
    if |message| <= LengthSize then Failure(BufferTooShort)
    else if length < -3 || LengthSize + length > |message| then Failure(BadLength)
    else
      var buffer := Int32ToBE(length) + message[LengthSize..];
      assert 0 <= length ==> buffer[..LengthSize + length] == Int32ToBE(length) + message[LengthSize..LengthSize + length];
      Success(buffer[..LengthSize + length])
  }

  /** A length of -3 to -1 sends only the leading 0xFF bytes of its own two's-complement
      encoding and none of the payload. */
  lemma NegativeLengthSendsSignBytes(message: seq<byte>, length: int32)
    requires |message| > LengthSize && -3 <= length < 0
    ensures SendAsync(message, length).Success?
    ensures SendAsync(message, length).value == seq(LengthSize + length, _ => 0xFF)
  {
    var w := ToUInt32(length);
    assert w == 0x1_0000_0000 + length;
    assert ToBE(w, 4) == ToBE(w / 256, 3) + [w % 256];
    assert ToBE(w / 256, 3) == ToBE(w / 65536, 2) + [0xFF];
    assert ToBE(w / 65536, 2) == ToBE(w / 16777216, 1) + [0xFF];
    assert ToBE(w / 16777216, 1) == [0xFF];
    assert Int32ToBE(length)[..3] == [0xFF, 0xFF, 0xFF];
  }

  /** What `SendAsync` checks of a payload. */
  predicate Delimited(payload: seq<byte>) {
    |payload| >= 1 && payload[0] == OpenAngle && payload[|payload| - 1] == CloseAngle
  }

  /** `SendMessageAsync` and its siblings: the element is written after four reserved bytes
      of a memory stream, whose buffer is then sent. The elements are the ones the three
      writers make, so their names are the program's tokens; a character the XML writer
      rejects ends the send before anything is written to the network. */
  function SendElement(e: XmlElement, nl: NewLine): (r: Result<seq<byte>, SendError>)
    requires WellNamed(e)
    ensures r.Failure? && r.error == WriteRejected <==> !ValidCharacters(e)
    ensures ValidCharacters(e) ==>
      var payload := Utf8.Encode(Render(e, nl).value);
      && (r.Success? <==> |payload| < 0x8000_0000 - LengthSize)
      && (r.Success? ==> r == Success(Frame(payload)))
  {
    match Render(e, nl)
    case Failure(_) => Failure(WriteRejected)
    case Success(doc) =>
      var payload := Utf8.Encode(doc);
      if |payload| >= 0x8000_0000 - LengthSize then Failure(StreamTooLong)
      else
        SendsFrame(payload);
        SendAsync([0, 0, 0, 0] + payload, |payload|)
  }

  /** A non-empty payload behind four reserved bytes goes out framed by its length. */
  lemma SendsFrame(payload: seq<byte>)
    requires 1 <= |payload| < 0x8000_0000 - LengthSize
    ensures SendAsync([0, 0, 0, 0] + payload, |payload|) == Success(Frame(payload))
  {
    var buffer := [0, 0, 0, 0] + payload;
    assert buffer[LengthSize..LengthSize + |payload|] == payload;
    assert buffer[LengthSize..] == payload;
  }

  /** Every payload the writers produce passes the delimiter check. */
  lemma SentPayloadsDelimited(e: XmlElement, nl: NewLine)
    requires WellNamed(e) && ValidCharacters(e)
    ensures Delimited(Utf8.Encode(Render(e, nl).value))
  {
    Utf8.EncodeEnds(Render(e, nl).value);
  }

  // Receiving.

  /** The network as seen by `ReadAsync`: the bytes still to arrive, and for each call the
      most it returns at once. A call when no bytes are offered returns 0. */
  datatype Network = Network(data: seq<byte>, limits: seq<nat>)

  /** One `ReadAsync(buffer, offset, count)`. */
  function Read(n: Network, count: nat): (r: (seq<byte>, Network))
    ensures |r.0| <= count && |r.0| <= |n.data| && r.0 == n.data[..|r.0|]
    ensures r.1.data == n.data[|r.0|..]
    ensures |n.limits| == 0 ==> r.0 == [] && r.1 == n
    ensures |n.limits| > 0 ==> r.1.limits == n.limits[1..]
    ensures |n.limits| > 0 && n.limits[0] >= count && |n.data| >= count ==> |r.0| == count
  {
    if |n.limits| == 0 then ([], n)
    else
      var k := Min(Min(n.limits[0], count), |n.data|);
      (n.data[..k], Network(n.data[k..], n.limits[1..]))
  }

  function Min(a: nat, b: nat): nat {
    if a <= b then a else b
  }

  /** How the loop decides that a message took too many passes: as written, by the pass
      counter reaching zero; as evidently intended, by bytes still missing. */
  datatype CompletionCheck = TriesExhausted | BytesMissing

  /** The `do … while` of the body: read the missing bytes, stop on a 0-byte read, and go on
      while bytes are missing and passes remain. Returns the bytes read, the passes left and
      the network after. */
  function ReadBody(n: Network, msgLength: nat, got: seq<byte>, tries: nat): (r: Option<(seq<byte>, nat, Network)>)
    requires |got| <= msgLength && tries >= 1
    ensures r.Some? ==>
      && |got| < |r.value.0| <= msgLength && r.value.1 < tries
      && (|r.value.0| < msgLength ==> r.value.1 == 0)
      && |r.value.2.limits| < |n.limits|
    decreases tries
  {
    var chunk := Read(n, msgLength - |got|);
    if |chunk.0| == 0 then None
    else
      var body := got + chunk.0;
      if |body| < msgLength && tries - 1 > 0 then ReadBody(chunk.1, msgLength, body, tries - 1)
      else Some((body, tries - 1, chunk.1))
  }

  datatype Exit =
    | ReadZero          // a read returned 0 bytes
    | NegativeLength    // allocating the body buffer throws
    | TooManyPasses     // the message is given up and the loop left
    | ParseException    // `ParseMessage` rethrew

  /** One turn of the loop: the body handed to `ParseMessage` and the network after it, or
      the reason the loop ends. */
  datatype Turn = Stop(exit: Exit) | Got(body: seq<byte>, after: Network)

  /** The message length decoded from a possibly short read into a zeroed 4-byte buffer. */
  function LengthOf(header: seq<byte>): int32
    requires 1 <= |header| <= LengthSize
  {
    ReadInt32BE(header + seq(LengthSize - |header|, _ => 0))
  }

  /** One turn of `ReceiveLoopAsync`: the length, then the body. */
  function ReceiveOne(n: Network, check: CompletionCheck): (t: Turn)
    ensures t.Got? ==> |t.body| >= 1 && |t.after.limits| + 2 <= |n.limits|
    ensures |n.limits| == 0 ==> t == Stop(ReadZero)
  {
    var header := Read(n, LengthSize);
    if |header.0| == 0 then Stop(ReadZero)
    else
      var msgLength := LengthOf(header.0);
      if msgLength < 0 then Stop(NegativeLength)
      else
        var read := ReadBody(header.1, msgLength, [], MaxTries);
        if read.None? then Stop(ReadZero)
        else if GivesUp(check, |read.value.0|, msgLength, read.value.1) then Stop(TooManyPasses)
        else Got(read.value.0, read.value.2)
  }

  /** `ReceiveLoopAsync` up to the hand-over to `ParseMessage`: the bodies received, in
      order, and why the loop ended. */
  function ReceiveBodies(n: Network, check: CompletionCheck): (r: (seq<seq<byte>>, Exit))
    ensures forall i :: 0 <= i < |r.0| ==> |r.0[i]| >= 1
    ensures 2 * |r.0| <= |n.limits|
    decreases |n.limits|
  {
    var t := ReceiveOne(n, check);
    if t.Stop? then ([], t.exit)
    else
      var rest := ReceiveBodies(t.after, check);
      ConsNonEmpty(t.body, rest.0);
      ([t.body] + rest.0, rest.1)
  }

  lemma ConsNonEmpty(b: seq<byte>, rest: seq<seq<byte>>)
    requires |b| >= 1 && forall i :: 0 <= i < |rest| ==> |rest[i]| >= 1
    ensures forall i :: 0 <= i < |[b] + rest| ==> |([b] + rest)[i]| >= 1
  {
  }

  predicate GivesUp(check: CompletionCheck, received: nat, msgLength: nat, triesLeft: nat) {
    match check
    case TriesExhausted => triesLeft == 0
    case BytesMissing => received < msgLength
  }

  /** The wire form of a list of payloads. */
  function Frames(ps: seq<seq<byte>>): seq<byte>
    requires forall i :: 0 <= i < |ps| ==> |ps[i]| < 0x8000_0000
  {
    if |ps| == 0 then [] else Frame(ps[0]) + Frames(ps[1..])
  }

  /** A read limit that never splits a frame. */
  const Generous: nat := 0x8000_0000

  /** One frame on a network whose next two reads are not limited is received whole. */
  lemma ReceiveOneFrame(p: seq<byte>, rest: seq<byte>, limits: seq<nat>, check: CompletionCheck)
    requires 1 <= |p| < 0x8000_0000
    requires |limits| >= 2 && limits[0] >= Generous && limits[1] >= Generous
    ensures ReceiveOne(Network(Frame(p) + rest, limits), check) == Got(p, Network(rest, limits[2..]))
  {
    var framed := Frame(p);
    var n := Network(framed + rest, limits);
    var (header, afterHeader) := Read(n, LengthSize);
    assert header == framed[..LengthSize];
    assert header + seq(LengthSize - |header|, _ => 0) == header;
    assert LengthOf(header) == |p|;
    assert afterHeader.data == p + rest;
    var (chunk, afterBody) := Read(afterHeader, |p|);
    assert chunk == p && [] + chunk == p;
    assert afterBody == Network(rest, limits[2..]);
    assert ReadBody(afterHeader, |p|, [], MaxTries) == Some((p, MaxTries - 1, afterBody));
  }

  /** Framing round trip: frames of non-empty payloads, on a network that never splits a
      read, are received as exactly those payloads, in order, until the reads run out. */
  lemma {:induction false} ReceiveFrames(ps: seq<seq<byte>>, limits: seq<nat>, check: CompletionCheck)
    requires forall i :: 0 <= i < |ps| ==> 1 <= |ps[i]| < 0x8000_0000
    requires |limits| >= 2 * |ps| && forall k :: 0 <= k < |limits| ==> limits[k] >= Generous
    ensures ReceiveBodies(Network(Frames(ps), limits), check) == (ps, ReadZero)
    decreases |ps|
  {
    if |ps| == 0 {
      var n := Network([], limits);
      if |limits| > 0 {
        assert Read(n, LengthSize).0 == [];
      }
      assert ReceiveOne(n, check) == Stop(ReadZero);
    } else {
      var n := Network(Frames(ps), limits);
      assert n.data == Frame(ps[0]) + Frames(ps[1..]);
      ReceiveOneFrame(ps[0], Frames(ps[1..]), limits, check);
      var after := Network(Frames(ps[1..]), limits[2..]);
      assert ReceiveOne(n, check) == Got(ps[0], after);
      ReceiveFrames(ps[1..], limits[2..], check);
      assert ReceiveBodies(n, check) == ([ps[0]] + ReceiveBodies(after, check).0, ReceiveBodies(after, check).1);
      assert ps == [ps[0]] + ps[1..];
    }
  }

  /** A message that needs a third pass: "<a>" whose body arrives one byte per read. */
  const SplitMessage: seq<byte> := [OpenAngle, 0x61, CloseAngle]
  const SplitNetwork := Network(Frame(SplitMessage), [LengthSize, 1, 1, 1])

  /** As written, a body completed by the third read still leaves the counter at zero and is
      dropped, and the loop exits. */
  lemma ThirdPassDroppedAsWritten()
    ensures ReceiveBodies(SplitNetwork, TriesExhausted) == ([], TooManyPasses)
  {
    ThirdPassBody();
  }

  /** Checking for missing bytes instead delivers it. */
  lemma ThirdPassDeliveredCorrected()
    ensures ReceiveBodies(SplitNetwork, BytesMissing) == ([SplitMessage], ReadZero)
  {
    ThirdPassBody();
    var empty := Network([], []);
    NothingLeft(empty, BytesMissing);
    var rest := ReceiveBodies(empty, BytesMissing);
    assert ReceiveBodies(SplitNetwork, BytesMissing) == ([SplitMessage] + rest.0, rest.1);
    assert [SplitMessage] + [] == [SplitMessage];
  }

  /** With no reads left, the loop ends on a 0-byte read before receiving anything. */
  lemma NothingLeft(n: Network, check: CompletionCheck)
    requires |n.limits| == 0
    ensures ReceiveBodies(n, check) == ([], ReadZero)
  {
  }

  lemma ThirdPassBody()
    ensures ReceiveOne(SplitNetwork, TriesExhausted) == Stop(TooManyPasses)
    ensures ReceiveOne(SplitNetwork, BytesMissing) == Got(SplitMessage, Network([], []))
  {
    var framed := Frame(SplitMessage);
    var (header, afterHeader) := Read(SplitNetwork, LengthSize);
    assert header == framed[..LengthSize];
    assert header + seq(LengthSize - |header|, _ => 0) == header;
    assert LengthOf(header) == 3;
    assert afterHeader == Network(SplitMessage, [1, 1, 1]);
    var (c1, n1) := Read(afterHeader, 3);
    assert c1 == [OpenAngle] && n1 == Network([0x61, CloseAngle], [1, 1]);
    var (c2, n2) := Read(n1, 2);
    assert c2 == [0x61] && n2 == Network([CloseAngle], [1]);
    var (c3, n3) := Read(n2, 1);
    assert c3 == [CloseAngle] && n3 == Network([], []);
    assert [OpenAngle, 0x61] + c3 == SplitMessage;
    assert ReadBody(n2, 3, [OpenAngle, 0x61], 1) == Some((SplitMessage, 0, n3));
    assert [OpenAngle] + c2 == [OpenAngle, 0x61];
    assert ReadBody(n1, 3, [OpenAngle], 2) == Some((SplitMessage, 0, n3));
    assert [] + c1 == [OpenAngle];
    assert ReadBody(afterHeader, 3, [], MaxTries) == Some((SplitMessage, 0, n3));
  }

  // Parsing.

  /** What the framework's UTF-8 decoder and XML reader make of a body: an exception, a
      document without an element, or the root element. */
  datatype Decoded = Malformed | NoElement | Root(element: XmlElement)

  datatype SignalEvent =
    | VersionReceived(version: uint32)
    | SdpAnswerReceived(sdp: string)
    | IceCandidateReceived(mid: Option<string>, mLineIndex: int32, candidate: string)

  /** `ParseMessage`: dispatch on the root element's name. An offer is ignored, as are an
      SDP without a known type and an unknown element; a failing read is rethrown. */
  function ParseMessage(d: Decoded): (r: Result<Option<SignalEvent>, string>)
    ensures d.Malformed? ==> r.Failure?
    ensures d.NoElement? ==> r == Success(None)
    ensures r.Success? && r.value.Some? ==> d.Root?
    ensures r.Success? && r.value.Some? && r.value.value.SdpAnswerReceived? ==>
      GetAttribute(d.element, SdpTypeToken) == Some(SdpTypeAnswer)
  {
    match d
    case Malformed => Failure("malformed message")
    case NoElement => Success(None)
    case Root(e) =>
      if e.name == VersionToken then
        match ReadVersion(e)
        case Failure(_) => Failure("bad version")
        case Success((version, _)) => Success(Some(VersionReceived(version)))
      else if e.name == SdpToken then
        var (sdpType, sdp) := ReadSdp(e);
        if sdpType == Some(SdpTypeOffer) then Success(None)
        else if sdpType == Some(SdpTypeAnswer) then Success(Some(SdpAnswerReceived(sdp)))
        else Success(None)
      else if e.name == IceCandidateToken then
        match ReadIceCandidate(e)
        case Failure(_) => Failure("bad ice candidate")
        case Success((mid, index, candidate)) => Success(Some(IceCandidateReceived(mid, index, candidate)))
      else Success(None)
  }

  /** The three element names are distinct. */
  lemma TokensDistinct()
    ensures VersionToken != SdpToken && VersionToken != IceCandidateToken && SdpToken != IceCandidateToken
    ensures SdpTypeOffer != SdpTypeAnswer
  {
    assert |VersionToken| == 7 && |SdpToken| == 3 && |IceCandidateToken| == 12;
    assert |SdpTypeOffer| == 5 && |SdpTypeAnswer| == 6;
  }

  /** What each writer's element raises at the other end. */
  lemma ParseWrittenElements(version: uint32, depthAlpha: bool, sdp: string, mid: string, index: int32, candidate: string)
    ensures ParseMessage(Root(WriteVersion(version, depthAlpha))) == Success(Some(VersionReceived(version)))
    ensures ParseMessage(Root(WriteSdp(SdpTypeAnswer, sdp))) == Success(Some(SdpAnswerReceived(sdp)))
    ensures ParseMessage(Root(WriteSdp(SdpTypeOffer, sdp))) == Success(None)
    ensures ParseMessage(Root(WriteIceCandidate(mid, index, candidate))) ==
      Success(Some(IceCandidateReceived(Some(mid), index, candidate)))
  {
    TokensDistinct();
    VersionRoundTrip(version, depthAlpha);
    IceCandidateRoundTrip(mid, index, candidate);
  }

  /** The events raised for the bodies handed to `ParseMessage`, and whether a rethrown
      exception ended the loop there. */
  function Deliver(bodies: seq<seq<byte>>, decode: seq<byte> -> Decoded): (r: (seq<SignalEvent>, bool))
    ensures |r.0| <= |bodies|
  {
    if |bodies| == 0 then ([], false)
    else
      match ParseMessage(decode(bodies[0]))
      case Failure(_) => ([], true)
      case Success(ev) =>
        var (rest, failed) := Deliver(bodies[1..], decode);
        (if ev.Some? then [ev.value] + rest else rest, failed)
  }

  /** `ReceiveLoopAsync` as a whole: the events raised, in order, and why the loop ended. */
  function ReceiveLoop(n: Network, check: CompletionCheck, decode: seq<byte> -> Decoded): (r: (seq<SignalEvent>, Exit))
    ensures |n.limits| == 0 ==> r == ([], ReadZero)
    ensures 2 * |r.0| <= |n.limits|
  {
    var (bodies, exit) := ReceiveBodies(n, check);
    var (events, failed) := Deliver(bodies, decode);
    (events, if failed then ParseException else exit)
  }

  /** The document a sent element travels as; nothing when the writer rejects it. */
  function SentDocument(e: XmlElement, nl: NewLine): string {
    if WellNamed(e) && ValidCharacters(e) then Render(e, nl).value else ""
  }

  /** The payloads of the elements, in order. */
  function SentPayloads(es: seq<XmlElement>, nl: NewLine): seq<seq<byte>> {
    seq(|es|, i requires 0 <= i < |es| => Utf8.Encode(SentDocument(es[i], nl)))
  }

  /** The framework's UTF-8 decoder and XML reader agree with the reference reader on a
      document. */
  predicate ReaderAgrees(decode: seq<byte> -> Decoded, doc: string) {
    decode(Utf8.Encode(doc)) == ReferenceDecoded(doc)
  }

  /** What the reference reader makes of a document. */
  function ReferenceDecoded(doc: string): Decoded {
    match ReadDocument(doc)
    case Some(e) => Root(e)
    case None => Malformed
  }

  /** End to end: elements sent one after another on a network that never splits a read
      are received as their payloads, in order, and the loop then ends on a 0-byte read. */
  lemma ExchangeRoundTrip(es: seq<XmlElement>, nl: NewLine, limits: seq<nat>)
    requires forall i :: 0 <= i < |es| ==> WellNamed(es[i]) && ValidCharacters(es[i])
    requires forall p :: p in SentPayloads(es, nl) ==> |p| < 0x8000_0000 - LengthSize
    requires |limits| >= 2 * |es| && forall k :: 0 <= k < |limits| ==> limits[k] >= Generous
    ensures ReceiveBodies(Network(Frames(SentPayloads(es, nl)), limits), BytesMissing) == (SentPayloads(es, nl), ReadZero)
  {
    var payloads := SentPayloads(es, nl);
    forall i | 0 <= i < |payloads|
      ensures 1 <= |payloads[i]| < 0x8000_0000
    {
      SentPayloadsDelimited(es[i], nl);
    }
    ReceiveFrames(payloads, limits, BytesMissing);
  }

  /** The events the receive loop raises for those elements are, in order, the ones their
      payloads decode to. */
  lemma ExchangeEvents(es: seq<XmlElement>, nl: NewLine, limits: seq<nat>, decode: seq<byte> -> Decoded)
    requires forall i :: 0 <= i < |es| ==> WellNamed(es[i]) && ValidCharacters(es[i])
    requires forall p :: p in SentPayloads(es, nl) ==> |p| < 0x8000_0000 - LengthSize
    requires |limits| >= 2 * |es| && forall k :: 0 <= k < |limits| ==> limits[k] >= Generous
    ensures var payloads := SentPayloads(es, nl);
      ReceiveLoop(Network(Frames(payloads), limits), BytesMissing, decode) ==
        (Deliver(payloads, decode).0, if Deliver(payloads, decode).1 then ParseException else ReadZero)
  {
    ExchangeRoundTrip(es, nl, limits);
  }

  /** If the framework's UTF-8 decoder and XML reader agree with the reference reader on
      the sent documents, each received payload decodes to its element with the text's
      line ends normalised. */
  lemma ExchangeDecoded(es: seq<XmlElement>, nl: NewLine, decode: seq<byte> -> Decoded)
    requires forall i :: 0 <= i < |es| ==> WellNamed(es[i]) && ValidCharacters(es[i])
    requires forall i :: 0 <= i < |es| ==> ReaderAgrees(decode, SentDocument(es[i], nl))
    ensures forall i :: 0 <= i < |es| ==> decode(SentPayloads(es, nl)[i]) == Root(Normalized(es[i]))
  {
    forall i | 0 <= i < |es|
      ensures decode(SentPayloads(es, nl)[i]) == Root(Normalized(es[i]))
    {
      RenderReadBack(es[i], nl);
    }
  }

  /** What the normalised version and SDP elements raise: a version is unchanged by the
      reader's line-end normalisation and raises its version event, an answer SDP raises an
      answer event with the SDP's line ends normalised, and an offer raises nothing. */
  lemma ParseReceivedElements(version: uint32, depthAlpha: bool, sdp: string)
    ensures ParseMessage(Root(Normalized(WriteVersion(version, depthAlpha)))) == Success(Some(VersionReceived(version)))
    ensures ParseMessage(Root(Normalized(WriteSdp(SdpTypeAnswer, sdp)))) == Success(Some(SdpAnswerReceived(NormalizeNewlines(sdp))))
    ensures ParseMessage(Root(Normalized(WriteSdp(SdpTypeOffer, sdp)))) == Success(None)
  {
    assert '\r' !in Decimal.NatToString(version);
    NormalizeWithoutCr(Decimal.NatToString(version));
    assert Normalized(WriteVersion(version, depthAlpha)) == WriteVersion(version, depthAlpha);
    assert Normalized(WriteSdp(SdpTypeAnswer, sdp)) == WriteSdp(SdpTypeAnswer, NormalizeNewlines(sdp));
    assert Normalized(WriteSdp(SdpTypeOffer, sdp)) == WriteSdp(SdpTypeOffer, NormalizeNewlines(sdp));
    ParseWrittenElements(version, depthAlpha, NormalizeNewlines(sdp), "", 0, "");
  }

  /** An ICE candidate arrives with its mid and index, and its candidate's line ends
      normalised. */
  lemma IceCandidateArrives(mid: string, index: int32, candidate: string)
    ensures ParseMessage(Root(Normalized(WriteIceCandidate(mid, index, candidate)))) ==
      Success(Some(IceCandidateReceived(Some(mid), index, NormalizeNewlines(candidate))))
  {
    assert Normalized(WriteIceCandidate(mid, index, candidate)) == WriteIceCandidate(mid, index, NormalizeNewlines(candidate));
    ParseWrittenElements(0, false, "", mid, index, NormalizeNewlines(candidate));
  }

}

=== FILE: decimal.dfy ===
/** Invariant-culture decimal text for integers: the `ToString()` of `int`/`uint` and the
    digit-string core of `int.Parse`/`uint.Parse`. */
module Decimal {
  import opened Wrappers
  import opened Bytes

  predicate IsDigit(c: char) {
    '0' <= c <= '9'
  }

  predicate AllDigits(s: string) {
    forall i :: 0 <= i < |s| ==> IsDigit(s[i])
  }

  function DigitChar(d: nat): (c: char)
    requires d < 10
    ensures IsDigit(c)
  {
    ('0' as int + d) as char
  }

  function DigitValue(c: char): (d: nat)
    requires IsDigit(c)
    ensures d < 10
  {
    (c as int) - ('0' as int)
  }

  /** Shortest decimal rendering of `n`: at least one digit, no leading zero. */
  function NatToString(n: nat): (r: string)
    ensures |r| >= 1 && AllDigits(r)
    ensures |r| > 1 ==> r[0] != '0'
    ensures '-' !in r
  {
    if n < 10 then [DigitChar(n)] else NatToString(n / 10) + [DigitChar(n % 10)]
  }

  /** The number a digit string denotes. */
  function DigitsValue(s: string): nat
    requires AllDigits(s)
  {
    if |s| == 0 then 0 else 10 * DigitsValue(s[..|s| - 1]) + DigitValue(s[|s| - 1])
  }

  /** A non-empty string made of decimal digits only, and its value. */
  function ParseNat(s: string): (r: Option<nat>)
    ensures r.Some? <==> |s| > 0 && AllDigits(s)
  {
    if |s| > 0 && AllDigits(s) then Some(DigitsValue(s)) else None
  }

  lemma {:induction false} DigitsValueOfNatToString(n: nat)
    ensures DigitsValue(NatToString(n)) == n
  {
    if n >= 10 {
      var r := NatToString(n);
      assert r[..|r| - 1] == NatToString(n / 10);
      DigitsValueOfNatToString(n / 10);
    }
  }

  /** Rendering then parsing a natural number gives it back. */
  lemma NatRoundTrip(n: nat)
    ensures ParseNat(NatToString(n)) == Some(n)
  {
    DigitsValueOfNatToString(n);
  }

  /** Rendering of a signed integer: a leading '-' for negatives. */
  function IntToString(i: int): (r: string)
    ensures |r| >= 1
    ensures (r[0] == '-') <==> i < 0
  {
    if i < 0 then "-" + NatToString(-i) else NatToString(i)
  }

  /** An optional '-' followed by a digit string. */
  function ParseInt(s: string): (r: Option<int>)
    ensures r.Some? && |s| > 0 && s[0] != '-' ==> r.value >= 0
  {
    if |s| > 0 && s[0] == '-' then
      match ParseNat(s[1..])
      case Some(n) => Some(-(n as int))
      case None => None
    else
      match ParseNat(s)
      case Some(n) => Some(n)
      case None => None
  }

  /** Rendering then parsing a signed integer gives it back. */
  lemma IntRoundTrip(i: int)
    ensures ParseInt(IntToString(i)) == Some(i)
  {
    if i < 0 {
      assert IntToString(i)[1..] == NatToString(-i);
      NatRoundTrip(-i);
    } else {
      NatRoundTrip(i);
    }
  }

  /** Why `int.Parse`/`uint.Parse` throw. */
  datatype ParseError = FormatError | OverflowError

  /** `uint.Parse`: digits only; values of 2^32 and above overflow. */
  function ParseUInt32(s: string): (r: Result<uint32, ParseError>)
    ensures r.Success? ==> ParseNat(s) == Some(r.value)
    ensures r.Failure? && r.error == FormatError <==> ParseNat(s).None?
  {
    match ParseNat(s)
    case None => Failure(FormatError)
    case Some(n) => if n < 0x1_0000_0000 then Success(n) else Failure(OverflowError)
  }

  /** `int.Parse`: optional minus sign, digits; values outside int32 overflow. */
  function ParseInt32(s: string): (r: Result<int32, ParseError>)
    ensures r.Success? ==> ParseInt(s) == Some(r.value)
    ensures r.Failure? && r.error == FormatError <==> ParseInt(s).None?
  {
    match ParseInt(s)
    case None => Failure(FormatError)
    case Some(i) => if -0x8000_0000 <= i < 0x8000_0000 then Success(i) else Failure(OverflowError)
  }

  lemma UInt32RoundTrip(w: uint32)
    ensures ParseUInt32(NatToString(w)) == Success(w)
  {
    NatRoundTrip(w);
  }

  lemma Int32RoundTrip(i: int32)
    ensures ParseInt32(IntToString(i)) == Success(i)
  {
    IntRoundTrip(i);
  }
}

=== FILE: dnssd.dfy ===
/** The DNS-SD instance name: a hand-rolled scan of the remoting config for the
    `"dnssd-name"` key, and the fallback to the logged-in user's name. The config file is
    given as its text; opening and reading it is not modelled. */
module DnsSd {
  import opened Wrappers

  const ServiceName := "_hlrsignaling"
  const ProtocolName := "_tcp"
  /** The key, quotes included. */
  const DnsSdKey := "\"dnssd-name\""

  /** `key` occurs in `s` starting at position `i`. */
  predicate OccursAt(s: string, key: string, i: nat) {
    i + |key| <= |s| && s[i..i + |key|] == key
  }

  /** `s.IndexOf(key, StringComparison.Ordinal)`: the first position where `key` occurs. */
  function IndexOfString(s: string, key: string, from: nat): (r: Option<nat>)
    requires from <= |s|
    ensures r.Some? ==> from <= r.value && OccursAt(s, key, r.value)
    ensures r.Some? ==> forall j :: from <= j < r.value ==> !OccursAt(s, key, j)
    ensures r.None? ==> forall j :: from <= j <= |s| ==> !OccursAt(s, key, j)
    decreases |s| - from
  {
    if OccursAt(s, key, from) then Some(from)
    else if from == |s| then None
    else IndexOfString(s, key, from + 1)
  }

  /** `s.IndexOf(c, from)`: the first position at or after `from` holding `c`. */
  function IndexOfChar(s: string, c: char, from: nat): (r: Option<nat>)
    requires from <= |s|
    ensures r.Some? ==> from <= r.value < |s| && s[r.value] == c
    ensures r.Some? ==> forall j :: from <= j < r.value ==> s[j] != c
    ensures r.None? ==> forall j :: from <= j < |s| ==> s[j] != c
    decreases |s| - from
  {
    if from == |s| then None
    else if s[from] == c then Some(from)
    else IndexOfChar(s, c, from + 1)
  }

  /** `json` holds `r` between two double quotes, the opening one at `o`. */
  predicate QuotedAt(json: string, o: int, r: string) {
    0 <= o && o + |r| + 1 < |json| && json[o] == '"'
    && json[o + 1..o + 1 + |r|] == r && json[o + 1 + |r|] == '"'
  }

  /** The text between the first double quote at or after `from` and the next one, or ""
      when either is missing. */
  function QuotedAfter(json: string, from: nat): (r: string)
    requires from <= |json|
    ensures '"' !in r
    ensures |r| <= |json|
    ensures r != "" ==> exists o :: from <= o && QuotedAt(json, o, r)
  {
    match IndexOfChar(json, '"', from)
    case None => ""
    case Some(opening) =>
      match IndexOfChar(json, '"', opening + 1)
      case None => ""
      case Some(closing) =>
        var r := json[opening + 1..closing];
        assert forall k :: 0 <= k < |r| ==> r[k] == json[opening + 1 + k];
        assert json[opening + 1..opening + 1 + |r|] == r;
        assert QuotedAt(json, opening, r);
        r
  }

  /** `ParseServiceNameFromConfig`: the text between the first double quote after the first
      `"dnssd-name"` and the next double quote; "" when the key or either quote is missing. */
  function ParseServiceName(json: string): (r: string)
    ensures '"' !in r
    ensures IndexOfString(json, DnsSdKey, 0).None? ==> r == ""
    ensures |r| <= |json|
    ensures r != "" ==> exists o :: 0 <= o && QuotedAt(json, o, r)
  {
    match IndexOfString(json, DnsSdKey, 0)
    case None => ""
    case Some(keyIndex) => QuotedAfter(json, keyIndex + |DnsSdKey|)
  }

  /** The key written after `pre` is its first occurrence: no occurrence starts inside `pre`,
      which also rules out one that straddles `pre` and the written key. Other keys, quoted
      values and punctuation may come before it. */
  predicate KeyFirstAfter(pre: string) {
    forall j :: 0 <= j < |pre| ==> !OccursAt(pre + DnsSdKey, DnsSdKey, j)
  }

  /** Text without a double quote cannot hold the start of the key. */
  lemma QuoteFreeKeyFirst(pre: string)
    requires '"' !in pre
    ensures KeyFirstAfter(pre)
  {
    var keyed := pre + DnsSdKey;
    forall j | 0 <= j < |pre| ensures !OccursAt(keyed, DnsSdKey, j) {
      assert keyed[j] == pre[j] != DnsSdKey[0];
      if j + |DnsSdKey| <= |keyed| {
        assert keyed[j..j + |DnsSdKey|][0] == keyed[j];
      }
    }
  }

  /** Text without the key's second character cannot hold the start of the key either. */
  lemma SecondKeyCharAbsent(pre: string)
    requires DnsSdKey[1] !in pre
    ensures KeyFirstAfter(pre)
  {
    var keyed := pre + DnsSdKey;
    forall j | 0 <= j < |pre| ensures !OccursAt(keyed, DnsSdKey, j) {
      assert keyed[j + 1] != DnsSdKey[1];
      if j + |DnsSdKey| <= |keyed| {
        assert keyed[j..j + |DnsSdKey|][1] == keyed[j + 1];
      }
    }
  }

  /** The key written after `pre` is found there, whatever follows it. */
  lemma KeyFoundFirst(pre: string, rest: string)
    requires KeyFirstAfter(pre)
    ensures IndexOfString(pre + DnsSdKey + rest, DnsSdKey, 0) == Some(|pre|)
  {
    var keyed := pre + DnsSdKey;
    var json := keyed + rest;
    assert json == pre + DnsSdKey + rest;
    assert json[|pre|..|pre| + |DnsSdKey|] == DnsSdKey;
    forall j | 0 <= j < |pre| ensures !OccursAt(json, DnsSdKey, j) {
      assert !OccursAt(keyed, DnsSdKey, j);
      assert j + |DnsSdKey| <= |keyed|;
      assert json[j..j + |DnsSdKey|] == keyed[j..j + |DnsSdKey|];
    }
    IndexOfFirstOccurrence(json, DnsSdKey, 0, |pre|);
  }

  /** A key written after quote-free text is found where it was written. */
  lemma KeyFoundAfterQuoteFree(pre: string, rest: string)
    requires '"' !in pre
    ensures IndexOfString(pre + DnsSdKey + rest, DnsSdKey, 0) == Some(|pre|)
  {
    QuoteFreeKeyFirst(pre);
    KeyFoundFirst(pre, rest);
  }

  /** The search from `from` finds the first occurrence at or after it. */
  lemma {:induction false} IndexOfFirstOccurrence(s: string, key: string, from: nat, i: nat)
    requires from <= i <= |s| && OccursAt(s, key, i)
    requires forall j :: from <= j < i ==> !OccursAt(s, key, j)
    ensures IndexOfString(s, key, from) == Some(i)
    decreases i - from
  {
    if from < i {
      IndexOfFirstOccurrence(s, key, from + 1, i);
    }
  }

  /** The search for a character finds its first occurrence at or after `from`. */
  lemma {:induction false} IndexOfCharFirst(s: string, c: char, from: nat, i: nat)
    requires from <= i < |s| && s[i] == c
    requires forall j :: from <= j < i ==> s[j] != c
    ensures IndexOfChar(s, c, from) == Some(i)
    decreases i - from
  {
    if from < i {
      IndexOfCharFirst(s, c, from + 1, i);
    }
  }

  /** In `a + b + "\"" + rest` with a quote-free `b`, the first quote from the end of `a` on
      is the one written after `b`. */
  lemma QuoteAfter(a: string, b: string, rest: string)
    requires '"' !in b
    ensures IndexOfChar(a + b + "\"" + rest, '"', |a|) == Some(|a| + |b|)
  {
    var s := a + b + "\"" + rest;
    forall j | |a| <= j < |a| + |b| ensures s[j] != '"' {
      assert s[j] == b[j - |a|];
    }
    assert s[|a| + |b|] == '"';
    IndexOfCharFirst(s, '"', |a|, |a| + |b|);
  }

  /** A config written as `pre "dnssd-name" sep "name" post`, where `pre` holds no earlier
      occurrence of the key (it may hold other quoted keys and values) and no double quote
      stands between the key and the name or inside the name, yields exactly the name. */
  lemma ParseWrittenName(pre: string, sep: string, name: string, post: string)
    requires KeyFirstAfter(pre) && '"' !in sep && '"' !in name
    ensures ParseServiceName(pre + DnsSdKey + sep + "\"" + name + "\"" + post) == name
  {
    var keyed := pre + DnsSdKey;
    var rest := sep + "\"" + name + "\"" + post;
    var json := pre + DnsSdKey + sep + "\"" + name + "\"" + post;
    assert json == pre + DnsSdKey + rest;
    KeyFoundFirst(pre, rest);
    assert json == keyed + sep + "\"" + name + "\"" + post;
    QuotedAfterWritten(keyed, sep, name, post);
  }

  /** The text before the DNS-SD key in the example below. */
  const RoleFirst := "{\"role\": \"server\", "

  lemma RoleFirstKeyFirst()
    ensures KeyFirstAfter(RoleFirst)
  {
    assert 'd' !in RoleFirst;
    SecondKeyCharAbsent(RoleFirst);
  }

  lemma RoleFirstConfigShape(name: string)
    ensures "{\"role\": \"server\", \"dnssd-name\": \"" + name + "\"}"
      == RoleFirst + DnsSdKey + ": " + "\"" + name + "\"" + "}"
  {
    var head := RoleFirst + DnsSdKey + ": " + "\"";
    assert head == "{\"role\": \"server\", \"dnssd-name\": \"";
    assert RoleFirst + DnsSdKey + ": " + "\"" + name + "\"" + "}" == head + name + "\"}";
  }

  /** A quoted key before the DNS-SD key does not disturb the scan: the config
      `{"role": "server", "dnssd-name": "<name>"}` names the instance `<name>`. */
  lemma QuotedKeyBeforeName(name: string)
    requires '"' !in name
    ensures ParseServiceName("{\"role\": \"server\", \"dnssd-name\": \"" + name + "\"}") == name
  {
    RoleFirstKeyFirst();
    RoleFirstConfigShape(name);
    ParseWrittenName(RoleFirst, ": ", name, "}");
  }

  /** After `a`, the quoted text following a quote-free `b` is read back. */
  lemma QuotedAfterWritten(a: string, b: string, name: string, post: string)
    requires '"' !in b && '"' !in name
    ensures QuotedAfter(a + b + "\"" + name + "\"" + post, |a|) == name
  {
    var json := a + b + "\"" + name + "\"" + post;
    var opening := |a| + |b|;
    assert json[|a|..opening] == b;
    assert json[opening + 1..opening + 1 + |name|] == name;
    QuotedAfterAt(json, |a|, opening, name);
  }

  /** A quote-free stretch from `from` up to a quoted, quote-free `name` makes `name` the
      quoted text after `from`. */
  lemma QuotedAfterAt(json: string, from: nat, opening: nat, name: string)
    requires from <= opening && QuotedAt(json, opening, name)
    requires '"' !in json[from..opening] && '"' !in name
    ensures QuotedAfter(json, from) == name
  {
    var closing := opening + 1 + |name|;
    forall j | from <= j < opening ensures json[j] != '"' {
      assert json[j] == json[from..opening][j - from];
    }
    IndexOfCharFirst(json, '"', from, opening);
    forall j | opening + 1 <= j < closing ensures json[j] != '"' {
      assert json[j] == name[j - opening - 1];
    }
    IndexOfCharFirst(json, '"', opening + 1, closing);
    QuotedBetween(json, from, opening, closing);
  }

  /** With both quotes found, the quoted text is the slice between them. */
  lemma QuotedBetween(json: string, from: nat, opening: nat, closing: nat)
    requires from <= opening < closing < |json|
    requires IndexOfChar(json, '"', from) == Some(opening)
    requires IndexOfChar(json, '"', opening + 1) == Some(closing)
    ensures QuotedAfter(json, from) == json[opening + 1..closing]
  {
  }

  /** From the end of `a` on, `a + b` has no quote when `b` has none. */
  lemma NoQuoteAfter(a: string, b: string)
    requires '"' !in b
    ensures IndexOfChar(a + b, '"', |a|) == None
  {
    var s := a + b;
    forall j | |a| <= j < |s| ensures s[j] != '"' {
      assert s[j] == b[j - |a|];
    }
  }

  /** A key with no quote after it yields "". */
  lemma MissingOpeningQuoteIsEmpty(pre: string, tail: string)
    requires KeyFirstAfter(pre) && '"' !in tail
    ensures ParseServiceName(pre + DnsSdKey + tail) == ""
  {
    KeyFoundFirst(pre, tail);
    NoQuoteAfter(pre + DnsSdKey, tail);
  }

  /** A key followed by an opening quote but no closing one yields "". */
  lemma MissingClosingQuoteIsEmpty(pre: string, sep: string, tail: string)
    requires KeyFirstAfter(pre) && '"' !in sep && '"' !in tail
    ensures ParseServiceName(pre + DnsSdKey + sep + "\"" + tail) == ""
  {
    var json := pre + DnsSdKey + sep + "\"" + tail;
    var keyed := pre + DnsSdKey;
    assert json == keyed + (sep + "\"" + tail);
    KeyFoundFirst(pre, sep + "\"" + tail);
    QuoteAfter(keyed, sep, tail);
    NoQuoteAfter(keyed + sep + "\"", tail);
  }

  /** `char.IsWhiteSpace`: the Unicode White_Space characters. */
  predicate IsWhiteSpace(c: char) {
    var n := c as int;
    (0x09 <= n <= 0x0D) || n == 0x20 || n == 0x85 || n == 0xA0 || n == 0x1680
    || (0x2000 <= n <= 0x200A) || n == 0x2028 || n == 0x2029 || n == 0x202F || n == 0x205F
    || n == 0x3000
  }

  /** `string.IsNullOrWhiteSpace`. */
  predicate IsNullOrWhiteSpace(s: Option<string>) {
    s.None? || forall i :: 0 <= i < |s.value| ==> IsWhiteSpace(s.value[i])
  }

  /** The constructor's choice: the configured name, unless it is null or blank, in which case
      the logged-in user's name (read from the environment and passed in here). */
  function InstanceName(name: Option<string>, userName: string): (r: string)
    ensures name.Some? && (exists i :: 0 <= i < |name.value| && !IsWhiteSpace(name.value[i])) ==> r == name.value
    ensures name.None? || name.value == "" ==> r == userName
    ensures IsNullOrWhiteSpace(name) ==> r == userName
    ensures r == userName || (name.Some? && r == name.value)
  {
    if IsNullOrWhiteSpace(name) then userName else name.value
  }

  /** The instance name of a config file: the configured name when it has a visible
      character, the user's name otherwise, and never a string with a double quote that the
      user name does not bring. */
  lemma ConfiguredInstanceName(pre: string, sep: string, name: string, post: string, userName: string)
    requires KeyFirstAfter(pre) && '"' !in sep && '"' !in name
    ensures var json := pre + DnsSdKey + sep + "\"" + name + "\"" + post;
      InstanceName(Some(ParseServiceName(json)), userName)
        == if exists i :: 0 <= i < |name| && !IsWhiteSpace(name[i]) then name else userName
  {
    ParseWrittenName(pre, sep, name, post);
  }
}

=== FILE: eventlistener.dfy ===
/** `IsarEventListener`: a component that registers for the server's connection state
    changes at most once and turns them into `OnConnected` and `OnDisconnected` calls.
    Whether the server is connected is a parameter of each operation. */
module EventListener {
  import opened Types

  /** The two callbacks a listener implements. */
  datatype Callback = OnConnected | OnDisconnected

  datatype Listener = Listener(
    /** `_server != null`. */
    hasServer: bool,
    /** `_isRegistered`. */
    registered: bool,
    /** How many times the listener's handler is subscribed to `ConnectionStateChanged`. */
    subscriptions: nat,
    /** The callbacks called so far, in order. */
    fired: seq<Callback>)

  /** A listener subscribed exactly when it says it is registered, and only to a server. */
  predicate Valid(l: Listener) {
    && l.subscriptions == (if l.registered then 1 else 0)
    && (l.registered ==> l.hasServer)
  }

  /** `RemotingServer_OnConnectionStateChanged`: CONNECTED means connected, every other
      state disconnected. */
  function Route(state: ConnectionState): (c: Callback)
    ensures c == OnConnected <==> state == Connected
    ensures c == OnDisconnected <==> state != Connected
  {
    if state == Connected then OnConnected else OnDisconnected
  }

  /** `RegisterEvents`: does nothing when already registered or without a server; else
      subscribes, reports an existing connection, and marks itself registered. */
  function RegisterEvents(l: Listener, connected: bool): (r: Listener)
    ensures l.registered || !l.hasServer ==> r == l
    ensures !l.registered && l.hasServer ==>
      && r.registered && r.hasServer
      && r.subscriptions == l.subscriptions + 1
      && r.fired == l.fired + (if connected then [OnConnected] else [])
  {
    if l.registered then l
    else if !l.hasServer then l
    else
      var subscribed := l.(subscriptions := l.subscriptions + 1);
      var reported := if connected then subscribed.(fired := subscribed.fired + [OnConnected]) else subscribed;
      reported.(registered := true)
  }

  /** `UnregisterRemotingEvents`: does nothing when not registered or without a server;
      else reports the end of an existing connection, unsubscribes, and marks itself not
      registered. Removing a handler that is not subscribed changes nothing. */
  function UnregisterRemotingEvents(l: Listener, connected: bool): (r: Listener)
    ensures !l.registered || !l.hasServer ==> r == l
    ensures l.registered && l.hasServer ==>
      && !r.registered && r.hasServer
      && r.subscriptions == (if l.subscriptions > 0 then l.subscriptions - 1 else 0)
      && r.fired == l.fired + (if connected then [OnDisconnected] else [])
  {
    if !l.registered then l
    else if !l.hasServer then l
    else
      var reported := if connected then l.(fired := l.fired + [OnDisconnected]) else l;
      var unsubscribed := reported.(subscriptions := if reported.subscriptions > 0 then reported.subscriptions - 1 else 0);
      unsubscribed.(registered := false)
  }

  /** The server raising `ConnectionStateChanged`: every subscription of the handler routes
      the state once. */
  function ConnectionStateChanged(l: Listener, state: ConnectionState): (r: Listener)
    ensures r.registered == l.registered && r.hasServer == l.hasServer && r.subscriptions == l.subscriptions
    ensures |r.fired| == |l.fired| + l.subscriptions
    ensures r.fired[..|l.fired|] == l.fired
    ensures forall i :: |l.fired| <= i < |r.fired| ==> r.fired[i] == Route(state)
  {
    l.(fired := l.fired + Repeat(Route(state), l.subscriptions))
  }

  function Repeat(c: Callback, n: nat): (r: seq<Callback>)
    ensures |r| == n
    ensures forall i :: 0 <= i < n ==> r[i] == c
  {
    if n == 0 then [] else [c] + Repeat(c, n - 1)
  }

  /** `Start`: the legacy build first takes the server from the main camera's
      `RemoteCamera`; both builds then register. */
  function Start(l: Listener, legacy: bool, cameraHasServer: bool, connected: bool): (r: Listener)
    ensures !legacy ==> r == RegisterEvents(l, connected)
    ensures legacy ==> r.hasServer == cameraHasServer
    ensures legacy ==> r == RegisterEvents(l.(hasServer := cameraHasServer), connected)
  {
    RegisterEvents(if legacy then l.(hasServer := cameraHasServer) else l, connected)
  }

  /** `OnEnable` registers and `OnDisable` unregisters. */
  function OnEnable(l: Listener, connected: bool): (r: Listener)
    ensures Valid(l) ==> Valid(r)
  {
    RegisterEvents(l, connected)
  }

  function OnDisable(l: Listener, connected: bool): (r: Listener)
    ensures Valid(l) ==> Valid(r)
  {
    UnregisterRemotingEvents(l, connected)
  }

  /** Registering twice is registering once, whatever the connection does in between;
      without a server nothing happens. */
  lemma RegisterIdempotent(l: Listener, connected: bool, later: bool)
    ensures RegisterEvents(RegisterEvents(l, connected), later) == RegisterEvents(l, connected)
    ensures !l.hasServer ==> RegisterEvents(l, connected) == l
  {
  }

  /** Unregistering twice is unregistering once. */
  lemma UnregisterIdempotent(l: Listener, connected: bool, later: bool)
    ensures UnregisterRemotingEvents(UnregisterRemotingEvents(l, connected), later) ==
            UnregisterRemotingEvents(l, connected)
  {
  }

  /** A valid listener stays valid whatever happens, so it never holds more than one
      subscription, and every state change reaches it exactly once while registered and
      never otherwise. */
  lemma ValidPreserved(l: Listener, connected: bool, state: ConnectionState, cameraHasServer: bool)
    requires Valid(l)
    ensures Valid(RegisterEvents(l, connected))
    ensures Valid(UnregisterRemotingEvents(l, connected))
    ensures Valid(ConnectionStateChanged(l, state))
    ensures !l.registered ==> Valid(Start(l, true, cameraHasServer, connected))
    ensures l.registered ==> ConnectionStateChanged(l, state).fired == l.fired + [Route(state)]
    ensures !l.registered ==> ConnectionStateChanged(l, state).fired == l.fired
  {
    if l.registered {
      assert Repeat(Route(state), 1) == [Route(state)];
    }
  }

  /** A registration and unregistration around one connection: the listener hears
      `OnConnected` exactly once and `OnDisconnected` exactly once, in that order, and
      ends unsubscribed. */
  lemma RegisterThenUnregister(l: Listener)
    requires Valid(l) && !l.registered && l.hasServer
    ensures var r := UnregisterRemotingEvents(RegisterEvents(l, true), true);
      && r.fired == l.fired + [OnConnected, OnDisconnected]
      && r.subscriptions == 0 && !r.registered
  {
  }
}

=== FILE: geometry.dfy ===
/** Vectors, quaternions and 4x4 matrices of single-precision floats, in the native (`Hlr*`)
    and the Unity flavour, with the handedness flips and plain copies between them.

    A float is kept as its IEEE-754 binary32 bit pattern. The only arithmetic the code
    performs on these values is multiplication by -1 (or unary minus), which for every
    non-NaN value flips the sign bit and nothing else; the model makes negation exactly that. */
module Geometry {
  import opened Bytes

  type F32 = uint32

  const SignBit: nat := 0x8000_0000

  /** `x * -1`: the same magnitude bits with the opposite sign. */
  function Neg(x: F32): (r: F32)
    ensures r % SignBit == x % SignBit
    ensures (r >= SignBit) <==> (x < SignBit)
  {
    if x < SignBit then x + SignBit else x - SignBit
  }

  lemma NegInvolution(x: F32)
    ensures Neg(Neg(x)) == x
  {
  }

  /** Negation never leaves a float unchanged; in particular +0.0 becomes -0.0. */
  lemma NegChanges(x: F32)
    ensures Neg(x) != x
  {
  }

  /** Native structs of the C interface. */
  datatype HlrVector2 = HlrVector2(X: F32, Y: F32)
  datatype HlrVector3 = HlrVector3(X: F32, Y: F32, Z: F32)
  datatype HlrQuaternion = HlrQuaternion(X: F32, Y: F32, Z: F32, W: F32)

  /** A 4x4 matrix as 16 cells; cell `(row, col)` is `M<row><col>` of the native struct and
      `m<row><col>` of Unity's `Matrix4x4`. */
  type Cells = s: seq<F32> | |s| == 16 witness seq(16, _ => 0)

  function At(m: Cells, row: nat, col: nat): F32
    requires row < 4 && col < 4
  {
    m[4 * col + row]
  }

  datatype HlrMatrix4x4 = HlrMatrix4x4(cells: Cells)

  /** Unity value types. */
  datatype Vector2 = Vector2(x: F32, y: F32)
  datatype Vector3 = Vector3(x: F32, y: F32, z: F32)
  datatype Quaternion = Quaternion(x: F32, y: F32, z: F32, w: F32)
  datatype Matrix4x4 = Matrix4x4(cells: Cells)

  /** `ToUnity(HlrVector3)`: a component-wise copy. */
  function Vector3ToUnity(v: HlrVector3): (r: Vector3) {
    Vector3(v.X, v.Y, v.Z)
  }

  function Vector3FromUnity(v: Vector3): (r: HlrVector3) {
    HlrVector3(v.x, v.y, v.z)
  }

  /** The copy loses nothing: it is a bijection between the two vector types. */
  lemma Vector3CopyBijective(n: HlrVector3, u: Vector3)
    ensures Vector3FromUnity(Vector3ToUnity(n)) == n
    ensures Vector3ToUnity(Vector3FromUnity(u)) == u
    ensures Vector3ToUnity(n) == u <==> n == Vector3FromUnity(u)
  {
  }

  /** `ToUnity(HlrQuaternion)`: a component-wise copy, w last. */
  function QuaternionToUnity(q: HlrQuaternion): (r: Quaternion) {
    Quaternion(q.X, q.Y, q.Z, q.W)
  }

  function QuaternionFromUnity(q: Quaternion): (r: HlrQuaternion) {
    HlrQuaternion(q.x, q.y, q.z, q.w)
  }

  lemma QuaternionCopyBijective(n: HlrQuaternion, u: Quaternion)
    ensures QuaternionFromUnity(QuaternionToUnity(n)) == n
    ensures QuaternionToUnity(QuaternionFromUnity(u)) == u
    ensures QuaternionToUnity(n) == u <==> n == QuaternionFromUnity(u)
  {
  }

  /** `ToUnity(HlrMatrix4x4)`: every `M<r><c>` goes to `m<r><c>`, with no change of handedness. */
  function MatrixToUnity(m: HlrMatrix4x4): (r: Matrix4x4)
    ensures forall row, col :: 0 <= row < 4 && 0 <= col < 4 ==> At(r.cells, row, col) == At(m.cells, row, col)
  {
    Matrix4x4(m.cells)
  }

  /** `FlipHandedness(Vector2)` (both the `ref` form and the copying form): negates y. */
  function FlipVector2(v: Vector2): (r: Vector2) {
    v.(y := Neg(v.y))
  }

  /** `FlipHandedness(Vector3)`: negates z. */
  function FlipVector3(v: Vector3): (r: Vector3) {
    v.(z := Neg(v.z))
  }

  /** `FlipHandedness(Quaternion)`: negates x and y. */
  function FlipQuaternion(q: Quaternion): (r: Quaternion) {
    q.(x := Neg(q.x), y := Neg(q.y))
  }

  function NegateIf(b: bool, x: F32): F32 {
    if b then Neg(x) else x
  }

  /** Negate line 2 of the matrix, a column when `column` holds and a row otherwise. */
  function NegateLine2(m: Cells, column: bool): (r: Cells)
    ensures forall row, col :: 0 <= row < 4 && 0 <= col < 4 ==>
      At(r, row, col) == NegateIf((if column then col else row) == 2, At(m, row, col))
  {
    seq(16, i requires 0 <= i < 16 => NegateIf((if column then i / 4 else i % 4) == 2, m[i]))
  }

  /** `FlipHandednessColumnMajor`: m02, m12, m22, m32 are negated. */
  function FlipColumnMajor(m: Matrix4x4): (r: Matrix4x4) {
    Matrix4x4(NegateLine2(m.cells, true))
  }

  /** `FlipHandednessRowMajor`: m20, m21, m22, m23 are negated. */
  function FlipRowMajor(m: Matrix4x4): (r: Matrix4x4) {
    Matrix4x4(NegateLine2(m.cells, false))
  }

  /** Flipping a Vector2 negates exactly y, and flipping twice restores it. */
  lemma FlipVector2Spec(v: Vector2)
    ensures FlipVector2(v).x == v.x
    ensures FlipVector2(v).y != v.y && Neg(FlipVector2(v).y) == v.y
    ensures FlipVector2(FlipVector2(v)) == v
  {
  }

  /** Flipping a Vector3 negates exactly z, and flipping twice restores it. */
  lemma FlipVector3Spec(v: Vector3)
    ensures FlipVector3(v).x == v.x && FlipVector3(v).y == v.y
    ensures FlipVector3(v).z != v.z && Neg(FlipVector3(v).z) == v.z
    ensures FlipVector3(FlipVector3(v)) == v
  {
  }

  /** Flipping a quaternion negates exactly x and y, and flipping twice restores it. */
  lemma FlipQuaternionSpec(q: Quaternion)
    ensures FlipQuaternion(q).z == q.z && FlipQuaternion(q).w == q.w
    ensures Neg(FlipQuaternion(q).x) == q.x && Neg(FlipQuaternion(q).y) == q.y
    ensures FlipQuaternion(q) != q
    ensures FlipQuaternion(FlipQuaternion(q)) == q
  {
  }

  /** The column-major flip negates column 2 only and is an involution. */
  lemma FlipColumnMajorSpec(m: Matrix4x4)
    ensures forall row, col :: 0 <= row < 4 && 0 <= col < 4 ==>
      (At(FlipColumnMajor(m).cells, row, col) == At(m.cells, row, col) <==> col != 2)
    ensures FlipColumnMajor(FlipColumnMajor(m)) == m
  {
    var once := FlipColumnMajor(m).cells;
    var twice := FlipColumnMajor(FlipColumnMajor(m)).cells;
    forall i | 0 <= i < 16
      ensures twice[i] == m.cells[i]
    {
      assert At(twice, i % 4, i / 4) == At(m.cells, i % 4, i / 4);
    }
    assert twice == m.cells;
  }

  /** The row-major flip negates row 2 only and is an involution. */
  lemma FlipRowMajorSpec(m: Matrix4x4)
    ensures forall row, col :: 0 <= row < 4 && 0 <= col < 4 ==>
      (At(FlipRowMajor(m).cells, row, col) == At(m.cells, row, col) <==> row != 2)
    ensures FlipRowMajor(FlipRowMajor(m)) == m
  {
    var twice := FlipRowMajor(FlipRowMajor(m)).cells;
    forall i | 0 <= i < 16
      ensures twice[i] == m.cells[i]
    {
      assert At(twice, i % 4, i / 4) == At(m.cells, i % 4, i / 4);
    }
    assert twice == m.cells;
  }

  /** Both flips touch cell (2,2) and otherwise disjoint cells: the column-major flip of the
      transpose is the transpose of the row-major flip. */
  function Transpose(m: Cells): (r: Cells)
    ensures forall row, col :: 0 <= row < 4 && 0 <= col < 4 ==> At(r, row, col) == At(m, col, row)
  {
    var cells: seq<F32> := seq(16, i requires 0 <= i < 16 => m[4 * (i % 4) + i / 4]);
    cells
  }

  lemma FlipsAreTransposes(m: Matrix4x4)
    ensures FlipColumnMajor(Matrix4x4(Transpose(m.cells))).cells == Transpose(FlipRowMajor(m).cells)
  {
    var a := FlipColumnMajor(Matrix4x4(Transpose(m.cells))).cells;
    var b := Transpose(FlipRowMajor(m).cells);
    forall i | 0 <= i < 16
      ensures a[i] == b[i]
    {
      assert At(a, i % 4, i / 4) == At(b, i % 4, i / 4);
    }
  }
}

=== FILE: handjoints.dfy ===
/** `JointPoseArray` and `HlrHandPose`: the 26 joint slots of a hand, one per
    `HlrHandJointKind` from `Palm` (0) to `LittleTip` (25), read and written by index. */
module HandJoints {
  import opened Wrappers
  import opened Bytes
  import opened InputTypes

  /** The one exception the indexer throws. */
  datatype IndexFault = IndexOutOfRange

  /** `Length`: `HlrHandJointKind.Count`. */
  function Length(h: HandPose): (n: nat)
    ensures n == |h.jointPoses| == 26
  {
    JointCount
  }

  /** The indexer's getter: the slot of a joint kind; any other index throws. */
  function GetJoint(h: HandPose, index: int): (r: Result<JointPose, IndexFault>)
    ensures r.Success? <==> 0 <= index < Length(h)
    ensures r.Success? ==> r.value == h.jointPoses[index]
  {
    if 0 <= index < JointCount then Success(h.jointPoses[index]) else Failure(IndexOutOfRange)
  }

  /** The indexer's setter. */
  function SetJoint(h: HandPose, index: int, v: JointPose): (r: Result<HandPose, IndexFault>)
    ensures r.Success? <==> 0 <= index < Length(h)
  {
    if 0 <= index < JointCount then Success(HandPose(h.jointPoses[index := v])) else Failure(IndexOutOfRange)
  }

  /** Reading a slot after writing it gives the value written, and every other slot keeps
      its value. */
  lemma GetAfterSet(h: HandPose, i: int, j: int, v: JointPose)
    requires 0 <= i < JointCount
    ensures GetJoint(SetJoint(h, i, v).value, i) == Success(v)
    ensures j != i ==> GetJoint(SetJoint(h, i, v).value, j) == GetJoint(h, j)
  {
  }

  /** `TryGetJoint`: true with the slot, for every joint kind; any other value of the enum
      throws from the indexer. */
  function TryGetJoint(h: HandPose, kind: int32): (r: Result<(bool, JointPose), IndexFault>)
    ensures r.Success? <==> GetJoint(h, kind).Success?
    ensures r.Success? ==> r.value == (true, GetJoint(h, kind).value)
  {
    var joint := GetJoint(h, kind);
    if joint.Failure? then Failure(joint.error) else Success((true, joint.value))
  }

  /** `TryGetJoints`: copies the slot of each listed kind into the output array, in order,
      until the indexer throws on a kind outside the enum or the store throws on an output
      array shorter than the list. `done` is the number of poses written. */
  method TryGetJoints(h: HandPose, kinds: seq<int32>, poses: seq<JointPose>)
    returns (out: seq<JointPose>, done: nat, fault: Option<IndexFault>)
    ensures |out| == |poses| && done <= |kinds| && done <= |poses|
    ensures forall i :: 0 <= i < done ==> 0 <= kinds[i] < JointCount && out[i] == h.jointPoses[kinds[i]]
    ensures forall i :: done <= i < |out| ==> out[i] == poses[i]
    ensures fault.None? <==> done == |kinds|
    ensures fault.Some? ==> !(0 <= kinds[done] < JointCount) || done >= |poses|
  {
    out, done, fault := poses, 0, None;
    while done < |kinds| && fault.None?
      invariant done <= |kinds| && |out| == |poses| && done <= |poses|
      invariant forall i :: 0 <= i < done ==> 0 <= kinds[i] < JointCount && out[i] == h.jointPoses[kinds[i]]
      invariant forall i :: done <= i < |out| ==> out[i] == poses[i]
      invariant fault.Some? ==> done < |kinds| && (!(0 <= kinds[done] < JointCount) || done >= |poses|)
      decreases |kinds| - done, if fault.None? then 1 else 0
    {
      var joint := GetJoint(h, kinds[done]);
      if joint.Failure? || done >= |out| {
        fault := Some(IndexOutOfRange);
      } else {
        var next := out[done := joint.value];
        assert forall i :: 0 <= i < done ==> next[i] == out[i];
        assert next[done] == h.jointPoses[kinds[done]];
        out, done := next, done + 1;
      }
    }
  }
}

=== FILE: imagetracking.dfy ===
/** The image-tracking provider (`IsarXRImageTrackingSubsystem.IsarProvider`). It sends the
    reference images of its library to the client after a connect or a library change. It
    turns the client's image added, updated and removed messages into image trackables in
    the shared database, and reports their pending changes to Unity.

    The library (`IsarImageDatabase`) is not part of this model. Its `TrackedImages`
    dictionary is given as its entries in enumeration order, and a reference image carries
    the JPEG bytes of its texture, or none when it has no texture. */
module ImageTracking {
  import opened Wrappers
  import opened Bytes
  import opened Geometry
  import opened Types
  import opened Trackables
  import opened TrackablesDatabase
  import opened TrackableChanges
  import opened CustomMessageTypes

  /** A reference image: its GUID, its physical width and its texture as JPEG bytes. */
  datatype ReferenceImage = ReferenceImage(guid: nat, width: F32, jpg: Option<seq<byte>>)

  datatype LibraryEntry = LibraryEntry(id: int32, image: ReferenceImage)

  type Library = seq<LibraryEntry>

  /** The dictionary indexer: the image stored under the id, if any. */
  function Lookup(lib: Library, id: int32): (r: Option<ReferenceImage>)
    ensures r.None? <==> forall k :: 0 <= k < |lib| ==> lib[k].id != id
    ensures r.Some? ==> LibraryEntry(id, r.value) in lib
  {
    if |lib| == 0 then None
    else if lib[0].id == id then Some(lib[0].image)
    else Lookup(lib[1..], id)
  }

  /** The exceptions the provider lets escape: a null library or track, a missing
      dictionary key, and a null byte array handed to `AddRange`. */
  datatype ImageFault = NullReference | KeyNotFound | ArgumentNull

  /** The provider's fields: the last connection state, whether the images still have to be
      sent, whether the sender exists, and the library if one was set. */
  datatype ImageProvider = ImageProvider(connection: ConnectionState, sendImages: bool, hasSender: bool, library: Option<Library>)

  /** A provider as constructed. */
  const ImageCreated := ImageProvider(Disconnected, false, false, None)

  /** `SetupCustomMessage`: creates the sender. */
  function StartImages(p: ImageProvider): (r: ImageProvider)
    ensures r.hasSender && r == p.(hasSender := true)
  {
    p.(hasSender := true)
  }

  /** The `imageLibrary` setter: an ISAR library is taken and marked for sending; any other
      library (`None` here) is ignored. */
  function SetLibrary(p: ImageProvider, lib: Option<Library>): (r: ImageProvider)
    ensures lib.Some? ==> r.library == lib && r.sendImages
    ensures lib.None? ==> r == p
    ensures r.connection == p.connection && r.hasSender == p.hasSender
  {
    if lib.Some? then p.(library := lib, sendImages := true) else p
  }

  // Sending the reference images.

  /** The image-to-track payload: id, image type MOVING, width, then the JPEG bytes; no
      payload when there is no texture. */
  function ImageToTrackPayload(id: int32, image: ReferenceImage): (r: Option<seq<byte>>)
    ensures r.Some? <==> image.jpg.Some?
    ensures r.Some? ==> |r.value| == 12 + |image.jpg.value|
  {
    if image.jpg.None? then None
    else Some(Int32ToLE(id) + Int32ToLE(ImageMoving) + UInt32ToLE(image.width) + image.jpg.value)
  }

  /** How the client reads an image-to-track payload: id, image type, width, image bytes. */
  function ReadImageToTrack(p: seq<byte>): (r: Option<(int32, int32, F32, seq<byte>)>)
    ensures r.Some? <==> |p| >= 12
  {
    if |p| < 12 then None else Some((ReadInt32LE(p, 0), ReadInt32LE(p, 4), ReadUInt32LE(p, 8), p[12..]))
  }

  /** The payload carries the id, MOVING, the width and the image bytes. */
  lemma ImageToTrackRoundTrip(id: int32, image: ReferenceImage)
    requires image.jpg.Some?
    ensures ReadImageToTrack(ImageToTrackPayload(id, image).value) == Some((id, ImageMoving, image.width, image.jpg.value))
  {
    var a := Int32ToLE(id);
    var b := Int32ToLE(ImageMoving);
    var c := UInt32ToLE(image.width);
    var jpg := image.jpg.value;
    var none: seq<byte> := [];
    var p := ImageToTrackPayload(id, image).value;
    assert p == none + a + (b + c + jpg);
    Int32LERoundTrip(id, none, b + c + jpg);
    assert p == a + b + (c + jpg);
    Int32LERoundTrip(ImageMoving, a, c + jpg);
    assert p == (a + b) + c + jpg;
    UInt32LERoundTrip(image.width, a + b, jpg);
    assert p[12..] == jpg;
  }

  /** `SendImage`: without a sender nothing is sent (the call only logs); without a texture
      `AddRange(null)` throws. */
  function SendImage(p: ImageProvider, id: int32, image: ReferenceImage): (r: Result<Option<Sent>, ImageFault>)
    ensures !p.hasSender ==> r == Success(None)
    ensures p.hasSender && image.jpg.None? ==> r == Failure(ArgumentNull)
    ensures p.hasSender && image.jpg.Some? ==>
      && r.Success? && r.value.Some?
      && r.value.value.messageType == Code(ImageToTrack)
      && ReadImageToTrack(r.value.value.payload) == Some((id, ImageMoving, image.width, image.jpg.value))
  {
    if !p.hasSender then Success(None)
    else
      var payload := ImageToTrackPayload(id, image);
      if payload.None? then Failure(ArgumentNull)
      else
        ImageToTrackRoundTrip(id, image);
        Success(Some(Sent(Code(ImageToTrack), payload.value)))
  }

  /** The `foreach` over the library: the messages sent, in order, until an exception. */
  function SendAll(p: ImageProvider, lib: Library): (r: (seq<Sent>, Option<ImageFault>))
    ensures |r.0| <= |lib|
    ensures !p.hasSender ==> r == ([], None)
    ensures p.hasSender && r.1.None? ==> |r.0| == |lib|
    decreases |lib|
  {
    if |lib| == 0 then ([], None)
    else
      var first := SendImage(p, lib[0].id, lib[0].image);
      if first.Failure? then ([], Some(first.error))
      else
        var rest := SendAll(p, lib[1..]);
        ((if first.value.Some? then [first.value.value] else []) + rest.0, rest.1)
  }

  /** With a sender and every texture present, each library entry is sent in order, as an
      image-to-track message carrying its id, MOVING, its width and its bytes. */
  lemma {:induction false} SendAllSendsEach(p: ImageProvider, lib: Library)
    requires p.hasSender && forall k :: 0 <= k < |lib| ==> lib[k].image.jpg.Some?
    ensures SendAll(p, lib).1.None?
    ensures forall k :: 0 <= k < |lib| ==>
      && SendAll(p, lib).0[k].messageType == Code(ImageToTrack)
      && ReadImageToTrack(SendAll(p, lib).0[k].payload) == Some((lib[k].id, ImageMoving, lib[k].image.width, lib[k].image.jpg.value))
    decreases |lib|
  {
    if |lib| > 0 {
      SendAllSendsEach(p, lib[1..]);
      var sent := SendAll(p, lib).0;
      forall k | 1 <= k < |lib|
        ensures sent[k] == SendAll(p, lib[1..]).0[k - 1] && lib[k] == lib[1..][k - 1]
      {
      }
    }
  }

  /** The first entry without a texture stops the sending, after the entries before it. */
  lemma {:induction false} SendAllStopsAtMissingTexture(p: ImageProvider, lib: Library, k: nat)
    requires p.hasSender && k < |lib| && lib[k].image.jpg.None?
    requires forall j :: 0 <= j < k ==> lib[j].image.jpg.Some?
    ensures SendAll(p, lib) == (SendAll(p, lib[..k]).0, Some(ArgumentNull))
    ensures |SendAll(p, lib).0| == k
    decreases k
  {
    if k > 0 {
      SendAllStopsAtMissingTexture(p, lib[1..], k - 1);
      assert lib[..k][1..] == lib[1..][..k - 1];
      SendAllSendsEach(p, lib[..k]);
    }
  }

  // Connection changes and change reports.

  /** No image is Added or Updated. */
  predicate NoLiveImage(db: Database) {
    forall i :: 0 <= i < |db| && KindOf(db[i]) == ImageKind ==> !IsLive(db[i].updateType)
  }

  /** `OnConnectionStateChanged`: connecting marks the images for sending; anything else
      marks every live image for removal. */
  function OnConnectionStateChanged(p: ImageProvider, db: Database, s: ConnectionState): (r: (ImageProvider, Database))
    ensures r.0.connection == s && r.0.library == p.library && r.0.hasSender == p.hasSender
    ensures s == Connected ==> r.0.sendImages && r.1 == db
    ensures s != Connected ==> r.0.sendImages == p.sendImages && |r.1| == |db| && NoLiveImage(r.1)
    ensures s != Connected ==> forall i :: 0 <= i < |db| && KindOf(db[i]) == ImageKind && IsLive(db[i].updateType) ==>
      PendingAs(r.1[i], ImageKind, Removed)
  {
    if s == Connected then (p.(connection := s, sendImages := true), db)
    else
      RemoveAllTracksLeavesNoneLive(db, ImageKind);
      (p.(connection := s), RemoveAllTracks(db, ImageKind))
  }

  /** `GetChanges`: when connected with images to send, the library is sent first; a missing
      library or texture throws out of the call, leaving the flag set and nothing
      collected; a completed send clears the flag, so the library goes out once per connect.
      The pending image changes are then reported, whatever the connection. */
  method GetChanges(p: ImageProvider, db: Database)
    returns (q: ImageProvider, r: Database, c: Changes, sent: seq<Sent>, fault: Option<ImageFault>)
    ensures fault.Some? ==> q == p && r == db && c == NoChanges
    ensures !(p.connection == Connected && p.sendImages) ==> q == p && sent == [] && fault.None?
    ensures p.connection == Connected && p.sendImages && p.library.None? ==> fault == Some(NullReference) && sent == []
    ensures p.connection == Connected && p.sendImages && p.library.Some? ==>
      (sent, fault) == SendAll(p, p.library.value)
    ensures p.connection == Connected && p.sendImages && fault.None? ==> q == p.(sendImages := false)
    ensures fault.None? ==>
      && c.added == PendingTracks(db, ImageKind, Added)
      && c.updated == PendingTracks(db, ImageKind, Updated)
      && c.removed == PendingRemovals(db, ImageKind)
      && r == RemoveAllIds(Cleared(db, ImageKind), c.removed)
  {
    q, sent, fault := p, [], None;
    if p.connection == Connected && p.sendImages {
      if p.library.None? {
        return p, db, NoChanges, [], Some(NullReference);
      }
      var outcome := SendAll(p, p.library.value);
      sent := outcome.0;
      if outcome.1.Some? {
        return p, db, NoChanges, sent, outcome.1;
      }
      q := p.(sendImages := false);
    }
    r, c := TrackableChanges.GetChanges(db, ImageKind);
  }

  // The image messages.

  /** The message length the handler requires: eleven words, the type included. */
  const ImageMessageLength: int := 4 * 11

  /** The update a message type stands for; other types are ignored. */
  function UpdateTypeOf(t: int32): (r: Option<UpdateType>)
    ensures r == Some(Added) <==> t == Code(ImageAdded)
    ensures r == Some(Updated) <==> t == Code(ImageUpdated)
    ensures r == Some(Removed) <==> t == Code(ImageRemoved)
    ensures r.None? <==> FromCode(t) !in {Some(ImageAdded), Some(ImageUpdated), Some(ImageRemoved)}
  {
    if t == Code(ImageAdded) then Some(Added)
    else if t == Code(ImageUpdated) then Some(Updated)
    else if t == Code(ImageRemoved) then Some(Removed)
    else None
  }

  /** An image as a message reports it, in Unity's handedness. */
  datatype ImageReport = ImageReport(imageId: int32, pose: Pose, width: F32, height: F32)

  /** The ten words after the type: id, position xyz, rotation xyzw, width, height; position
      and rotation are flipped. */
  function ParseReport(w: seq<uint32>): (r: ImageReport)
    requires |w| >= 10
  {
    var position := FlipVector3(Vector3(w[1], w[2], w[3]));
    var rotation := FlipQuaternion(Quaternion(w[4], w[5], w[6], w[7]));
    ImageReport(ToInt32(w[0]), Pose(position, rotation), w[8], w[9])
  }

  /** The copy as written: `expectedLength` bytes from just after the type, so a message of
      exactly that length is read four bytes past its end (`beyond`). */
  function CopyAsWritten(message: seq<byte>, beyond: seq<byte>): (c: seq<byte>)
    requires |message| >= ImageMessageLength && |beyond| == 4
    ensures |c| == ImageMessageLength
  {
    (message + beyond)[4..4 + ImageMessageLength]
  }

  /** The copy as intended: the `expectedLength - 4` bytes after the type. */
  function CopyCorrected(message: seq<byte>): (c: seq<byte>)
    requires |message| >= ImageMessageLength
    ensures |c| == ImageMessageLength - 4
    ensures forall k :: 0 <= k < |c| ==> c[k] == message[4 + k]
  {
    message[4..ImageMessageLength]
  }

  /** For a message of exactly the required length, the copy as written ends with the four
      bytes that follow the message. */
  lemma ImageCopyOverreads(message: seq<byte>, beyond: seq<byte>)
    requires |message| == ImageMessageLength && |beyond| == 4
    ensures CopyAsWritten(message, beyond)[ImageMessageLength - 4..] == beyond
  {
  }

  /** The parse reads only the first ten words, so both copies give the same report. */
  lemma ImageCopiesReadAlike(message: seq<byte>, beyond: seq<byte>)
    requires |message| >= ImageMessageLength && |beyond| == 4
    ensures ReadWordsLE(CopyAsWritten(message, beyond), 0, 10) == ReadWordsLE(CopyCorrected(message), 0, 10)
  {
    var a := CopyAsWritten(message, beyond);
    var b := CopyCorrected(message);
    assert a[..40] == b;
    forall k | 0 <= k < 10 ensures ReadUInt32LE(a, 4 * k) == ReadUInt32LE(b, 4 * k) {
      assert a[4 * k..4 * k + 4] == b[4 * k..4 * k + 4];
    }
  }

  /** The handler's reading of a message: the type (read even from a message shorter than
      four bytes, hence `beyond`), then the length check and the report. */
  function ReadImageMessage(message: seq<byte>, beyond: seq<byte>): (r: Option<(UpdateType, ImageReport)>)
    requires |beyond| == 4
    ensures |message| < ImageMessageLength ==> r.None?
    ensures r.Some? ==> Some(r.value.0) == UpdateTypeOf(ReadInt32LE(message + beyond, 0))
  {
    var u := UpdateTypeOf(ReadInt32LE(message + beyond, 0));
    if u.None? || |message| < ImageMessageLength then None
    else Some((u.value, ParseReport(ReadWordsLE(CopyCorrected(message), 0, 10))))
  }

  /** The words of a report as the client writes them, flipped back. */
  function ReportWords(rep: ImageReport): (w: seq<uint32>)
    ensures |w| == 10
  {
    var position := FlipVector3(rep.pose.position);
    var rotation := FlipQuaternion(rep.pose.rotation);
    [ToUInt32(rep.imageId), position.x, position.y, position.z,
     rotation.x, rotation.y, rotation.z, rotation.w, rep.width, rep.height]
  }

  /** An image message: the type, then the report's words. */
  function EncodeImageMessage(t: MessageType, rep: ImageReport): (m: seq<byte>)
    ensures |m| == ImageMessageLength
  {
    Int32ToLE(Code(t)) + WordsToLE(ReportWords(rep))
  }

  lemma ReportWordsRoundTrip(rep: ImageReport)
    ensures ParseReport(ReportWords(rep)) == rep
  {
    FlipVector3Spec(rep.pose.position);
    FlipQuaternionSpec(rep.pose.rotation);
  }

  /** An added, updated or removed message reads back as its update and its report. */
  lemma ImageMessageRoundTrip(t: MessageType, rep: ImageReport, beyond: seq<byte>)
    requires t in {ImageAdded, ImageUpdated, ImageRemoved} && |beyond| == 4
    ensures ReadImageMessage(EncodeImageMessage(t, rep), beyond) == Some((UpdateTypeOf(Code(t)).value, rep))
  {
    var m := EncodeImageMessage(t, rep);
    var ws := ReportWords(rep);
    var none: seq<byte> := [];
    Int32LERoundTrip(Code(t), none, WordsToLE(ws) + beyond);
    assert m + beyond == none + Int32ToLE(Code(t)) + (WordsToLE(ws) + beyond);
    assert CopyCorrected(m) == none + WordsToLE(ws) + none;
    WordsRoundTrip(ws, none, none);
    ReportWordsRoundTrip(rep);
  }

  // Image updates.

  /** `UpdateImage`: an added image gets a new trackable for its reference image (a null
      library or an unknown id throws); any other update goes to the first image with the
      id (none throws). `newId` is the fresh GUID a new trackable takes. */
  function UpdateImage(lib: Option<Library>, db: Database, newId: TrackableId, u: UpdateType, rep: ImageReport): (r: Result<Database, ImageFault>)
    ensures u == Added && lib.None? ==> r == Failure(NullReference)
    ensures u == Added && lib.Some? && Lookup(lib.value, rep.imageId).None? ==> r == Failure(KeyNotFound)
    ensures u != Added && GetTrackOfKind(db, rep.imageId, ImageKind).None? ==> r == Failure(NullReference)
    ensures r.Success? ==> |db| <= |r.value| <= |db| + 1
    ensures r.Success? ==> forall j :: 0 <= j < |db| ==>
      r.value[j].ownId == db[j].ownId && r.value[j].isarId == db[j].isarId && KindOf(r.value[j]) == KindOf(db[j])
    ensures r.Success? && |r.value| == |db| + 1 ==> r.value[|db|].ownId == newId
  {
    if u == Added then
      if lib.None? then Failure(NullReference)
      else
        var image := Lookup(lib.value, rep.imageId);
        if image.None? then Failure(KeyNotFound)
        else
          var added := AddTrack(db, NewImage(newId, image.value.guid, rep.imageId));
          Success(added[|db| := UpdateTrackedImageData(added[|db|], u, rep.pose, rep.width, rep.height)])
    else if GetTrackOfKind(db, rep.imageId, ImageKind).None? then Failure(NullReference)
    else
      var i := IndexOfIsarId(db, rep.imageId).value;
      Success(db[i := UpdateTrackedImageData(db[i], u, rep.pose, rep.width, rep.height)])
  }

  /** An added image is appended as a new tracking image of its reference image, pending as
      added, even when an image with that id already exists. */
  lemma AddedImageAppended(lib: Library, db: Database, newId: TrackableId, rep: ImageReport)
    requires Lookup(lib, rep.imageId).Some?
    ensures var r := UpdateImage(Some(lib), db, newId, Added, rep);
      && r.Success? && |r.value| == |db| + 1 && r.value[..|db|] == db
      && PendingAs(r.value[|db|], ImageKind, Added)
      && TrackIdOf(r.value[|db|]) == newId && r.value[|db|].isarId == rep.imageId
      && ReferenceOf(r.value[|db|]) == Lookup(lib, rep.imageId).value.guid
      && r.value[|db|].track.image.trackingState == TrackingTracking
      && r.value[|db|].track.image.pose == rep.pose
  {
    var r := UpdateImage(Some(lib), db, newId, Added, rep);
    assert r.value[..|db|] == db;
  }

  /** A removal of a known image with nothing pending leaves it pending as removed and no
      longer tracking; only its entry changes. */
  lemma KnownImageRemoved(lib: Option<Library>, db: Database, newId: TrackableId, rep: ImageReport)
    requires GetTrackOfKind(db, rep.imageId, ImageKind).Some?
    requires !GetTrackOfKind(db, rep.imageId, ImageKind).value.hasChanges
    ensures IndexOfIsarId(db, rep.imageId).Some?
    ensures var r := UpdateImage(lib, db, newId, Removed, rep);
      var i := IndexOfIsarId(db, rep.imageId).value;
      && r.Success? && |r.value| == |db|
      && (forall j :: 0 <= j < |db| && j != i ==> r.value[j] == db[j])
      && PendingAs(r.value[i], ImageKind, Removed)
      && r.value[i].track.image.trackingState == TrackingNone
  {
  }

  /** An image update with a new id keeps the database settled. */
  lemma UpdateImageSettled(lib: Option<Library>, db: Database, newId: TrackableId, u: UpdateType, rep: ImageReport)
    requires Settled(db) && IsNewId(db, newId)
    ensures UpdateImage(lib, db, newId, u, rep).Success? ==> Settled(UpdateImage(lib, db, newId, u, rep).value)
  {
  }

  /** `OnCustomMessageReceived`: a message of another type or too short is ignored;
      otherwise the image is updated. The copy is the corrected one, which reads the same
      report without reading past the message. */
  function OnCustomMessageReceived(p: ImageProvider, db: Database, message: seq<byte>, beyond: seq<byte>, newId: TrackableId): (r: Result<Database, ImageFault>)
    requires |beyond| == 4
    ensures |message| < ImageMessageLength ==> r == Success(db)
    ensures UpdateTypeOf(ReadInt32LE(message + beyond, 0)).None? ==> r == Success(db)
  {
    match ReadImageMessage(message, beyond)
    case None => Success(db)
    case Some((u, rep)) => UpdateImage(p.library, db, newId, u, rep)
  }

  /** An image-added message for an image of the library appends its trackable. */
  lemma AddedMessageAppends(p: ImageProvider, db: Database, rep: ImageReport, beyond: seq<byte>, newId: TrackableId)
    requires |beyond| == 4 && p.library.Some? && Lookup(p.library.value, rep.imageId).Some?
    ensures var r := OnCustomMessageReceived(p, db, EncodeImageMessage(ImageAdded, rep), beyond, newId);
      r.Success? && |r.value| == |db| + 1 && PendingAs(r.value[|db|], ImageKind, Added)
  {
    ImageMessageRoundTrip(ImageAdded, rep, beyond);
    AddedImageAppended(p.library.value, db, newId, rep);
  }
}

=== FILE: inputconvert.dfy ===
/** The conversion of received input events from the right-handed coordinate system of the
    native side to Unity's left-handed one (`Native/Input/Convert.cs`). Every conversion
    only negates chosen components, so each is its own inverse. */
module InputConvert {
  import opened Wrappers
  import opened Bytes
  import opened Geometry
  import opened InputTypes

  function NegZ(v: HlrVector3): HlrVector3 {
    v.(Z := Neg(v.Z))
  }

  function NegXY(q: HlrQuaternion): HlrQuaternion {
    q.(X := Neg(q.X), Y := Neg(q.Y))
  }

  /** `DoConversion(HlrJointPose)`. */
  function ConvertJoint(j: JointPose): (r: JointPose) {
    j.(position := NegZ(j.position), orientation := NegXY(j.orientation))
  }

  /** `DoConversion(ref HlrSpatialInteractionSourcePose)`. */
  function ConvertSourcePose(p: SourcePose): (r: SourcePose) {
    p.(velocity := NegZ(p.velocity), angularVelocity := NegZ(p.angularVelocity),
       gripPosition := NegZ(p.gripPosition), gripOrientation := NegXY(p.gripOrientation),
       pointerPosition := NegZ(p.pointerPosition), pointerOrientation := NegXY(p.pointerOrientation))
  }

  /** `DoConversion(ref HlrHeadPose)`. */
  function ConvertHeadPose(h: HeadPose): (r: HeadPose) {
    h.(forwardDirection := NegZ(h.forwardDirection), upDirection := NegZ(h.upDirection),
       position := NegZ(h.position))
  }

  /** `DoConversion(ref HlrHandPose)` as a whole-array map. */
  function ConvertHand(h: HandPose): (r: HandPose) {
    HandPose(seq(JointCount, i requires 0 <= i < JointCount => ConvertJoint(h.jointPoses[i])))
  }

  /** `DoConversion(ref HlrHandPose)`: the loop that converts the joints one slot at a time. */
  method ConvertHandPose(h: HandPose) returns (r: HandPose)
    ensures forall i :: 0 <= i < JointCount ==> r.jointPoses[i] == ConvertJoint(h.jointPoses[i])
  {
    var joints := h.jointPoses;
    var i := 0;
    while i < |joints|
      invariant 0 <= i <= |joints| == JointCount
      invariant forall k :: 0 <= k < i ==> joints[k] == ConvertJoint(h.jointPoses[k])
      invariant forall k :: i <= k < |joints| ==> joints[k] == h.jointPoses[k]
    {
      joints := joints[i := ConvertJoint(joints[i])];
      i := i + 1;
    }
    r := HandPose(joints);
  }

  /** `DoConversion(ref HlrSpatialInteractionSourceState)`. */
  function ConvertSourceState(s: SourceState): (r: SourceState) {
    s.(properties := s.properties.(
         sourcePose := ConvertSourcePose(s.properties.sourcePose),
         sourceLossMitigationDirection := NegZ(s.properties.sourceLossMitigationDirection)),
       headPose := ConvertHeadPose(s.headPose),
       handPose := ConvertHand(s.handPose))
  }

  /** The joint conversion negates Position.Z, Orientation.X and Orientation.Y, keeps every
      other component, and undoes itself. */
  lemma ConvertJointSpec(j: JointPose)
    ensures ConvertJoint(j).position.Z != j.position.Z
    ensures ConvertJoint(j).orientation.X != j.orientation.X
    ensures ConvertJoint(j).orientation.Y != j.orientation.Y
    ensures ConvertJoint(j).(position := j.position, orientation := j.orientation) == j
    ensures ConvertJoint(j).position.(Z := j.position.Z) == j.position
    ensures ConvertJoint(j).orientation.(X := j.orientation.X, Y := j.orientation.Y) == j.orientation
    ensures ConvertJoint(ConvertJoint(j)) == j
  {
    NegChanges(j.position.Z);
    NegChanges(j.orientation.X);
    NegChanges(j.orientation.Y);
  }

  /** The head conversion negates Z of position, forward and up, and nothing else. */
  lemma ConvertHeadPoseSpec(h: HeadPose)
    ensures ConvertHeadPose(h).position.Z != h.position.Z
    ensures ConvertHeadPose(h).forwardDirection.Z != h.forwardDirection.Z
    ensures ConvertHeadPose(h).upDirection.Z != h.upDirection.Z
    ensures ConvertHeadPose(h).position.(Z := h.position.Z) == h.position
    ensures ConvertHeadPose(h).forwardDirection.(Z := h.forwardDirection.Z) == h.forwardDirection
    ensures ConvertHeadPose(h).upDirection.(Z := h.upDirection.Z) == h.upDirection
    ensures ConvertHeadPose(ConvertHeadPose(h)) == h
  {
    NegChanges(h.position.Z);
    NegChanges(h.forwardDirection.Z);
    NegChanges(h.upDirection.Z);
  }

  /** The source-pose conversion negates Z of both velocities and both positions and X, Y of
      both orientations; accuracy and flags are kept. */
  lemma ConvertSourcePoseSpec(p: SourcePose)
    ensures ConvertSourcePose(p).velocity.Z != p.velocity.Z
    ensures ConvertSourcePose(p).angularVelocity.Z != p.angularVelocity.Z
    ensures ConvertSourcePose(p).gripPosition.Z != p.gripPosition.Z
    ensures ConvertSourcePose(p).pointerPosition.Z != p.pointerPosition.Z
    ensures ConvertSourcePose(p).gripOrientation.X != p.gripOrientation.X
    ensures ConvertSourcePose(p).gripOrientation.Y != p.gripOrientation.Y
    ensures ConvertSourcePose(p).pointerOrientation.X != p.pointerOrientation.X
    ensures ConvertSourcePose(p).pointerOrientation.Y != p.pointerOrientation.Y
    ensures ConvertSourcePose(p).velocity.(Z := p.velocity.Z) == p.velocity
    ensures ConvertSourcePose(p).angularVelocity.(Z := p.angularVelocity.Z) == p.angularVelocity
    ensures ConvertSourcePose(p).gripPosition.(Z := p.gripPosition.Z) == p.gripPosition
    ensures ConvertSourcePose(p).pointerPosition.(Z := p.pointerPosition.Z) == p.pointerPosition
    ensures ConvertSourcePose(p).gripOrientation.(X := p.gripOrientation.X, Y := p.gripOrientation.Y) == p.gripOrientation
    ensures ConvertSourcePose(p).pointerOrientation.(X := p.pointerOrientation.X, Y := p.pointerOrientation.Y) == p.pointerOrientation
    ensures ConvertSourcePose(p).positionAccuracy == p.positionAccuracy
    ensures ConvertSourcePose(p).flags == p.flags
    ensures ConvertSourcePose(ConvertSourcePose(p)) == p
  {
    NegChanges(p.velocity.Z);
    NegChanges(p.angularVelocity.Z);
    NegChanges(p.gripPosition.Z);
    NegChanges(p.pointerPosition.Z);
    NegChanges(p.gripOrientation.X);
    NegChanges(p.gripOrientation.Y);
    NegChanges(p.pointerOrientation.X);
    NegChanges(p.pointerOrientation.Y);
  }

  lemma ConvertHandInvolution(h: HandPose)
    ensures ConvertHand(ConvertHand(h)) == h
  {
    var twice := ConvertHand(ConvertHand(h));
    forall i | 0 <= i < JointCount ensures twice.jointPoses[i] == h.jointPoses[i] {
      ConvertJointSpec(h.jointPoses[i]);
    }
    assert twice.jointPoses == h.jointPoses;
  }

  /** The state conversion undoes itself and leaves the source, the select amount and the
      flags untouched. */
  lemma ConvertSourceStateInvolution(s: SourceState)
    ensures ConvertSourceState(ConvertSourceState(s)) == s
    ensures ConvertSourceState(s).source == s.source
    ensures ConvertSourceState(s).selectPressedAmount == s.selectPressedAmount
    ensures ConvertSourceState(s).flags == s.flags
    ensures ConvertSourceState(s).properties.sourceLossRisk == s.properties.sourceLossRisk
  {
    ConvertSourcePoseSpec(s.properties.sourcePose);
    ConvertHeadPoseSpec(s.headPose);
    ConvertHandInvolution(s.handPose);
  }

  // ---------------------------------------------------------------------------------------
  // The per-type converters and their table

  datatype Converter =
    | ConvertInteractionSourceDetected | ConvertInteractionSourceLost
    | ConvertInteractionSourcePressed | ConvertInteractionSourceUpdated
    | ConvertInteractionSourceReleased
    | ConvertSelected | ConvertTapped
    | ConvertHoldStarted | ConvertHoldCompleted | ConvertHoldCanceled
    | ConvertManipulationStarted | ConvertManipulationUpdated
    | ConvertManipulationCompleted | ConvertManipulationCanceled
    | ConvertNavigationStarted | ConvertNavigationUpdated
    | ConvertNavigationCompleted | ConvertNavigationCanceled

  /** `DispatchTable`, in the order of its initializer. */
  const DispatchTable: seq<Converter> := [
    ConvertInteractionSourceDetected, ConvertInteractionSourceLost,
    ConvertInteractionSourcePressed, ConvertInteractionSourceUpdated,
    ConvertInteractionSourceReleased,
    ConvertSelected, ConvertTapped,
    ConvertHoldStarted, ConvertHoldCompleted, ConvertHoldCanceled,
    ConvertManipulationStarted, ConvertManipulationUpdated,
    ConvertManipulationCompleted, ConvertManipulationCanceled,
    ConvertNavigationStarted, ConvertNavigationUpdated,
    ConvertNavigationCompleted, ConvertNavigationCanceled]

  function GestureBoth(g: Gesture): Gesture {
    g.(sourcePose := ConvertSourcePose(g.sourcePose), headPose := ConvertHeadPose(g.headPose))
  }

  /** What one converter does to the arguments of its own event type. Arguments of another
      type are left as they are. */
  function Apply(c: Converter, e: InputEvent): InputEvent {
    match c
    case ConvertInteractionSourceDetected => (match e case SourceDetected(s) => SourceDetected(ConvertSourceState(s)) case _ => e)
    case ConvertInteractionSourceLost => (match e case SourceLost(s) => SourceLost(ConvertSourceState(s)) case _ => e)
    case ConvertInteractionSourcePressed => (match e case SourcePressed(s) => SourcePressed(ConvertSourceState(s)) case _ => e)
    case ConvertInteractionSourceUpdated => (match e case SourceUpdated(s) => SourceUpdated(ConvertSourceState(s)) case _ => e)
    case ConvertInteractionSourceReleased => (match e case SourceReleased(s) => SourceReleased(ConvertSourceState(s)) case _ => e)
    case ConvertTapped => (match e case Tapped(g, n) => Tapped(g.(headPose := ConvertHeadPose(g.headPose)), n) case _ => e)
    case ConvertHoldStarted => (match e case HoldStarted(g) => HoldStarted(GestureBoth(g)) case _ => e)
    case ConvertHoldCompleted => (match e case HoldCompleted(g) => HoldCompleted(GestureBoth(g)) case _ => e)
    case ConvertHoldCanceled => (match e case HoldCanceled(g) => HoldCanceled(GestureBoth(g)) case _ => e)
    case ConvertManipulationStarted => (match e case ManipulationStarted(g) => ManipulationStarted(GestureBoth(g)) case _ => e)
    case ConvertManipulationUpdated => (match e case ManipulationUpdated(g, d) => ManipulationUpdated(GestureBoth(g), ManipulationDelta(NegZ(d.translation))) case _ => e)
    case ConvertManipulationCompleted => (match e case ManipulationCompleted(g, d) => ManipulationCompleted(GestureBoth(g), ManipulationDelta(NegZ(d.translation))) case _ => e)
    case ConvertManipulationCanceled => (match e case ManipulationCanceled(g) => ManipulationCanceled(GestureBoth(g)) case _ => e)
    case ConvertNavigationStarted => (match e case NavigationStarted(g, f) => NavigationStarted(GestureBoth(g), f) case _ => e)
    case ConvertNavigationUpdated => (match e case NavigationUpdated(g, f, o) => NavigationUpdated(GestureBoth(g), f, NegZ(o)) case _ => e)
    case ConvertNavigationCompleted => (match e case NavigationCompleted(g, f, o) => NavigationCompleted(GestureBoth(g), f, NegZ(o)) case _ => e)
    case ConvertNavigationCanceled => (match e case NavigationCanceled(g, f) => NavigationCanceled(GestureBoth(g), f) case _ => e)
    case ConvertSelected => e
  }

  /** The reference: what conversion means for each kind of event. Source events convert the
      whole state; gesture events convert source pose and head pose, plus the manipulation
      delta or the navigation offset; a tap converts only its head pose; a selection carries
      nothing. */
  function ToUnity(e: InputEvent): InputEvent {
    match e
    case SourceDetected(s) => SourceDetected(ConvertSourceState(s))
    case SourceLost(s) => SourceLost(ConvertSourceState(s))
    case SourcePressed(s) => SourcePressed(ConvertSourceState(s))
    case SourceUpdated(s) => SourceUpdated(ConvertSourceState(s))
    case SourceReleased(s) => SourceReleased(ConvertSourceState(s))
    case Selected => Selected
    case Tapped(g, n) => Tapped(g.(headPose := ConvertHeadPose(g.headPose)), n)
    case ManipulationUpdated(g, d) => ManipulationUpdated(GestureBoth(g), ManipulationDelta(NegZ(d.translation)))
    case ManipulationCompleted(g, d) => ManipulationCompleted(GestureBoth(g), ManipulationDelta(NegZ(d.translation)))
    case NavigationUpdated(g, f, o) => NavigationUpdated(GestureBoth(g), f, NegZ(o))
    case NavigationCompleted(g, f, o) => NavigationCompleted(GestureBoth(g), f, NegZ(o))
    case HoldStarted(g) => HoldStarted(GestureBoth(g))
    case HoldCompleted(g) => HoldCompleted(GestureBoth(g))
    case HoldCanceled(g) => HoldCanceled(GestureBoth(g))
    case ManipulationStarted(g) => ManipulationStarted(GestureBoth(g))
    case ManipulationCanceled(g) => ManipulationCanceled(GestureBoth(g))
    case NavigationStarted(g, f) => NavigationStarted(GestureBoth(g), f)
    case NavigationCanceled(g, f) => NavigationCanceled(GestureBoth(g), f)
  }

  /** The table has one converter per event type, in enum order: looking up an event's own
      type code yields the converter that does what the reference says. */
  lemma DispatchTableMatchesTypes(e: InputEvent)
    ensures |DispatchTable| == EventTypeCount
    ensures Apply(DispatchTable[TypeCode(e)], e) == ToUnity(e)
  {
    if TypeCode(e) < 6 { DispatchLow(e); }
    else if TypeCode(e) < 12 { DispatchMiddle(e); }
    else { DispatchHigh(e); }
  }

  lemma DispatchLow(e: InputEvent)
    requires 0 <= TypeCode(e) < 6
    ensures Apply(DispatchTable[TypeCode(e)], e) == ToUnity(e)
  {
    if e.SourceDetected? { assert DispatchTable[0] == ConvertInteractionSourceDetected; }
    else if e.SourceLost? { assert DispatchTable[1] == ConvertInteractionSourceLost; }
    else if e.SourcePressed? { assert DispatchTable[2] == ConvertInteractionSourcePressed; }
    else if e.SourceUpdated? { assert DispatchTable[3] == ConvertInteractionSourceUpdated; }
    else if e.SourceReleased? { assert DispatchTable[4] == ConvertInteractionSourceReleased; }
    else { assert DispatchTable[5] == ConvertSelected; }
  }

  lemma DispatchMiddle(e: InputEvent)
    requires 6 <= TypeCode(e) < 12
    ensures Apply(DispatchTable[TypeCode(e)], e) == ToUnity(e)
  {
    if e.Tapped? { assert DispatchTable[6] == ConvertTapped; }
    else if e.HoldStarted? { assert DispatchTable[7] == ConvertHoldStarted; }
    else if e.HoldCompleted? { assert DispatchTable[8] == ConvertHoldCompleted; }
    else { DispatchMiddleLate(e); }
  }

  lemma DispatchMiddleLate(e: InputEvent)
    requires 9 <= TypeCode(e) < 12
    ensures Apply(DispatchTable[TypeCode(e)], e) == ToUnity(e)
  {
    if e.HoldCanceled? { assert DispatchTable[9] == ConvertHoldCanceled; }
    else if e.ManipulationStarted? { assert DispatchTable[10] == ConvertManipulationStarted; }
    else { assert DispatchTable[11] == ConvertManipulationUpdated; }
  }

  lemma DispatchHigh(e: InputEvent)
    requires 12 <= TypeCode(e) < 18
    ensures Apply(DispatchTable[TypeCode(e)], e) == ToUnity(e)
  {
    if e.ManipulationCompleted? { assert DispatchTable[12] == ConvertManipulationCompleted; }
    else if e.ManipulationCanceled? { assert DispatchTable[13] == ConvertManipulationCanceled; }
    else if e.NavigationStarted? { assert DispatchTable[14] == ConvertNavigationStarted; }
    else { DispatchHighLate(e); }
  }

  lemma DispatchHighLate(e: InputEvent)
    requires 15 <= TypeCode(e) < 18
    ensures Apply(DispatchTable[TypeCode(e)], e) == ToUnity(e)
  {
    if e.NavigationUpdated? { assert DispatchTable[15] == ConvertNavigationUpdated; }
    else if e.NavigationCompleted? { assert DispatchTable[16] == ConvertNavigationCompleted; }
    else { assert DispatchTable[17] == ConvertNavigationCanceled; }
  }

  /** Selected is left alone, and a tap keeps its source and source pose. */
  lemma SelectedAndTapped(g: Gesture, n: uint32)
    ensures ToUnity(Selected) == Selected
    ensures ToUnity(Tapped(g, n)).gesture.source == g.source
    ensures ToUnity(Tapped(g, n)).gesture.sourcePose == g.sourcePose
    ensures ToUnity(Tapped(g, n)).gesture.headPose == ConvertHeadPose(g.headPose)
    ensures ToUnity(Tapped(g, n)).tapCount == n
  {
  }

  /** Converting an event twice gives it back. */
  lemma ToUnityInvolution(e: InputEvent)
    ensures ToUnity(ToUnity(e)) == e
  {
    if TypeCode(e) < 6 { InvolutionLow(e); }
    else if TypeCode(e) < 12 { InvolutionMiddle(e); }
    else { InvolutionHigh(e); }
  }

  lemma InvolutionLow(e: InputEvent)
    requires 0 <= TypeCode(e) < 6
    ensures ToUnity(ToUnity(e)) == e
  {
    if e.SourceDetected? { ConvertSourceStateInvolution(e.state); }
    else if e.SourceLost? { ConvertSourceStateInvolution(e.state); }
    else if e.SourcePressed? { ConvertSourceStateInvolution(e.state); }
    else if e.SourceUpdated? { ConvertSourceStateInvolution(e.state); }
    else if e.SourceReleased? { ConvertSourceStateInvolution(e.state); }
    else { }
  }

  lemma InvolutionMiddle(e: InputEvent)
    requires 6 <= TypeCode(e) < 12
    ensures ToUnity(ToUnity(e)) == e
  {
    if e.Tapped? { ConvertHeadPoseSpec(e.gesture.headPose); }
    else if e.HoldStarted? { GestureBothInvolution(e.gesture); }
    else if e.HoldCompleted? { GestureBothInvolution(e.gesture); }
    else if e.HoldCanceled? { GestureBothInvolution(e.gesture); }
    else if e.ManipulationStarted? { GestureBothInvolution(e.gesture); }
    else { GestureBothInvolution(e.gesture); }
  }

  lemma InvolutionHigh(e: InputEvent)
    requires 12 <= TypeCode(e) < 18
    ensures ToUnity(ToUnity(e)) == e
  {
    if e.ManipulationCompleted? { GestureBothInvolution(e.gesture); }
    else if e.ManipulationCanceled? { GestureBothInvolution(e.gesture); }
    else if e.NavigationStarted? { GestureBothInvolution(e.gesture); }
    else if e.NavigationUpdated? { GestureBothInvolution(e.gesture); }
    else if e.NavigationCompleted? { GestureBothInvolution(e.gesture); }
    else { GestureBothInvolution(e.gesture); }
  }

  lemma GestureBothInvolution(g: Gesture)
    ensures GestureBoth(GestureBoth(g)) == g
    ensures GestureBoth(g).source == g.source
  {
    ConvertSourcePoseSpec(g.sourcePose);
    ConvertHeadPoseSpec(g.headPose);
  }

  // ---------------------------------------------------------------------------------------
  // ToUnityCoordinateSystem

  /** The managed `HlrInputEvent`: the type word and the arguments read through the union
      member it names. */
  datatype ManagedEvent = ManagedEvent(eventType: uint32, args: InputEvent)

  datatype ConvertError =
    | GuardRejected        // the explicit `IndexOutOfRangeException` of the range check
    | TableIndexOutOfRange // the runtime's exception for indexing past the table

  /** The range check as written: below MIN and above MAX at once. */
  predicate GuardAsWritten(t: uint32) {
    t < EventTypeMin && t > EventTypeMax
  }

  /** The range check as evidently intended: below MIN or above MAX. */
  predicate GuardCorrected(t: uint32) {
    t < EventTypeMin || t > EventTypeMax
  }

  /** `ToUnityCoordinateSystem` as written. */
  function ToUnityCoordinateSystemAsWritten(e: ManagedEvent): (r: Result<ManagedEvent, ConvertError>)
    ensures r.Success? <==> e.eventType < EventTypeCount
    ensures r.Success? ==> r.value.eventType == e.eventType
  {
    if GuardAsWritten(e.eventType) then Failure(GuardRejected)
    else if e.eventType as nat >= |DispatchTable| then Failure(TableIndexOutOfRange)
    else Success(e.(args := Apply(DispatchTable[e.eventType], e.args)))
  }

  /** The guard as written can never fire; an out-of-range type is stopped only by the
      table index. */
  lemma GuardAsWrittenIsDead(e: ManagedEvent)
    ensures !GuardAsWritten(e.eventType)
    ensures e.eventType >= EventTypeCount ==> ToUnityCoordinateSystemAsWritten(e) == Failure(TableIndexOutOfRange)
  {
  }

  /** `ToUnityCoordinateSystem` with the evidently intended guard. */
  function ToUnityCoordinateSystem(e: ManagedEvent): (r: Result<ManagedEvent, ConvertError>)
    ensures r.Success? ==> r.value.eventType == e.eventType
  {
    if GuardCorrected(e.eventType) then Failure(GuardRejected)
    else Success(e.(args := Apply(DispatchTable[e.eventType], e.args)))
  }

  /** With the corrected guard every out-of-range type is rejected by the range check
      itself, an event whose type word matches its arguments is converted as the reference
      says, and converting twice returns the original event. */
  lemma ToUnityCoordinateSystemSpec(e: ManagedEvent)
    ensures ToUnityCoordinateSystem(e) == Failure(GuardRejected) <==> e.eventType >= EventTypeCount
    ensures e.eventType == TypeCode(e.args) ==> ToUnityCoordinateSystem(e) == Success(e.(args := ToUnity(e.args)))
    ensures e.eventType == TypeCode(e.args) ==>
      ToUnityCoordinateSystem(ToUnityCoordinateSystem(e).value) == Success(e)
  {
    if e.eventType == TypeCode(e.args) {
      DispatchTableMatchesTypes(e.args);
      DispatchTableMatchesTypes(ToUnity(e.args));
      ToUnityInvolution(e.args);
      assert TypeCode(ToUnity(e.args)) == TypeCode(e.args);
    }
  }

  /** The corrected guard changes only where an out-of-range type is stopped: both versions
      fail on exactly the same events and convert every other one identically. */
  lemma GuardFixKeepsConversions(e: ManagedEvent)
    ensures ToUnityCoordinateSystem(e).Success? <==> ToUnityCoordinateSystemAsWritten(e).Success?
    ensures ToUnityCoordinateSystem(e).Success? ==> ToUnityCoordinateSystem(e) == ToUnityCoordinateSystemAsWritten(e)
  {
  }
}

=== FILE: inputtypes.dfy ===
/** The input messages of the C interface (`input_types.h`): event-type codes and their
    names, the data records an event carries, the tagged `HlrInputEvent` the factory
    functions build, and the spatial-input and message-type enumerations.

    An event is kept in two forms. `HlrInputEvent` is the C struct: a 32-bit type word and
    a union whose bytes hold whatever member was last written. `InputEvent` is the view a
    reader of the union gets when it selects the member named by the type word; it has one
    constructor per event type. */
module InputTypes {
  import opened Wrappers
  import opened Bytes
  import opened Geometry
  import Text

  /** A `double` kept as its IEEE-754 binary64 bit pattern. */
  type F64 = w: int | 0 <= w < 0x1_0000_0000_0000_0000

  // ---------------------------------------------------------------------------------------
  // HlrInputEventType

  const EventTypeCount: nat := 18
  const EventTypeMin: nat := 0
  const EventTypeMax: nat := EventTypeCount - 1
  const EventTypeUnknown: uint32 := 0xFFFF_FFFF

  /** The enumerator names after the `HlrInputEventType_` prefix, in value order; the last
      one is `COUNT`, which `to_str` also names. */
  const EventTypeSuffixes: seq<string> := [
    "SOURCE_DETECTED", "SOURCE_LOST", "SOURCE_PRESSED", "SOURCE_UPDATED", "SOURCE_RELEASED",
    "SELECTED", "TAPPED", "HOLD_STARTED", "HOLD_COMPLETED", "HOLD_CANCELED",
    "MANIPULATION_STARTED", "MANIPULATION_UPDATED", "MANIPULATION_COMPLETED",
    "MANIPULATION_CANCELED", "NAVIGATION_STARTED", "NAVIGATION_UPDATED",
    "NAVIGATION_COMPLETED", "NAVIGATION_CANCELED", "COUNT"]

  const EventTypePrefix: string := "HlrInputEventType_"
  const EventTypeUnknownName: string := "HlrInputEventType_UNKNOWN"

  /** `HlrInputEventType_to_str`: each enumerator 0..COUNT is stringified to its own name,
      every other value to the name of `UNKNOWN`. */
  function EventTypeToStr(c: uint32): (s: string)
    ensures |s| > |EventTypePrefix| && s[..|EventTypePrefix|] == EventTypePrefix
    ensures c <= EventTypeCount <==> s != EventTypeUnknownName
  {
    if c < |EventTypeSuffixes| then EventTypePrefix + EventTypeSuffixes[c]
    else EventTypeUnknownName
  }

  /** The inverse of `EventTypeToStr` on the named codes: the code whose name is `s`. */
  function EventTypeFromStr(s: string): (r: Option<nat>)
    ensures r.Some? ==> r.value <= EventTypeCount && EventTypeToStr(r.value as uint32) == s
  {
    var p := |EventTypePrefix|;
    if |s| >= p && s[..p] == EventTypePrefix then
      var i := Text.IndexOf(EventTypeSuffixes, s[p..]);
      if i.Some? then
        assert s == EventTypePrefix + s[p..];
        i
      else None
    else None
  }

  /** A cheap fingerprint that already tells the enumerator names apart. */
  function NameKey(s: string): (int, char, char) {
    (|s|, if |s| > 0 then s[0] else ' ', if |s| >= 6 then s[|s| - 6] else ' ')
  }

  lemma EventTypeSuffixesDistinct()
    ensures Text.Distinct(EventTypeSuffixes)
  {
    forall i, j | 0 <= i < j < |EventTypeSuffixes| ensures EventTypeSuffixes[i] != EventTypeSuffixes[j] {
      assert NameKey(EventTypeSuffixes[i]) != NameKey(EventTypeSuffixes[j]);
    }
  }

  /** Every named code is recovered from its name, and the fallback name names no code. */
  lemma EventTypeStrRoundTrip(c: uint32)
    ensures c <= EventTypeCount ==> EventTypeFromStr(EventTypeToStr(c)) == Some(c as nat)
    ensures c > EventTypeCount ==> EventTypeFromStr(EventTypeToStr(c)) == None
  {
    var p := |EventTypePrefix|;
    var s := EventTypeToStr(c);
    if c <= EventTypeCount {
      EventTypeSuffixesDistinct();
      assert s[p..] == EventTypeSuffixes[c];
      Text.IndexOfDistinct(EventTypeSuffixes, c as nat);
    } else {
      assert s[p..] == "UNKNOWN";
      assert forall k :: 0 <= k < |EventTypeSuffixes| ==> |EventTypeSuffixes[k]| != 7;
    }
  }

  /** Distinct codes in 0..COUNT have distinct names. */
  lemma EventTypeNamesInjective(a: uint32, b: uint32)
    requires a <= EventTypeCount && b <= EventTypeCount && a != b
    ensures EventTypeToStr(a) != EventTypeToStr(b)
  {
    EventTypeStrRoundTrip(a);
    EventTypeStrRoundTrip(b);
  }

  // ---------------------------------------------------------------------------------------
  // Data records of an event

  datatype SourcePose = SourcePose(
    gripOrientation: HlrQuaternion,
    pointerOrientation: HlrQuaternion,
    gripPosition: HlrVector3,
    pointerPosition: HlrVector3,
    velocity: HlrVector3,
    angularVelocity: HlrVector3,
    positionAccuracy: uint32,
    flags: uint32)

  datatype SourceProperties = SourceProperties(
    sourceLossRisk: F64,
    sourceLossMitigationDirection: HlrVector3,
    sourcePose: SourcePose)

  datatype Source = Source(id: uint32, kind: uint32, handedness: uint32, flags: uint32)

  datatype HeadPose = HeadPose(position: HlrVector3, forwardDirection: HlrVector3, upDirection: HlrVector3)

  datatype JointPose = JointPose(orientation: HlrQuaternion, position: HlrVector3, radius: F32, accuracy: uint32)

  /** `HlrHandJointKind_COUNT`. */
  const JointCount: nat := 26

  const ZeroJoint := JointPose(HlrQuaternion(0, 0, 0, 0), HlrVector3(0, 0, 0), 0, 0)

  /** The fixed array of joint poses of a hand, indexed by `HlrHandJointKind`. */
  type Joints = s: seq<JointPose> | |s| == JointCount witness seq(JointCount, _ => ZeroJoint)

  datatype HandPose = HandPose(jointPoses: Joints)

  datatype SourceState = SourceState(
    properties: SourceProperties,
    source: Source,
    headPose: HeadPose,
    handPose: HandPose,
    selectPressedAmount: F32,
    flags: uint32)

  datatype ManipulationDelta = ManipulationDelta(translation: HlrVector3)

  /** The three fields every gesture event starts with. */
  datatype Gesture = Gesture(source: Source, sourcePose: SourcePose, headPose: HeadPose)

  // ---------------------------------------------------------------------------------------
  // The event as its reader sees it

  datatype InputEvent =
    | SourceDetected(state: SourceState)
    | SourceLost(state: SourceState)
    | SourcePressed(state: SourceState)
    | SourceUpdated(state: SourceState)
    | SourceReleased(state: SourceState)
    | Selected
    | Tapped(gesture: Gesture, tapCount: uint32)
    | HoldStarted(gesture: Gesture)
    | HoldCompleted(gesture: Gesture)
    | HoldCanceled(gesture: Gesture)
    | ManipulationStarted(gesture: Gesture)
    | ManipulationUpdated(gesture: Gesture, delta: ManipulationDelta)
    | ManipulationCompleted(gesture: Gesture, delta: ManipulationDelta)
    | ManipulationCanceled(gesture: Gesture)
    | NavigationStarted(gesture: Gesture, railsFlags: uint32)
    | NavigationUpdated(gesture: Gesture, railsFlags: uint32, normalizedOffset: HlrVector3)
    | NavigationCompleted(gesture: Gesture, railsFlags: uint32, normalizedOffset: HlrVector3)
    | NavigationCanceled(gesture: Gesture, railsFlags: uint32)

  /** The `HlrInputEventType` value of an event. */
  function TypeCode(e: InputEvent): (c: nat)
    ensures c < EventTypeCount
    ensures c < 5 <==> e.SourceDetected? || e.SourceLost? || e.SourcePressed? || e.SourceUpdated? || e.SourceReleased?
  {
    match e
    case SourceDetected(_) => 0
    case SourceLost(_) => 1
    case SourcePressed(_) => 2
    case SourceUpdated(_) => 3
    case SourceReleased(_) => 4
    case Selected => 5
    case Tapped(_, _) => 6
    case HoldStarted(_) => 7
    case HoldCompleted(_) => 8
    case HoldCanceled(_) => 9
    case ManipulationStarted(_) => 10
    case ManipulationUpdated(_, _) => 11
    case ManipulationCompleted(_, _) => 12
    case ManipulationCanceled(_) => 13
    case NavigationStarted(_, _) => 14
    case NavigationUpdated(_, _, _) => 15
    case NavigationCompleted(_, _, _) => 16
    case NavigationCanceled(_, _) => 17
  }

  // ---------------------------------------------------------------------------------------
  // The C struct

  /** What the bytes after the three gesture fields hold: untouched fill, or the trailing
      field a gesture factory wrote through its own union member. */
  datatype GestureTail =
    | Untouched
    | TapCount(tapCount: uint32)
    | Delta(delta: ManipulationDelta)
    | Rails(railsFlags: uint32)
    | RailsAndOffset(railsFlags: uint32, normalizedOffset: HlrVector3)

  /** `HlrInputEventData`. The union's members share their leading fields: the five
      source-state members all start with the state, and every gesture member starts with
      source, source pose and head pose. The value records the last layout written. */
  datatype HlrInputEventData =
    | Fill
    | StateData(interactionSourceState: SourceState)
    | GestureData(gesture: Gesture, tail: GestureTail)

  datatype HlrInputEvent = HlrInputEvent(eventType: uint32, data: HlrInputEventData)

  /** `HlrInputEvent_create`: no type and no data written yet. The C function fills the
      whole event with 0xCD bytes in a debug build and with zeros in a release build; every
      factory overwrites the type word before the event is read, so the model marks the
      unwritten word with the UNKNOWN code rather than either fill. */
  const Blank := HlrInputEvent(EventTypeUnknown, Fill)

  /** Reading the union through the member the type word selects. `None` when the type
      word is not an event type or the bytes were never written in that member's layout. */
  function View(e: HlrInputEvent): (r: Option<InputEvent>)
    ensures r.Some? ==> TypeCode(r.value) == e.eventType
  {
    var t := e.eventType;
    if t < 5 then
      match e.data
      case StateData(s) =>
        Some(if t == 0 then SourceDetected(s) else if t == 1 then SourceLost(s)
             else if t == 2 then SourcePressed(s) else if t == 3 then SourceUpdated(s)
             else SourceReleased(s))
      case _ => None
    else if t == 5 then Some(Selected)
    else if t < EventTypeCount then
      match e.data
      case GestureData(g, tail) =>
        if t == 6 then (if tail.TapCount? then Some(Tapped(g, tail.tapCount)) else None)
        else if t == 7 then Some(HoldStarted(g))
        else if t == 8 then Some(HoldCompleted(g))
        else if t == 9 then Some(HoldCanceled(g))
        else if t == 10 then Some(ManipulationStarted(g))
        else if t == 11 then (if tail.Delta? then Some(ManipulationUpdated(g, tail.delta)) else None)
        else if t == 12 then (if tail.Delta? then Some(ManipulationCompleted(g, tail.delta)) else None)
        else if t == 13 then Some(ManipulationCanceled(g))
        else if t == 14 then (if tail.Rails? || tail.RailsAndOffset? then Some(NavigationStarted(g, tail.railsFlags)) else None)
        else if t == 15 then (if tail.RailsAndOffset? then Some(NavigationUpdated(g, tail.railsFlags, tail.normalizedOffset)) else None)
        else if t == 16 then (if tail.RailsAndOffset? then Some(NavigationCompleted(g, tail.railsFlags, tail.normalizedOffset)) else None)
        else (if tail.Rails? || tail.RailsAndOffset? then Some(NavigationCanceled(g, tail.railsFlags)) else None)
      case _ => None
    else None
  }

  // ---------------------------------------------------------------------------------------
  // Factories. Each one starts from `Blank`, sets the type and writes its fields.

  function CreateSourceDetected(state: SourceState): (r: HlrInputEvent)
    ensures View(r) == Some(SourceDetected(state))
  {
    Blank.(eventType := 0, data := StateData(state))
  }

  function CreateSourceLost(state: SourceState): (r: HlrInputEvent)
    ensures View(r) == Some(SourceLost(state))
  {
    Blank.(eventType := 1, data := StateData(state))
  }

  function CreateSourcePressed(state: SourceState): (r: HlrInputEvent)
    ensures View(r) == Some(SourcePressed(state))
  {
    Blank.(eventType := 2, data := StateData(state))
  }

  function CreateSourceUpdated(state: SourceState): (r: HlrInputEvent)
    ensures View(r) == Some(SourceUpdated(state))
  {
    Blank.(eventType := 3, data := StateData(state))
  }

  function CreateSourceReleased(state: SourceState): (r: HlrInputEvent)
    ensures View(r) == Some(SourceReleased(state))
  {
    Blank.(eventType := 4, data := StateData(state))
  }

  /** Only the type is written; the data keeps the fill of `HlrInputEvent_create`. */
  function CreateSelected(): (r: HlrInputEvent)
    ensures View(r) == Some(Selected)
    ensures r.data == Blank.data
  {
    Blank.(eventType := 5)
  }

  function CreateTapped(source: Source, sourcePose: SourcePose, headPose: HeadPose, tapCount: uint32): (r: HlrInputEvent)
    ensures View(r) == Some(Tapped(Gesture(source, sourcePose, headPose), tapCount))
  {
    Blank.(eventType := 6, data := GestureData(Gesture(source, sourcePose, headPose), TapCount(tapCount)))
  }

  function CreateHoldStarted(source: Source, sourcePose: SourcePose, headPose: HeadPose): (r: HlrInputEvent)
    ensures View(r) == Some(HoldStarted(Gesture(source, sourcePose, headPose)))
  {
    Blank.(eventType := 7, data := GestureData(Gesture(source, sourcePose, headPose), Untouched))
  }

  function CreateHoldCompleted(source: Source, sourcePose: SourcePose, headPose: HeadPose): (r: HlrInputEvent)
    ensures View(r) == Some(HoldCompleted(Gesture(source, sourcePose, headPose)))
  {
    Blank.(eventType := 8, data := GestureData(Gesture(source, sourcePose, headPose), Untouched))
  }

  function CreateHoldCanceled(source: Source, sourcePose: SourcePose, headPose: HeadPose): (r: HlrInputEvent)
    ensures View(r) == Some(HoldCanceled(Gesture(source, sourcePose, headPose)))
  {
    Blank.(eventType := 9, data := GestureData(Gesture(source, sourcePose, headPose), Untouched))
  }

  function CreateManipulationStarted(source: Source, sourcePose: SourcePose, headPose: HeadPose): (r: HlrInputEvent)
    ensures View(r) == Some(ManipulationStarted(Gesture(source, sourcePose, headPose)))
  {
    Blank.(eventType := 10, data := GestureData(Gesture(source, sourcePose, headPose), Untouched))
  }

  function CreateManipulationUpdated(source: Source, sourcePose: SourcePose, headPose: HeadPose,
                                     delta: ManipulationDelta): (r: HlrInputEvent)
    ensures View(r) == Some(ManipulationUpdated(Gesture(source, sourcePose, headPose), delta))
  {
    Blank.(eventType := 11, data := GestureData(Gesture(source, sourcePose, headPose), Delta(delta)))
  }

  function CreateManipulationCompleted(source: Source, sourcePose: SourcePose, headPose: HeadPose,
                                       delta: ManipulationDelta): (r: HlrInputEvent)
    ensures View(r) == Some(ManipulationCompleted(Gesture(source, sourcePose, headPose), delta))
  {
    Blank.(eventType := 12, data := GestureData(Gesture(source, sourcePose, headPose), Delta(delta)))
  }

  function CreateManipulationCanceled(source: Source, sourcePose: SourcePose, headPose: HeadPose): (r: HlrInputEvent)
    ensures View(r) == Some(ManipulationCanceled(Gesture(source, sourcePose, headPose)))
  {
    Blank.(eventType := 13, data := GestureData(Gesture(source, sourcePose, headPose), Untouched))
  }

  function CreateNavigationStarted(source: Source, sourcePose: SourcePose, headPose: HeadPose,
                                   railsFlags: uint32): (r: HlrInputEvent)
    ensures View(r) == Some(NavigationStarted(Gesture(source, sourcePose, headPose), railsFlags))
  {
    Blank.(eventType := 14, data := GestureData(Gesture(source, sourcePose, headPose), Rails(railsFlags)))
  }

  function CreateNavigationUpdated(source: Source, sourcePose: SourcePose, headPose: HeadPose,
                                   railsFlags: uint32, normalizedOffset: HlrVector3): (r: HlrInputEvent)
    ensures View(r) == Some(NavigationUpdated(Gesture(source, sourcePose, headPose), railsFlags, normalizedOffset))
  {
    Blank.(eventType := 15, data := GestureData(Gesture(source, sourcePose, headPose), RailsAndOffset(railsFlags, normalizedOffset)))
  }

  function CreateNavigationCompleted(source: Source, sourcePose: SourcePose, headPose: HeadPose,
                                     railsFlags: uint32, normalizedOffset: HlrVector3): (r: HlrInputEvent)
    ensures View(r) == Some(NavigationCompleted(Gesture(source, sourcePose, headPose), railsFlags, normalizedOffset))
  {
    Blank.(eventType := 16, data := GestureData(Gesture(source, sourcePose, headPose), RailsAndOffset(railsFlags, normalizedOffset)))
  }

  function CreateNavigationCanceled(source: Source, sourcePose: SourcePose, headPose: HeadPose,
                                    railsFlags: uint32): (r: HlrInputEvent)
    ensures View(r) == Some(NavigationCanceled(Gesture(source, sourcePose, headPose), railsFlags))
  {
    Blank.(eventType := 17, data := GestureData(Gesture(source, sourcePose, headPose), Rails(railsFlags)))
  }

  /** The factory a sender would call for an event. */
  function Encode(e: InputEvent): (r: HlrInputEvent)
  {
    match e
    case SourceDetected(s) => CreateSourceDetected(s)
    case SourceLost(s) => CreateSourceLost(s)
    case SourcePressed(s) => CreateSourcePressed(s)
    case SourceUpdated(s) => CreateSourceUpdated(s)
    case SourceReleased(s) => CreateSourceReleased(s)
    case Selected => CreateSelected()
    case Tapped(g, n) => CreateTapped(g.source, g.sourcePose, g.headPose, n)
    case HoldStarted(g) => CreateHoldStarted(g.source, g.sourcePose, g.headPose)
    case HoldCompleted(g) => CreateHoldCompleted(g.source, g.sourcePose, g.headPose)
    case HoldCanceled(g) => CreateHoldCanceled(g.source, g.sourcePose, g.headPose)
    case ManipulationStarted(g) => CreateManipulationStarted(g.source, g.sourcePose, g.headPose)
    case ManipulationUpdated(g, d) => CreateManipulationUpdated(g.source, g.sourcePose, g.headPose, d)
    case ManipulationCompleted(g, d) => CreateManipulationCompleted(g.source, g.sourcePose, g.headPose, d)
    case ManipulationCanceled(g) => CreateManipulationCanceled(g.source, g.sourcePose, g.headPose)
    case NavigationStarted(g, f) => CreateNavigationStarted(g.source, g.sourcePose, g.headPose, f)
    case NavigationUpdated(g, f, o) => CreateNavigationUpdated(g.source, g.sourcePose, g.headPose, f, o)
    case NavigationCompleted(g, f, o) => CreateNavigationCompleted(g.source, g.sourcePose, g.headPose, f, o)
    case NavigationCanceled(g, f) => CreateNavigationCanceled(g.source, g.sourcePose, g.headPose, f)
  }

  /** Every factory writes the type of its event, and reading the event back through that
      type returns exactly the factory's arguments. */
  lemma ViewEncode(e: InputEvent)
    ensures Encode(e).eventType == TypeCode(e)
    ensures View(Encode(e)) == Some(e)
  {
  }

  /** Distinct events never produce the same struct. */
  lemma EncodeInjective(a: InputEvent, b: InputEvent)
    requires Encode(a) == Encode(b)
    ensures a == b
  {
    ViewEncode(a);
    ViewEncode(b);
  }

  // ---------------------------------------------------------------------------------------
  // HlrInputType (spatial input) and its range constants

  const InputTypeCount: nat := 5
  const InputTypeMin: nat := 0
  /** `HlrInputType_MAX` as written: derived from the event-type count. */
  const InputTypeMaxAsWritten: nat := EventTypeCount - 1
  /** `HlrInputType_MAX` as the other enumerations define it: one below its own count. */
  const InputTypeMax: nat := InputTypeCount - 1

  const InputTypeSuffixes: seq<string> := [
    "SOURCE_DETECTED", "SOURCE_LOST", "SOURCE_PRESSED", "SOURCE_UPDATED", "SOURCE_RELEASED", "COUNT"]

  const InputTypeUnknownName: string := "HlrInputType_UNKNOWN"

  /** `HlrSpatialInputType_to_str`: the name for 0..COUNT, the `UNKNOWN` name otherwise. */
  function SpatialInputTypeToStr(c: uint32): (s: string)
    ensures c <= InputTypeCount ==> s == "HlrInputType_" + InputTypeSuffixes[c]
    ensures c > InputTypeCount ==> s == InputTypeUnknownName
  {
    if c < |InputTypeSuffixes| then "HlrInputType_" + InputTypeSuffixes[c] else InputTypeUnknownName
  }

  /** A code is a spatial input type when `to_str` gives it a name other than `COUNT`. */
  predicate IsInputType(c: int) {
    c < InputTypeCount
  }

  /** As written, the range MIN..MAX admits codes that are not input types: its own MAX is
      one that `to_str` does not know. */
  lemma InputTypeMaxAsWrittenOverreaches()
    ensures InputTypeMin <= InputTypeMaxAsWritten
    ensures !IsInputType(InputTypeMaxAsWritten as uint32)
    ensures SpatialInputTypeToStr(InputTypeMaxAsWritten as uint32) == InputTypeUnknownName
  {
  }

  /** With MAX = COUNT - 1 the range MIN..MAX holds exactly the input types, and each of
      them has its own name. */
  lemma InputTypeRangeExact(c: uint32)
    ensures InputTypeMin <= c <= InputTypeMax <==> IsInputType(c)
    ensures IsInputType(c) ==> SpatialInputTypeToStr(c) != InputTypeUnknownName
  {
    if IsInputType(c) {
      var s := SpatialInputTypeToStr(c);
      assert s[13..] == InputTypeSuffixes[c];
      assert InputTypeUnknownName[13..] == "UNKNOWN";
    }
  }

  /** The controller description carried by spatial input; the C struct's pointer and
      length pairs are sequences. */
  datatype Button = Button(identifier: uint32, value: bool)
  datatype Axis1D = Axis1D(identifier: uint32, value: F32)
  datatype Axis2D = Axis2D(identifier: uint32, value: HlrVector2)
  datatype Pose = Pose(position: HlrVector3, orientation: HlrQuaternion)

  datatype ControllerData = ControllerData(
    controllerIdentifier: uint32,
    handedness: uint32,
    headPose: HeadPose,
    controllerPose: Pose,
    pointerPose: Pose,
    handData: HandPose,
    buttons: seq<Button>,
    axis1D: seq<Axis1D>,
    axis2D: seq<Axis2D>)

  datatype HlrSpatialInputData = SpatialFill | SpatialStateData(controllerData: ControllerData)

  datatype HlrSpatialInput = HlrSpatialInput(inputType: uint32, data: HlrSpatialInputData)

  /** `HlrSpatialInput_create`. */
  const SpatialBlank := HlrSpatialInput(EventTypeUnknown, SpatialFill)

  /** `HlrSpatialInput_createSource<K>` for the `K` with code `inputType`: all five write the
      state through the `sourceDetected` member. */
  function CreateSpatialInput(inputType: nat, state: ControllerData): (r: HlrSpatialInput)
    requires IsInputType(inputType)
    ensures IsInputType(r.inputType)
    ensures r.data.SpatialStateData? && r.data.controllerData == state
    ensures SpatialInputTypeToStr(r.inputType) == "HlrInputType_" + InputTypeSuffixes[inputType]
  {
    SpatialBlank.(inputType := inputType, data := SpatialStateData(state))
  }

  // ---------------------------------------------------------------------------------------
  // HlrQrMessageType and HlrMessageType ranges

  const QrMessageTypeCount: nat := 8
  const QrMessageTypeMin: nat := 0
  /** `HlrQrMessageType_MAX` as written: derived from the event-type count. */
  const QrMessageTypeMaxAsWritten: nat := EventTypeCount - 1
  const QrMessageTypeMax: nat := QrMessageTypeCount - 1

  predicate IsQrMessageType(c: int) {
    c < QrMessageTypeCount
  }

  /** As written, MIN..MAX reaches ten codes past `ENUMERATION_COMPLETED`. */
  lemma QrMessageTypeMaxAsWrittenOverreaches()
    ensures QrMessageTypeMaxAsWritten == 17
    ensures forall c: uint32 :: QrMessageTypeCount <= c <= QrMessageTypeMaxAsWritten ==> !IsQrMessageType(c)
  {
  }

  lemma QrMessageTypeRangeExact(c: uint32)
    ensures QrMessageTypeMin <= c <= QrMessageTypeMax <==> IsQrMessageType(c)
  {
  }

  const MessageTypeCount: nat := 5
  const MessageTypeMin: nat := 0
  const MessageTypeMax: nat := MessageTypeCount - 1

  /** `HlrMessageType`: NONE, XrStereoPose, InputEvent, QrMessage, SpatialInput. */
  datatype MessageType = NoMessage | XrStereoPose | InputEventMessage | QrMessage | SpatialInputMessage

  function MessageTypeCode(t: MessageType): (c: nat)
    ensures MessageTypeMin <= c <= MessageTypeMax
  {
    match t
    case NoMessage => 0
    case XrStereoPose => 1
    case InputEventMessage => 2
    case QrMessage => 3
    case SpatialInputMessage => 4
  }

  /** The codes of `HlrMessageType` fill MIN..MAX exactly, one per message type. */
  lemma MessageTypeRangeExact(a: MessageType, b: MessageType, c: nat)
    ensures MessageTypeCode(a) == MessageTypeCode(b) ==> a == b
    ensures MessageTypeMin <= c <= MessageTypeMax ==> exists t :: MessageTypeCode(t) == c
  {
    if c == 0 { assert MessageTypeCode(NoMessage) == c; }
    else if c == 1 { assert MessageTypeCode(XrStereoPose) == c; }
    else if c == 2 { assert MessageTypeCode(InputEventMessage) == c; }
    else if c == 3 { assert MessageTypeCode(QrMessage) == c; }
    else if c == 4 { assert MessageTypeCode(SpatialInputMessage) == c; }
  }
}

=== FILE: loader.dfy ===
/** The life cycle of `BaseIsarLoader`: the running flag set by `Start` and cleared by
    `Stop`, the connection state swapped in by each report, and the restart (`Stop`,
    `ResetIsar`, `Start`) it posts to the main thread after a lost connection. The
    subsystems, the native library and the signaling object are not modelled; what they
    answer is a parameter. */
module Loader {
  import opened Types

  /** A posted restart: the only action the loader posts to the synchronization context. */
  datatype Posted = Restart

  datatype Loader = Loader(
    connection: ConnectionState,
    running: bool,
    /** Whether signaling is listening for a client (`Listen` until `Dispose`). */
    listening: bool,
    /** `HACK_isDeinitializing`. */
    deinitializing: bool,
    /** Whether `OnConnectionStateChanged` is still subscribed to the native callback. */
    subscribed: bool,
    /** The actions posted to the main thread and not yet run. */
    posted: seq<Posted>,
    /** How many times `ResetIsar` was called. */
    resets: nat)

  /** The loader after a successful `Initialize`. */
  function Initialized(): (l: Loader)
    ensures !l.running && !l.listening && l.subscribed && l.posted == [] && l.connection == Disconnected
  {
    Loader(Disconnected, false, false, false, true, [], 0)
  }

  /** `Start`: when the subsystems start, signaling listens and the loader runs; otherwise
      nothing changes and the answer is false. */
  function Start(l: Loader, subsystemsStarted: bool): (r: (Loader, bool))
    ensures r.1 == subsystemsStarted
    ensures r.1 ==> r.0.running && r.0.listening
    ensures !r.1 ==> r.0 == l
    ensures r.0.connection == l.connection && r.0.posted == l.posted && r.0.resets == l.resets
  {
    if !subsystemsStarted then (l, false)
    else (l.(listening := true, running := true), true)
  }

  /** `Stop`: signaling is disposed and the loader stops running, whatever the subsystems
      answer; the answer is theirs. */
  function Stop(l: Loader, subsystemsStopped: bool): (r: (Loader, bool))
    ensures r.1 == subsystemsStopped
    ensures !r.0.running && !r.0.listening
    ensures r.0.connection == l.connection && r.0.posted == l.posted && r.0.resets == l.resets
  {
    (l.(listening := false, running := false), subsystemsStopped)
  }

  /** When a report posts a restart: a disconnect, or a failure of a live connection, while
      the loader is not deinitializing. */
  predicate RestartScheduled(prev: ConnectionState, next: ConnectionState, deinitializing: bool) {
    !deinitializing && (next == Disconnected || (next == Failed && prev == Connected))
  }

  /** `OnConnectionStateChanged`: the new state replaces the stored one; a connection
      disposes signaling; a disconnect posts a restart unless the loader is deinitializing;
      a failure restarts a connection that was live, disposes signaling after a disconnect and
      does nothing after another failure. */
  function OnConnectionStateChanged(l: Loader, next: ConnectionState): (r: Loader)
    ensures r.connection == next
    ensures r.posted == l.posted + (if RestartScheduled(l.connection, next, l.deinitializing) then [Restart] else [])
    ensures r.listening == (l.listening && !(next == Connected || (next == Failed && l.connection == Disconnected)))
    ensures r.running == l.running && r.resets == l.resets && r.deinitializing == l.deinitializing
    ensures next == Failed && l.connection == Failed ==> r == l
  {
    var prev := l.connection;
    var l' := l.(connection := next);
    match next
    case Connected => l'.(listening := false)
    case Disconnected =>
      if !l.deinitializing then l'.(posted := l.posted + [Restart]) else l'
    case Failed =>
      if prev == Connected then
        (if !l.deinitializing then l'.(posted := l.posted + [Restart]) else l')
      else if prev == Disconnected then l'.(listening := false)
      else l'
  }

  /** `Native_OnConnectionStateChanged`: while subscribed, the report runs the loader's
      own connection handler; otherwise it changes nothing. */
  function NativeConnectionStateChanged(l: Loader, next: ConnectionState): (r: Loader)
    ensures !l.subscribed ==> r == l
    ensures l.subscribed ==> r == OnConnectionStateChanged(l, next)
  {
    if l.subscribed then OnConnectionStateChanged(l, next) else l
  }

  /** Runs the first posted action: only a running loader is stopped, reset and started
      again; a stopped one is left alone. */
  function RunPosted(l: Loader, subsystemsStopped: bool, subsystemsStarted: bool): (r: Loader)
    requires l.posted != []
    ensures r.posted == l.posted[1..]
    ensures !l.running ==> r == l.(posted := l.posted[1..])
    ensures l.running ==> r.resets == l.resets + 1 && r.running == subsystemsStarted
    ensures r.connection == l.connection
  {
    var l' := l.(posted := l.posted[1..]);
    if l'.running then
      var stopped := Stop(l', subsystemsStopped).0;
      Start(stopped.(resets := stopped.resets + 1), subsystemsStarted).0
    else l'
  }

  /** `Deinitialize`: a live connection is reported lost with the deinitializing flag up,
      then the loader unsubscribes; the answer is `DestroySubsystems`'s. */
  function Deinitialize(l: Loader, subsystemsDestroyed: bool): (r: (Loader, bool))
    requires !l.deinitializing
    ensures r.1 == subsystemsDestroyed
    ensures !r.0.subscribed && !r.0.deinitializing
    ensures r.0.posted == l.posted
    ensures l.connection == Connected ==> r.0.connection == Disconnected
    ensures l.connection != Connected ==> r.0.connection == l.connection
  {
    var l' :=
      if l.connection == Connected then
        OnConnectionStateChanged(l.(deinitializing := true), Disconnected).(deinitializing := false)
      else l;
    (l'.(subscribed := false), subsystemsDestroyed)
  }

  /** The report rules as a whole: the stored state is always the last one reported; a
      connection never schedules a restart; a disconnect schedules one exactly when not
      deinitializing; a failure schedules one exactly after a live connection, disposes
      signaling exactly after a disconnect, and is ignored after a failure. */
  lemma ConnectionRules(l: Loader, next: ConnectionState)
    requires !l.deinitializing
    ensures var r := OnConnectionStateChanged(l, next);
      && r.connection == next
      && (next == Connected ==> r.posted == l.posted && !r.listening)
      && (next == Disconnected ==> r.posted == l.posted + [Restart] && r.listening == l.listening)
      && (next == Failed && l.connection == Connected ==> r.posted == l.posted + [Restart])
      && (next == Failed && l.connection == Disconnected ==> r.posted == l.posted && !r.listening)
      && (next == Failed && l.connection == Failed ==> r == l)
  {
  }

  /** A disconnect while running, followed by the posted restart, leaves the loader reset
      once and running again exactly when the subsystems start; a disconnect while stopped
      followed by the posted action leaves it stopped and never reset. */
  lemma DisconnectRestarts(l: Loader, stopOk: bool, startOk: bool)
    requires !l.deinitializing && l.posted == []
    ensures var d := OnConnectionStateChanged(l, Disconnected);
      && d.posted == [Restart]
      && var r := RunPosted(d, stopOk, startOk);
      && r.posted == [] && r.connection == Disconnected
      && (l.running ==> r.resets == l.resets + 1 && r.running == startOk && r.listening == startOk)
      && (!l.running ==> r.resets == l.resets && !r.running)
  {
  }

  /** Deinitializing a connected loader reports the disconnect without posting a restart, so
      nothing restarts the remoting afterwards; later reports no longer reach the loader. */
  lemma DeinitializeNeverRestarts(l: Loader, ok: bool, later: ConnectionState)
    requires !l.deinitializing && l.connection == Connected
    ensures var r := Deinitialize(l, ok).0;
      && r.posted == l.posted && r.connection == Disconnected
      && NativeConnectionStateChanged(r, later) == r
  {
  }

  /** The same disconnect outside `Deinitialize` does post a restart. */
  lemma DisconnectOutsideDeinitializePosts(l: Loader)
    requires !l.deinitializing && l.connection == Connected
    ensures OnConnectionStateChanged(l, Disconnected).posted == l.posted + [Restart]
  {
  }
}

=== FILE: messageheader.dfy ===
/** The 12-byte header of an image-tracking message part (`MessageHeader`): the message id,
    the total size and the position of the part, each a little-endian int. */
module MessageHeader {
  import opened Bytes

  datatype Header = Header(messageId: int32, totalSize: int32, position: int32)

  /** `getBytes`: the three fields one after another; the header itself is not touched. */
  function GetBytes(h: Header): (b: seq<byte>)
    ensures |b| == 12
    ensures b[0..4] == Int32ToLE(h.messageId)
    ensures b[4..8] == Int32ToLE(h.totalSize)
    ensures b[8..12] == Int32ToLE(h.position)
  {
    Int32ToLE(h.messageId) + Int32ToLE(h.totalSize) + Int32ToLE(h.position)
  }

  /** How a receiver reads a header from the front of a buffer. */
  function ReadHeader(b: seq<byte>): (h: Header)
    requires |b| >= 12
  {
    Header(ReadInt32LE(b, 0), ReadInt32LE(b, 4), ReadInt32LE(b, 8))
  }

  /** Reading the bytes back gives the header the constructor was given, whatever follows. */
  lemma HeaderRoundTrip(h: Header, rest: seq<byte>)
    ensures ReadHeader(GetBytes(h) + rest) == h
  {
    var a := Int32ToLE(h.messageId);
    var b := Int32ToLE(h.totalSize);
    var c := Int32ToLE(h.position);
    var none: seq<byte> := [];
    assert GetBytes(h) + rest == none + a + (b + c + rest);
    Int32LERoundTrip(h.messageId, none, b + c + rest);
    assert GetBytes(h) + rest == a + b + (c + rest);
    Int32LERoundTrip(h.totalSize, a, c + rest);
    assert GetBytes(h) + rest == (a + b) + c + rest;
    Int32LERoundTrip(h.position, a + b, rest);
  }
}

=== FILE: messagetypes.dfy ===
/** `MessageType`: the first int32 of every custom message the AR providers exchange with
    the client. A cast from `int` keeps any value, so a message carries a raw code and the
    providers compare it against the named ones. */
module CustomMessageTypes {
  import opened Wrappers
  import opened Bytes

  datatype MessageType =
    | ImageUpdated | TouchData
    | ImageToTrack | ImageAdded | ImageRemoved
    | RaycastScreenPoint | RaycastRay | RaycastHitResults
    | RaycastAddContinuousScreenPoint | RaycastAddContinuousRay | RaycastRemove
    | PlaneDetectionConfig | PlaneDetectionResults
    | CameraEnable | CameraDisable | CameraMetadata

  /** The numeric value of each message type; 14 to 17 are unused. */
  function Code(t: MessageType): (c: int32)
    ensures 1 <= c <= 20 && !(14 <= c <= 17)
  {
    match t
    case ImageUpdated => 1
    case TouchData => 2
    case ImageToTrack => 3
    case ImageAdded => 4
    case ImageRemoved => 5
    case RaycastScreenPoint => 6
    case RaycastRay => 7
    case RaycastHitResults => 8
    case RaycastAddContinuousScreenPoint => 9
    case RaycastAddContinuousRay => 10
    case RaycastRemove => 11
    case PlaneDetectionConfig => 12
    case PlaneDetectionResults => 13
    case CameraEnable => 18
    case CameraDisable => 19
    case CameraMetadata => 20
  }

  /** The named message type with that code, if there is one. */
  function FromCode(c: int32): (r: Option<MessageType>)
    ensures r.Some? ==> Code(r.value) == c
  {
    if c == 1 then Some(ImageUpdated)
    else if c == 2 then Some(TouchData)
    else if c == 3 then Some(ImageToTrack)
    else if c == 4 then Some(ImageAdded)
    else if c == 5 then Some(ImageRemoved)
    else if c == 6 then Some(RaycastScreenPoint)
    else if c == 7 then Some(RaycastRay)
    else if c == 8 then Some(RaycastHitResults)
    else if c == 9 then Some(RaycastAddContinuousScreenPoint)
    else if c == 10 then Some(RaycastAddContinuousRay)
    else if c == 11 then Some(RaycastRemove)
    else if c == 12 then Some(PlaneDetectionConfig)
    else if c == 13 then Some(PlaneDetectionResults)
    else if c == 18 then Some(CameraEnable)
    else if c == 19 then Some(CameraDisable)
    else if c == 20 then Some(CameraMetadata)
    else None
  }

  /** Every message type reads back from its code, so no two share one; every code that
      names nothing reads back as nothing. */
  lemma CodeRoundTrip(t: MessageType, c: int32)
    ensures FromCode(Code(t)) == Some(t)
    ensures FromCode(c).None? <==> forall u :: Code(u) != c
  {
    if FromCode(c).None? {
      forall u ensures Code(u) != c {
        assert FromCode(Code(u)).Some?;
      }
    }
  }

  /** A message handed to `IsarCustomSend.Send`: its type code and payload. */
  datatype Sent = Sent(messageType: int32, payload: seq<byte>)
}

=== FILE: planemessage.dfy ===
/** The plane-detection results message (`AR_PLANE_DETECTION_RESULTS`, type 13) the client
    sends, as the plane provider reads it: an int32 type, then a copy of `Length` bytes taken
    from just after the type, holding an int32 plane count and per plane 17 words
    (id, tracking state, subsumed flag, subsuming id, position xyz, rotation wxyz, center xy,
    size xy, alignment, polygon word count) followed by the polygon as x/y pairs.

    Every read is a 4-byte `BitConverter` read at an offset that is a multiple of 4, so the
    copied buffer is read as the sequence of its whole little-endian words: a read of word
    `k` succeeds exactly when `k` is below the number of whole words. */
module PlaneMessage {
  import opened Wrappers
  import opened Bytes
  import opened Geometry
  import opened Trackables
  import opened CustomMessageTypes

  const PlaneResultsType: int32 := Code(PlaneDetectionResults)
  /** 17 words of four bytes. */
  const PlaneSize: int := 17 * 4

  /** The exceptions the parse can raise: a `BitConverter` read past the end of the copy, or
      an array of negative length (an `OverflowException`). */
  datatype Fault = ReadPastEnd | NegativeLength

  /** One plane as the parse hands it to `UpdatePlane`, already in Unity's handedness. */
  datatype PlaneRecord = PlaneRecord(
    hashCode: int32, state: TrackingState, isSubsumed: bool, subsumedBy: int32, pose: Pose,
    center: Vector2, size: Vector2, alignment: int32, polygon: seq<Vector2>)

  /** The planes parsed, in message order, and the exception that ended the parse, if any. */
  datatype Parsed = Parsed(records: seq<PlaneRecord>, fault: Option<Fault>)

  /** What the handler does with a message: ignore it, or hand its planes on. */
  datatype Outcome = Ignored | Planes(parsed: Parsed)

  /** C#'s `/ 2` on an int, which truncates toward zero. */
  function HalfTowardZero(i: int32): (r: int32)
    ensures i >= 0 ==> 0 <= r && 2 * r <= i < 2 * r + 2
    ensures i < 0 ==> r <= 0 && 2 * r - 2 < i <= 2 * r
  {
    var a: int := i;
    if a >= 0 then a / 2 else -((-a) / 2)
  }

  /** The whole little-endian words of a byte buffer. */
  function Words(data: seq<byte>): (w: seq<uint32>)
    ensures |w| == |data| / 4
  {
    ReadWordsLE(data, 0, |data| / 4)
  }

  /** The polygon loop: the pair read first lands in the last slot, so the polygon comes out
      reversed, each point flipped. */
  function ReadPolygon(w: seq<uint32>, start: nat, n: nat): (p: seq<Vector2>)
    requires start + 2 * n <= |w|
    ensures |p| == n
    decreases n
  {
    if n == 0 then []
    else ReadPolygon(w, start + 2, n - 1) + [FlipVector2(Vector2(w[start], w[start + 1]))]
  }

  /** One plane starting at word `k`, and the word after it. */
  function ParsePlane(w: seq<uint32>, k: nat): (r: Result<(PlaneRecord, nat), Fault>)
    ensures r.Success? ==> r.value.1 == k + 17 + 2 * |r.value.0.polygon| <= |w|
    ensures k + 17 > |w| ==> r == Failure(ReadPastEnd)
  {
    if k + 17 > |w| then Failure(ReadPastEnd)
    else
      var n := HalfTowardZero(ToInt32(w[k + 16]));
      if n < 0 then Failure(NegativeLength)
      else if k + 17 + 2 * n > |w| then Failure(ReadPastEnd)
      else Success((RecordAt(w, k, n), k + 17 + 2 * n))
  }

  /** The fields of the plane at word `k` with an `n`-point polygon. */
  function RecordAt(w: seq<uint32>, k: nat, n: nat): (r: PlaneRecord)
    requires k + 17 + 2 * n <= |w|
    ensures |r.polygon| == n
  {
    var position := FlipVector3(Vector3(w[k + 4], w[k + 5], w[k + 6]));
    var rotation := FlipQuaternion(Quaternion(w[k + 8], w[k + 9], w[k + 10], w[k + 7]));
    PlaneRecord(
      ToInt32(w[k]), ToInt32(w[k + 1]), ToInt32(w[k + 2]) == 1, ToInt32(w[k + 3]),
      Pose(position, rotation), Vector2(w[k + 11], w[k + 12]), Vector2(w[k + 13], w[k + 14]),
      ToInt32(w[k + 15]), ReadPolygon(w, k + 17, n))
  }

  /** The `for` loop over the planes: stops at the first exception, keeping the planes
      parsed before it. */
  function ParsePlanes(w: seq<uint32>, k: nat, remaining: nat): (r: Parsed)
    ensures |r.records| <= remaining
    ensures r.fault.None? ==> |r.records| == remaining
    decreases remaining
  {
    if remaining == 0 then Parsed([], None)
    else
      var p := ParsePlane(w, k);
      if p.Failure? then Parsed([], Some(p.error))
      else
        var rest := ParsePlanes(w, p.value.1, remaining - 1);
        Parsed([p.value.0] + rest.records, rest.fault)
  }

  /** `planeSize * planeCount` in unchecked 32-bit arithmetic. */
  function Product(count: int32): int32 {
    ToInt32(WrapUInt32(PlaneSize * count))
  }

  /** The guard as written: `length - 8 <= planeSize * planeCount` drops the message. */
  predicate DropsAsWritten(length: int, count: int32) {
    length - 8 <= Product(count)
  }

  /** The guard as intended: drop only a message too short for its planes' fixed parts. */
  predicate DropsCorrected(length: int, count: int32) {
    length - 8 < Product(count)
  }

  /** `OnCustomMessageReceived` past the detection-mode check. `beyond` stands for the four
      bytes that follow the message in memory: the copy starts after the type but takes
      `Length` bytes, so it always reads four bytes past the message. `asWritten` selects the
      guard. */
  function ReadMessage(message: seq<byte>, beyond: seq<byte>, asWritten: bool): (r: Outcome)
    requires |beyond| == 4
    ensures r.Planes? ==> |message| >= 4 || r.parsed == Parsed([], Some(ReadPastEnd))
  {
    var memory := message + beyond;
    if ReadInt32LE(memory, 0) != PlaneResultsType then Ignored
    else if |message| >= 0x8000_0000 then Planes(Parsed([], Some(NegativeLength)))
    else ReadCopy(memory[4..4 + |message|], asWritten)
  }

  /** The handler from the copy on: the count, the length guard and the plane loop. The
      copy is as long as the message. */
  function ReadCopy(data: seq<byte>, asWritten: bool): (r: Outcome)
    ensures |data| < 4 ==> r == Planes(Parsed([], Some(ReadPastEnd)))
  {
    if |data| < 4 then Planes(Parsed([], Some(ReadPastEnd)))
    else
      var count := ReadInt32LE(data, 0);
      var drops := if asWritten then DropsAsWritten(|data|, count) else DropsCorrected(|data|, count);
      if drops then Ignored
      else Planes(ParsePlanes(Words(data), 1, if count < 0 then 0 else count))
  }

  // The client side: the message a list of planes is sent as.

  /** The polygon words: reversed and flipped, so that reading undoes both. */
  function PolygonWords(p: seq<Vector2>): (w: seq<uint32>)
    ensures |w| == 2 * |p|
  {
    if |p| == 0 then []
    else
      var q := FlipVector2(p[|p| - 1]);
      [q.x, q.y] + PolygonWords(p[..|p| - 1])
  }

  /** The 17 words of a plane, with position and rotation flipped back. */
  function FixedWords(r: PlaneRecord): (w: seq<uint32>)
    requires |r.polygon| < 0x4000_0000
    ensures |w| == 17
  {
    var position := FlipVector3(r.pose.position);
    var rotation := FlipQuaternion(r.pose.rotation);
    [ToUInt32(r.hashCode), ToUInt32(r.state), if r.isSubsumed then 1 else 0, ToUInt32(r.subsumedBy),
     position.x, position.y, position.z, rotation.w, rotation.x, rotation.y, rotation.z,
     r.center.x, r.center.y, r.size.x, r.size.y, ToUInt32(r.alignment), ToUInt32(2 * |r.polygon|)]
  }

  function PlaneWords(r: PlaneRecord): (w: seq<uint32>)
    requires |r.polygon| < 0x4000_0000
    ensures |w| == 17 + 2 * |r.polygon|
  {
    FixedWords(r) + PolygonWords(r.polygon)
  }

  /** The number of polygon points over all planes. */
  function PointCount(rs: seq<PlaneRecord>): nat {
    if |rs| == 0 then 0 else |rs[0].polygon| + PointCount(rs[1..])
  }

  /** The planes fit a message whose length is a non-negative int. */
  predicate Encodable(rs: seq<PlaneRecord>) {
    8 + PlaneSize * |rs| + 8 * PointCount(rs) < 0x8000_0000
  }

  lemma {:induction false} EncodableParts(rs: seq<PlaneRecord>)
    requires |rs| > 0 && Encodable(rs)
    ensures |rs[0].polygon| < 0x4000_0000 && Encodable(rs[1..])
  {
  }

  function AllPlaneWords(rs: seq<PlaneRecord>): (w: seq<uint32>)
    requires Encodable(rs)
    ensures |w| == 17 * |rs| + 2 * PointCount(rs)
  {
    if |rs| == 0 then []
    else
      EncodableParts(rs);
      PlaneWords(rs[0]) + AllPlaneWords(rs[1..])
  }

  lemma EncodableCount(rs: seq<PlaneRecord>)
    requires Encodable(rs)
    ensures |rs| < 0x8000_0000
  {
  }

  /** The message: type, count, planes. */
  function EncodeMessage(rs: seq<PlaneRecord>): (m: seq<byte>)
    requires Encodable(rs)
    ensures |m| == 8 + PlaneSize * |rs| + 8 * PointCount(rs)
  {
    EncodableCount(rs);
    var body := [|rs| as uint32] + AllPlaneWords(rs);
    assert |body| == 1 + 17 * |rs| + 2 * PointCount(rs);
    Int32ToLE(PlaneResultsType) + WordsToLE(body)
  }

  // Round trip.

  /** Reversed, flipped polygon words read back as the polygon. */
  lemma {:induction false} PolygonAt(p: seq<Vector2>, w: seq<uint32>, start: nat)
    requires start + 2 * |p| <= |w| && w[start..start + 2 * |p|] == PolygonWords(p)
    ensures ReadPolygon(w, start, |p|) == p
    decreases |p|
  {
    if |p| > 0 {
      var n := |p|;
      var q := FlipVector2(p[n - 1]);
      SliceSplit(w, start, [q.x, q.y], PolygonWords(p[..n - 1]));
      PolygonAt(p[..n - 1], w, start + 2);
      assert w[start] == q.x && w[start + 1] == q.y by {
        assert w[start..start + 2][0] == w[start];
        assert w[start..start + 2][1] == w[start + 1];
      }
      FlipVector2Spec(p[n - 1]);
      assert p == p[..n - 1] + [p[n - 1]];
    }
  }

  /** A stretch of words that is an encoding splits into its two parts. */
  lemma SliceSplit(w: seq<uint32>, k: nat, a: seq<uint32>, b: seq<uint32>)
    requires k + |a| + |b| <= |w| && w[k..k + |a| + |b|] == a + b
    ensures w[k..k + |a|] == a
    ensures w[k + |a|..k + |a| + |b|] == b
  {
    var whole := w[k..k + |a| + |b|];
    forall i | 0 <= i < |a| ensures w[k..k + |a|][i] == a[i] {
      assert whole[i] == (a + b)[i];
    }
    forall i | 0 <= i < |b| ensures w[k + |a|..k + |a| + |b|][i] == b[i] {
      assert whole[|a| + i] == (a + b)[|a| + i];
    }
  }

  /** The 17 fixed words of a plane read back as its fields. */
  lemma FixedAt(r: PlaneRecord, w: seq<uint32>, k: nat)
    requires |r.polygon| < 0x4000_0000
    requires k + 17 <= |w| && w[k..k + 17] == FixedWords(r)
    ensures ToInt32(w[k]) == r.hashCode && ToInt32(w[k + 1]) == r.state
    ensures (ToInt32(w[k + 2]) == 1) == r.isSubsumed && ToInt32(w[k + 3]) == r.subsumedBy
    ensures FlipVector3(Vector3(w[k + 4], w[k + 5], w[k + 6])) == r.pose.position
    ensures FlipQuaternion(Quaternion(w[k + 8], w[k + 9], w[k + 10], w[k + 7])) == r.pose.rotation
    ensures Vector2(w[k + 11], w[k + 12]) == r.center && Vector2(w[k + 13], w[k + 14]) == r.size
    ensures ToInt32(w[k + 15]) == r.alignment
    ensures HalfTowardZero(ToInt32(w[k + 16])) == |r.polygon|
  {
    var fixed := FixedWords(r);
    assert forall i :: 0 <= i < 17 ==> w[k + i] == fixed[i];
    FlipVector3Spec(r.pose.position);
    FlipQuaternionSpec(r.pose.rotation);
    assert ToInt32(w[k + 16]) == 2 * |r.polygon|;
  }

  /** A plane's words parse back to the plane, wherever they sit. */
  lemma PlaneAt(r: PlaneRecord, w: seq<uint32>, k: nat)
    requires |r.polygon| < 0x4000_0000
    requires k + 17 + 2 * |r.polygon| <= |w| && w[k..k + 17 + 2 * |r.polygon|] == PlaneWords(r)
    ensures ParsePlane(w, k) == Success((r, k + 17 + 2 * |r.polygon|))
  {
    SliceSplit(w, k, FixedWords(r), PolygonWords(r.polygon));
    FixedAt(r, w, k);
    PolygonAt(r.polygon, w, k + 17);
  }

  /** One step of the plane loop after a plane parsed. */
  lemma ParsePlanesStep(w: seq<uint32>, k: nat, remaining: nat, r: PlaneRecord, next: nat)
    requires remaining > 0 && ParsePlane(w, k) == Success((r, next))
    ensures ParsePlanes(w, k, remaining) ==
      Parsed([r] + ParsePlanes(w, next, remaining - 1).records, ParsePlanes(w, next, remaining - 1).fault)
  {
  }

  /** A first plane that parses, followed by the rest parsing cleanly, parses cleanly. */
  lemma PlanesAfterFirst(rs: seq<PlaneRecord>, w: seq<uint32>, k: nat, next: nat)
    requires |rs| > 0
    requires ParsePlane(w, k) == Success((rs[0], next))
    requires ParsePlanes(w, next, |rs| - 1) == Parsed(rs[1..], None)
    ensures ParsePlanes(w, k, |rs|) == Parsed(rs, None)
  {
    ParsePlanesStep(w, k, |rs|, rs[0], next);
    assert [rs[0]] + rs[1..] == rs;
  }

  lemma AllPlaneWordsCons(rs: seq<PlaneRecord>)
    requires |rs| > 0 && Encodable(rs)
    ensures |rs[0].polygon| < 0x4000_0000 && Encodable(rs[1..])
    ensures AllPlaneWords(rs) == PlaneWords(rs[0]) + AllPlaneWords(rs[1..])
  {
    EncodableParts(rs);
  }

  /** The first of several planes written one after another parses back, and the others
      follow it. */
  lemma FirstPlane(rs: seq<PlaneRecord>, w: seq<uint32>, k: nat) returns (next: nat)
    requires Encodable(rs) && |rs| > 0
    requires k + |AllPlaneWords(rs)| <= |w| && w[k..k + |AllPlaneWords(rs)|] == AllPlaneWords(rs)
    ensures ParsePlane(w, k) == Success((rs[0], next))
    ensures Encodable(rs[1..])
    ensures next + |AllPlaneWords(rs[1..])| <= |w| && w[next..next + |AllPlaneWords(rs[1..])|] == AllPlaneWords(rs[1..])
  {
    AllPlaneWordsCons(rs);
    var a := PlaneWords(rs[0]);
    var b := AllPlaneWords(rs[1..]);
    SliceSplit(w, k, a, b);
    PlaneAt(rs[0], w, k);
    next := k + |a|;
  }

  /** Planes written one after another parse back in order with no exception. */
  lemma {:induction false} PlanesAt(rs: seq<PlaneRecord>, w: seq<uint32>, k: nat)
    requires Encodable(rs)
    requires k + |AllPlaneWords(rs)| <= |w| && w[k..k + |AllPlaneWords(rs)|] == AllPlaneWords(rs)
    ensures ParsePlanes(w, k, |rs|) == Parsed(rs, None)
    decreases |rs|
  {
    if |rs| > 0 {
      var next := FirstPlane(rs, w, k);
      PlanesAt(rs[1..], w, next);
      PlanesAfterFirst(rs, w, k, next);
    }
  }

  /** The type of an encoded message reads back as the plane results type, and the copy
      taken after it is the body followed by the four bytes beyond. */
  lemma EncodedCopy(rs: seq<PlaneRecord>, beyond: seq<byte>)
    requires Encodable(rs) && |beyond| == 4
    ensures var message := EncodeMessage(rs);
      && ReadInt32LE(message + beyond, 0) == PlaneResultsType
      && (message + beyond)[4..4 + |message|] == WordsToLE([|rs| as uint32] + AllPlaneWords(rs)) + beyond
  {
    var message := EncodeMessage(rs);
    var tail := WordsToLE([|rs| as uint32] + AllPlaneWords(rs)) + beyond;
    TypedCopy(PlaneResultsType, tail);
    assert message + beyond == Int32ToLE(PlaneResultsType) + tail;
  }

  /** A type written in front of a tail reads back, and the tail follows it. */
  lemma TypedCopy(t: int32, tail: seq<byte>)
    ensures ReadInt32LE(Int32ToLE(t) + tail, 0) == t
    ensures (Int32ToLE(t) + tail)[4..] == tail
  {
    var none: seq<byte> := [];
    Int32LERoundTrip(t, none, tail);
    assert none + Int32ToLE(t) + tail == Int32ToLE(t) + tail;
  }

  /** Words written out read back as the same words, whatever follows them. */
  lemma WordsPrefix(body: seq<uint32>, beyond: seq<byte>)
    ensures ReadWordsLE(WordsToLE(body) + beyond, 0, |body|) == body
  {
    var none: seq<byte> := [];
    WordsRoundTrip(body, none, beyond);
    assert none + WordsToLE(body) + beyond == WordsToLE(body) + beyond;
  }

  /** The word just past the body is the first word of what follows. */
  lemma WordAfter(data: seq<byte>, n: nat, beyond: seq<byte>)
    requires |data| == 4 * n + 4 && data[4 * n..] == beyond
    ensures ReadUInt32LE(data, 4 * n) == ReadUInt32LE(beyond, 0)
  {
    assert data[4 * n..4 * n + 4] == beyond[0..4];
  }

  /** Reading one more word appends it. */
  lemma WordsSnoc(s: seq<byte>, n: nat)
    requires 4 * n + 4 <= |s|
    ensures ReadWordsLE(s, 0, n + 1) == ReadWordsLE(s, 0, n) + [ReadUInt32LE(s, 4 * n)]
  {
  }

  /** The words of a body written out and followed by four more bytes. */
  lemma BodyWords(body: seq<uint32>, beyond: seq<byte>)
    requires |body| > 0 && |beyond| == 4
    ensures Words(WordsToLE(body) + beyond) == body + [ReadUInt32LE(beyond, 0)]
  {
    var data := WordsToLE(body) + beyond;
    WordsPrefix(body, beyond);
    WordsSnoc(data, |body|);
    assert data[4 * |body|..] == beyond;
    WordAfter(data, |body|, beyond);
  }

  /** The first word of a body written out reads back as an int32. */
  lemma BodyCount(body: seq<uint32>, beyond: seq<byte>)
    requires |body| > 0
    ensures ReadInt32LE(WordsToLE(body) + beyond, 0) == ToInt32(body[0])
  {
    var data := WordsToLE(body) + beyond;
    WordsPrefix(body, beyond);
    assert ReadWordsLE(data, 0, |body|)[0] == ReadUInt32LE(data, 0);
  }

  /** The plane loop over the words of an encoded message gives the planes back. */
  lemma PlaneLoopRoundTrip(rs: seq<PlaneRecord>, last: uint32, w: seq<uint32>)
    requires Encodable(rs)
    requires w == [|rs| as uint32] + AllPlaneWords(rs) + [last]
    ensures ParsePlanes(w, 1, |rs|) == Parsed(rs, None)
  {
    var all := AllPlaneWords(rs);
    assert w[1..1 + |all|] == all;
    PlanesAt(rs, w, 1);
  }

  /** An encoded message passes the type check and hands on the body followed by the four
      bytes beyond. */
  lemma EncodedMessageCopy(rs: seq<PlaneRecord>, beyond: seq<byte>, asWritten: bool)
    requires Encodable(rs) && |beyond| == 4
    ensures ReadMessage(EncodeMessage(rs), beyond, asWritten)
      == ReadCopy(WordsToLE([|rs| as uint32] + AllPlaneWords(rs)) + beyond, asWritten)
  {
    EncodedCopy(rs, beyond);
  }

  /** The copy of an encoded message: its length, its count and its words. */
  lemma EncodedCount(rs: seq<PlaneRecord>, beyond: seq<byte>)
    requires Encodable(rs) && |beyond| == 4
    ensures var data := WordsToLE([|rs| as uint32] + AllPlaneWords(rs)) + beyond;
      && |data| == 8 + PlaneSize * |rs| + 8 * PointCount(rs)
      && ReadInt32LE(data, 0) == |rs|
      && Words(data) == [|rs| as uint32] + AllPlaneWords(rs) + [ReadUInt32LE(beyond, 0)]
  {
    EncodableCount(rs);
    var body := [|rs| as uint32] + AllPlaneWords(rs);
    BodyCount(body, beyond);
    BodyWords(body, beyond);
  }

  /** A copy laid out as an encoded message: the guard decides, and past it the planes come
      back whole and in order. */
  lemma CopyRoundTrip(rs: seq<PlaneRecord>, data: seq<byte>, last: uint32, asWritten: bool)
    requires Encodable(rs)
    requires |data| == 8 + PlaneSize * |rs| + 8 * PointCount(rs)
    requires ReadInt32LE(data, 0) == |rs|
    requires Words(data) == [|rs| as uint32] + AllPlaneWords(rs) + [last]
    ensures !asWritten || PointCount(rs) > 0 ==> ReadCopy(data, asWritten) == Planes(Parsed(rs, None))
    ensures asWritten && PointCount(rs) == 0 ==> ReadCopy(data, asWritten) == Ignored
  {
    assert Product(|rs|) == PlaneSize * |rs|;
    PlaneLoopRoundTrip(rs, last, Words(data));
  }

  /** With the intended guard every encodable list of planes comes back whole and in order. */
  lemma CorrectedRoundTrip(rs: seq<PlaneRecord>, beyond: seq<byte>)
    requires Encodable(rs) && |beyond| == 4
    ensures ReadMessage(EncodeMessage(rs), beyond, false) == Planes(Parsed(rs, None))
  {
    EncodedMessageCopy(rs, beyond, false);
    EncodedCount(rs, beyond);
    CopyRoundTrip(rs, WordsToLE([|rs| as uint32] + AllPlaneWords(rs)) + beyond, ReadUInt32LE(beyond, 0), false);
  }

  /** As written, the guard lets a list of planes through exactly when some polygon has a
      point, and then it comes back whole and in order. */
  lemma AsWrittenRoundTrip(rs: seq<PlaneRecord>, beyond: seq<byte>)
    requires Encodable(rs) && |beyond| == 4
    ensures PointCount(rs) > 0 ==> ReadMessage(EncodeMessage(rs), beyond, true) == Planes(Parsed(rs, None))
    ensures PointCount(rs) == 0 ==> ReadMessage(EncodeMessage(rs), beyond, true) == Ignored
  {
    EncodedMessageCopy(rs, beyond, true);
    EncodedCount(rs, beyond);
    CopyRoundTrip(rs, WordsToLE([|rs| as uint32] + AllPlaneWords(rs)) + beyond, ReadUInt32LE(beyond, 0), true);
  }

  /** One tracked plane with an empty boundary: its 76-byte message is dropped as written and
      delivered with the intended guard. */
  lemma ExactSizeMessageDropped(beyond: seq<byte>)
    requires |beyond| == 4
    ensures var r := PlaneRecord(7, TrackingTracking, false, 0, IdentityPose, Vector2(0, 0), Vector2(0, 0), 0, []);
      && |EncodeMessage([r])| == 76
      && ReadMessage(EncodeMessage([r]), beyond, true) == Ignored
      && ReadMessage(EncodeMessage([r]), beyond, false) == Planes(Parsed([r], None))
  {
    var r := PlaneRecord(7, TrackingTracking, false, 0, IdentityPose, Vector2(0, 0), Vector2(0, 0), 0, []);
    assert PointCount([r]) == 0;
    AsWrittenRoundTrip([r], beyond);
    CorrectedRoundTrip([r], beyond);
  }
}

=== FILE: planes.dfy ===
/** The plane provider (`IsarXRPlaneSubsystem.IsarProvider`). It keeps the requested
    plane-detection mode and sends it to the client when the mode changes or the connection
    comes up. It turns the client's plane results into plane trackables in the shared
    database and reports their pending changes to Unity. Every member runs under the
    provider's lock, so each is one step on a provider state and the database. */
module PlaneSubsystem {
  import opened Wrappers
  import opened Bytes
  import opened Geometry
  import opened Types
  import opened Trackables
  import opened TrackablesDatabase
  import opened TrackableChanges
  import opened CustomMessageTypes
  import opened PlaneMessage

  /** Unity's `PlaneDetectionMode` flags, held as the raw int the enum stores. */
  type DetectionMode = int32
  const ModeNone: DetectionMode := 0
  const Horizontal: DetectionMode := 1
  const Vertical: DetectionMode := 2
  const NotAxisAligned: DetectionMode := 4

  /** `Enum.HasFlag`: every bit of the flag is set in the mode's two's-complement bits. */
  predicate HasFlag(mode: DetectionMode, flag: DetectionMode) {
    (ToUInt32(mode) as bv32) & (ToUInt32(flag) as bv32) == ToUInt32(flag) as bv32
  }

  /** The provider's fields: the last connection state, the mode, whether the mode still has
      to be sent, and whether `Start` has created the sender. */
  datatype Provider = Provider(connection: ConnectionState, mode: DetectionMode, sendConfig: bool, hasSender: bool)

  /** A provider as constructed: disconnected, detection off, nothing to send, no sender. */
  const Created := Provider(Disconnected, ModeNone, false, false)

  /** `Start`: creates the sender and subscribes to it. */
  function Start(p: Provider): (r: Provider)
    ensures r.hasSender && r.connection == p.connection && r.mode == p.mode && r.sendConfig == p.sendConfig
  {
    p.(hasSender := true)
  }

  /** The `requestedPlaneDetectionMode` setter: the mode is taken at once and marked for
      sending. */
  function SetRequestedMode(p: Provider, mode: DetectionMode): (r: Provider)
    ensures CurrentMode(r) == mode && r.sendConfig
    ensures r.connection == p.connection && r.hasSender == p.hasSender
  {
    p.(mode := mode, sendConfig := true)
  }

  /** `currentPlaneDetectionMode` and the getter: the mode last requested. */
  function CurrentMode(p: Provider): DetectionMode {
    p.mode
  }

  // The configuration message.

  /** The mode as sent: with both axis flags set the raw value becomes 3, dropping any other
      bit; otherwise the mode goes as it is. */
  function RawMode(mode: DetectionMode): (raw: int32)
    ensures raw == mode || raw == 3
    ensures HasFlag(raw, Horizontal) == HasFlag(mode, Horizontal)
    ensures HasFlag(raw, Vertical) == HasFlag(mode, Vertical)
  {
    if HasFlag(mode, Horizontal) && HasFlag(mode, Vertical) then 3 else mode
  }

  /** Sending a raw mode again changes nothing. */
  lemma RawModeIdempotent(mode: DetectionMode)
    ensures RawMode(RawMode(mode)) == RawMode(mode)
  {
  }

  /** Horizontal, vertical and not-axis-aligned together are sent as horizontal and vertical
      only. */
  lemma AllModesSentAsAxes()
    ensures RawMode(Horizontal + Vertical + NotAxisAligned) == 3
    ensures RawMode(Horizontal) == Horizontal && RawMode(Vertical) == Vertical
    ensures RawMode(NotAxisAligned) == NotAxisAligned && RawMode(ModeNone) == ModeNone
  {
  }

  /** `BitConverter.GetBytes(bool)`: one byte, 1 for true. */
  function BoolByte(b: bool): (r: byte)
    ensures (r != 0) == b
  {
    if b then 1 else 0
  }

  /** The config payload: the send flag, then the raw mode as a little-endian int. */
  function ConfigPayload(sendPlanes: bool, mode: DetectionMode): (p: seq<byte>)
    ensures |p| == 5
  {
    [BoolByte(sendPlanes)] + Int32ToLE(RawMode(mode))
  }

  /** How a receiver reads a config payload: a flag byte and an int. */
  function ReadConfig(p: seq<byte>): (r: Option<(bool, int32)>)
    ensures r.Some? <==> |p| == 5
  {
    if |p| != 5 then None else Some((p[0] != 0, ReadInt32LE(p, 1)))
  }

  /** The payload carries the flag and the raw mode, and nothing else. */
  lemma ConfigRoundTrip(sendPlanes: bool, mode: DetectionMode)
    ensures ReadConfig(ConfigPayload(sendPlanes, mode)) == Some((sendPlanes, RawMode(mode)))
  {
    var flag := [BoolByte(sendPlanes)];
    var none: seq<byte> := [];
    Int32LERoundTrip(RawMode(mode), flag, none);
    assert flag + Int32ToLE(RawMode(mode)) + none == ConfigPayload(sendPlanes, mode);
  }

  /** `SendPlaneConfig`: without a sender nothing is sent (the call only logs). */
  function SendPlaneConfig(p: Provider, sendPlanes: bool, mode: DetectionMode): (r: Option<Sent>)
    ensures r.None? <==> !p.hasSender
    ensures r.Some? ==> r.value.messageType == Code(PlaneDetectionConfig)
    ensures r.Some? ==> ReadConfig(r.value.payload) == Some((sendPlanes, RawMode(mode)))
  {
    ConfigRoundTrip(sendPlanes, mode);
    if !p.hasSender then None
    else Some(Sent(Code(PlaneDetectionConfig), ConfigPayload(sendPlanes, mode)))
  }

  // Connection changes and change reports.

  /** No plane is Added or Updated. */
  predicate NoLivePlane(db: Database) {
    forall i :: 0 <= i < |db| && KindOf(db[i]) == PlaneKind ==> !IsLive(db[i].updateType)
  }

  /** `OnConnectionStateChanged`: connecting marks the mode for sending; anything else marks
      every live plane for removal. */
  function OnConnectionStateChanged(p: Provider, db: Database, s: ConnectionState): (r: (Provider, Database))
    ensures r.0.connection == s && r.0.mode == p.mode && r.0.hasSender == p.hasSender
    ensures s == Connected ==> r.0.sendConfig && r.1 == db
    ensures s != Connected ==> r.0.sendConfig == p.sendConfig && |r.1| == |db| && NoLivePlane(r.1)
    ensures s != Connected ==> forall i :: 0 <= i < |db| && KindOf(db[i]) == PlaneKind && IsLive(db[i].updateType) ==>
      PendingAs(r.1[i], PlaneKind, Removed)
  {
    if s == Connected then (p.(connection := s, sendConfig := true), db)
    else
      RemoveAllTracksLeavesNoneLive(db, PlaneKind);
      (p.(connection := s), RemoveAllTracks(db, PlaneKind))
  }

  /** The database `GetChanges` collects from: with the mode switched off and not yet sent,
      every live plane has been marked for removal first. */
  function BeforeCollect(p: Provider, db: Database): (r: Database)
    ensures |r| == |db|
    ensures p.sendConfig && p.mode == ModeNone ==> NoLivePlane(r)
  {
    if p.sendConfig && p.mode == ModeNone then
      RemoveAllTracksLeavesNoneLive(db, PlaneKind);
      RemoveAllTracks(db, PlaneKind)
    else db
  }

  /** `GetChanges`: nothing while disconnected. Once connected it first sends a pending mode,
      marking every plane for removal when detection is off, then reports the planes pending
      as added, updated and removed, clears their flags and deletes the removed ones. */
  method GetChanges(p: Provider, db: Database) returns (q: Provider, r: Database, c: Changes, sent: Option<Sent>)
    ensures p.connection != Connected ==> q == p && r == db && c == NoChanges && sent == None
    ensures p.connection == Connected ==> q == p.(sendConfig := false)
    ensures p.connection == Connected && p.sendConfig ==> sent == SendPlaneConfig(p, p.mode != ModeNone, p.mode)
    ensures !p.sendConfig ==> sent == None
    ensures p.connection == Connected ==>
      var before := BeforeCollect(p, db);
      && c.added == PendingTracks(before, PlaneKind, Added)
      && c.updated == PendingTracks(before, PlaneKind, Updated)
      && c.removed == PendingRemovals(before, PlaneKind)
      && r == RemoveAllIds(Cleared(before, PlaneKind), c.removed)
  {
    if p.connection != Connected {
      return p, db, NoChanges, None;
    }
    sent := None;
    if p.sendConfig {
      sent := SendPlaneConfig(p, p.mode != ModeNone, p.mode);
    }
    q := p.(sendConfig := false);
    var before := BeforeCollect(p, db);
    r, c := TrackableChanges.GetChanges(before, PlaneKind);
  }

  /** With no live plane, nothing is pending as added or updated. */
  lemma {:induction false} NoLiveNonePending(db: Database, u: UpdateType)
    requires NoLivePlane(db) && IsLive(u)
    ensures PendingTracks(db, PlaneKind, u) == []
    decreases |db|
  {
    if |db| > 0 {
      assert NoLivePlane(db[1..]) by {
        forall i | 0 <= i < |db[1..]| && KindOf(db[1..][i]) == PlaneKind ensures !IsLive(db[1..][i].updateType) {
          assert db[1..][i] == db[i + 1];
        }
      }
      NoLiveNonePending(db[1..], u);
    }
  }

  /** Switching detection off empties the next report's added and updated lists. */
  lemma DetectionOffReportsNoPlanes(p: Provider, db: Database)
    requires p.sendConfig && p.mode == ModeNone
    ensures PendingTracks(BeforeCollect(p, db), PlaneKind, Added) == []
    ensures PendingTracks(BeforeCollect(p, db), PlaneKind, Updated) == []
  {
    NoLiveNonePending(BeforeCollect(p, db), Added);
    NoLiveNonePending(BeforeCollect(p, db), Updated);
  }

  // Plane updates.

  /** The plane update a record becomes. */
  function ChangeOf(rec: PlaneRecord, u: UpdateType, subsumedBy: TrackableId): PlaneChange {
    PlaneChange(u, subsumedBy, rec.pose, rec.center, rec.size, rec.alignment, rec.state, rec.polygon)
  }

  /** The id of the subsuming plane: the track id of the plane the record names, when it is
      subsumed and the first trackable with that id is a plane; the invalid id otherwise. */
  function SubsumedId(db: Database, rec: PlaneRecord): (id: TrackableId)
    ensures !rec.isSubsumed ==> id == InvalidId
    ensures GetTrackOfKind(db, rec.subsumedBy, PlaneKind).None? ==> id == InvalidId
  {
    var subsuming := GetTrackOfKind(db, rec.subsumedBy, PlaneKind);
    if rec.isSubsumed && subsuming.Some? then TrackIdOf(subsuming.value) else InvalidId
  }

  /** `UpdatePlane`: a known plane is updated (Limited means removed); an unknown one is
      added when it is tracking and dropped otherwise. A new plane takes `newId` as its own
      id. The subsuming plane is looked up after the add. */
  function UpdatePlane(db: Database, newId: TrackableId, rec: PlaneRecord): (r: Database)
    ensures |db| <= |r| <= |db| + 1
    ensures forall j :: 0 <= j < |db| ==>
      r[j].ownId == db[j].ownId && r[j].isarId == db[j].isarId && KindOf(r[j]) == KindOf(db[j])
    ensures |r| == |db| + 1 ==> r[|db|].ownId == newId && KindOf(r[|db|]) == PlaneKind
  {
    if GetTrackOfKind(db, rec.hashCode, PlaneKind).Some? then
      var i := IndexOfIsarId(db, rec.hashCode).value;
      var u := if rec.state == TrackingLimited then Removed else Updated;
      db[i := UpdateTrackedPlane(db[i], ChangeOf(rec, u, SubsumedId(db, rec)))]
    else if rec.state != TrackingTracking then db
    else
      var added := AddTrack(db, NewPlane(newId, rec.hashCode));
      added[|db| := UpdateTrackedPlane(added[|db|], ChangeOf(rec, Added, SubsumedId(added, rec)))]
  }

  /** A known plane: only its entry changes, it has a change pending, and the pending type is
      Removed for a Limited record and Updated otherwise unless a change was already pending. */
  lemma KnownPlaneUpdated(db: Database, newId: TrackableId, rec: PlaneRecord)
    requires GetTrackOfKind(db, rec.hashCode, PlaneKind).Some?
    ensures IndexOfIsarId(db, rec.hashCode).Some?
    ensures var i := IndexOfIsarId(db, rec.hashCode).value;
      var r := UpdatePlane(db, newId, rec);
      && |r| == |db|
      && (forall j :: 0 <= j < |db| && j != i ==> r[j] == db[j])
      && r[i].hasChanges && KindOf(r[i]) == PlaneKind && r[i].isarId == rec.hashCode
      && r[i].updateType == (if db[i].hasChanges then db[i].updateType
                             else if rec.state == TrackingLimited then Removed else Updated)
      && r[i].track.polygon == rec.polygon
      && r[i].track.plane.trackingState == rec.state
      && r[i].track.plane.pose == rec.pose
  {
  }

  /** An unknown plane that is not tracking is dropped. */
  lemma UntrackedPlaneDropped(db: Database, newId: TrackableId, rec: PlaneRecord)
    requires GetTrackOfKind(db, rec.hashCode, PlaneKind).None? && rec.state != TrackingTracking
    ensures UpdatePlane(db, newId, rec) == db
  {
  }

  /** An unknown tracking plane is appended, pending as added, with the new id as its
      track id. */
  lemma NewPlaneAdded(db: Database, newId: TrackableId, rec: PlaneRecord)
    requires GetTrackOfKind(db, rec.hashCode, PlaneKind).None? && rec.state == TrackingTracking
    ensures var r := UpdatePlane(db, newId, rec);
      && |r| == |db| + 1 && r[..|db|] == db
      && PendingAs(r[|db|], PlaneKind, Added)
      && r[|db|].isarId == rec.hashCode && TrackIdOf(r[|db|]) == newId
      && r[|db|].track.polygon == rec.polygon && r[|db|].track.plane.pose == rec.pose
  {
    var r := UpdatePlane(db, newId, rec);
    assert r[..|db|] == db;
  }

  /** When the first trackable with a plane's remote id is an image, the plane is never
      found: every tracking report of it appends another plane. */
  lemma ShadowedPlaneAddedAgain(db: Database, f1: TrackableId, f2: TrackableId, rec: PlaneRecord)
    requires GetTrack(db, rec.hashCode).Some? && KindOf(GetTrack(db, rec.hashCode).value) == ImageKind
    requires rec.state == TrackingTracking
    ensures |UpdatePlane(UpdatePlane(db, f1, rec), f2, rec)| == |db| + 2
  {
    var once := UpdatePlane(db, f1, rec);
    NewPlaneAdded(db, f1, rec);
    var i := IndexOfIsarId(db, rec.hashCode).value;
    assert once[i] == db[i];
    assert IndexOfIsarId(once, rec.hashCode) == Some(i) by {
      assert forall j :: 0 <= j < i ==> once[j] == db[j];
    }
    NewPlaneAdded(once, f2, rec);
  }

  // The database invariant the providers keep.

  /** A plane update with a new id keeps the database settled. */
  lemma UpdatePlaneSettled(db: Database, newId: TrackableId, rec: PlaneRecord)
    requires Settled(db) && IsNewId(db, newId)
    ensures Settled(UpdatePlane(db, newId, rec))
  {
    var r := UpdatePlane(db, newId, rec);
    if GetTrackOfKind(db, rec.hashCode, PlaneKind).Some? {
      KnownPlaneUpdated(db, newId, rec);
    } else if rec.state == TrackingTracking {
      NewPlaneAdded(db, newId, rec);
    }
  }

  /** A known plane reported Limited, with nothing pending, is among the removals the next
      `GetChanges` reports. */
  lemma LimitedPlaneReportedRemoved(db: Database, newId: TrackableId, rec: PlaneRecord)
    requires Settled(db) && rec.state == TrackingLimited
    requires GetTrackOfKind(db, rec.hashCode, PlaneKind).Some?
    requires !GetTrackOfKind(db, rec.hashCode, PlaneKind).value.hasChanges
    ensures GetTrackOfKind(db, rec.hashCode, PlaneKind).value.ownId in PendingRemovals(UpdatePlane(db, newId, rec), PlaneKind)
  {
    var r := UpdatePlane(db, newId, rec);
    KnownPlaneUpdated(db, newId, rec);
    var i := IndexOfIsarId(db, rec.hashCode).value;
    assert Settled(r);
    SettledDistinct(r);
    RemovalsAreCarried(r, PlaneKind);
    assert PendingAs(r[i], PlaneKind, Removed);
  }

  // The results message.

  /** The records of one message applied in order; the record at position `n` of the message
      takes `guid(n)` if it creates a plane. */
  function ApplyRecords(db: Database, rs: seq<PlaneRecord>, guid: nat -> TrackableId, n: nat): (r: Database)
    ensures |db| <= |r| <= |db| + |rs|
    decreases |rs|
  {
    if |rs| == 0 then db else ApplyRecords(UpdatePlane(db, guid(n), rs[0]), rs[1..], guid, n + 1)
  }

  /** The GUIDs from position `n` on are distinct and none is an own id in the database. */
  ghost predicate FreshFrom(db: Database, guid: nat -> TrackableId, n: nat) {
    && (forall i: nat, j :: n <= i && 0 <= j < |db| ==> guid(i) != db[j].ownId)
    && (forall i: nat, k: nat :: n <= i < k ==> guid(i) != guid(k))
  }

  /** Applying a message's planes with fresh GUIDs keeps the database settled. */
  lemma {:induction false} ApplyRecordsSettled(db: Database, rs: seq<PlaneRecord>, guid: nat -> TrackableId, n: nat)
    requires Settled(db) && FreshFrom(db, guid, n)
    ensures Settled(ApplyRecords(db, rs, guid, n))
    decreases |rs|
  {
    if |rs| > 0 {
      var next := UpdatePlane(db, guid(n), rs[0]);
      UpdatePlaneSettled(db, guid(n), rs[0]);
      assert FreshFrom(next, guid, n + 1) by {
        forall i: nat, j | n + 1 <= i && 0 <= j < |next| ensures guid(i) != next[j].ownId {
          if j < |db| {
            assert next[j].ownId == db[j].ownId;
          } else {
            assert next[j].ownId == guid(n);
          }
        }
      }
      ApplyRecordsSettled(next, rs[1..], guid, n + 1);
    }
  }

  /** `OnCustomMessageReceived`: with detection off every message is ignored. Otherwise the
      planes of a results message are applied in order, and an exception in the parse
      leaves the planes before it applied and ends the handler. `asWritten` picks the length
      guard: the source's `<=`, which drops a message exactly as long as its planes' fixed
      parts, or the corrected `<`, which reads it. */
  function OnCustomMessageReceived(p: Provider, db: Database, message: seq<byte>, beyond: seq<byte>, guid: nat -> TrackableId, asWritten: bool): (r: (Database, Option<Fault>))
    requires |beyond| == 4
    ensures p.mode == ModeNone ==> r == (db, None)
    ensures r.1.Some? ==> ReadMessage(message, beyond, asWritten).Planes?
    ensures ReadMessage(message, beyond, asWritten).Ignored? ==> r == (db, None)
  {
    if p.mode == ModeNone then (db, None)
    else match ReadMessage(message, beyond, asWritten)
      case Ignored => (db, None)
      case Planes(parsed) => (ApplyRecords(db, parsed.records, guid, 0), parsed.fault)
  }

  /** Whatever message arrives, under either guard, fresh GUIDs keep the database settled. */
  lemma MessageKeepsSettled(p: Provider, db: Database, message: seq<byte>, beyond: seq<byte>, guid: nat -> TrackableId, asWritten: bool)
    requires |beyond| == 4 && Settled(db) && FreshFrom(db, guid, 0)
    ensures Settled(OnCustomMessageReceived(p, db, message, beyond, guid, asWritten).0)
  {
    var outcome := ReadMessage(message, beyond, asWritten);
    if p.mode != ModeNone && outcome.Planes? {
      ApplyRecordsSettled(db, outcome.parsed.records, guid, 0);
    }
  }

  /** A results message built from planes, received with detection on, applies exactly those
      planes in order and raises nothing, unless the source's guard drops it: that happens
      exactly when none of its planes has a boundary point, and then nothing changes. */
  lemma ResultsMessageApplied(p: Provider, db: Database, rs: seq<PlaneRecord>, beyond: seq<byte>, guid: nat -> TrackableId, asWritten: bool)
    requires p.mode != ModeNone && Encodable(rs) && |beyond| == 4
    ensures !asWritten || PointCount(rs) > 0 ==>
      OnCustomMessageReceived(p, db, EncodeMessage(rs), beyond, guid, asWritten) == (ApplyRecords(db, rs, guid, 0), None)
    ensures asWritten && PointCount(rs) == 0 ==>
      OnCustomMessageReceived(p, db, EncodeMessage(rs), beyond, guid, asWritten) == (db, None)
  {
    if asWritten {
      AsWrittenRoundTrip(rs, beyond);
    } else {
      CorrectedRoundTrip(rs, beyond);
    }
  }

  /** As written, a one-plane message whose plane has no boundary points is dropped by the
      handler; under the corrected guard the plane is added. */
  lemma BoundlessPlaneDroppedAsWritten(p: Provider, db: Database, beyond: seq<byte>, guid: nat -> TrackableId)
    requires p.mode != ModeNone && |beyond| == 4
    ensures var r := PlaneRecord(7, TrackingTracking, false, 0, IdentityPose, Vector2(0, 0), Vector2(0, 0), 0, []);
      && OnCustomMessageReceived(p, db, EncodeMessage([r]), beyond, guid, true) == (db, None)
      && OnCustomMessageReceived(p, db, EncodeMessage([r]), beyond, guid, false) == (UpdatePlane(db, guid(0), r), None)
  {
    var r := PlaneRecord(7, TrackingTracking, false, 0, IdentityPose, Vector2(0, 0), Vector2(0, 0), 0, []);
    ExactSizeMessageDropped(beyond);
    assert ApplyRecords(db, [r], guid, 0) == ApplyRecords(UpdatePlane(db, guid(0), r), [], guid, 1);
  }

  // Boundaries.

  /** `GetBoundary`: the polygon of the first trackable with that track id, if it is a plane;
      otherwise the boundary is left as it was. */
  function GetBoundary(db: Database, id: TrackableId): (r: Option<seq<Vector2>>)
    ensures r.Some? ==> exists i :: 0 <= i < |db| && TrackIdOf(db[i]) == id && KindOf(db[i]) == PlaneKind && db[i].track.polygon == r.value
    ensures (forall i :: 0 <= i < |db| ==> TrackIdOf(db[i]) != id) ==> r.None?
  {
    match GetTrackById(db, id)
    case None => None
    case Some(t) => if KindOf(t) == PlaneKind then Some(t.track.polygon) else None
  }

  /** A newly tracked plane's boundary is the reported polygon, found under the new id. */
  lemma NewPlaneBoundary(db: Database, newId: TrackableId, rec: PlaneRecord)
    requires Settled(db) && IsNewId(db, newId)
    requires GetTrackOfKind(db, rec.hashCode, PlaneKind).None? && rec.state == TrackingTracking
    ensures GetBoundary(UpdatePlane(db, newId, rec), newId) == Some(rec.polygon)
  {
    var r := UpdatePlane(db, newId, rec);
    NewPlaneAdded(db, newId, rec);
    assert forall j :: 0 <= j < |db| ==> TrackIdOf(r[j]) != newId by {
      assert forall j :: 0 <= j < |db| ==> r[j] == db[j];
    }
    assert IndexOfTrackId(r, newId) == Some(|db|);
  }
}

=== FILE: qrcode.dfy ===
/** The QR example's decoding of a code's raw data and its watching flag. The raw data is the
    QR bit stream: a 4-bit mode indicator, a character count (8 bits up to version 9, 16
    bits from version 10), the payload bytes, and whatever follows. Shifting the whole byte
    array right by four bits drops the mode nibble into byte 0 and aligns the count and the
    payload on byte boundaries. */
module QrCode {
  import opened Wrappers
  import opened Bytes
  import opened Types

  // Bit shifting.

  /** `b | 0x80` on a byte. */
  function Or80(b: byte): (r: byte)
    ensures r >= 0x80 && r % 0x80 == b % 0x80
  {
    if b >= 0x80 then b else b + 0x80
  }

  /** The array shifted right by one bit as one big-endian bit string: every byte loses its
      low bit and receives the low bit of its left neighbour as its high bit. */
  function ShiftBytes(b: seq<byte>): (r: seq<byte>)
    ensures |r| == |b|
  {
    seq(|b|, i requires 0 <= i < |b| => b[i] / 2 + (if i > 0 && b[i - 1] % 2 == 1 then 0x80 else 0))
  }

  /** `ShiftRight(ref bytes)`: walks the array right to left, moving each byte's low bit into
      the high bit of its right neighbour, and returns the low bit of the last byte. */
  method ShiftRight(b: seq<byte>) returns (r: seq<byte>, carry: bool)
    ensures |r| == |b|
    ensures |b| > 0 ==> r[0] == b[0] / 2
    ensures forall i :: 0 < i < |b| ==> r[i] == b[i] / 2 + (if b[i - 1] % 2 == 1 then 0x80 else 0)
    ensures carry <==> |b| > 0 && b[|b| - 1] % 2 == 1
    ensures r == ShiftBytes(b)
  {
    r := b;
    carry := false;
    var rightEnd := |b| - 1;
    var index := rightEnd;
    while index >= 0
      invariant -1 <= index <= rightEnd
      invariant |r| == |b|
      invariant forall j :: 0 <= j <= index ==> r[j] == b[j]
      invariant forall j :: index + 2 <= j < |b| ==> r[j] == ShiftBytes(b)[j]
      invariant index + 1 < |b| ==> r[index + 1] == b[index + 1] / 2
      invariant carry <==> index < rightEnd && b[rightEnd] % 2 == 1
    {
      var carryFlag := r[index] % 2 == 1;
      if index < rightEnd {
        if carryFlag {
          r := r[index + 1 := Or80(r[index + 1])];
        }
      } else {
        carry := carryFlag;
      }
      r := r[index := r[index] / 2];
      index := index - 1;
    }
  }

  /** Shifting right by one bit halves the array read as a big-endian number; the bit that
      falls off the end is its parity. */
  lemma {:induction false} ShiftHalves(b: seq<byte>)
    ensures FromBE(b) == 2 * FromBE(ShiftBytes(b)) + (if |b| > 0 then b[|b| - 1] % 2 else 0)
    decreases |b|
  {
    if |b| > 0 {
      var p := b[..|b| - 1];
      var x := b[|b| - 1];
      ShiftHalves(p);
      var s := ShiftBytes(b);
      assert s[..|b| - 1] == ShiftBytes(p);
      var high := if |p| > 0 then p[|p| - 1] % 2 else 0;
      assert s[|b| - 1] == x / 2 + 0x80 * high;
    }
  }

  /** `n` one-bit right shifts. */
  function ShiftN(b: seq<byte>, n: nat): (r: seq<byte>)
    ensures |r| == |b|
  {
    if n == 0 then b else ShiftBytes(ShiftN(b, n - 1))
  }

  /** Four one-bit shifts divide the big-endian value by 16. */
  lemma ShiftFour(b: seq<byte>)
    ensures FromBE(ShiftN(b, 4)) == FromBE(b) / 16
  {
    ShiftHalves(ShiftN(b, 0));
    ShiftHalves(ShiftN(b, 1));
    ShiftHalves(ShiftN(b, 2));
    ShiftHalves(ShiftN(b, 3));
  }

  /** The four shifts at the start of `GetQRCodeData`: the nibble below the array's last byte
      is dropped. */
  method ShiftNibble(data: seq<byte>) returns (s: seq<byte>)
    ensures s == ShiftN(data, 4)
    ensures |s| == |data| && FromBE(s) == FromBE(data) / 16
  {
    s := data;
    for i := 0 to 4
      invariant s == ShiftN(data, i)
    {
      var carry;
      s, carry := ShiftRight(s);
    }
    ShiftFour(data);
  }

  // Reading the payload.

  /** The exceptions `GetQRCodeData` can raise: indexing past the array, or a count that
      `Encoding.GetString` rejects. */
  datatype QrDataError = IndexOutOfRange | ArgumentOutOfRange

  /** The payload between `start` and `start + count`, as `GetString(bytes, start, count)`
      takes it. */
  function Slice(s: seq<byte>, start: nat, count: int): (r: Result<seq<byte>, QrDataError>)
    ensures r.Success? <==> 0 <= count && start + count <= |s|
    ensures r.Success? ==> |r.value| == count && r.value == s[start..start + count]
  {
    if count < 0 || start + count > |s| then Failure(ArgumentOutOfRange)
    else Success(s[start..start + count])
  }

  /** The payload bytes `GetQRCodeData` decodes, read from the shifted array as written:
      for versions from 10 on the 16-bit count is read with `BitConverter.ToInt16`, low
      byte first. */
  function PayloadAsWritten(version: int, s: seq<byte>): (r: Result<seq<byte>, QrDataError>)
    ensures version < 10 && |s| >= 2 ==> r == Slice(s, 2, s[1])
    ensures version >= 10 && |s| >= 3 ==> r == Slice(s, 3, ReadInt16LE(s, 1))
    ensures r.Success? ==> |s| >= (if version < 10 then 2 else 3)
  {
    if version < 10 then
      if |s| < 2 then Failure(IndexOutOfRange) else Slice(s, 2, s[1])
    else
      if |s| < 3 then Failure(IndexOutOfRange) else Slice(s, 3, ReadInt16LE(s, 1))
  }

  /** The 16-bit character count of a QR segment, most significant byte first as the QR bit
      stream stores it. */
  function Count16(s: seq<byte>): (n: nat)
    requires |s| >= 3
    ensures n < 0x1_0000 && n / 256 == s[1] && n % 256 == s[2]
  {
    var high: int := s[1];
    high * 256 + s[2]
  }

  /** The payload with the 16-bit count read most significant byte first. */
  function Payload(version: int, s: seq<byte>): (r: Result<seq<byte>, QrDataError>)
    ensures version < 10 && |s| >= 2 ==> r == Slice(s, 2, s[1])
    ensures version >= 10 && |s| >= 3 ==> r == Slice(s, 3, Count16(s))
    ensures r.Success? ==> |s| >= (if version < 10 then 2 else 3)
  {
    if version < 10 then
      if |s| < 2 then Failure(IndexOutOfRange) else Slice(s, 2, s[1])
    else
      if |s| < 3 then Failure(IndexOutOfRange) else Slice(s, 3, Count16(s))
  }

  /** The two readings differ only in the two-byte count: below version 10 they agree, and
      from version 10 on they agree when the two count bytes are equal and below 0x80, so
      that the count reads the same both ways round. */
  lemma CountReadingsAgree(version: int, s: seq<byte>)
    ensures version < 10 ==> PayloadAsWritten(version, s) == Payload(version, s)
    ensures version >= 10 && |s| >= 3 && s[1] == s[2] && s[1] < 0x80 ==> PayloadAsWritten(version, s) == Payload(version, s)
  {
    if version >= 10 && |s| >= 3 && s[1] == s[2] && s[1] < 0x80 {
      assert ReadInt16LE(s, 1) == Count16(s);
    }
  }

  /** `GetQRCodeData` up to the UTF-8 decoding: the payload bytes of the code's raw data.
      `asWritten` picks how a two-byte count is read: low byte first with `ToInt16`, as the
      source does, or most significant byte first, as the QR bit stream stores it. */
  method GetQRCodeData(version: int, data: seq<byte>, asWritten: bool) returns (r: Result<seq<byte>, QrDataError>)
    ensures asWritten ==> r == PayloadAsWritten(version, ShiftN(data, 4))
    ensures !asWritten ==> r == Payload(version, ShiftN(data, 4))
    ensures |data| < 2 ==> r == Failure(IndexOutOfRange)
    ensures r.Success? ==> |r.value| <= |data|
  {
    var s := ShiftNibble(data);
    if asWritten {
      r := PayloadAsWritten(version, s);
    } else {
      r := Payload(version, s);
    }
  }

  // Round trip against the QR segment layout.

  /** The count field of a byte-mode segment: one byte up to version 9, two bytes most
      significant first from version 10. */
  function CountField(version: int, n: nat): (r: seq<byte>)
    requires n < (if version < 10 then 0x100 else 0x1_0000)
    ensures |r| == (if version < 10 then 1 else 2)
  {
    if version < 10 then [n] else [n / 256, n % 256]
  }

  /** A byte-mode segment as the QR bit stream lays it out: the mode nibble, the count, the
      data and any trailing bits, shifted left by four bits with `pad` in the last nibble. */
  function Segment(version: int, mode: nat, d: seq<byte>, tail: seq<byte>, pad: nat): (raw: seq<byte>)
    requires mode < 16 && pad < 16 && |d| < (if version < 10 then 0x100 else 0x1_0000)
    ensures |raw| == 1 + |CountField(version, |d|)| + |d| + |tail|
  {
    var bits := [mode] + CountField(version, |d|) + d + tail;
    ToBE(FromBE(bits) * 16 + pad, |bits|)
  }

  lemma {:induction false} FromBEAppend(p: seq<byte>, q: seq<byte>)
    ensures FromBE(p + q) == FromBE(p) * Pow256(|q|) + FromBE(q)
    decreases |q|
  {
    if |q| == 0 {
      assert p + q == p;
    } else {
      var q' := q[..|q| - 1];
      var last := q[|q| - 1];
      assert (p + q)[..|p + q| - 1] == p + q';
      assert (p + q)[|p + q| - 1] == last;
      FromBEAppend(p, q');
      var x, rest, scale := FromBE(p), FromBE(q'), Pow256(|q'|);
      assert FromBE(p + q) == 256 * (x * scale + rest) + last;
      assert FromBE(q) == 256 * rest + last;
      assert Pow256(|q|) == 256 * scale;
      MulShift(x, scale, rest);
    }
  }

  lemma MulShift(x: nat, scale: nat, rest: nat)
    ensures 256 * (x * scale + rest) == x * (256 * scale) + 256 * rest
  {
  }

  /** A string whose first byte is below 16 leaves room for four more low bits. */
  lemma NibbleRoom(bits: seq<byte>, pad: nat)
    requires |bits| > 0 && bits[0] < 16 && pad < 16
    ensures FromBE(bits) * 16 + pad < Pow256(|bits|)
  {
    var rest := bits[1..];
    assert bits == [bits[0]] + rest;
    FromBEAppend([bits[0]], rest);
    FromBEBound(rest);
    assert FromBE([bits[0]]) == bits[0];
    var p := Pow256(|rest|);
    assert FromBE(bits) == bits[0] * p + FromBE(rest);
    HeadBelow(bits[0], p, FromBE(rest));
    assert Pow256(|bits|) == 256 * p;
  }

  lemma HeadBelow(head: nat, p: nat, rest: nat)
    requires head < 16 && rest < p
    ensures head * p + rest <= 16 * p - 1
  {
    assert head * p <= 15 * p;
  }

  /** Shifting the segment right by four bits restores the unshifted layout. */
  lemma SegmentUnshifts(version: int, mode: nat, d: seq<byte>, tail: seq<byte>, pad: nat)
    requires mode < 16 && pad < 16 && |d| < (if version < 10 then 0x100 else 0x1_0000)
    ensures ShiftN(Segment(version, mode, d, tail, pad), 4) == [mode] + CountField(version, |d|) + d + tail
  {
    var bits := [mode] + CountField(version, |d|) + d + tail;
    var raw := Segment(version, mode, d, tail, pad);
    NibbleRoom(bits, pad);
    BERoundTrip(FromBE(bits) * 16 + pad, |bits|);
    var s := ShiftN(raw, 4);
    ShiftFour(raw);
    assert FromBE(s) == FromBE(bits);
    BEDecodeRoundTrip(s);
    BEDecodeRoundTrip(bits);
  }

  /** The payload of every byte-mode segment is read back exactly, for every version. */
  lemma PayloadRoundTrip(version: int, mode: nat, d: seq<byte>, tail: seq<byte>, pad: nat)
    requires mode < 16 && pad < 16 && |d| < (if version < 10 then 0x100 else 0x1_0000)
    ensures Payload(version, ShiftN(Segment(version, mode, d, tail, pad), 4)) == Success(d)
  {
    SegmentUnshifts(version, mode, d, tail, pad);
    var s := [mode] + CountField(version, |d|) + d + tail;
    var h := 1 + |CountField(version, |d|)|;
    assert s[h..h + |d|] == d;
  }

  /** As written, a version-10 code holding five payload bytes reads the count 0x0500 and
      fails, where the corrected reader returns the payload. */
  lemma LittleEndianCountFails()
    ensures var raw := Segment(10, 4, [1, 2, 3, 4, 5], [], 0);
      && PayloadAsWritten(10, ShiftN(raw, 4)) == Failure(ArgumentOutOfRange)
      && Payload(10, ShiftN(raw, 4)) == Success([1, 2, 3, 4, 5])
  {
    var d: seq<byte> := [1, 2, 3, 4, 5];
    SegmentUnshifts(10, 4, d, [], 0);
    PayloadRoundTrip(10, 4, d, [], 0);
    var s := ShiftN(Segment(10, 4, d, [], 0), 4);
    assert s == [4, 0, 5] + d + [];
    assert ReadInt16LE(s, 1) == 0x0500;
  }

  // The watching flag.

  datatype DeviceType = Hmd | Handheld

  datatype Watcher = Watcher(isWatching: bool, destroyVisualizers: bool, device: DeviceType)

  /** What a call into the QR API did: nothing, returned, or threw (and `throw;` rethrew). */
  datatype Call = NotCalled | Returned | Threw

  /** `StartWatching`: a no-op while watching; otherwise starts the API if connected. A
      thrown exception propagates and leaves the flag unset. The device is a head-mounted
      display exactly when the render config has two views. */
  function StartWatching(w: Watcher, connected: bool, startThrows: bool, numViews: int): (r: (Watcher, Call))
    ensures r.0.isWatching <==> w.isWatching || (connected && !startThrows)
    ensures r.1 == (if w.isWatching || !connected then NotCalled else if startThrows then Threw else Returned)
    ensures r.1 == Returned ==> r.0.device == (if numViews == 2 then Hmd else Handheld)
    ensures r.1 != Returned ==> r.0 == w
    ensures r.0.destroyVisualizers == w.destroyVisualizers
  {
    if w.isWatching || !connected then (w, NotCalled)
    else if startThrows then (w, Threw)
    else (w.(isWatching := true, device := if numViews == 2 then Hmd else Handheld), Returned)
  }

  /** `StopWatching`: stops the API if watching and connected, then clears the flag and
      schedules the visualizers' destruction; an exception from the API is rethrown before
      either assignment. */
  function StopWatching(w: Watcher, connected: bool, stopThrows: bool): (r: (Watcher, Call))
    ensures r.1 == (if !w.isWatching || !connected then NotCalled else if stopThrows then Threw else Returned)
    ensures r.1 != Threw ==> !r.0.isWatching && r.0.destroyVisualizers && r.0.device == w.device
    ensures r.1 == Threw ==> r.0 == w
  {
    if w.isWatching && connected && stopThrows then (w, Threw)
    else (w.(isWatching := false, destroyVisualizers := true),
          if w.isWatching && connected then Returned else NotCalled)
  }

  /** `OnConnectionStateChanged`: losing or failing the connection stops watching. */
  function OnConnectionStateChanged(w: Watcher, state: ConnectionState): (r: Watcher)
    ensures !state.Connected? ==> !r.isWatching && r.destroyVisualizers
    ensures state.Connected? ==> r == w
  {
    if state.Disconnected? || state.Failed? then w.(isWatching := false, destroyVisualizers := true)
    else w
  }

  /** `QrApi_OnEnumerationCompleted`: the watcher has stopped. */
  function OnEnumerationCompleted(w: Watcher): (r: Watcher)
    ensures !r.isWatching && r.destroyVisualizers == w.destroyVisualizers && r.device == w.device
  {
    w.(isWatching := false)
  }

  /** The events that touch the flag. */
  datatype WatchEvent =
    | Start(connected: bool, startThrows: bool, numViews: int)
    | Stop(connected: bool, stopThrows: bool)
    | StateChanged(state: ConnectionState)
    | EnumerationCompleted

  function Step(w: Watcher, e: WatchEvent): Watcher {
    match e
    case Start(c, t, v) => StartWatching(w, c, t, v).0
    case Stop(c, t) => StopWatching(w, c, t).0
    case StateChanged(s) => OnConnectionStateChanged(w, s)
    case EnumerationCompleted => OnEnumerationCompleted(w)
  }

  function Run(w: Watcher, es: seq<WatchEvent>): Watcher
    decreases |es|
  {
    if |es| == 0 then w else Step(Run(w, es[..|es| - 1]), es[|es| - 1])
  }

  /** A start that finds the API connected and does not throw. */
  predicate StartsWatching(e: WatchEvent) {
    e.Start? && e.connected && !e.startThrows
  }

  /** An event that leaves the flag cleared whatever the state: a stop that does not throw,
      a lost or failed connection, or a completed enumeration. */
  predicate Clears(e: WatchEvent) {
    || (e.Stop? && !(e.connected && e.stopThrows))
    || (e.StateChanged? && !e.state.Connected?)
    || e.EnumerationCompleted?
  }

  /** The last successful start has no clearing event after it. */
  ghost predicate StartStands(es: seq<WatchEvent>) {
    exists i :: 0 <= i < |es| && StartsWatching(es[i]) && forall j :: i < j < |es| ==> !Clears(es[j])
  }

  /** One event: a successful start sets the flag, a clearing event clears it, and every
      other event leaves it as it was. */
  lemma StepWatching(w: Watcher, e: WatchEvent)
    ensures StartsWatching(e) ==> Step(w, e).isWatching
    ensures Clears(e) ==> !Step(w, e).isWatching
    ensures !StartsWatching(e) && !Clears(e) ==> Step(w, e).isWatching == w.isWatching
  {
  }

  /** Starting from a flag that is off, the example is watching after a run of events
      exactly when some successful start is followed by no clearing event. */
  lemma {:induction false} WatchingIffStartStands(w: Watcher, es: seq<WatchEvent>)
    requires !w.isWatching
    ensures Run(w, es).isWatching <==> StartStands(es)
    decreases |es|
  {
    if |es| > 0 {
      var init := es[..|es| - 1];
      var last := es[|es| - 1];
      WatchingIffStartStands(w, init);
      StepWatching(Run(w, init), last);
      if StartsWatching(last) {
        assert StartStands(es) by {
          assert StartsWatching(es[|es| - 1]);
        }
      } else if Clears(last) {
        forall i | 0 <= i < |es| && StartsWatching(es[i])
          ensures exists j :: i < j < |es| && Clears(es[j])
        {
          assert i < |es| - 1 && Clears(es[|es| - 1]);
        }
      } else {
        if StartStands(es) {
          var i :| 0 <= i < |es| && StartsWatching(es[i]) && forall j :: i < j < |es| ==> !Clears(es[j]);
          assert i < |init| && StartsWatching(init[i]);
          assert forall j :: i < j < |init| ==> init[j] == es[j];
          assert StartStands(init);
        }
        if StartStands(init) {
          var i :| 0 <= i < |init| && StartsWatching(init[i]) && forall j :: i < j < |init| ==> !Clears(init[j]);
          assert StartsWatching(es[i]);
          assert forall j :: i < j < |es| ==> !Clears(es[j]);
          assert StartStands(es);
        }
      }
    }
  }

  /** Without a successful start the flag never comes back on. */
  lemma {:induction false} NoStartNoWatching(w: Watcher, es: seq<WatchEvent>)
    requires !w.isWatching
    requires forall i :: 0 <= i < |es| ==> !StartsWatching(es[i])
    ensures !Run(w, es).isWatching
    decreases |es|
  {
    if |es| > 0 {
      NoStartNoWatching(w, es[..|es| - 1]);
    }
  }
}

=== FILE: raycast.dfy ===
/** The raycast provider (`IsarXRRaycastSubsystem.IsarProvider`). A raycast sends the ray or
    screen point to the client and then waits for the client's hit-results message; the
    message handler parses the hits, keeps those whose type the request's mask allows, and
    signals the waiting raycast.

    The wait is split in two here: `RaycastRay` or `RaycastScreenPoint` sends the request,
    the messages that arrive meanwhile are applied with `OnCustomMessageReceived`, and
    `AwaitHits` is the wake-up. A wait that times out is a wake-up with nothing signalled. */
module Raycast {
  import opened Wrappers
  import opened Bytes
  import opened Geometry
  import opened Types
  import opened Trackables
  import opened TrackablesDatabase
  import opened CustomMessageTypes

  /** Unity's `TrackableType` flags, as bits. */
  type TrackableType = bv32

  const PlaneWithinPolygon: TrackableType := 1
  const PlaneWithinBounds: TrackableType := 2
  const PlaneWithinInfinity: TrackableType := 4
  const PlaneEstimated: TrackableType := 8
  const Planes: TrackableType := 15
  const FeaturePoint: TrackableType := 16
  const Image: TrackableType := 32
  const Face: TrackableType := 64
  const All: TrackableType := 127

  /** `Enum.HasFlag`: every bit of the flag is set. */
  predicate HasFlag(t: TrackableType, flag: TrackableType) {
    t & flag == flag
  }

  /** `IsTrackCorrectType`: the mask allows everything, or all plane kinds and the type is
      some plane, or the two share one of the listed flags. Taken together, a type is
      accepted exactly when the mask holds `All` or shares any bit of `All` with the type
      (`TrackCorrectTypeRule`). */
  predicate IsTrackCorrectType(t: TrackableType, mask: TrackableType) {
    || HasFlag(mask, All)
    || (HasFlag(mask, Planes) && t & Planes != 0)
    || (HasFlag(mask, PlaneEstimated) && HasFlag(t, PlaneEstimated))
    || (HasFlag(mask, PlaneWithinInfinity) && HasFlag(t, PlaneWithinInfinity))
    || (HasFlag(mask, PlaneWithinBounds) && HasFlag(t, PlaneWithinBounds))
    || (HasFlag(mask, PlaneWithinPolygon) && HasFlag(t, PlaneWithinPolygon))
    || (HasFlag(mask, FeaturePoint) && HasFlag(t, FeaturePoint))
    || (HasFlag(mask, Image) && HasFlag(t, Image))
    || (HasFlag(mask, Face) && HasFlag(t, Face))
  }

  lemma TrackCorrectTypeRule(t: TrackableType, mask: TrackableType)
    ensures IsTrackCorrectType(t, mask) <==> HasFlag(mask, All) || t & mask & All != 0
  {
  }

  /** A mask holding `All` accepts every type; a mask holding all plane bits accepts every
      plane type; the empty mask accepts none. */
  lemma MaskCases(t: TrackableType, mask: TrackableType)
    ensures HasFlag(mask, All) ==> IsTrackCorrectType(t, mask)
    ensures HasFlag(mask, Planes) && t & Planes != 0 ==> IsTrackCorrectType(t, mask)
    ensures !IsTrackCorrectType(t, 0)
  {
  }

  // The hit-results message.

  /** A hit as Unity receives it: the trackable's id (the invalid id when no trackable has
      the ISAR id), the pose, the distance and the trackable type. */
  datatype Hit = Hit(id: TrackableId, pose: Pose, distance: F32, hitType: TrackableType)

  /** The id of the first trackable with the ISAR id, or the invalid id. */
  function IdFor(db: Database, isarId: int32): (r: TrackableId)
    ensures GetTrack(db, isarId).None? ==> r == InvalidId
    ensures GetTrack(db, isarId).Some? ==> r == TrackIdOf(GetTrack(db, isarId).value)
  {
    var track := GetTrack(db, isarId);
    if track.Some? then TrackIdOf(track.value) else InvalidId
  }

  /** One hit from its ten words: ISAR id, position xyz, rotation xyzw, distance, type;
      position and rotation are flipped. */
  function ParseHit(db: Database, w: seq<uint32>): (h: Hit)
    requires |w| == 10
  {
    var position := FlipVector3(Vector3(w[1], w[2], w[3]));
    var rotation := FlipQuaternion(Quaternion(w[4], w[5], w[6], w[7]));
    Hit(IdFor(db, ToInt32(w[0])), Pose(position, rotation), w[8], w[9] as bv32)
  }

  /** The hits the mask allows, in order. */
  function Allowed(hs: seq<Hit>, mask: TrackableType): (r: seq<Hit>)
    ensures |r| <= |hs|
    ensures forall k :: 0 <= k < |r| ==> r[k] in hs && IsTrackCorrectType(r[k].hitType, mask)
    ensures forall h :: h in hs && IsTrackCorrectType(h.hitType, mask) ==> h in r
  {
    if |hs| == 0 then []
    else
      var rest := Allowed(hs[1..], mask);
      assert forall h :: h in hs ==> h == hs[0] || h in hs[1..];
      (if IsTrackCorrectType(hs[0].hitType, mask) then [hs[0]] else []) + rest
  }

  /** Hit `i` of the copied bytes: the ten words after the count and the `i` hits before
      it. */
  function HitRead(db: Database, data: seq<byte>, i: nat): (h: Hit)
    requires 4 + 40 * (i + 1) <= |data|
  {
    ParseHit(db, ReadWordsLE(data, 4 + 40 * i, 10))
  }

  /** The hits the loop reads from hit `i` on, and whether a read ran past the copied
      bytes (`BitConverter` throws; the hits read so far stay). The loop keeps a hit the
      moment it reads it when the mask allows it, so what it keeps is `Allowed` of what
      it read. */
  function ReadHits(db: Database, data: seq<byte>, i: nat, count: int): (r: (seq<Hit>, bool))
    decreases count - i
  {
    if count <= i then ([], false)
    else if |data| < 4 + 40 * (i + 1) then ([], true)
    else
      var rest := ReadHits(db, data, i + 1, count);
      ([HitRead(db, data, i)] + rest.0, rest.1)
  }

  /** The loop reads past the copied bytes exactly when they are too short for the
      count, and until then reads one hit per index. */
  lemma {:induction false} ReadHitsPastEnd(db: Database, data: seq<byte>, i: nat, count: int)
    ensures ReadHits(db, data, i, count).1 <==> i < count && |data| < 4 + 40 * count
    ensures !ReadHits(db, data, i, count).1 ==> |ReadHits(db, data, i, count).0| == if i < count then count - i else 0
    decreases count - i
  {
    if i < count && |data| >= 4 + 40 * (i + 1) {
      ReadHitsPastEnd(db, data, i + 1, count);
    }
  }

  /** The length check: the message holds the type, the count and `count` hits. As
      written, `hitSize * hitCount` is a 32-bit product and wraps; as intended, it does
      not. */
  predicate CountAccepted(asWritten: bool, length: int, count: int32) {
    if asWritten then length - 8 == ToInt32(WrapUInt32(40 * count))
    else length - 8 == 40 * count
  }

  /** Why the handler throws: the byte array's length is negative, or a read ran past it. */
  datatype HitsFault = Overflow | ReadPastEnd

  /** The provider's fields: the last connection state, whether `Start` created the
      sender, the mask of the last request, the hits of the last accepted message, and the
      wake-up event. */
  datatype RaycastProvider = RaycastProvider(
    connection: ConnectionState, hasSender: bool, allowed: TrackableType,
    receivedHits: Option<seq<Hit>>, signalled: bool)

  const RaycastCreated := RaycastProvider(Disconnected, false, 0, None, false)

  /** `SetupCustomMessage`: creates the sender. */
  function StartRaycast(p: RaycastProvider): (r: RaycastProvider)
    ensures r.hasSender && r == p.(hasSender := true)
  {
    p.(hasSender := true)
  }

  /** `OnConnectionStateChanged`: only the state is stored. */
  function OnConnectionStateChanged(p: RaycastProvider, s: ConnectionState): (r: RaycastProvider)
    ensures r.connection == s && r.(connection := p.connection) == p
  {
    p.(connection := s)
  }

  /** `OnCustomMessageReceived`: other message types are ignored; the bytes after the type
      are copied (`message.Length` of them, so four bytes past the end: `beyond`), the
      count is checked, and the hits are parsed. Every path after the copy signals the
      waiting raycast, a rejected message included, which then returns the hits of the
      last accepted one. */
  function OnCustomMessageReceived(p: RaycastProvider, db: Database, message: seq<byte>, beyond: seq<byte>, asWritten: bool): (r: (RaycastProvider, Option<HitsFault>))
    requires |beyond| == 4
    ensures ReadInt32LE(message + beyond, 0) != Code(RaycastHitResults) ==> r == (p, None)
    ensures ReadInt32LE(message + beyond, 0) == Code(RaycastHitResults) && |message| < 0x8000_0000 ==>
      r.0.signalled && r.0.(signalled := p.signalled, receivedHits := p.receivedHits) == p
    ensures r.0.receivedHits != p.receivedHits ==>
      r.0.receivedHits.Some? && forall k :: 0 <= k < |r.0.receivedHits.value| ==> IsTrackCorrectType(r.0.receivedHits.value[k].hitType, p.allowed)
  {
    var length := |message|;
    if ReadInt32LE(message + beyond, 0) != Code(RaycastHitResults) then (p, None)
    else if length >= 0x8000_0000 then (p, Some(Overflow))
    else
      var data := (message + beyond)[4..length + 4];
      var q := p.(signalled := true);
      if length < 4 then (q, Some(ReadPastEnd))
      else
        var count := ReadInt32LE(data, 0);
        if !CountAccepted(asWritten, length, count) then (q, None)
        else
          var hits := ReadHits(db, data, 0, count);
          (q.(receivedHits := Some(Allowed(hits.0, p.allowed))), if hits.1 then Some(ReadPastEnd) else None)
  }

  /** With the corrected check an accepted message is parsed to the end without reading
      past it: the count is not negative and the hits fill the message exactly. */
  lemma CorrectedCountFits(length: int, count: int32)
    requires 4 <= length && CountAccepted(false, length, count)
    ensures 0 <= count && 4 + 40 * count + 4 == length
  {
  }

  // What the client sends, and the round trip.

  /** A hit as the client reports it, in Unity's handedness and with the ISAR id. */
  datatype HitReport = HitReport(isarId: int32, pose: Pose, distance: F32, hitType: TrackableType)

  function HitWords(h: HitReport): (w: seq<uint32>)
    ensures |w| == 10
  {
    var position := FlipVector3(h.pose.position);
    var rotation := FlipQuaternion(h.pose.rotation);
    [ToUInt32(h.isarId), position.x, position.y, position.z,
     rotation.x, rotation.y, rotation.z, rotation.w, h.distance, h.hitType as uint32]
  }

  function AllHitWords(hs: seq<HitReport>): (w: seq<uint32>)
    ensures |w| == 10 * |hs|
  {
    if |hs| == 0 then [] else HitWords(hs[0]) + AllHitWords(hs[1..])
  }

  /** A hit-results message: type, count, hits. */
  function EncodeHits(hs: seq<HitReport>): (m: seq<byte>)
    requires 8 + 40 * |hs| < 0x8000_0000
    ensures |m| == 8 + 40 * |hs|
  {
    Int32ToLE(Code(RaycastHitResults)) + Int32ToLE(|hs| as int32) + WordsToLE(AllHitWords(hs))
  }

  /** The hits Unity should receive: each report with its trackable's id, kept when the
      mask allows its type. */
  function Expected(db: Database, hs: seq<HitReport>, mask: TrackableType): (r: seq<Hit>)
    ensures |r| <= |hs|
  {
    if |hs| == 0 then []
    else
      var h := Hit(IdFor(db, hs[0].isarId), hs[0].pose, hs[0].distance, hs[0].hitType);
      (if IsTrackCorrectType(h.hitType, mask) then [h] else []) + Expected(db, hs[1..], mask)
  }

  lemma ParseHitWords(db: Database, h: HitReport)
    ensures ParseHit(db, HitWords(h)) == ReportedHit(db, h)
  {
    FlipVector3Spec(h.pose.position);
    FlipQuaternionSpec(h.pose.rotation);
    assert (h.hitType as uint32) as bv32 == h.hitType;
  }

  lemma {:induction false} AllHitWordsSlice(hs: seq<HitReport>, i: nat)
    requires i < |hs|
    ensures AllHitWords(hs)[10 * i..10 * i + 10] == HitWords(hs[i])
  {
    var all := AllHitWords(hs);
    assert all == HitWords(hs[0]) + AllHitWords(hs[1..]);
    if i > 0 {
      AllHitWordsSlice(hs[1..], i - 1);
      assert all[10 * i..10 * i + 10] == AllHitWords(hs[1..])[10 * (i - 1)..10 * (i - 1) + 10];
    } else {
      assert all[0..10] == HitWords(hs[0]);
    }
  }

  /** Ten words read from the copied bytes at hit `i` are words `10 * i` to `10 * i + 10`
      of the encoded ones. */
  lemma WordsAt(words: seq<uint32>, count: seq<byte>, beyond: seq<byte>, data: seq<byte>, i: nat)
    requires |count| == 4 && data == count + WordsToLE(words) + beyond && 10 * i + 10 <= |words|
    ensures ReadWordsLE(data, 4 + 40 * i, 10) == words[10 * i..10 * i + 10]
  {
    var a := 10 * i;
    WordsRoundTrip(words, count, beyond);
    assert ReadWordsLE(data, 4, |words|) == words;
    ReadWordsSlice(data, 4, |words|, a, 10);
    assert 4 + 4 * a == 4 + 40 * i;
  }

  /** Hit `i` of the copied bytes of an encoded message is read from the words of
      report `i`. */
  lemma HitAt(hs: seq<HitReport>, count: seq<byte>, beyond: seq<byte>, data: seq<byte>, i: nat)
    requires |count| == 4 && data == count + WordsToLE(AllHitWords(hs)) + beyond && i < |hs|
    ensures ReadWordsLE(data, 4 + 40 * i, 10) == HitWords(hs[i])
  {
    WordsAt(AllHitWords(hs), count, beyond, data, i);
    AllHitWordsSlice(hs, i);
  }

  /** A report as Unity receives it, with its trackable's id. */
  function ReportedHit(db: Database, h: HitReport): (r: Hit)
    ensures r.pose == h.pose && r.distance == h.distance && r.hitType == h.hitType
    ensures r.id == IdFor(db, h.isarId)
  {
    Hit(IdFor(db, h.isarId), h.pose, h.distance, h.hitType)
  }

  function Reported(db: Database, hs: seq<HitReport>): (r: seq<Hit>)
    ensures |r| == |hs|
  {
    if |hs| == 0 then [] else [ReportedHit(db, hs[0])] + Reported(db, hs[1..])
  }

  /** Filtering the reported hits is the reference filter. */
  lemma {:induction false} AllowedReported(db: Database, hs: seq<HitReport>, mask: TrackableType)
    ensures Allowed(Reported(db, hs), mask) == Expected(db, hs, mask)
  {
    if |hs| > 0 {
      AllowedReported(db, hs[1..], mask);
      assert Reported(db, hs)[1..] == Reported(db, hs[1..]);
    }
  }

  lemma {:induction false} HitsLoop(db: Database, data: seq<byte>, i: nat, hs: seq<HitReport>)
    requires i <= |hs| && 4 + 40 * |hs| <= |data|
    requires forall k :: i <= k < |hs| ==> HitRead(db, data, k) == ReportedHit(db, hs[k])
    ensures ReadHits(db, data, i, |hs|) == (Reported(db, hs[i..]), false)
    decreases |hs| - i
  {
    if i < |hs| {
      HitsLoop(db, data, i + 1, hs);
      assert hs[i..][0] == hs[i] && hs[i..][1..] == hs[i + 1..];
    }
  }

  /** An encoded message starts with the hit-results type. */
  lemma EncodedHitsType(hs: seq<HitReport>, beyond: seq<byte>)
    requires 8 + 40 * |hs| < 0x8000_0000 && |beyond| == 4
    ensures ReadInt32LE(EncodeHits(hs) + beyond, 0) == Code(RaycastHitResults)
  {
    var none: seq<byte> := [];
    var rest := Int32ToLE(|hs| as int32) + WordsToLE(AllHitWords(hs)) + beyond;
    assert EncodeHits(hs) + beyond == none + Int32ToLE(Code(RaycastHitResults)) + rest;
    Int32LERoundTrip(Code(RaycastHitResults), none, rest);
  }

  /** The bytes the handler copies from an encoded message: the count, then the hits. */
  lemma EncodedHitsData(hs: seq<HitReport>, beyond: seq<byte>)
    requires 8 + 40 * |hs| < 0x8000_0000 && |beyond| == 4
    ensures var m := EncodeHits(hs);
      var data := (m + beyond)[4..|m| + 4];
      && data == Int32ToLE(|hs| as int32) + WordsToLE(AllHitWords(hs)) + beyond
      && ReadInt32LE(data, 0) == |hs| as int32
  {
    var m := EncodeHits(hs);
    var none: seq<byte> := [];
    var count := Int32ToLE(|hs| as int32);
    var words := WordsToLE(AllHitWords(hs));
    var data := (m + beyond)[4..|m| + 4];
    assert m == Int32ToLE(Code(RaycastHitResults)) + count + words;
    assert data == none + count + (words + beyond);
    Int32LERoundTrip(|hs| as int32, none, words + beyond);
  }

  /** Round trip: with the corrected check, a hit-results message for any list of hits
      stores exactly the hits the mask allows, each with its trackable's id, and signals. */
  lemma CorrectedHitsRoundTrip(p: RaycastProvider, db: Database, hs: seq<HitReport>, beyond: seq<byte>)
    requires 8 + 40 * |hs| < 0x8000_0000 && |beyond| == 4
    ensures OnCustomMessageReceived(p, db, EncodeHits(hs), beyond, false)
      == (p.(signalled := true, receivedHits := Some(Expected(db, hs, p.allowed))), None)
  {
    var m := EncodeHits(hs);
    EncodedHitsType(hs, beyond);
    EncodedHitsData(hs, beyond);
    var data := (m + beyond)[4..|m| + 4];
    forall k | 0 <= k < |hs| ensures HitRead(db, data, k) == ReportedHit(db, hs[k]) {
      HitAt(hs, Int32ToLE(|hs| as int32), beyond, data, k);
      ParseHitWords(db, hs[k]);
    }
    HitsLoop(db, data, 0, hs);
    assert hs[0..] == hs;
    AllowedReported(db, hs, p.allowed);
  }

  /** The same message passes the check as written too. */
  lemma AsWrittenAcceptsHonestCount(hs: seq<HitReport>)
    requires 8 + 40 * |hs| < 0x8000_0000
    ensures CountAccepted(true, 8 + 40 * |hs|, |hs| as int32)
  {
  }

  /** A message of only the type and the count 2^29: `40 * 2^29` wraps to 0. */
  const WrappedCount: int32 := 0x2000_0000
  const WrappedMessage: seq<byte> := Int32ToLE(Code(RaycastHitResults)) + Int32ToLE(WrappedCount)

  /** As written the count 2^29 passes the check for an 8-byte message: the stored hits are
      replaced by none and the handler throws reading past the copy. The corrected check
      rejects the message and keeps the stored hits. */
  lemma WrappedCountAcceptedAsWritten(p: RaycastProvider, db: Database, beyond: seq<byte>)
    requires |beyond| == 4
    ensures CountAccepted(true, |WrappedMessage|, WrappedCount)
    ensures !CountAccepted(false, |WrappedMessage|, WrappedCount)
    ensures OnCustomMessageReceived(p, db, WrappedMessage, beyond, true)
      == (p.(signalled := true, receivedHits := Some([])), Some(ReadPastEnd))
    ensures OnCustomMessageReceived(p, db, WrappedMessage, beyond, false) == (p.(signalled := true), None)
  {
    var none: seq<byte> := [];
    var count := Int32ToLE(WrappedCount);
    assert WrappedMessage + beyond == none + Int32ToLE(Code(RaycastHitResults)) + (count + beyond);
    Int32LERoundTrip(Code(RaycastHitResults), none, count + beyond);
    var data := (WrappedMessage + beyond)[4..12];
    assert data == none + count + beyond;
    Int32LERoundTrip(WrappedCount, none, beyond);
    assert 40 * WrappedCount == 5 * 0x1_0000_0000;
    assert WrapUInt32(40 * WrappedCount) == 0;
  }

  // The requests.

  /** The screen-point request: x then y. */
  function ScreenPointPayload(x: F32, y: F32): (b: seq<byte>)
    ensures |b| == 8
  {
    WordsToLE([x, y])
  }

  /** The ray request: origin then direction, each flipped. */
  function RayPayload(origin: Vector3, direction: Vector3): (b: seq<byte>)
    ensures |b| == 24
  {
    var o := FlipVector3(origin);
    var d := FlipVector3(direction);
    WordsToLE([o.x, o.y, o.z, d.x, d.y, d.z])
  }

  /** How the client reads a ray request, back in Unity's handedness. */
  function ReadRay(b: seq<byte>): (r: (Vector3, Vector3))
    requires |b| >= 24
  {
    var w := ReadWordsLE(b, 0, 6);
    (FlipVector3(Vector3(w[0], w[1], w[2])), FlipVector3(Vector3(w[3], w[4], w[5])))
  }

  lemma ScreenPointRoundTrip(x: F32, y: F32)
    ensures ReadWordsLE(ScreenPointPayload(x, y), 0, 2) == [x, y]
  {
    var none: seq<byte> := [];
    WordsRoundTrip([x, y], none, none);
    assert ScreenPointPayload(x, y) == none + WordsToLE([x, y]) + none;
  }

  lemma RayRoundTrip(origin: Vector3, direction: Vector3)
    ensures ReadRay(RayPayload(origin, direction)) == (origin, direction)
  {
    var none: seq<byte> := [];
    var o := FlipVector3(origin);
    var d := FlipVector3(direction);
    var ws := [o.x, o.y, o.z, d.x, d.y, d.z];
    WordsRoundTrip(ws, none, none);
    assert RayPayload(origin, direction) == none + WordsToLE(ws) + none;
    FlipVector3Spec(origin);
    FlipVector3Spec(direction);
  }

  /** The first half of `Raycast(…, screenPoint, …)`: without a sender it returns at once;
      otherwise it stores the mask and sends the point. */
  function RaycastScreenPoint(p: RaycastProvider, x: F32, y: F32, mask: TrackableType): (r: (RaycastProvider, Option<Sent>))
    ensures !p.hasSender ==> r == (p, None)
    ensures p.hasSender ==>
      && r.0 == p.(allowed := mask) && r.1.Some?
      && r.1.value.messageType == Code(CustomMessageTypes.RaycastScreenPoint)
      && |r.1.value.payload| == 8
      && ReadWordsLE(r.1.value.payload, 0, 2) == [x, y]
  {
    if !p.hasSender then (p, None)
    else
      ScreenPointRoundTrip(x, y);
      (p.(allowed := mask), Some(Sent(Code(CustomMessageTypes.RaycastScreenPoint), ScreenPointPayload(x, y))))
  }

  /** The first half of `Raycast(…, ray, …)`. */
  function RaycastRay(p: RaycastProvider, origin: Vector3, direction: Vector3, mask: TrackableType): (r: (RaycastProvider, Option<Sent>))
    ensures !p.hasSender ==> r == (p, None)
    ensures p.hasSender ==>
      && r.0 == p.(allowed := mask) && r.1.Some?
      && r.1.value.messageType == Code(CustomMessageTypes.RaycastRay)
      && |r.1.value.payload| == 24 && ReadRay(r.1.value.payload) == (origin, direction)
  {
    if !p.hasSender then (p, None)
    else
      RayRoundTrip(origin, direction);
      (p.(allowed := mask), Some(Sent(Code(CustomMessageTypes.RaycastRay), RayPayload(origin, direction))))
  }

  /** The second half of a raycast: unsignalled, the wait times out with no hits;
      signalled, the event resets and the stored hits, if any, are returned. */
  function AwaitHits(p: RaycastProvider): (r: (RaycastProvider, seq<Hit>))
    ensures !p.signalled ==> r == (p, [])
    ensures p.signalled ==> r.0 == p.(signalled := false)
    ensures p.signalled && p.receivedHits.Some? ==> r.1 == p.receivedHits.value
    ensures p.receivedHits.None? ==> r.1 == []
  {
    if !p.signalled then (p, [])
    else (p.(signalled := false), if p.receivedHits.Some? then p.receivedHits.value else [])
  }

  /** A ray request answered by a well-formed hit-results message returns exactly the
      reported hits the request's mask allows. */
  lemma RaycastReturnsAllowedHits(p: RaycastProvider, db: Database, origin: Vector3, direction: Vector3,
                                  mask: TrackableType, hs: seq<HitReport>, beyond: seq<byte>)
    requires p.hasSender && 8 + 40 * |hs| < 0x8000_0000 && |beyond| == 4
    ensures var q := RaycastRay(p, origin, direction, mask).0;
      var answered := OnCustomMessageReceived(q, db, EncodeHits(hs), beyond, false).0;
      AwaitHits(answered).1 == Expected(db, hs, mask)
  {
    var q := RaycastRay(p, origin, direction, mask).0;
    CorrectedHitsRoundTrip(q, db, hs, beyond);
  }
}

=== FILE: remotecamera.dfy ===
/** The pose handling of the legacy `RemoteCamera`: a view pose is taken only when its
    timestamp is newer than the last one taken, a disconnect forgets the last timestamp,
    and a frame is sent with the timestamp of the pose it was rendered from. Rendering,
    the pose lock and the clock are parameters. */
module RemoteCamera {
  import opened Wrappers
  import opened Types

  /** `StereoViewPose`: the timestamp and the view and projection matrices, kept whole. */
  datatype ViewPose = ViewPose(timestamp: int, matrices: seq<real>)

  datatype Camera = Camera(
    /** How many times `RemotingServer_ViewPoseReceived` is subscribed to the server. */
    subscriptions: nat,
    lastTimestamp: int,
    currentPose: ViewPose,
    receivedAtLeastOnePose: bool,
    lastFrameTime: real,
    /** How many times a reset of the server and a restart of signaling was started. */
    restarts: nat)

  const Initial := Camera(0, 0, ViewPose(0, []), false, 0.0, 0)

  /** `Callbacks_OnConnectionStateChanged`: a connection subscribes the pose handler; a
      disconnect unsubscribes it, forgets the last timestamp and starts a reset and a
      restart of signaling; a failure is ignored. */
  function OnConnectionStateChanged(c: Camera, state: ConnectionState): (r: Camera)
    ensures state == Connected ==> r == c.(subscriptions := c.subscriptions + 1)
    ensures state == Disconnected ==>
      && r.lastTimestamp == 0 && r.restarts == c.restarts + 1
      && r.subscriptions == (if c.subscriptions > 0 then c.subscriptions - 1 else 0)
      && r.currentPose == c.currentPose
    ensures state == Failed ==> r == c
  {
    match state
    case Connected => c.(subscriptions := c.subscriptions + 1)
    case Disconnected =>
      c.(subscriptions := if c.subscriptions > 0 then c.subscriptions - 1 else 0,
         lastTimestamp := 0, restarts := c.restarts + 1)
    case Failed => c
  }

  /** `RemotingServer_ViewPoseReceived`: a pose no newer than the last is skipped; a newer
      one becomes the last timestamp and, when the lock is taken in time, the pose to
      render. */
  function HandleViewPose(c: Camera, pose: ViewPose, lockTaken: bool): (r: Camera)
    ensures c.lastTimestamp >= pose.timestamp ==> r == c
    ensures c.lastTimestamp < pose.timestamp ==> r.lastTimestamp == pose.timestamp
    ensures c.lastTimestamp < pose.timestamp && lockTaken ==> r.currentPose == pose && r.receivedAtLeastOnePose
    ensures !lockTaken ==> r.currentPose == c.currentPose
    ensures r.subscriptions == c.subscriptions && r.restarts == c.restarts
  {
    if c.lastTimestamp >= pose.timestamp then c
    else
      var c' := c.(lastTimestamp := pose.timestamp);
      if lockTaken then c'.(currentPose := pose, receivedAtLeastOnePose := true) else c'
  }

  /** A pose reaches the handler once per subscription; the second and later deliveries
      find its timestamp already taken and change nothing. */
  function DeliverViewPose(c: Camera, pose: ViewPose, lockTaken: bool): (r: Camera)
    ensures c.subscriptions == 0 ==> r == c
    ensures c.subscriptions > 0 ==> r == HandleViewPose(c, pose, lockTaken)
  {
    DeliverTimes(c, pose, lockTaken, c.subscriptions)
  }

  function DeliverTimes(c: Camera, pose: ViewPose, lockTaken: bool, n: nat): (r: Camera)
    ensures n == 0 ==> r == c
    ensures n > 0 ==> r == HandleViewPose(c, pose, lockTaken)
    decreases n
  {
    if n == 0 then c
    else
      var first := HandleViewPose(c, pose, lockTaken);
      HandleTwice(c, pose, lockTaken);
      DeliverTimes(first, pose, lockTaken, n - 1)
  }

  /** Handling the same pose twice is handling it once. */
  lemma HandleTwice(c: Camera, pose: ViewPose, lockTaken: bool)
    ensures HandleViewPose(HandleViewPose(c, pose, lockTaken), pose, lockTaken) == HandleViewPose(c, pose, lockTaken)
  {
  }

  /** `Update`, once the script queue is drained and the server is initialized: a frame is
      rendered and sent, carrying the timestamp of the pose it shows, once a pose has
      been taken and more than 16 ms have passed since the last frame. */
  function Update(c: Camera, initialized: bool, now: real): (r: (Camera, Option<int>))
    ensures r.1.Some? <==> initialized && c.receivedAtLeastOnePose && now - c.lastFrameTime > 0.016
    ensures r.1.Some? ==> r.1.value == c.currentPose.timestamp && r.0.lastFrameTime == now
    ensures r.1.None? ==> r.0 == c
  {
    if !initialized then (c, None)
    else if c.receivedAtLeastOnePose && now - c.lastFrameTime > 0.016 then
      (c.(lastFrameTime := now), Some(c.currentPose.timestamp))
    else (c, None)
  }

  /** A view pose as it arrives: the pose and whether the lock was taken in time. */
  datatype Arrival = Arrival(pose: ViewPose, lockTaken: bool)

  /** Handling a run of arrivals in order. */
  function HandleAll(c: Camera, arrivals: seq<Arrival>): (r: Camera)
    decreases |arrivals|
  {
    if |arrivals| == 0 then c
    else HandleAll(HandleViewPose(c, arrivals[0].pose, arrivals[0].lockTaken), arrivals[1..])
  }

  /** The timestamps the handler takes from a run of arrivals, in order. */
  function Taken(last: int, arrivals: seq<Arrival>): (ts: seq<int>)
    decreases |arrivals|
  {
    if |arrivals| == 0 then []
    else if last >= arrivals[0].pose.timestamp then Taken(last, arrivals[1..])
    else [arrivals[0].pose.timestamp] + Taken(arrivals[0].pose.timestamp, arrivals[1..])
  }

  predicate StrictlyIncreasing(ts: seq<int>) {
    forall i, j :: 0 <= i < j < |ts| ==> ts[i] < ts[j]
  }

  /** The taken timestamps increase strictly, all exceed the last timestamp before the run,
      and the last one taken is the camera's last timestamp afterwards. */
  lemma {:induction false} TakenTimestampsIncrease(c: Camera, arrivals: seq<Arrival>)
    ensures var ts := Taken(c.lastTimestamp, arrivals);
      && StrictlyIncreasing(ts)
      && (forall i :: 0 <= i < |ts| ==> c.lastTimestamp < ts[i])
      && HandleAll(c, arrivals).lastTimestamp == (if |ts| == 0 then c.lastTimestamp else ts[|ts| - 1])
      && HandleAll(c, arrivals).lastTimestamp >= c.lastTimestamp
    decreases |arrivals|
  {
    if |arrivals| > 0 {
      var a := arrivals[0];
      var next := HandleViewPose(c, a.pose, a.lockTaken);
      TakenTimestampsIncrease(next, arrivals[1..]);
      if c.lastTimestamp < a.pose.timestamp {
        var rest := Taken(a.pose.timestamp, arrivals[1..]);
        var ts := [a.pose.timestamp] + rest;
        assert Taken(c.lastTimestamp, arrivals) == ts;
        forall i, j | 0 <= i < j < |ts|
          ensures ts[i] < ts[j]
        {
          assert ts[j] == rest[j - 1];
          if i > 0 {
            assert ts[i] == rest[i - 1];
          }
        }
      }
    }
  }

  /** A frame never carries a timestamp newer than the last one taken: the pose to render
      is always one whose timestamp was taken, or an older one. */
  lemma FrameNotAhead(c: Camera, arrivals: seq<Arrival>, initialized: bool, now: real)
    requires c.currentPose.timestamp <= c.lastTimestamp
    ensures var d := HandleAll(c, arrivals);
      Update(d, initialized, now).1.Some? ==> Update(d, initialized, now).1.value <= d.lastTimestamp
  {
    PoseNotAhead(c, arrivals);
  }

  /** After a disconnect the camera takes any pose with a positive timestamp again, however
      new the poses taken before were. */
  lemma DisconnectForgetsTimestamp(c: Camera, pose: ViewPose, lockTaken: bool)
    requires pose.timestamp > 0
    ensures HandleViewPose(OnConnectionStateChanged(c, Disconnected), pose, lockTaken).lastTimestamp == pose.timestamp
    ensures lockTaken ==> HandleViewPose(OnConnectionStateChanged(c, Disconnected), pose, lockTaken).currentPose == pose
  {
  }

  lemma {:induction false} PoseNotAhead(c: Camera, arrivals: seq<Arrival>)
    requires c.currentPose.timestamp <= c.lastTimestamp
    ensures HandleAll(c, arrivals).currentPose.timestamp <= HandleAll(c, arrivals).lastTimestamp
    decreases |arrivals|
  {
    if |arrivals| > 0 {
      PoseNotAhead(HandleViewPose(c, arrivals[0].pose, arrivals[0].lockTaken), arrivals[1..]);
    }
  }
}

=== FILE: remotingconfig.dfy ===
/** The remoting configuration: clamping of the signaling and render settings, enum lookup
    with a per-key fallback, the diagnostic-option bit set, and the structs handed to the
    native library. */
module RemotingConfig {
  import opened Wrappers
  import opened Bytes

  datatype Role = Server | Client
  datatype VideoSource = NoVideo | D3D11 | Webcam
  datatype Encoder = EncoderBuiltin | EncoderH264Uwp
  datatype Decoder = DecoderBuiltin | DecoderH264Uwp
  datatype AudioDevice = DefaultDevice | DisabledDevice

  /** A boxed enum value, as the lookup table holds them. */
  datatype EnumValue =
    | RoleValue(role: Role)
    | VideoSourceValue(videoSource: VideoSource)
    | EncoderValue(encoder: Encoder)
    | DecoderValue(decoder: Decoder)
    | AudioDeviceValue(audioDevice: AudioDevice)

  /** The enum type a lookup casts its result to. */
  datatype EnumKind = RoleKind | VideoSourceKind | EncoderKind | DecoderKind | AudioDeviceKind

  function KindOf(v: EnumValue): EnumKind {
    match v
    case RoleValue(_) => RoleKind
    case VideoSourceValue(_) => VideoSourceKind
    case EncoderValue(_) => EncoderKind
    case DecoderValue(_) => DecoderKind
    case AudioDeviceValue(_) => AudioDeviceKind
  }

  /** The JSON key each enum is read from. */
  function KeyOf(k: EnumKind): string {
    match k
    case RoleKind => "role"
    case VideoSourceKind => "video-source"
    case EncoderKind => "encoder"
    case DecoderKind => "decoder"
    case AudioDeviceKind => "audio-device"
  }

  /** The JSON spelling of each enum value. */
  function NameOf(v: EnumValue): string {
    match v
    case RoleValue(Server) => "server"
    case RoleValue(Client) => "client"
    case VideoSourceValue(NoVideo) => "none"
    case VideoSourceValue(D3D11) => "d3d11"
    case VideoSourceValue(Webcam) => "webcam"
    case EncoderValue(EncoderBuiltin) => "builtin"
    case EncoderValue(EncoderH264Uwp) => "h264-uwp"
    case DecoderValue(DecoderBuiltin) => "builtin"
    case DecoderValue(DecoderH264Uwp) => "h264-uwp"
    case AudioDeviceValue(DefaultDevice) => "default"
    case AudioDeviceValue(DisabledDevice) => "disabled"
  }

  /** The lookup dictionary of `ParseEnum`, keyed by `key + "_" + value`. */
  const EnumTable: seq<(string, EnumValue)> := [
    ("role_server", RoleValue(Server)),
    ("role_client", RoleValue(Client)),
    ("video-source_none", VideoSourceValue(NoVideo)),
    ("video-source_d3d11", VideoSourceValue(D3D11)),
    ("video-source_webcam", VideoSourceValue(Webcam)),
    ("encoder_builtin", EncoderValue(EncoderBuiltin)),
    ("encoder_h264-uwp", EncoderValue(EncoderH264Uwp)),
    ("decoder_builtin", DecoderValue(DecoderBuiltin)),
    ("decoder_h264-uwp", DecoderValue(DecoderH264Uwp)),
    ("audio-device_default", AudioDeviceValue(DefaultDevice)),
    ("audio-device_disabled", AudioDeviceValue(DisabledDevice))]

  /** `Dictionary.TryGetValue` over the table. */
  function Lookup(table: seq<(string, EnumValue)>, k: string): (r: Option<EnumValue>)
    ensures r.Some? <==> exists i :: 0 <= i < |table| && table[i].0 == k
    ensures r.Some? ==> exists i :: 0 <= i < |table| && table[i] == (k, r.value)
  {
    if |table| == 0 then None
    else if table[0].0 == k then Some(table[0].1)
    else
      var r := Lookup(table[1..], k);
      assert forall i :: 1 <= i < |table| ==> table[i] == table[1..][i - 1];
      r
  }

  predicate KeysDistinct(table: seq<(string, EnumValue)>) {
    forall i, j :: 0 <= i < j < |table| ==> table[i].0 != table[j].0
  }

  /** With distinct keys, every entry is found under its own key. */
  lemma {:induction false} LookupDistinct(table: seq<(string, EnumValue)>, i: nat)
    requires KeysDistinct(table) && i < |table|
    ensures Lookup(table, table[i].0) == Some(table[i].1)
  {
    if i > 0 {
      assert table[i] == table[1..][i - 1];
      LookupDistinct(table[1..], i - 1);
    }
  }

  /** A cheap fingerprint of a table key: length, first character and sixth character. */
  function KeyPrint(s: string): (int, char, char) {
    if |s| < 6 then (|s|, ' ', ' ') else (|s|, s[0], s[5])
  }

  lemma EnumTableKeysDistinct()
    ensures KeysDistinct(EnumTable)
  {
    forall i, j | 0 <= i < j < |EnumTable|
      ensures EnumTable[i].0 != EnumTable[j].0
    {
      assert KeyPrint(EnumTable[i].0) != KeyPrint(EnumTable[j].0);
    }
  }

  /** A value of the fallback dictionary, by what a cast to an enum type makes of it: an
      enum value, an `int`, a string, or a list, array or settings object. */
  datatype FallbackEntry = EnumEntry(value: EnumValue) | IntEntry(n: int) | TextEntry(text: string) | ObjectEntry

  /** `Fallbacks.fallbackValues`: the twenty-one keys and their entries. */
  function FallbackOf(key: string): Option<FallbackEntry> {
    if key == "role" then Some(EnumEntry(RoleValue(Server)))
    else if key == "video-source" then Some(EnumEntry(VideoSourceValue(D3D11)))
    else if key == "encoder" then Some(EnumEntry(EncoderValue(EncoderH264Uwp)))
    else if key == "decoder" then Some(EnumEntry(DecoderValue(DecoderH264Uwp)))
    else if key == "ice-servers" then Some(ObjectEntry)
    else if key == "url" then Some(TextEntry("stun:stun.l.google.com:19302"))
    else if key == "username" then Some(TextEntry(""))
    else if key == "credential" then Some(TextEntry(""))
    else if key == "dnssd-name" then Some(TextEntry(""))
    else if key == "diagnostic-options" then Some(ObjectEntry)
    else if key == "audio-device" then Some(EnumEntry(AudioDeviceValue(DefaultDevice)))
    else if key == "signaling" then Some(ObjectEntry)
    else if key == "ip" then Some(TextEntry("0.0.0.0"))
    else if key == "port" then Some(IntEntry(9999))
    else if key == "render-config" then Some(ObjectEntry)
    else if key == "name" then Some(TextEntry("HoloLens2"))
    else if key == "width" then Some(IntEntry(1440))
    else if key == "height" then Some(IntEntry(936))
    else if key == "numViews" then Some(IntEntry(2))
    else if key == "bandwidth" then Some(IntEntry(36000))
    else if key == "framerate" then Some(IntEntry(60))
    else None
  }

  /** The enum entry of the fallback dictionary under `key`, if it holds one. */
  function EnumFallback(key: string): Option<EnumValue> {
    match FallbackOf(key)
    case Some(EnumEntry(v)) => Some(v)
    case _ => None
  }

  datatype ConfigError = KeyNotFound | InvalidCast

  /** The cast `(T)value` of a boxed fallback or table value to the enum type `kind`. */
  function CastTo(kind: EnumKind, e: FallbackEntry): (r: Result<EnumValue, ConfigError>)
    ensures r.Success? <==> e.EnumEntry? && KindOf(e.value) == kind
    ensures r.Success? ==> r.value == e.value
    ensures r.Failure? ==> r.error == InvalidCast
  {
    if e.EnumEntry? && KindOf(e.value) == kind then Success(e.value) else Failure(InvalidCast)
  }

  /** `ParseEnum<T>(key, value)`: a JSON null concatenates as the empty string; a key
      missing from the fallbacks throws `KeyNotFoundException`, and a table or fallback value
      that is not of the requested enum type throws `InvalidCastException`. */
  function ParseEnum(kind: EnumKind, key: string, value: Option<string>): (r: Result<EnumValue, ConfigError>)
    ensures r.Success? ==> KindOf(r.value) == kind
    ensures Lookup(EnumTable, key + "_" + value.GetOr("")).Some? ==>
      (r.Success? <==> KindOf(Lookup(EnumTable, key + "_" + value.GetOr("")).value) == kind)
    ensures Lookup(EnumTable, key + "_" + value.GetOr("")).Some? && r.Success? ==>
      r.value == Lookup(EnumTable, key + "_" + value.GetOr("")).value
    ensures Lookup(EnumTable, key + "_" + value.GetOr("")).None? ==>
      (r.Success? <==> EnumFallback(key).Some? && KindOf(EnumFallback(key).value) == kind)
    ensures Lookup(EnumTable, key + "_" + value.GetOr("")).None? && r.Success? ==>
      r.value == EnumFallback(key).value
    ensures r == Failure(KeyNotFound) <==>
      Lookup(EnumTable, key + "_" + value.GetOr("")).None? && FallbackOf(key).None?
    ensures r.Failure? && r.error != KeyNotFound ==> r.error == InvalidCast
  {
    match Lookup(EnumTable, key + "_" + value.GetOr(""))
    case Some(v) => CastTo(kind, EnumEntry(v))
    case None =>
      match FallbackOf(key)
      case None => Failure(KeyNotFound)
      case Some(e) => CastTo(kind, e)
  }

  /** Splitting a table key at its only underscore: a key and value that concatenate to
      `a + "_" + n`, with no underscore in `a` or `n`, have `a` as their key and `n` as their
      value. */
  lemma KeySplit(a: string, n: string, b: string, x: string)
    requires '_' !in a && '_' !in n && a + "_" + n == b + "_" + x
    ensures b == a && x == n
  {
    var t := a + "_" + n;
    assert t[|b|] == '_' by {
      assert (b + "_" + x)[|b|] == '_';
    }
    assert |b| == |a|;
    assert b == t[..|b|] == a;
    assert x == t[|b| + 1..] == n;
  }

  /** The JSON keys and spellings hold no underscore. */
  lemma NoUnderscore(v: EnumValue)
    ensures '_' !in KeyOf(KindOf(v)) && '_' !in NameOf(v)
  {
  }

  /** Distinct enum types are read from distinct keys. */
  lemma KeyOfInjective(k1: EnumKind, k2: EnumKind)
    requires KeyOf(k1) == KeyOf(k2)
    ensures k1 == k2
  {
    assert |KeyOf(k1)| == |KeyOf(k2)| && KeyOf(k1)[0] == KeyOf(k2)[0];
  }

  lemma EnumTableValuesDistinct()
    ensures forall i, j :: 0 <= i < j < |EnumTable| ==> EnumTable[i].1 != EnumTable[j].1
  {
  }

  /** Every table key is its value's JSON key, an underscore and its JSON spelling. */
  lemma TableEntryShape(i: nat)
    requires i < |EnumTable|
    ensures EnumTable[i].0 == KeyOf(KindOf(EnumTable[i].1)) + "_" + NameOf(EnumTable[i].1)
  {
    var j := TableIndex(EnumTable[i].1);
    EnumTableValuesDistinct();
    assert i == j;
  }

  /** A table hit under the key and value `key`, `s` names an entry whose JSON key is `key`
      and whose spelling is `s`. */
  lemma TableHit(key: string, s: string)
    requires Lookup(EnumTable, key + "_" + s).Some?
    ensures var v := Lookup(EnumTable, key + "_" + s).value;
      key == KeyOf(KindOf(v)) && s == NameOf(v)
  {
    var v := Lookup(EnumTable, key + "_" + s).value;
    var i :| 0 <= i < |EnumTable| && EnumTable[i] == (key + "_" + s, v);
    TableEntryShape(i);
    NoUnderscore(v);
    KeySplit(KeyOf(KindOf(v)), NameOf(v), key, s);
  }

  /** At the five call sites, where each enum is read from its own key, parsing never
      throws: it yields the table's value when the JSON spelling names one, and the key's
      fallback otherwise. */
  lemma ParseEnumAtCallSites(kind: EnumKind, value: Option<string>)
    ensures var k := KeyOf(kind) + "_" + value.GetOr("");
      ParseEnum(kind, KeyOf(kind), value)
        == Success(if Lookup(EnumTable, k).Some? then Lookup(EnumTable, k).value
                   else EnumFallback(KeyOf(kind)).value)
  {
    var k := KeyOf(kind) + "_" + value.GetOr("");
    if Lookup(EnumTable, k).Some? {
      TableHit(KeyOf(kind), value.GetOr(""));
      KeyOfInjective(KindOf(Lookup(EnumTable, k).value), kind);
    }
  }

  /** A value that spells none of the requested enum's values, a missing one included,
      yields the key's fallback. */
  lemma ParseEnumUnknownValue(kind: EnumKind, value: Option<string>)
    requires forall v :: KindOf(v) == kind ==> value != Some(NameOf(v))
    ensures ParseEnum(kind, KeyOf(kind), value) == Success(EnumFallback(KeyOf(kind)).value)
  {
    var k := KeyOf(kind) + "_" + value.GetOr("");
    if Lookup(EnumTable, k).Some? {
      var v := Lookup(EnumTable, k).value;
      TableHit(KeyOf(kind), value.GetOr(""));
      KeyOfInjective(KindOf(v), kind);
      assert false;
    }
    ParseEnumAtCallSites(kind, value);
  }

  /** Asked for any other key, parsing throws: `KeyNotFoundException` when the fallback
      dictionary lacks the key, `InvalidCastException` when it holds a non-enum value. */
  lemma ParseEnumOtherKeys(kind: EnumKind, key: string, value: Option<string>)
    requires forall k :: key != KeyOf(k)
    ensures FallbackOf(key).None? ==> ParseEnum(kind, key, value) == Failure(KeyNotFound)
    ensures FallbackOf(key).Some? ==> ParseEnum(kind, key, value) == Failure(InvalidCast)
  {
    if Lookup(EnumTable, key + "_" + value.GetOr("")).Some? {
      TableHit(key, value.GetOr(""));
      assert false;
    }
    assert EnumFallback(key).None? by {
      assert key != KeyOf(RoleKind) && key != KeyOf(VideoSourceKind) && key != KeyOf(EncoderKind);
      assert key != KeyOf(DecoderKind) && key != KeyOf(AudioDeviceKind);
    }
  }

  /** Each enum value is read back from its own JSON spelling under its own key. */
  lemma ParseEnumOfName(v: EnumValue)
    ensures ParseEnum(KindOf(v), KeyOf(KindOf(v)), Some(NameOf(v))) == Success(v)
  {
    var i := TableIndex(v);
    EnumTableKeysDistinct();
    LookupDistinct(EnumTable, i);
  }

  /** Where each value sits in the table, with its key spelled out. */
  function TableIndex(v: EnumValue): (i: nat)
    ensures i < |EnumTable| && EnumTable[i] == (KeyOf(KindOf(v)) + "_" + NameOf(v), v)
  {
    match v
    case RoleValue(Server) => assert "role" + "_" + "server" == "role_server"; 0
    case RoleValue(Client) => assert "role" + "_" + "client" == "role_client"; 1
    case VideoSourceValue(NoVideo) => assert "video-source" + "_" + "none" == "video-source_none"; 2
    case VideoSourceValue(D3D11) => assert "video-source" + "_" + "d3d11" == "video-source_d3d11"; 3
    case VideoSourceValue(Webcam) => assert "video-source" + "_" + "webcam" == "video-source_webcam"; 4
    case EncoderValue(EncoderBuiltin) => assert "encoder" + "_" + "builtin" == "encoder_builtin"; 5
    case EncoderValue(EncoderH264Uwp) => assert "encoder" + "_" + "h264-uwp" == "encoder_h264-uwp"; 6
    case DecoderValue(DecoderBuiltin) => assert "decoder" + "_" + "builtin" == "decoder_builtin"; 7
    case DecoderValue(DecoderH264Uwp) => assert "decoder" + "_" + "h264-uwp" == "decoder_h264-uwp"; 8
    case AudioDeviceValue(DefaultDevice) => assert "audio-device" + "_" + "default" == "audio-device_default"; 9
    case AudioDeviceValue(DisabledDevice) => assert "audio-device" + "_" + "disabled" == "audio-device_disabled"; 10
  }

  /** A null value under a known key gives that key's fallback. */
  lemma ParseEnumMissingValue(kind: EnumKind)
    ensures ParseEnum(kind, KeyOf(kind), None).Success?
    ensures ParseEnum(kind, KeyOf(kind), None) == Success(EnumFallback(KeyOf(kind)).value)
  {
  }

  // Signaling settings.

  datatype SignalingConfig = SignalingConfig(ip: string, port: int32)

  const FallbackSignaling := SignalingConfig("0.0.0.0", 9999)

  predicate PortInRange(port: int) {
    1024 <= port <= 65535
  }

  /** `SignalingConfig.CheckValues`: an unparsable address is only reported; an
      out-of-range port becomes the fallback port. */
  function CheckSignaling(c: SignalingConfig): (r: SignalingConfig)
    ensures r.ip == c.ip
    ensures PortInRange(r.port)
    ensures PortInRange(c.port) <==> r.port == c.port
    ensures !PortInRange(c.port) ==> r.port == FallbackSignaling.port
  {
    if c.port < 1024 || c.port > 65535 then c.(port := FallbackSignaling.port) else c
  }

  // Render settings.

  datatype RenderConfig = RenderConfig(name: string, width: int32, height: int32, numViews: int32,
                                       bandwidth: int32, framerate: int32)

  const FallbackRender := RenderConfig("HoloLens2", 1440, 936, 2, 36000, 60)

  /** What `RenderConfig.CheckValues` guarantees. */
  predicate RenderValid(c: RenderConfig) {
    && c.width % 2 == 0 && c.height % 2 == 0
    && 1 <= c.numViews <= 2
    && c.bandwidth >= 0 && c.framerate >= 0
  }

  /** `RenderConfig.CheckValues`: each invalid field is replaced by its fallback, the others
      are kept. C#'s remainder of a negative odd number is -1, which is nonzero as Dafny's
      is. */
  function CheckRender(c: RenderConfig): (r: RenderConfig)
    ensures RenderValid(r)
    ensures r.name == c.name
    ensures r.width == (if c.width % 2 == 0 then c.width else FallbackRender.width)
    ensures r.height == (if c.height % 2 == 0 then c.height else FallbackRender.height)
    ensures r.numViews == (if 1 <= c.numViews <= 2 then c.numViews else FallbackRender.numViews)
    ensures r.bandwidth == (if c.bandwidth >= 0 then c.bandwidth else FallbackRender.bandwidth)
    ensures r.framerate == (if c.framerate >= 0 then c.framerate else FallbackRender.framerate)
  {
    var width := if c.width % 2 != 0 then FallbackRender.width else c.width;
    var height := if c.height % 2 != 0 then FallbackRender.height else c.height;
    var numViews := if c.numViews < 1 || c.numViews > 2 then FallbackRender.numViews else c.numViews;
    var bandwidth := if c.bandwidth < 0 then FallbackRender.bandwidth else c.bandwidth;
    var framerate := if c.framerate < 0 then FallbackRender.framerate else c.framerate;
    RenderConfig(c.name, width, height, numViews, bandwidth, framerate)
  }

  /** A valid configuration passes unchanged, so checking twice is checking once. */
  lemma CheckRenderFixesValid(c: RenderConfig)
    ensures RenderValid(c) <==> CheckRender(c) == c
    ensures CheckRender(CheckRender(c)) == CheckRender(c)
  {
  }

  lemma CheckSignalingIdempotent(c: SignalingConfig)
    ensures PortInRange(c.port) <==> CheckSignaling(c) == c
    ensures CheckSignaling(CheckSignaling(c)) == CheckSignaling(c)
  {
  }

  /** The fallback configurations are themselves valid. */
  lemma FallbacksPassChecks()
    ensures CheckRender(FallbackRender) == FallbackRender
    ensures CheckSignaling(FallbackSignaling) == FallbackSignaling
  {
  }

  /** The copy constructor `RenderConfig(RenderConfig other)`. */
  function CopyRender(other: RenderConfig): (r: RenderConfig)
    ensures r == other
  {
    RenderConfig(other.name, other.width, other.height, other.numViews, other.bandwidth, other.framerate)
  }

  datatype RenderConfigStruct = RenderConfigStruct(width: uint32, height: uint32, numViews: uint32,
                                                   encoderBitrateKbps: uint32, framerate: uint32)

  /** `AsStruct`: every field through an unchecked `(uint)` cast, the bandwidth into the
      encoder bit rate. */
  function AsStruct(c: RenderConfig): (s: RenderConfigStruct)
    ensures ToInt32(s.width) == c.width && ToInt32(s.height) == c.height
    ensures ToInt32(s.numViews) == c.numViews && ToInt32(s.framerate) == c.framerate
    ensures ToInt32(s.encoderBitrateKbps) == c.bandwidth
  {
    Int32Bijection(ToUInt32(c.width));
    Int32Bijection(ToUInt32(c.height));
    Int32Bijection(ToUInt32(c.numViews));
    Int32Bijection(ToUInt32(c.bandwidth));
    Int32Bijection(ToUInt32(c.framerate));
    RenderConfigStruct(ToUInt32(c.width), ToUInt32(c.height), ToUInt32(c.numViews),
                       ToUInt32(c.bandwidth), ToUInt32(c.framerate))
  }

  /** After `CheckValues` the view count, bit rate and frame rate reach the native side
      unchanged in value. */
  lemma AsStructOfChecked(c: RenderConfig)
    ensures var s := AsStruct(CheckRender(c));
      && s.numViews == CheckRender(c).numViews
      && s.encoderBitrateKbps == CheckRender(c).bandwidth
      && s.framerate == CheckRender(c).framerate
  {
  }

  // Diagnostic options.

  const EnableTracing: bv8 := 1
  const EnableEventLog: bv8 := 2
  const EnableStatsCollector: bv8 := 4

  /** The flag one option string turns on, or none. */
  function OptionFlag(option: string): bv8 {
    if option == "tracing" then EnableTracing
    else if option == "event-log" then EnableEventLog
    else if option == "stats-collector" then EnableStatsCollector
    else 0
  }

  /** The `foreach` of the `RemotingConfigStruct` constructor: OR-ing in the flag of each
      option in turn. */
  function DiagnosticBits(options: seq<string>): (r: bv8)
    decreases |options|
  {
    if |options| == 0 then 0
    else DiagnosticBits(options[..|options| - 1]) | OptionFlag(options[|options| - 1])
  }

  /** Each bit is set exactly when its option string occurs, no other bit is ever set, and
      so the order and repetition of the options do not matter. */
  lemma {:induction false} DiagnosticBitsSpec(options: seq<string>)
    ensures DiagnosticBits(options) & 0xF8 == 0
    ensures DiagnosticBits(options) & EnableTracing != 0 <==> "tracing" in options
    ensures DiagnosticBits(options) & EnableEventLog != 0 <==> "event-log" in options
    ensures DiagnosticBits(options) & EnableStatsCollector != 0 <==> "stats-collector" in options
    decreases |options|
  {
    if |options| > 0 {
      var init := options[..|options| - 1];
      DiagnosticBitsSpec(init);
      assert options == init + [options[|options| - 1]];
    }
  }

  lemma DiagnosticBitsIgnoreOrder(a: seq<string>, b: seq<string>)
    requires (set x | x in a) == (set x | x in b)
    ensures DiagnosticBits(a) == DiagnosticBits(b)
  {
    DiagnosticBitsSpec(a);
    DiagnosticBitsSpec(b);
    var sa, sb := set x | x in a, set x | x in b;
    assert "tracing" in a <==> "tracing" in sa;
    assert "tracing" in b <==> "tracing" in sb;
    assert "event-log" in a <==> "event-log" in sa;
    assert "event-log" in b <==> "event-log" in sb;
    assert "stats-collector" in a <==> "stats-collector" in sa;
    assert "stats-collector" in b <==> "stats-collector" in sb;
    BitsFromFlags(DiagnosticBits(a), DiagnosticBits(b));
  }

  /** Two bytes with no bits above the three flags agree when their flags agree. */
  lemma BitsFromFlags(x: bv8, y: bv8)
    requires x & 0xF8 == 0 && y & 0xF8 == 0
    requires (x & EnableTracing != 0) == (y & EnableTracing != 0)
    requires (x & EnableEventLog != 0) == (y & EnableEventLog != 0)
    requires (x & EnableStatsCollector != 0) == (y & EnableStatsCollector != 0)
    ensures x == y
  {
  }

  datatype RemotingConfigStruct = RemotingConfigStruct(role: Role, videoSource: VideoSource,
                                                       encoder: Encoder, decoder: Decoder,
                                                       diagnosticOptions: bv8, audioDevice: AudioDevice)

  /** The `RemotingConfigStruct` constructor taking the option strings. */
  function MakeRemotingConfigStruct(role: Role, videoSource: VideoSource, encoder: Encoder, decoder: Decoder,
                                    options: seq<string>, audioDevice: AudioDevice): (s: RemotingConfigStruct)
    ensures s.role == role && s.videoSource == videoSource && s.encoder == encoder
    ensures s.decoder == decoder && s.audioDevice == audioDevice
    ensures s.diagnosticOptions & EnableTracing != 0 <==> "tracing" in options
    ensures s.diagnosticOptions & EnableEventLog != 0 <==> "event-log" in options
    ensures s.diagnosticOptions & EnableStatsCollector != 0 <==> "stats-collector" in options
  {
    DiagnosticBitsSpec(options);
    RemotingConfigStruct(role, videoSource, encoder, decoder, DiagnosticBits(options), audioDevice)
  }
}

=== FILE: remotingserver.dfy ===
/** The input side of `RemotingServer`: received events are converted and queued, and once
    per frame `HandleEvents` reports a pending connection-state change and drains the queue
    through a table of per-type handlers. The five source handlers keep a map from source id
    to the latest source state. */
module RemotingServer {
  import opened Wrappers
  import opened Bytes
  import opened Types
  import opened InputTypes
  import opened InputConvert

  /** The `Invoke*` handlers, one per event type. */
  datatype Handler =
    | InvokeInteractionSourceDetected | InvokeInteractionSourceLost
    | InvokeInteractionSourcePressed | InvokeInteractionSourceUpdated
    | InvokeInteractionSourceReleased
    | InvokeSelected | InvokeTapped
    | InvokeHoldStarted | InvokeHoldCompleted | InvokeHoldCanceled
    | InvokeManipulationStarted | InvokeManipulationUpdated
    | InvokeManipulationCompleted | InvokeManipulationCanceled
    | InvokeNavigationStarted | InvokeNavigationUpdated
    | InvokeNavigationCompleted | InvokeNavigationCanceled

  /** The event type each handler is written for: the `EventArgs` member it reads and the
      C# event it raises. */
  function Handles(h: Handler): (t: nat)
    ensures t < EventTypeCount
  {
    match h
    case InvokeInteractionSourceDetected => 0
    case InvokeInteractionSourceLost => 1
    case InvokeInteractionSourcePressed => 2
    case InvokeInteractionSourceUpdated => 3
    case InvokeInteractionSourceReleased => 4
    case InvokeSelected => 5
    case InvokeTapped => 6
    case InvokeHoldStarted => 7
    case InvokeHoldCompleted => 8
    case InvokeHoldCanceled => 9
    case InvokeManipulationStarted => 10
    case InvokeManipulationUpdated => 11
    case InvokeManipulationCompleted => 12
    case InvokeManipulationCanceled => 13
    case InvokeNavigationStarted => 14
    case InvokeNavigationUpdated => 15
    case InvokeNavigationCompleted => 16
    case InvokeNavigationCanceled => 17
  }

  /** `InitializeInputEvents`: a table of `Count` empty slots filled by one assignment per
      event type. */
  method InitializeInputEvents() returns (table: seq<Option<Handler>>)
    ensures |table| == EventTypeCount
    ensures forall t :: 0 <= t < |table| ==> table[t].Some? && Handles(table[t].value) == t
  {
    table := seq(EventTypeCount, _ => None);
    table := table[0 := Some(InvokeInteractionSourceDetected)];
    table := table[1 := Some(InvokeInteractionSourceLost)];
    table := table[2 := Some(InvokeInteractionSourcePressed)];
    table := table[3 := Some(InvokeInteractionSourceUpdated)];
    table := table[4 := Some(InvokeInteractionSourceReleased)];
    table := table[5 := Some(InvokeSelected)];
    table := table[6 := Some(InvokeTapped)];
    table := table[7 := Some(InvokeHoldStarted)];
    table := table[8 := Some(InvokeHoldCompleted)];
    table := table[9 := Some(InvokeHoldCanceled)];
    table := table[10 := Some(InvokeManipulationStarted)];
    table := table[11 := Some(InvokeManipulationUpdated)];
    table := table[12 := Some(InvokeManipulationCompleted)];
    table := table[13 := Some(InvokeManipulationCanceled)];
    table := table[14 := Some(InvokeNavigationStarted)];
    table := table[15 := Some(InvokeNavigationUpdated)];
    table := table[16 := Some(InvokeNavigationCompleted)];
    table := table[17 := Some(InvokeNavigationCanceled)];
  }

  /** What a frame reports to the application. */
  datatype Notification =
    | ConnectionStateChanged(state: ConnectionState)
    | InputRaised(handler: Handler, args: InputEvent)

  datatype LogEntry =
    | Raised(note: Notification)
    | LoggedException

  datatype Server = Server(
    sourceStates: map<uint32, SourceState>,
    connectionState: ConnectionState,
    connectionStateChanged: bool,
    queue: seq<ManagedEvent>)

  /** The server after construction. */
  const Initial := Server(map[], Disconnected, false, [])

  /** Every stored state sits under its own source id. */
  ghost predicate KeyedById(m: map<uint32, SourceState>) {
    forall id :: id in m ==> m[id].source.id == id
  }

  /** `NumSourceStates`. */
  function NumSourceStates(s: Server): (n: nat)
    ensures n == |s.sourceStates.Keys|
  {
    |s.sourceStates|
  }

  /** `Callbacks_ConnectionStateChanged`: remember the state and that it changed. */
  function OnConnectionStateChanged(s: Server, state: ConnectionState): (r: Server)
    ensures r.connectionState == state && r.connectionStateChanged
    ensures r.sourceStates == s.sourceStates && r.queue == s.queue
  {
    s.(connectionState := state, connectionStateChanged := true)
  }

  function IsConnected(s: Server): bool {
    s.connectionState == Connected
  }

  /** `Callbacks_InputEventReceived`: convert a copy and queue it; a failed conversion is
      logged and the copy is queued unconverted. */
  function OnInputEventReceived(s: Server, e: ManagedEvent): (r: Server)
    ensures |r.queue| == |s.queue| + 1 && r.queue[..|s.queue|] == s.queue
    ensures r.queue[|s.queue|].eventType == e.eventType
    ensures e.eventType == TypeCode(e.args) ==> r.queue[|s.queue|].args == ToUnity(e.args)
    ensures e.eventType >= EventTypeCount ==> r.queue[|s.queue|] == e
    ensures r.sourceStates == s.sourceStates
  {
    ToUnityCoordinateSystemSpec(e);
    var converted := match ToUnityCoordinateSystem(e)
      case Success(c) => c
      case Failure(_) => e;
    s.(queue := s.queue + [converted])
  }

  /** The source state carried by a source event. */
  function SourceStateOf(e: InputEvent): Option<SourceState> {
    match e
    case SourceDetected(st) => Some(st)
    case SourceLost(st) => Some(st)
    case SourcePressed(st) => Some(st)
    case SourceUpdated(st) => Some(st)
    case SourceReleased(st) => Some(st)
    case _ => None
  }

  /** One handler call: the source handlers first update the map, then every handler raises
      its event. */
  function Invoke(h: Handler, m: map<uint32, SourceState>, args: InputEvent): map<uint32, SourceState> {
    match SourceStateOf(args)
    case None => m
    case Some(st) =>
      if h == InvokeInteractionSourceLost then m - {st.source.id}
      else if h in {InvokeInteractionSourceDetected, InvokeInteractionSourcePressed,
                    InvokeInteractionSourceUpdated, InvokeInteractionSourceReleased}
      then m[st.source.id := st]
      else m
  }

  /** One turn of the drain loop inside its try block. An out-of-range type makes the table
      index throw; a subscriber may throw from the raised event. Either exception is caught
      and logged, and the loop goes on. */
  function Dispatch(m: map<uint32, SourceState>, e: ManagedEvent, subscriberThrows: InputEvent -> bool)
    : (map<uint32, SourceState>, seq<LogEntry>)
  {
    if e.eventType >= EventTypeCount then (m, [LoggedException])
    else
      var h := HandlerTable[e.eventType];
      var note := [Raised(InputRaised(h, e.args))];
      (Invoke(h, m, e.args), if subscriberThrows(e.args) then note + [LoggedException] else note)
  }

  /** The table `InitializeInputEvents` builds, as a value. */
  const HandlerTable: seq<Handler> := [
    InvokeInteractionSourceDetected, InvokeInteractionSourceLost,
    InvokeInteractionSourcePressed, InvokeInteractionSourceUpdated,
    InvokeInteractionSourceReleased,
    InvokeSelected, InvokeTapped,
    InvokeHoldStarted, InvokeHoldCompleted, InvokeHoldCanceled,
    InvokeManipulationStarted, InvokeManipulationUpdated,
    InvokeManipulationCompleted, InvokeManipulationCanceled,
    InvokeNavigationStarted, InvokeNavigationUpdated,
    InvokeNavigationCompleted, InvokeNavigationCanceled]

  lemma HandlerTableIsInitialized()
    ensures |HandlerTable| == EventTypeCount
    ensures forall t :: 0 <= t < |HandlerTable| ==> Handles(HandlerTable[t]) == t
  {
  }

  /** Detected, Pressed, Updated and Released store the state under its source id; Lost
      removes exactly that id; no other event touches the map; and states stay keyed by
      their own id. */
  lemma DispatchSourceStates(m: map<uint32, SourceState>, e: ManagedEvent, subscriberThrows: InputEvent -> bool)
    requires e.eventType == TypeCode(e.args)
    ensures var m' := Dispatch(m, e, subscriberThrows).0;
      && (e.args.SourceDetected? || e.args.SourcePressed? || e.args.SourceUpdated? || e.args.SourceReleased?
          ==> m' == m[e.args.state.source.id := e.args.state])
      && (e.args.SourceLost? ==> m' == m - {e.args.state.source.id})
      && (TypeCode(e.args) >= 5 ==> m' == m)
      && (KeyedById(m) ==> KeyedById(m'))
  {
    HandlerTableIsInitialized();
  }

  /** The drain of a queue, defined by its last element: first everything before it, then
      that element. */
  function Drain(m: map<uint32, SourceState>, q: seq<ManagedEvent>, subscriberThrows: InputEvent -> bool)
    : (map<uint32, SourceState>, seq<LogEntry>)
    decreases |q|
  {
    if |q| == 0 then (m, [])
    else
      var before := Drain(m, q[..|q| - 1], subscriberThrows);
      var last := Dispatch(before.0, q[|q| - 1], subscriberThrows);
      (last.0, before.1 + last.1)
  }

  /** The input events a drain raises, in the order raised. */
  function RaisedInputs(log: seq<LogEntry>): seq<InputEvent> {
    if |log| == 0 then []
    else
      var rest := RaisedInputs(log[..|log| - 1]);
      match log[|log| - 1]
      case Raised(InputRaised(_, args)) => rest + [args]
      case _ => rest
  }

  /** The arguments of the in-range events of a queue, in queue order. */
  function InRangeArgs(q: seq<ManagedEvent>): seq<InputEvent> {
    if |q| == 0 then []
    else
      var rest := InRangeArgs(q[..|q| - 1]);
      if q[|q| - 1].eventType < EventTypeCount then rest + [q[|q| - 1].args] else rest
  }

  lemma {:induction false} RaisedInputsAppend(a: seq<LogEntry>, b: seq<LogEntry>)
    ensures RaisedInputs(a + b) == RaisedInputs(a) + RaisedInputs(b)
    decreases |b|
  {
    if |b| == 0 {
      assert a + b == a;
    } else {
      assert (a + b)[..|a + b| - 1] == a + b[..|b| - 1];
      RaisedInputsAppend(a, b[..|b| - 1]);
    }
  }

  /** FIFO delivery: the drain raises exactly one event per in-range queued event, in queue
      order, whatever the subscribers throw; out-of-range events raise nothing. */
  lemma {:induction false} DrainRaisesInQueueOrder(m: map<uint32, SourceState>, q: seq<ManagedEvent>,
                                                   subscriberThrows: InputEvent -> bool)
    ensures RaisedInputs(Drain(m, q, subscriberThrows).1) == InRangeArgs(q)
    decreases |q|
  {
    if |q| > 0 {
      var before := Drain(m, q[..|q| - 1], subscriberThrows);
      var last := Dispatch(before.0, q[|q| - 1], subscriberThrows);
      DrainRaisesInQueueOrder(m, q[..|q| - 1], subscriberThrows);
      RaisedInputsAppend(before.1, last.1);
      if q[|q| - 1].eventType < EventTypeCount {
        var note := [Raised(InputRaised(HandlerTable[q[|q| - 1].eventType], q[|q| - 1].args))];
        assert RaisedInputs(note) == [q[|q| - 1].args];
        if subscriberThrows(q[|q| - 1].args) {
          RaisedInputsAppend(note, [LoggedException]);
          assert RaisedInputs([LoggedException]) == [];
        }
      } else {
        assert RaisedInputs([LoggedException]) == [];
      }
    }
  }

  /** Draining keeps every state under its own source id, given type words that match their
      arguments. */
  lemma {:induction false} DrainKeepsKeys(m: map<uint32, SourceState>, q: seq<ManagedEvent>,
                                          subscriberThrows: InputEvent -> bool)
    requires KeyedById(m)
    requires forall i :: 0 <= i < |q| && q[i].eventType < EventTypeCount ==> q[i].eventType == TypeCode(q[i].args)
    ensures KeyedById(Drain(m, q, subscriberThrows).0)
    decreases |q|
  {
    if |q| > 0 {
      var before := Drain(m, q[..|q| - 1], subscriberThrows);
      DrainKeepsKeys(m, q[..|q| - 1], subscriberThrows);
      var e := q[|q| - 1];
      if e.eventType < EventTypeCount {
        DispatchSourceStates(before.0, e, subscriberThrows);
      }
    }
  }

  /** `HandleEvents`: report a pending connection-state change once, then dequeue until the
      queue is empty. */
  method HandleEvents(s: Server, subscriberThrows: InputEvent -> bool) returns (r: Server, log: seq<LogEntry>)
    ensures r.queue == [] && !r.connectionStateChanged
    ensures r.connectionState == s.connectionState
    ensures var pending := if s.connectionStateChanged then [Raised(ConnectionStateChanged(s.connectionState))] else [];
      var drained := Drain(s.sourceStates, s.queue, subscriberThrows);
      r.sourceStates == drained.0 && log == pending + drained.1
    ensures !s.connectionStateChanged && s.queue == [] ==> r == s && log == []
  {
    log := [];
    r := s;
    if r.connectionStateChanged {
      log := [Raised(ConnectionStateChanged(r.connectionState))];
      r := r.(connectionStateChanged := false);
    }
    var pending := log;
    var i := 0;
    while |r.queue| > 0
      invariant 0 <= i <= |s.queue| && r.queue == s.queue[i..]
      invariant !r.connectionStateChanged && r.connectionState == s.connectionState
      invariant var drained := Drain(s.sourceStates, s.queue[..i], subscriberThrows);
        r.sourceStates == drained.0 && log == pending + drained.1
      decreases |r.queue|
    {
      var e := r.queue[0];
      assert s.queue[..i + 1][..i] == s.queue[..i];
      assert e == s.queue[..i + 1][i];
      var step := Dispatch(r.sourceStates, e, subscriberThrows);
      r := r.(sourceStates := step.0, queue := r.queue[1..]);
      log := log + step.1;
      i := i + 1;
    }
    assert s.queue[..i] == s.queue;
  }

  /** The values of a dictionary, one per key, in an order this model leaves open. */
  method EnumerateValues<K, V(==)>(m: map<K, V>) returns (values: seq<V>)
    ensures |values| == |m.Keys|
    ensures forall j :: 0 <= j < |values| ==> values[j] in m.Values
    ensures forall v :: v in m.Values ==> v in values
  {
    var left := m.Keys;
    var copied: set<K> := {};
    values := [];
    while left != {}
      invariant left !! copied && left + copied == m.Keys
      invariant |values| == |copied| && |copied| + |left| == |m.Keys|
      invariant forall j :: 0 <= j < |values| ==> values[j] in m.Values
      invariant forall k :: k in copied ==> m[k] in values
      decreases |left|
    {
      var k :| k in left;
      values := values + [m[k]];
      left := left - {k};
      copied := copied + {k};
    }
  }

  datatype ReadingError = ArgumentNull | DestinationTooShort

  /** `GetCurrentReading(InteractionSourceState[])`: a null array throws; otherwise the
      dictionary's values are copied to the front of the array, in the dictionary's own
      order (any order here), and their number is returned. `CopyTo` throws when the array
      is too short. */
  method GetCurrentReading(s: Server, dest: Option<seq<SourceState>>)
    returns (r: Result<(seq<SourceState>, nat), ReadingError>)
    ensures dest.None? ==> r == Failure(ArgumentNull)
    ensures dest.Some? && |dest.value| < |s.sourceStates| ==> r == Failure(DestinationTooShort)
    ensures dest.Some? && |dest.value| >= |s.sourceStates| ==> r.Success?
    ensures r.Success? ==> var (out, n) := r.value;
      && n == NumSourceStates(s)
      && |out| == |dest.value|
      && out[n..] == dest.value[n..]
      && (forall i :: 0 <= i < n ==> out[i] in s.sourceStates.Values)
      && (forall v :: v in s.sourceStates.Values ==> v in out[..n])
  {
    if dest.None? {
      return Failure(ArgumentNull);
    }
    var a := dest.value;
    var m := s.sourceStates;
    if |a| < |m| {
      return Failure(DestinationTooShort);
    }
    var values := EnumerateValues(m);
    var n := |values|;
    var out := values + a[n..];
    assert out[..n] == values;
    return Success((out, n));
  }
}

=== FILE: sourceflags.dfy ===
/** The flag predicates of an interaction source (`HlrSpatialInteractionSource`), of its
    state (`HlrSpatialInteractionSourceState`) and of its pose
    (`HlrSpatialInteractionSourcePose`). Each flag is one bit of a `uint` field. */
module SourceFlags {
  import opened Bytes
  import opened Geometry
  import opened InputTypes

  /** A flag value is a single bit. */
  predicate SingleBit(v: bv32) {
    v != 0 && v & (v - 1) == 0
  }

  /** `Enum.HasFlag`: every bit of the flag is set. */
  predicate HasFlag(flags: bv32, flag: bv32) {
    flags & flag == flag
  }

  /** For a single-bit flag, `HasFlag` and a non-zero `&` agree. */
  lemma HasSingleFlag(flags: bv32, flag: bv32)
    requires SingleBit(flag)
    ensures HasFlag(flags, flag) <==> flags & flag != 0
  {
  }

  // The state flags.

  datatype StateFlag =
    | Grasped | AnyPressed | TouchpadPressed | ThumbstickPressed
    | SelectPressed | MenuPressed | TouchpadTouched

  /** The value of each state flag: `1 << 0` to `1 << 6`. */
  function StateFlagValue(f: StateFlag): (v: bv32)
    ensures SingleBit(v) && v <= 64
  {
    match f
    case Grasped => 1
    case AnyPressed => 2
    case TouchpadPressed => 4
    case ThumbstickPressed => 8
    case SelectPressed => 16
    case MenuPressed => 32
    case TouchpadTouched => 64
  }

  /** Whether a set of state flags holds a flag. */
  predicate StateBitSet(flags: bv32, f: StateFlag) {
    flags & StateFlagValue(f) != 0
  }

  /** `IsGrasped`, `IsAnyPressed`, … `IsTouchpadTouched`: the state's flags and the
      flag's value have a bit in common. */
  predicate IsState(s: SourceState, f: StateFlag) {
    StateBitSet(s.flags as bv32, f)
  }

  /** No two state flags share a bit. */
  lemma StateFlagsDisjoint(f: StateFlag, g: StateFlag)
    ensures StateFlagValue(f) & StateFlagValue(g) == 0 <==> f != g
  {
  }

  /** With no flag set no flag is held; adding one flag to a set turns on that flag and
      leaves every other as it was. */
  lemma StateFlagsIndependent(flags: bv32, f: StateFlag, g: StateFlag)
    ensures !StateBitSet(0, f)
    ensures StateBitSet(flags | StateFlagValue(f), g) <==> StateBitSet(flags, g) || g == f
  {
    StateFlagsDisjoint(f, g);
  }

  /** A state whose flags are a single flag satisfies that flag's predicate and no other. */
  lemma SingleStateFlag(s: SourceState, f: StateFlag, g: StateFlag)
    ensures IsState(s.(flags := StateFlagValue(f) as uint32), g) <==> g == f
    ensures s.flags == 0 ==> !IsState(s, g)
  {
    StateFlagsDisjoint(f, g);
    var t := s.(flags := StateFlagValue(f) as uint32);
    assert t.flags as bv32 == StateFlagValue(f);
  }

  // The source flags.

  datatype Capability = Touchpad | Thumbstick | Pointing | Grasp | Menu

  /** The value of each `Supports…` flag: 1, 2, 4, 8, 16. */
  function CapabilityValue(c: Capability): (v: bv32)
    ensures SingleBit(v) && v <= 16
  {
    match c
    case Touchpad => 1
    case Thumbstick => 2
    case Pointing => 4
    case Grasp => 8
    case Menu => 16
  }

  lemma CapabilitiesDisjoint(c: Capability, d: Capability)
    ensures CapabilityValue(c) & CapabilityValue(d) == 0 <==> c != d
  {
  }

  /** `SupportsTouchpad` … `SupportsMenu` as written: each tests the `SupportsPointing`
      flag, whatever capability it names. */
  predicate SupportsAsWritten(src: Source, c: Capability) {
    HasFlag(src.flags as bv32, CapabilityValue(Pointing))
  }

  /** As intended: each tests its own flag. */
  predicate Supports(src: Source, c: Capability) {
    HasFlag(src.flags as bv32, CapabilityValue(c))
  }

  /** As written every capability answers for pointing, so a source that only supports
      grasping reports no grasp support, and one that only supports pointing reports all
      five capabilities. */
  lemma SupportsAsWrittenReadsPointing(src: Source, c: Capability)
    ensures SupportsAsWritten(src, c) <==> Supports(src, Pointing)
    ensures var grasp := src.(flags := CapabilityValue(Grasp) as uint32);
      Supports(grasp, Grasp) && !SupportsAsWritten(grasp, Grasp)
    ensures SupportsAsWritten(src.(flags := CapabilityValue(Pointing) as uint32), c)
  {
    var grasp := src.(flags := CapabilityValue(Grasp) as uint32);
    assert grasp.flags as bv32 == 8;
    var pointing := src.(flags := CapabilityValue(Pointing) as uint32);
    assert pointing.flags as bv32 == 4;
  }

  /** As intended a source with a single flag supports exactly that capability, and a
      source with no flag supports none. */
  lemma SupportsReadsOwnBit(src: Source, c: Capability, d: Capability)
    ensures Supports(src.(flags := CapabilityValue(c) as uint32), d) <==> d == c
    ensures src.flags == 0 ==> !Supports(src, d)
  {
    CapabilitiesDisjoint(c, d);
    var t := src.(flags := CapabilityValue(c) as uint32);
    assert t.flags as bv32 == CapabilityValue(c);
    HasSingleFlag(t.flags as bv32, CapabilityValue(d));
  }

  // The pose flags.

  datatype PoseFlag =
    | HasGripPosition | HasGripOrientation | HasPointerPosition
    | HasPointerOrientation | HasVelocity | HasAngularVelocity

  /** The value of each pose flag: 1 to 32. */
  function PoseFlagValue(f: PoseFlag): (v: bv32)
    ensures SingleBit(v) && v <= 32
  {
    match f
    case HasGripPosition => 1
    case HasGripOrientation => 2
    case HasPointerPosition => 4
    case HasPointerOrientation => 8
    case HasVelocity => 16
    case HasAngularVelocity => 32
  }

  lemma PoseFlagsDisjoint(f: PoseFlag, g: PoseFlag)
    ensures PoseFlagValue(f) & PoseFlagValue(g) == 0 <==> f != g
  {
  }

  /** The vector a pose flag guards. */
  datatype VectorField = GripPosition | PointerPosition | Velocity | AngularVelocity

  function VectorFlag(field: VectorField): PoseFlag {
    match field
    case GripPosition => HasGripPosition
    case PointerPosition => HasPointerPosition
    case Velocity => HasVelocity
    case AngularVelocity => HasAngularVelocity
  }

  /** Whether the pose's flags hold a pose flag. */
  predicate PoseHas(p: SourcePose, f: PoseFlag) {
    (p.flags as bv32) & PoseFlagValue(f) != 0
  }

  /** `TryGetGripPosition`, `TryGetPointerPosition`, `TryGetVelocity` and
      `TryGetAngularVelocity`: the stored vector, whether or not it is valid, and whether
      its flag is set (`TryGetVelocity` tests `& != None`, the others `HasFlag`). */
  function TryGetVector(p: SourcePose, field: VectorField): (r: (bool, HlrVector3))
    ensures r.0 <==> PoseHas(p, VectorFlag(field))
  {
    var b := p.flags as bv32;
    HasSingleFlag(b, PoseFlagValue(VectorFlag(field)));
    match field
    case GripPosition => (HasFlag(b, PoseFlagValue(HasGripPosition)), p.gripPosition)
    case PointerPosition => (HasFlag(b, PoseFlagValue(HasPointerPosition)), p.pointerPosition)
    case Velocity => (b & PoseFlagValue(HasVelocity) != 0, p.velocity)
    case AngularVelocity => (HasFlag(b, PoseFlagValue(HasAngularVelocity)), p.angularVelocity)
  }

  /** `TryGetGripOrientation` (or, with `pointer`, `TryGetPointerOrientation`). */
  function TryGetOrientation(p: SourcePose, pointer: bool): (r: (bool, HlrQuaternion))
    ensures r.0 <==> PoseHas(p, if pointer then HasPointerOrientation else HasGripOrientation)
  {
    var b := p.flags as bv32;
    HasSingleFlag(b, PoseFlagValue(HasPointerOrientation));
    HasSingleFlag(b, PoseFlagValue(HasGripOrientation));
    if pointer then (HasFlag(b, PoseFlagValue(HasPointerOrientation)), p.pointerOrientation)
    else (HasFlag(b, PoseFlagValue(HasGripOrientation)), p.gripOrientation)
  }

  /** `TryGetPosition` is `TryGetGripPosition`, and `TryGetOrientation` (no pointer) is
      `TryGetGripOrientation`. */
  function TryGetPosition(p: SourcePose): (r: (bool, HlrVector3))
    ensures r == TryGetVector(p, GripPosition)
    ensures r.1 == p.gripPosition
  {
    TryGetVector(p, GripPosition)
  }

  /** A pose with a single vector flag reports exactly that vector as valid and neither
      orientation; what the accessors hand out does not depend on the flags. */
  lemma PoseFlagsIndependent(p: SourcePose, field: VectorField, other: VectorField, flags: uint32)
    ensures var q := p.(flags := PoseFlagValue(VectorFlag(field)) as uint32);
      && (TryGetVector(q, other).0 <==> other == field)
      && !TryGetOrientation(q, true).0 && !TryGetOrientation(q, false).0
    ensures TryGetVector(p.(flags := flags), other).1 == TryGetVector(p, other).1
    ensures TryGetOrientation(p.(flags := flags), true).1 == p.pointerOrientation
    ensures TryGetOrientation(p.(flags := flags), false).1 == p.gripOrientation
  {
    var q := p.(flags := PoseFlagValue(VectorFlag(field)) as uint32);
    assert q.flags as bv32 == PoseFlagValue(VectorFlag(field));
    PoseFlagsDisjoint(VectorFlag(field), VectorFlag(other));
    PoseFlagsDisjoint(VectorFlag(field), HasPointerOrientation);
    PoseFlagsDisjoint(VectorFlag(field), HasGripOrientation);
  }
}

=== FILE: statistics.dfy ===
/** `Statistics.State`: a ring buffer of at most 2048 timing measurements (`Safe`) and the
    order statistics computed over it (`Update`). Measurements are `double`s in the
    source; here they are reals, so rounding and NaN are not modelled. */
module Statistics {

  const MaxMeasurements: nat := 2048

  datatype State = State(
    measurements: seq<real>,
    currentIndex: int,
    duration: real,
    avg: real, median: real, slowest: real, fastest: real, mode: real)

  /** A new `State`: no measurements, index 0, every figure 0. */
  const Initial := State([], 0, 0.0, 0.0, 0.0, 0.0, 0.0, 0.0)

  /** What `Safe` keeps true: at most 2048 measurements, the index inside the buffer, and
      while the buffer fills the index is the next free slot. */
  predicate Valid(s: State) {
    && |s.measurements| <= MaxMeasurements
    && 0 <= s.currentIndex < MaxMeasurements
    && (|s.measurements| < MaxMeasurements ==> s.currentIndex == |s.measurements|)
  }

  /** `Safe`: the elapsed time is appended while the buffer fills and overwrites the slot
      at the index once it is full; the index then moves on and wraps to 0. */
  function Safe(s: State, elapsed: real): (r: State)
    requires Valid(s)
    ensures Valid(r)
    ensures r.duration == elapsed
    ensures |s.measurements| < MaxMeasurements ==> r.measurements == s.measurements + [elapsed]
    ensures |s.measurements| == MaxMeasurements ==>
      r.measurements == s.measurements[s.currentIndex := elapsed]
    ensures r.currentIndex == (s.currentIndex + 1) % MaxMeasurements
  {
    var m :=
      if |s.measurements| == MaxMeasurements then s.measurements[s.currentIndex := elapsed]
      else s.measurements + [elapsed];
    var i := if s.currentIndex + 1 == MaxMeasurements then 0 else s.currentIndex + 1;
    s.(duration := elapsed, measurements := m, currentIndex := i)
  }

  /** The state after a history of measurements, oldest first. */
  function Feed(history: seq<real>): (s: State)
    ensures Valid(s)
  {
    if |history| == 0 then Initial
    else Safe(Feed(history[..|history| - 1]), history[|history| - 1])
  }

  /** The position in a history of the newest measurement that went to slot `k`: the last
      index below `n` that is `k` modulo 2048. */
  function Latest(n: nat, k: nat): (j: nat)
    requires k < n
    ensures j < n && j % 2048 == k % 2048 && n - 2048 <= j
  {
    k + ((n - 1 - k) / 2048) * 2048
  }

  /** After any history the buffer holds the newest 2048 measurements (all of them while
      there are fewer), each in the slot its position modulo 2048 names, and the index is
      the history's length modulo 2048. */
  lemma {:induction false} FeedKeepsNewest(history: seq<real>)
    ensures var s := Feed(history);
      && |s.measurements| == (if |history| < 2048 then |history| else 2048)
      && s.currentIndex == |history| % 2048
      && (forall k :: 0 <= k < |s.measurements| ==> s.measurements[k] == history[Latest(|history|, k)])
  {
    if |history| > 0 {
      var n := |history| - 1;
      var prev := history[..n];
      FeedKeepsNewest(prev);
      var s := Feed(prev);
      var r := Feed(history);
      assert r == Safe(s, history[n]);
      assert prev[..] == history[..n];
      forall k | 0 <= k < |r.measurements|
        ensures r.measurements[k] == history[Latest(n + 1, k)]
      {
        if k == n % 2048 {
          LatestOfNewest(n, k);
        } else {
          LatestUnchanged(n, k);
          assert r.measurements[k] == s.measurements[k];
          assert s.measurements[k] == prev[Latest(n, k)];
        }
      }
    }
  }

  /** The slot just written holds the newest measurement. */
  lemma LatestOfNewest(n: nat, k: nat)
    requires k == n % 2048
    ensures Latest(n + 1, k) == n
  {
  }

  /** Every other slot still holds what it held. */
  lemma LatestUnchanged(n: nat, k: nat)
    requires k < n + 1 && k < 2048 && k != n % 2048
    ensures k < n && Latest(n + 1, k) == Latest(n, k)
  {
  }

  /** The measurement count never passes 2048: the oldest value is overwritten instead. */
  lemma CountBounded(history: seq<real>)
    ensures |Feed(history).measurements| <= MaxMeasurements
    ensures |history| >= MaxMeasurements ==> |Feed(history).measurements| == MaxMeasurements
  {
    FeedKeepsNewest(history);
  }

  // Order statistics.

  predicate SortedAsc(s: seq<real>) {
    forall i, j :: 0 <= i < j < |s| ==> s[i] <= s[j]
  }

  /** One value put into place in an ascending sequence. */
  function Insert(x: real, s: seq<real>): (r: seq<real>)
    ensures |r| == |s| + 1
  {
    if |s| == 0 || x <= s[0] then [x] + s
    else [s[0]] + Insert(x, s[1..])
  }

  /** Inserting adds exactly the value. */
  lemma {:induction false} InsertMultiset(x: real, s: seq<real>)
    ensures multiset(Insert(x, s)) == multiset(s) + multiset{x}
  {
    if |s| > 0 && x > s[0] {
      assert s == [s[0]] + s[1..];
      InsertMultiset(x, s[1..]);
    }
  }

  /** A bound below the value and every element stays below every element after
      inserting. */
  lemma {:induction false} InsertLowerBound(x: real, s: seq<real>, b: real)
    requires b <= x && forall k :: 0 <= k < |s| ==> b <= s[k]
    ensures forall k :: 0 <= k < |Insert(x, s)| ==> b <= Insert(x, s)[k]
  {
    if |s| > 0 && x > s[0] {
      InsertLowerBound(x, s[1..], b);
      assert Insert(x, s) == [s[0]] + Insert(x, s[1..]);
    }
  }

  /** Inserting into an ascending sequence keeps it ascending. */
  lemma {:induction false} InsertSorted(x: real, s: seq<real>)
    requires SortedAsc(s)
    ensures SortedAsc(Insert(x, s))
  {
    var r := Insert(x, s);
    if |s| > 0 && x > s[0] {
      var tail := s[1..];
      InsertSorted(x, tail);
      InsertLowerBound(x, tail, s[0]);
      var rest := Insert(x, tail);
      assert r == [s[0]] + rest;
      forall i, j | 0 <= i < j < |r|
        ensures r[i] <= r[j]
      {
        assert r[j] == rest[j - 1];
        if i > 0 {
          assert r[i] == rest[i - 1];
        }
      }
    } else {
      assert r == [x] + s;
      forall i, j | 0 <= i < j < |r|
        ensures r[i] <= r[j]
      {
        assert r[j] == s[j - 1];
        if i > 0 {
          assert r[i] == s[i - 1];
        } else {
          assert s[0] <= s[j - 1];
        }
      }
    }
  }

  /** `OrderBy(n => n)`: the same values, ascending (insertion sort). */
  function Ordered(s: seq<real>): (r: seq<real>)
    ensures |r| == |s|
  {
    if |s| == 0 then []
    else Insert(s[|s| - 1], Ordered(s[..|s| - 1]))
  }

  /** The ordered copy is ascending and holds the same values. */
  lemma {:induction false} OrderedSpec(s: seq<real>)
    ensures SortedAsc(Ordered(s)) && multiset(Ordered(s)) == multiset(s)
  {
    if |s| > 0 {
      var init := s[..|s| - 1];
      assert s == init + [s[|s| - 1]];
      OrderedSpec(init);
      InsertSorted(s[|s| - 1], Ordered(init));
      InsertMultiset(s[|s| - 1], Ordered(init));
    }
  }

  function Sum(s: seq<real>): real {
    if |s| == 0 then 0.0 else s[0] + Sum(s[1..])
  }

  /** The number of times a value occurs. */
  function Occurrences(s: seq<real>, x: real): nat {
    multiset(s)[x]
  }

  /** The largest number of occurrences of any value. */
  function MaxOccurrences(s: seq<real>): (c: nat) {
    if |s| == 0 then 0
    else
      var rest := MaxOccurrences(s[1..]);
      var c := Occurrences(s, s[0]);
      if c >= rest then c else rest
  }

  /** No value occurs more often than `MaxOccurrences`, and some value occurs that often. */
  lemma {:induction false} MaxOccurrencesSpec(s: seq<real>)
    ensures forall i :: 0 <= i < |s| ==> Occurrences(s, s[i]) <= MaxOccurrences(s)
    ensures |s| > 0 ==> exists i :: 0 <= i < |s| && Occurrences(s, s[i]) == MaxOccurrences(s)
  {
    if |s| > 0 {
      MaxOccurrencesSpec(s[1..]);
      var rest := MaxOccurrences(s[1..]);
      var c := Occurrences(s, s[0]);
      forall i | 0 <= i < |s|
        ensures Occurrences(s, s[i]) <= MaxOccurrences(s)
      {
        if i > 0 {
          assert s[i] == s[1..][i - 1];
          OccurrencesOfTail(s, s[i]);
        }
      }
      if c < rest {
        var i :| 0 <= i < |s[1..]| && Occurrences(s[1..], s[1..][i]) == rest;
        OccurrencesOfTail(s, s[1..][i]);
        assert s[i + 1] == s[1..][i];
        assert Occurrences(s, s[i + 1]) >= rest;
      }
    }
  }

  /** Dropping the first element loses at most its own occurrence. */
  lemma OccurrencesOfTail(s: seq<real>, x: real)
    requires |s| > 0
    ensures Occurrences(s, x) == Occurrences(s[1..], x) + (if s[0] == x then 1 else 0)
  {
    assert s == [s[0]] + s[1..];
  }

  /** The first value, from the left, that occurs `c` times. */
  function FirstWith(s: seq<real>, c: nat, i: nat): (r: nat)
    requires i <= |s|
    requires exists j :: i <= j < |s| && Occurrences(s, s[j]) == c
    ensures i <= r < |s| && Occurrences(s, s[r]) == c
    ensures forall j :: i <= j < r ==> Occurrences(s, s[j]) != c
    decreases |s| - i
  {
    if Occurrences(s, s[i]) == c then i else FirstWith(s, c, i + 1)
  }

  /** `GroupBy(n => n).OrderByDescending(g => g.Count()).First().Key`: groups keep the order
      in which their values first occur and the ordering is stable, so the mode is the
      first value, from the left, with the largest number of occurrences. */
  function Mode(s: seq<real>): (m: real)
    requires |s| > 0
  {
    MaxOccurrencesSpec(s);
    s[FirstWith(s, MaxOccurrences(s), 0)]
  }

  /** `Update`: with no measurements nothing changes; otherwise the median, the extremes,
      the average and the mode of the measurements. */
  function Update(s: State): (r: State)
    ensures |s.measurements| == 0 ==> r == s
    ensures r.measurements == s.measurements && r.currentIndex == s.currentIndex
  {
    var count := |s.measurements|;
    if count == 0 then s
    else
      var half := count / 2;
      var sorted := Ordered(s.measurements);
      var median :=
        if count % 2 == 0 then (sorted[half] + sorted[half - 1]) / 2.0
        else sorted[half];
      s.(median := median, fastest := sorted[0], slowest := sorted[count - 1],
         avg := Sum(sorted) / (count as real), mode := Mode(s.measurements))
  }

  /** The figures `Update` stores, read off the ordered measurements. */
  lemma UpdateFigures(s: State)
    requires |s.measurements| > 0
    ensures var r := Update(s);
      var sorted := Ordered(s.measurements);
      var n := |s.measurements|;
      && r.fastest == sorted[0] && r.slowest == sorted[n - 1]
      && r.median == (if n % 2 == 0 then (sorted[n / 2] + sorted[n / 2 - 1]) / 2.0 else sorted[n / 2])
      && r.avg == Sum(sorted) / (n as real)
      && r.mode == Mode(s.measurements)
  {
  }

  /** The first and last of an ascending permutation are the least and the greatest
      value. */
  lemma SortedExtremes(sorted: seq<real>, m: seq<real>)
    requires |m| > 0 && |sorted| == |m|
    requires SortedAsc(sorted) && multiset(sorted) == multiset(m)
    ensures sorted[0] in m && sorted[|m| - 1] in m
    ensures forall i :: 0 <= i < |m| ==> sorted[0] <= m[i] <= sorted[|m| - 1]
  {
    var n := |m|;
    assert sorted[0] in multiset(m) && sorted[n - 1] in multiset(m);
    forall i | 0 <= i < n
      ensures sorted[0] <= m[i] <= sorted[n - 1]
    {
      assert m[i] in multiset(sorted);
      var j :| 0 <= j < n && sorted[j] == m[i];
    }
  }

  /** After `Update` with data the fastest and slowest figures are the least and greatest
      measurements, the median lies between them, and the median is the middle of the
      ordered measurements (the mean of the two middle ones for an even count). */
  lemma UpdateOrderStatistics(s: State)
    requires |s.measurements| > 0
    ensures var r := Update(s);
      var sorted := Ordered(s.measurements);
      var n := |s.measurements|;
      && r.fastest in s.measurements && r.slowest in s.measurements
      && (forall i :: 0 <= i < n ==> r.fastest <= s.measurements[i] <= r.slowest)
      && r.fastest <= r.median <= r.slowest
      && (n % 2 == 1 ==> r.median == sorted[n / 2])
      && (n % 2 == 0 ==> r.median == (sorted[n / 2 - 1] + sorted[n / 2]) / 2.0)
  {
    var sorted := Ordered(s.measurements);
    var n := |s.measurements|;
    UpdateFigures(s);
    OrderedSpec(s.measurements);
    SortedExtremes(sorted, s.measurements);
    assert sorted[0] <= sorted[n / 2] <= sorted[n - 1];
    if n % 2 == 0 {
      assert sorted[0] <= sorted[n / 2 - 1] <= sorted[n - 1];
    }
  }

  /** The mode occurs in the measurements, no value occurs more often, and no value to its
      left occurs as often. */
  lemma ModeSpec(s: seq<real>)
    requires |s| > 0
    ensures var m := Mode(s);
      && m in s
      && (forall i :: 0 <= i < |s| ==> Occurrences(s, s[i]) <= Occurrences(s, m))
      && (forall i :: 0 <= i < |s| && s[i] != m && Occurrences(s, s[i]) == Occurrences(s, m) ==>
            exists j :: 0 <= j < i && s[j] == m)
  {
    MaxOccurrencesSpec(s);
    var c := MaxOccurrences(s);
    var f := FirstWith(s, c, 0);
    forall i | 0 <= i < |s| && s[i] != s[f] && Occurrences(s, s[i]) == Occurrences(s, s[f])
      ensures exists j :: 0 <= j < i && s[j] == s[f]
    {
      assert i >= f;
      assert i != f;
    }
  }

  /** The average lies between the fastest and the slowest measurement. */
  lemma AverageBounded(s: State)
    requires |s.measurements| > 0
    ensures var r := Update(s); r.fastest <= r.avg <= r.slowest
  {
    var sorted := Ordered(s.measurements);
    var n := |s.measurements| as real;
    UpdateFigures(s);
    OrderedSpec(s.measurements);
    SortedMeanBounded(sorted);
    assert |sorted| as real == n;
    var mean := Sum(sorted) / n;
    assert Update(s).avg == mean;
    assert sorted[0] <= mean <= sorted[|sorted| - 1];
  }

  /** The mean of an ascending sequence lies between its first and last value. */
  lemma SortedMeanBounded(sorted: seq<real>)
    requires |sorted| > 0 && SortedAsc(sorted)
    ensures sorted[0] <= Sum(sorted) / (|sorted| as real) <= sorted[|sorted| - 1]
  {
    var n := |sorted|;
    forall i | 0 <= i < n
      ensures sorted[0] <= sorted[i] <= sorted[n - 1]
    {
    }
    SumBounded(sorted, sorted[0], sorted[n - 1]);
    MeanBounded(Sum(sorted), n as real, sorted[0], sorted[n - 1]);
  }

  /** Dividing by a positive count keeps bounds. */
  lemma MeanBounded(total: real, n: real, lo: real, hi: real)
    requires n > 0.0 && n * lo <= total <= n * hi
    ensures lo <= total / n <= hi
  {
  }

  /** A sum of values between two bounds lies between the bounds times the count. */
  lemma {:induction false} SumBounded(s: seq<real>, lo: real, hi: real)
    requires forall i :: 0 <= i < |s| ==> lo <= s[i] <= hi
    ensures (|s| as real) * lo <= Sum(s) <= (|s| as real) * hi
  {
    if |s| > 0 {
      SumBounded(s[1..], lo, hi);
    }
  }
}

=== FILE: text.dfy ===
/** String helpers that mirror `string.Split`, and a first-match search over a sequence. */
module Text {
  import opened Wrappers

  /** `s.Split(sep)`: the pieces between separators, including empty ones. */
  function Split(s: string, sep: char): (r: seq<string>)
    ensures |r| >= 1
  {
    if |s| == 0 then [""]
    else
      var rest := Split(s[1..], sep);
      if s[0] == sep then [""] + rest else [[s[0]] + rest[0]] + rest[1..]
  }

  /** A separator-free string is one piece. */
  lemma {:induction false} SplitNoSep(a: string, sep: char)
    requires sep !in a
    ensures Split(a, sep) == [a]
  {
    if |a| > 0 {
      assert sep !in a[1..] by {
        forall k | 0 <= k < |a| - 1 ensures a[1..][k] != sep { assert a[1..][k] == a[k + 1]; }
      }
      SplitNoSep(a[1..], sep);
      assert [a[0]] + a[1..] == a;
    }
  }

  /** A separator-free prefix followed by a separator is split off as the first piece. */
  lemma {:induction false} SplitCons(a: string, sep: char, t: string)
    requires sep !in a
    ensures Split(a + [sep] + t, sep) == [a] + Split(t, sep)
  {
    if |a| == 0 {
      assert a + [sep] + t == [sep] + t;
      assert ([sep] + t)[1..] == t;
    } else {
      var s := a + [sep] + t;
      assert s[1..] == a[1..] + [sep] + t;
      assert sep !in a[1..] by {
        forall k | 0 <= k < |a| - 1 ensures a[1..][k] != sep { assert a[1..][k] == a[k + 1]; }
      }
      SplitCons(a[1..], sep, t);
      assert [a[0]] + a[1..] == a;
    }
  }

  /** Joining pieces with the separator and splitting again gives the pieces back. */
  lemma Split3(a: string, b: string, c: string, sep: char)
    requires sep !in a && sep !in b && sep !in c
    ensures Split(a + [sep] + b + [sep] + c, sep) == [a, b, c]
  {
    assert a + [sep] + b + [sep] + c == a + [sep] + (b + [sep] + c);
    SplitCons(a, sep, b + [sep] + c);
    SplitCons(b, sep, c);
    SplitNoSep(c, sep);
  }

  /** No element occurs twice. */
  predicate Distinct<T(==)>(xs: seq<T>) {
    forall i, j :: 0 <= i < j < |xs| ==> xs[i] != xs[j]
  }

  /** The position of the first occurrence of `x`, as `Array.IndexOf` finds it. */
  function IndexOf<T(==)>(xs: seq<T>, x: T): (r: Option<nat>)
    ensures r.Some? ==> r.value < |xs| && xs[r.value] == x
    ensures r.Some? ==> forall j :: 0 <= j < r.value ==> xs[j] != x
    ensures r.None? <==> x !in xs
  {
    if |xs| == 0 then None
    else if xs[0] == x then Some(0)
    else match IndexOf(xs[1..], x)
      case None => None
      case Some(k) => Some(k + 1)
  }

  /** In a sequence without repetitions the search finds every element at its own position. */
  lemma IndexOfDistinct<T>(xs: seq<T>, i: nat)
    requires Distinct(xs) && i < |xs|
    ensures IndexOf(xs, xs[i]) == Some(i)
  {
  }
}

=== FILE: touchmanager.dfy ===
/** The MRTK touch device manager of the ISAR package (`IsarXRSDKTouchManager`). It turns
    the client's touch messages into queued touches. On each `Update` it turns the queued
    touches into touch controllers, kept per finger. A controller whose touch ended is
    reported lost on the following `Update`, so that touch up and source lost are at least
    one frame apart.

    Rays, projection matrices and the MRTK input system are not part of this model. The
    input system appears only as the source detected and source lost events it is asked to
    raise. */
module TouchManager {
  import opened Wrappers
  import opened Bytes
  import opened Geometry
  import opened CustomMessageTypes

  // The touch message.

  /** `DATA_LENGTH`: five four-byte floats after the message type. */
  const DataLength: int := 5 * 4

  /** The five floats of a touch message, as raw binary32 words: the phase, the viewport
      position and the two projection factors. */
  datatype TouchWords = TouchWords(phase: F32, x: F32, y: F32, horizontalFactor: F32, verticalFactor: F32)

  function WordsOf(w: seq<uint32>): (t: TouchWords)
    requires |w| == 5
  {
    TouchWords(w[0], w[1], w[2], w[3], w[4])
  }

  /** The message type, read even from a message shorter than four bytes (the length
      assertion only logs); `beyond` stands for the bytes after the message. */
  function MessageTypeOf(message: seq<byte>, beyond: seq<byte>): int32
    requires |beyond| == 4
  {
    ReadInt32LE(message + beyond, 0)
  }

  /** The handler's reading as written: it checks that the whole message holds `DataLength`
      bytes but copies `DataLength` bytes starting after the type. A message of 20 to 23
      bytes is therefore read past its end. */
  function ReadTouchAsWritten(message: seq<byte>, beyond: seq<byte>): (r: Option<TouchWords>)
    requires |beyond| == 4
    ensures r.Some? <==> MessageTypeOf(message, beyond) == Code(TouchData) && |message| >= DataLength
  {
    if MessageTypeOf(message, beyond) != Code(TouchData) || |message| < DataLength then None
    else Some(WordsOf(ReadWordsLE((message + beyond)[4..4 + DataLength], 0, 5)))
  }

  /** The reading as intended: the type and the five floats must all lie inside the
      message. */
  function ReadTouch(message: seq<byte>, beyond: seq<byte>): (r: Option<TouchWords>)
    requires |beyond| == 4
    ensures r.Some? <==> MessageTypeOf(message, beyond) == Code(TouchData) && |message| >= 4 + DataLength
  {
    if MessageTypeOf(message, beyond) != Code(TouchData) || |message| < 4 + DataLength then None
    else Some(WordsOf(ReadWordsLE(message[4..4 + DataLength], 0, 5)))
  }

  /** A touch message as the client writes it. */
  function EncodeTouch(t: TouchWords): (m: seq<byte>)
    ensures |m| == 4 + DataLength
  {
    Int32ToLE(Code(TouchData)) + WordsToLE([t.phase, t.x, t.y, t.horizontalFactor, t.verticalFactor])
  }

  /** Every touch message reads back as the floats it was written from, whatever follows
      it. */
  lemma TouchRoundTrip(t: TouchWords, beyond: seq<byte>)
    requires |beyond| == 4
    ensures ReadTouch(EncodeTouch(t), beyond) == Some(t)
  {
    var ws := [t.phase, t.x, t.y, t.horizontalFactor, t.verticalFactor];
    var m := EncodeTouch(t);
    var none: seq<byte> := [];
    Int32LERoundTrip(Code(TouchData), none, WordsToLE(ws) + beyond);
    assert m + beyond == none + Int32ToLE(Code(TouchData)) + (WordsToLE(ws) + beyond);
    assert m[4..4 + DataLength] == none + WordsToLE(ws) + none;
    WordsRoundTrip(ws, none, none);
  }

  /** A touch message of exactly `DataLength` bytes passes the check as written. Its
      vertical factor is then the four bytes after the message, which the intended reading
      never accepts. */
  lemma TouchReadsPastEnd(message: seq<byte>, beyond: seq<byte>)
    requires |message| == DataLength && |beyond| == 4
    requires MessageTypeOf(message, beyond) == Code(TouchData)
    ensures ReadTouchAsWritten(message, beyond).Some?
    ensures ReadTouchAsWritten(message, beyond).value.verticalFactor == ReadUInt32LE(beyond, 0)
    ensures ReadTouch(message, beyond).None?
  {
    var whole := message + beyond;
    var copy := whole[4..4 + DataLength];
    assert whole[20..24] == beyond;
    assert copy[16..20] == whole[20..24];
    assert beyond[0..4] == beyond;
    assert ReadUInt32LE(copy, 16) == ReadUInt32LE(beyond, 0);
    assert ReadWordsLE(copy, 0, 5)[4] == ReadUInt32LE(copy, 16);
  }

  /** Where the message is long enough for both, the two readings agree. */
  lemma TouchReadingsAgree(message: seq<byte>, beyond: seq<byte>)
    requires |message| >= 4 + DataLength && |beyond| == 4
    ensures ReadTouchAsWritten(message, beyond) == ReadTouch(message, beyond)
  {
    assert (message + beyond)[4..4 + DataLength] == message[4..4 + DataLength];
  }

  // Touches.

  /** Unity's `TouchPhase`. */
  datatype Phase = Began | Moved | Stationary | Ended | Canceled

  /** The binary32 words of 0.0, -0.0 and 2.0. */
  const PlusZero: F32 := 0x0000_0000
  const MinusZero: F32 := 0x8000_0000
  const Two: F32 := 0x4000_0000

  /** `type == 0 ? Began : type == 2 ? Moved : Ended`, under float equality: both zeros are
      zero, and a NaN equals nothing. */
  function PhaseOf(word: F32): (p: Phase)
    ensures p == Began <==> word == PlusZero || word == MinusZero
    ensures p == Moved <==> word == Two
    ensures p == Ended <==> word != PlusZero && word != MinusZero && word != Two
  {
    if word == PlusZero || word == MinusZero then Began
    else if word == Two then Moved
    else Ended
  }

  /** A queued touch. The delta is the previous queued touch's position, from which
      `deltaPosition` is the difference; with none it stays zero. Every remote touch is
      finger 1. */
  datatype Touch = Touch(position: Vector2, phase: Phase, fingerId: int, deltaFrom: Option<Vector2>)

  const RemoteFinger := 1

  /** A touch controller. Controllers are objects; `id` tells them apart. */
  datatype Controller = Controller(id: nat, fingerId: int, touchData: Touch, touching: bool)

  /** The events the manager asks the input system to raise. */
  datatype Event = SourceDetected(controller: nat) | SourceLost(controller: nat)

  datatype Manager = Manager(
    /** `ActiveTouches`: the controller of each finger that is down. */
    activeTouches: map<int, Controller>,
    /** `touchesToRemove`: controllers whose source lost event is due. */
    touchesToRemove: seq<Controller>,
    /** `_isarTouches`: the touches received since the last `Update`. */
    isarTouches: seq<Touch>,
    horizontalFactor: F32,
    verticalFactor: F32,
    /** The id the next controller gets. */
    nextId: nat,
    /** The events raised so far, in order. */
    events: seq<Event>)

  /** Both factors start at 1.0. */
  const One: F32 := 0x3F80_0000
  const Initial := Manager(map[], [], [], One, One, 0, [])

  /** The touch a message describes, given the touches already queued. */
  function MakeTouch(t: TouchWords, queued: seq<Touch>): (r: Touch)
    ensures r.phase == PhaseOf(t.phase) && r.fingerId == RemoteFinger
    ensures r.position == Vector2(t.x, t.y)
    ensures r.deltaFrom.Some? <==> r.phase != Began && |queued| > 0
    ensures r.deltaFrom.Some? ==> r.deltaFrom.value == queued[|queued| - 1].position
  {
    var phase := PhaseOf(t.phase);
    var delta := if phase != Began && |queued| > 0 then Some(queued[|queued| - 1].position) else None;
    Touch(Vector2(t.x, t.y), phase, RemoteFinger, delta)
  }

  /** The reading the handler uses: the source's when `asWritten`, the intended one
      otherwise. */
  function ReadTouchBy(message: seq<byte>, beyond: seq<byte>, asWritten: bool): (r: Option<TouchWords>)
    requires |beyond| == 4
    ensures asWritten ==> r == ReadTouchAsWritten(message, beyond)
    ensures !asWritten ==> r == ReadTouch(message, beyond)
  {
    if asWritten then ReadTouchAsWritten(message, beyond) else ReadTouch(message, beyond)
  }

  /** `OnCustomMessageReceived`: a touch message sets the projection factors and queues
      its touch; every other message changes nothing. `asWritten` picks the length check:
      the source's, which accepts a message of 20 bytes or more, or the intended one, which
      needs the type word and all five floats. */
  function OnCustomMessageReceived(m: Manager, message: seq<byte>, beyond: seq<byte>, asWritten: bool): (r: Manager)
    requires |beyond| == 4
    ensures ReadTouchBy(message, beyond, asWritten).None? ==> r == m
    ensures ReadTouchBy(message, beyond, asWritten).Some? ==>
      var t := ReadTouchBy(message, beyond, asWritten).value;
      && r == m.(isarTouches := m.isarTouches + [MakeTouch(t, m.isarTouches)],
                 horizontalFactor := t.horizontalFactor, verticalFactor := t.verticalFactor)
  {
    match ReadTouchBy(message, beyond, asWritten)
    case None => m
    case Some(t) =>
      m.(horizontalFactor := t.horizontalFactor, verticalFactor := t.verticalFactor,
         isarTouches := m.isarTouches + [MakeTouch(t, m.isarTouches)])
  }

  /** A 20-byte touch message: the source's handler queues a touch and takes its vertical
      factor from the four bytes after the message; the intended check ignores it. */
  lemma ShortTouchQueuedAsWritten(m: Manager, message: seq<byte>, beyond: seq<byte>)
    requires |message| == DataLength && |beyond| == 4
    requires MessageTypeOf(message, beyond) == Code(TouchData)
    ensures var r := OnCustomMessageReceived(m, message, beyond, true);
      |r.isarTouches| == |m.isarTouches| + 1 && r.verticalFactor == ReadUInt32LE(beyond, 0)
    ensures OnCustomMessageReceived(m, message, beyond, false) == m
  {
    TouchReadsPastEnd(message, beyond);
  }

  /** A message as the client writes it is queued alike under both checks. */
  lemma ClientTouchQueuedEitherWay(m: Manager, t: TouchWords, beyond: seq<byte>, asWritten: bool)
    requires |beyond| == 4
    ensures OnCustomMessageReceived(m, EncodeTouch(t), beyond, asWritten)
      == m.(isarTouches := m.isarTouches + [MakeTouch(t, m.isarTouches)],
            horizontalFactor := t.horizontalFactor, verticalFactor := t.verticalFactor)
  {
    TouchRoundTrip(t, beyond);
    TouchReadingsAgree(EncodeTouch(t), beyond);
  }

  /** `AddTouchController`: the finger's controller, made if the finger has none, is
      reported detected and starts touching. */
  function AddTouchController(m: Manager, touch: Touch): (r: Manager)
    ensures touch.fingerId in r.activeTouches
    ensures var c := r.activeTouches[touch.fingerId];
      && c.touching && c.touchData == touch
      && (touch.fingerId in m.activeTouches ==>
            c.id == m.activeTouches[touch.fingerId].id && c.fingerId == m.activeTouches[touch.fingerId].fingerId
            && r.nextId == m.nextId)
      && (touch.fingerId !in m.activeTouches ==> c.id == m.nextId && c.fingerId == touch.fingerId && r.nextId == m.nextId + 1)
      && r.events == m.events + [SourceDetected(c.id)]
    ensures forall f :: f != touch.fingerId ==> (f in r.activeTouches <==> f in m.activeTouches)
    ensures forall f :: f != touch.fingerId && f in m.activeTouches ==> r.activeTouches[f] == m.activeTouches[f]
    ensures r.touchesToRemove == m.touchesToRemove && r.isarTouches == m.isarTouches
  {
    var (c, next) :=
      if touch.fingerId in m.activeTouches then (m.activeTouches[touch.fingerId], m.nextId)
      else (Controller(m.nextId, touch.fingerId, touch, false), m.nextId + 1);
    var started := c.(touchData := touch, touching := true);
    m.(activeTouches := m.activeTouches[touch.fingerId := started], nextId := next,
       events := m.events + [SourceDetected(c.id)])
  }

  /** `UpdateTouchData`: the finger's controller, if any, takes the touch. */
  function UpdateTouchData(m: Manager, touch: Touch): (r: Manager)
    ensures touch.fingerId !in m.activeTouches ==> r == m
    ensures touch.fingerId in m.activeTouches ==>
      r == m.(activeTouches := m.activeTouches[touch.fingerId := m.activeTouches[touch.fingerId].(touchData := touch)])
  {
    if touch.fingerId !in m.activeTouches then m
    else m.(activeTouches := m.activeTouches[touch.fingerId := m.activeTouches[touch.fingerId].(touchData := touch)])
  }

  /** `RemoveTouchController`: the finger's controller, if any, ends its touch, is
      scheduled for a source lost event and leaves the active touches. */
  function RemoveTouchController(m: Manager, touch: Touch): (r: Manager)
    ensures touch.fingerId !in m.activeTouches ==> r == m
    ensures touch.fingerId in m.activeTouches ==>
      var c := m.activeTouches[touch.fingerId];
      && r.activeTouches == m.activeTouches - {touch.fingerId}
      && r.touchesToRemove == m.touchesToRemove + [c.(touchData := touch, touching := false)]
      && r.events == m.events && r.nextId == m.nextId && r.isarTouches == m.isarTouches
  {
    if touch.fingerId !in m.activeTouches then m
    else
      var c := m.activeTouches[touch.fingerId];
      m.(touchesToRemove := m.touchesToRemove + [c.(touchData := touch, touching := false)],
         activeTouches := m.activeTouches - {touch.fingerId})
  }

  /** The switch over a touch's phase. */
  function Process(m: Manager, touch: Touch): (r: Manager)
  {
    match touch.phase
    case Began => AddTouchController(m, touch)
    case Moved => UpdateTouchData(m, touch)
    case Stationary => UpdateTouchData(m, touch)
    case Ended => RemoveTouchController(m, touch)
    case Canceled => RemoveTouchController(m, touch)
  }

  function ProcessAll(m: Manager, touches: seq<Touch>): (r: Manager)
    decreases |touches|
  {
    if |touches| == 0 then m else ProcessAll(Process(m, touches[0]), touches[1..])
  }

  function LostEvents(cs: seq<Controller>): (es: seq<Event>)
    ensures |es| == |cs|
    ensures forall i :: 0 <= i < |cs| ==> es[i] == SourceLost(cs[i].id)
  {
    if |cs| == 0 then [] else [SourceLost(cs[0].id)] + LostEvents(cs[1..])
  }

  /** `Update`: the controllers scheduled by the previous `Update` are reported lost and
      the schedule is cleared; then the queued touches are processed in order and the
      queue is cleared. */
  function Update(m: Manager): (r: Manager)
    ensures r.isarTouches == []
  {
    var lost := m.(events := m.events + LostEvents(m.touchesToRemove), touchesToRemove := []);
    ProcessAll(lost, m.isarTouches).(isarTouches := [])
  }

  /** The bookkeeping the manager keeps: each active controller is filed under its own
      finger, every id was handed out, and no scheduled controller is still active. */
  predicate Valid(m: Manager) {
    && (forall f :: f in m.activeTouches ==> m.activeTouches[f].fingerId == f && m.activeTouches[f].id < m.nextId)
    && (forall i :: 0 <= i < |m.touchesToRemove| ==> m.touchesToRemove[i].id < m.nextId)
    && (forall i, f :: 0 <= i < |m.touchesToRemove| && f in m.activeTouches ==>
          m.touchesToRemove[i].id != m.activeTouches[f].id)
    && (forall f, g :: f in m.activeTouches && g in m.activeTouches && f != g ==>
          m.activeTouches[f].id != m.activeTouches[g].id)
  }

  lemma ProcessValid(m: Manager, touch: Touch)
    requires Valid(m)
    ensures Valid(Process(m, touch))
  {
  }

  lemma {:induction false} ProcessAllValid(m: Manager, touches: seq<Touch>)
    requires Valid(m)
    ensures Valid(ProcessAll(m, touches))
    ensures |ProcessAll(m, touches).events| >= |m.events|
    ensures ProcessAll(m, touches).events[..|m.events|] == m.events
    decreases |touches|
  {
    if |touches| > 0 {
      ProcessValid(m, touches[0]);
      ProcessAllValid(Process(m, touches[0]), touches[1..]);
      ProcessExtendsEvents(m, touches[0]);
    }
  }

  lemma ProcessExtendsEvents(m: Manager, touch: Touch)
    ensures |Process(m, touch).events| >= |m.events|
    ensures Process(m, touch).events[..|m.events|] == m.events
  {
  }

  /** `Update` keeps the bookkeeping, and it raises the due source lost events first, in
      the order the touches ended, before any event of this frame's touches. */
  lemma UpdateSpec(m: Manager)
    requires Valid(m)
    ensures Valid(Update(m))
    ensures var es := Update(m).events;
      && |es| >= |m.events| + |m.touchesToRemove|
      && es[..|m.events|] == m.events
      && forall i :: 0 <= i < |m.touchesToRemove| ==> es[|m.events| + i] == SourceLost(m.touchesToRemove[i].id)
  {
    var lost := m.(events := m.events + LostEvents(m.touchesToRemove), touchesToRemove := []);
    ProcessAllValid(lost, m.isarTouches);
  }

  /** One frame of a finger's life: a touch that begins gives its finger a controller,
      reported detected; a touch that ends takes the controller away and schedules it; the
      next `Update` reports it lost and forgets it. */
  lemma TouchLifecycle(m: Manager, position: Vector2, from: Vector2)
    requires Valid(m) && m.isarTouches == [] && m.touchesToRemove == [] && RemoteFinger !in m.activeTouches
    ensures var begun := Update(m.(isarTouches := [Touch(position, Began, RemoteFinger, None)]));
      && RemoteFinger in begun.activeTouches
      && begun.activeTouches[RemoteFinger].id == m.nextId
      && begun.events == m.events + [SourceDetected(m.nextId)]
      && var ended := Update(begun.(isarTouches := [Touch(position, Ended, RemoteFinger, Some(from))]));
      && RemoteFinger !in ended.activeTouches
      && |ended.touchesToRemove| == 1 && ended.touchesToRemove[0].id == m.nextId
      && ended.events == begun.events
      && var after := Update(ended);
      && after.events == begun.events + [SourceLost(m.nextId)]
      && after.touchesToRemove == []
  {
    var begin := Touch(position, Began, RemoteFinger, None);
    var m1 := m.(isarTouches := [begin]);
    OneTouchUpdate(m1, begin);
    var begun := Update(m1);
    var end := Touch(position, Ended, RemoteFinger, Some(from));
    var m2 := begun.(isarTouches := [end]);
    OneTouchUpdate(m2, end);
    var ended := Update(m2);
    assert Update(ended) == ProcessAll(ended.(events := ended.events + LostEvents(ended.touchesToRemove), touchesToRemove := []), []).(isarTouches := []);
  }

  /** `Update` with no controller due and one queued touch processes that touch. */
  lemma OneTouchUpdate(m: Manager, touch: Touch)
    requires m.touchesToRemove == [] && m.isarTouches == [touch]
    ensures Update(m) == Process(m.(touchesToRemove := []), touch).(isarTouches := [])
  {
    var lost := m.(events := m.events + LostEvents(m.touchesToRemove), touchesToRemove := []);
    assert lost == m.(touchesToRemove := []);
    assert ProcessAll(lost, [touch]) == ProcessAll(Process(lost, touch), []);
  }
}

=== FILE: trackables.dfy ===
/** The AR trackables the plane and image providers keep: a tracked plane or image with the
    change it has pending for the next `GetChanges`. A pending change keeps the update type it
    was first given until a consumer clears `HasChanges`; a removal always wins. */
module Trackables {
  import opened Bytes
  import opened Geometry

  /** `UpdateType`: None = 0, Added, Updated, Removed. */
  datatype UpdateType = NoUpdate | Added | Updated | Removed

  function UpdateTypeCode(u: UpdateType): (c: nat)
    ensures c < 4
  {
    match u
    case NoUpdate => 0
    case Added => 1
    case Updated => 2
    case Removed => 3
  }

  /** Added or Updated: the types strictly between None and Removed. */
  predicate IsLive(u: UpdateType)
    ensures IsLive(u) <==> 0 < UpdateTypeCode(u) < 3
  {
    u == Added || u == Updated
  }

  /** Unity's `TrackingState` as the raw integer the messages carry: a cast from `int` keeps
      any value, and only 0, 1 and 2 have names. */
  type TrackingState = int32
  const TrackingNone: TrackingState := 0
  const TrackingLimited: TrackingState := 1
  const TrackingTracking: TrackingState := 2

  type uint64 = n: int | 0 <= n < 0x1_0000_0000_0000_0000

  /** `TrackableId`: two 64-bit halves, taken from a fresh GUID for every trackable. */
  datatype TrackableId = TrackableId(subId1: uint64, subId2: uint64)

  const InvalidId := TrackableId(0, 0)

  datatype Pose = Pose(position: Vector3, rotation: Quaternion)

  /** 1.0f */
  const One: F32 := 0x3F80_0000

  const IdentityPose := Pose(Vector3(0, 0, 0), Quaternion(0, 0, 0, One))

  /** Unity's `BoundedPlane` without its native pointer. */
  datatype BoundedPlane = BoundedPlane(
    trackableId: TrackableId, subsumedById: TrackableId, pose: Pose, center: Vector2,
    size: Vector2, alignment: int32, trackingState: TrackingState, classification: int32)

  const DefaultPlane := BoundedPlane(InvalidId, InvalidId, IdentityPose, Vector2(0, 0), Vector2(0, 0), 0, TrackingNone, 0)

  /** Unity's `XRTrackedImage` without its native pointer; the reference image is named by
      its GUID. */
  datatype TrackedImage = TrackedImage(
    trackableId: TrackableId, referenceImage: nat, pose: Pose, size: Vector2,
    trackingState: TrackingState)

  const DefaultImage := TrackedImage(InvalidId, 0, IdentityPose, Vector2(0, 0), TrackingNone)

  /** `ImageType`: STATIC = 0, MOVING = 1. */
  const ImageStatic: int32 := 0
  const ImageMoving: int32 := 1

  /** The subclass of a trackable and its `Track`. */
  datatype Track =
    | PlaneTrack(plane: BoundedPlane, polygon: seq<Vector2>)
    | ImageTrack(image: TrackedImage, imageType: int32)

  datatype Kind = PlaneKind | ImageKind

  /** `IsarTrackable`: its own id (from a fresh GUID), the id the remote side uses, the
      pending change and the Unity-facing track. */
  datatype Trackable = Trackable(
    ownId: TrackableId, isarId: int32, updateType: UpdateType, hasChanges: bool, track: Track)

  function KindOf(t: Trackable): Kind {
    if t.track.PlaneTrack? then PlaneKind else ImageKind
  }

  /** `Track.trackableId`: the id Unity sees, which is the invalid id until the first update. */
  function TrackIdOf(t: Trackable): TrackableId {
    match t.track
    case PlaneTrack(p, _) => p.trackableId
    case ImageTrack(i, _) => i.trackableId
  }

  /** `new IsarTrackedPlane(id)`: no pending change, the default plane and no polygon. */
  function NewPlane(ownId: TrackableId, isarId: int32): (t: Trackable)
    ensures KindOf(t) == PlaneKind && t.isarId == isarId && t.ownId == ownId
    ensures t.updateType == NoUpdate && !t.hasChanges && TrackIdOf(t) == InvalidId
  {
    Trackable(ownId, isarId, NoUpdate, false, PlaneTrack(DefaultPlane, []))
  }

  /** One plane update as the provider passes it on. */
  datatype PlaneChange = PlaneChange(
    updateType: UpdateType, subsumedBy: TrackableId, pose: Pose, center: Vector2, size: Vector2,
    alignment: int32, state: TrackingState, polygon: seq<Vector2>)

  /** `UpdateTrackedPlane`: the update type is taken only when nothing is pending; the plane
      and polygon are always replaced and a change is pending afterwards. The classification
      is always the default None. */
  function UpdateTrackedPlane(t: Trackable, c: PlaneChange): (r: Trackable)
    requires KindOf(t) == PlaneKind
    ensures r.updateType == (if t.hasChanges then t.updateType else c.updateType)
    ensures r.hasChanges && KindOf(r) == PlaneKind
    ensures r.track.polygon == c.polygon
    ensures r.track.plane.trackableId == t.ownId && TrackIdOf(r) == t.ownId
    ensures r.track.plane.subsumedById == c.subsumedBy && r.track.plane.trackingState == c.state
    ensures r.track.plane.pose == c.pose && r.track.plane.center == c.center && r.track.plane.size == c.size
    ensures r.ownId == t.ownId && r.isarId == t.isarId
  {
    var u := if t.hasChanges then t.updateType else c.updateType;
    var plane := BoundedPlane(t.ownId, c.subsumedBy, c.pose, c.center, c.size, c.alignment, c.state, 0);
    t.(updateType := u, hasChanges := true, track := PlaneTrack(plane, c.polygon))
  }

  /** `Remove` (planes and images alike): a removal is pending whatever was pending before. */
  function Remove(t: Trackable): (r: Trackable)
    ensures r.updateType == Removed && r.hasChanges
    ensures r.track == t.track && r.ownId == t.ownId && r.isarId == t.isarId
  {
    t.(updateType := Removed, hasChanges := true)
  }

  /** The flag a consumer clears when it reports the pending change. */
  function Consume(t: Trackable): (r: Trackable)
    ensures !r.hasChanges && r == t.(hasChanges := false)
  {
    t.(hasChanges := false)
  }

  function ApplyPlaneChanges(t: Trackable, cs: seq<PlaneChange>): (r: Trackable)
    requires KindOf(t) == PlaneKind
    ensures KindOf(r) == PlaneKind && r.ownId == t.ownId && r.isarId == t.isarId
    decreases |cs|
  {
    if |cs| == 0 then t else UpdateTrackedPlane(ApplyPlaneChanges(t, cs[..|cs| - 1]), cs[|cs| - 1])
  }

  /** First pending change wins: after a run of updates, the update type is the one pending
      before the run, or the first update's if nothing was pending; the plane data is the
      last update's. */
  lemma {:induction false} FirstPlaneChangeWins(t: Trackable, cs: seq<PlaneChange>)
    requires KindOf(t) == PlaneKind && |cs| > 0
    ensures var r := ApplyPlaneChanges(t, cs);
      && r.updateType == (if t.hasChanges then t.updateType else cs[0].updateType)
      && r.hasChanges
      && r.track.polygon == cs[|cs| - 1].polygon
      && r.track.plane.pose == cs[|cs| - 1].pose
    decreases |cs|
  {
    if |cs| > 1 {
      FirstPlaneChangeWins(t, cs[..|cs| - 1]);
    }
  }

  /** After the consumer clears the flag, the next update's type is taken again. */
  lemma ConsumedPlaneTakesNextType(t: Trackable, c: PlaneChange)
    requires KindOf(t) == PlaneKind
    ensures UpdateTrackedPlane(Consume(t), c).updateType == c.updateType
  {
  }

  /** `new IsarTrackedImage(guid, id)`: a moving image, no pending change, default track. */
  function NewImage(ownId: TrackableId, referenceImage: nat, isarId: int32): (t: Trackable)
    ensures KindOf(t) == ImageKind && t.isarId == isarId && t.ownId == ownId
    ensures t.updateType == NoUpdate && !t.hasChanges && t.track.imageType == ImageMoving
  {
    Trackable(ownId, isarId, NoUpdate, false, ImageTrack(DefaultImage.(referenceImage := referenceImage), ImageMoving))
  }

  /** The reference image a tracked image was created for. */
  function ReferenceOf(t: Trackable): nat
    requires KindOf(t) == ImageKind
  {
    t.track.image.referenceImage
  }

  /** `UpdateTrackedImageData`: the update type is taken only when nothing is pending, and
      the image is tracking exactly when the resulting type is Added or Updated. */
  function UpdateTrackedImageData(t: Trackable, u: UpdateType, pose: Pose, width: F32, height: F32): (r: Trackable)
    requires KindOf(t) == ImageKind
    ensures r.hasChanges && KindOf(r) == ImageKind && TrackIdOf(r) == t.ownId
    ensures r.updateType == (if t.hasChanges then t.updateType else u)
    ensures r.track.image.trackingState == (if IsLive(r.updateType) then TrackingTracking else TrackingNone)
    ensures r.track.image.pose == pose && r.track.image.size == Vector2(width, height)
    ensures ReferenceOf(r) == ReferenceOf(t) && r.track.imageType == t.track.imageType
    ensures r.ownId == t.ownId && r.isarId == t.isarId
  {
    var v := if t.hasChanges then t.updateType else u;
    var state := if v == Added || v == Updated then TrackingTracking else TrackingNone;
    var image := TrackedImage(t.ownId, t.track.image.referenceImage, pose, Vector2(width, height), state);
    t.(updateType := v, hasChanges := true, track := ImageTrack(image, t.track.imageType))
  }

  /** A removal pending on an image survives every later update, which then reports the
      image as not tracking. */
  lemma RemovedImageStaysRemoved(t: Trackable, u: UpdateType, pose: Pose, width: F32, height: F32)
    requires KindOf(t) == ImageKind
    ensures var r := UpdateTrackedImageData(Remove(t), u, pose, width, height);
      r.updateType == Removed && r.track.image.trackingState == TrackingNone
  {
  }
}

=== FILE: trackablesdb.dfy ===
/** `TrackablesDatabase`: the one list of trackables the plane and image providers share.
    Lookups return the first match in insertion order; removal deletes the first match only.
    The list's lock is not modelled: every operation is one atomic step. */
module TrackablesDatabase {
  import opened Wrappers
  import opened Bytes
  import opened Trackables
  import Text

  type Database = seq<Trackable>

  /** `AddTrack`: appends. */
  function AddTrack(db: Database, t: Trackable): (r: Database)
    ensures |r| == |db| + 1 && r[..|db|] == db && r[|db|] == t
  {
    db + [t]
  }

  /** The position of the first trackable with that remote id, as `FirstOrDefault` finds it. */
  function IndexOfIsarId(db: Database, isarId: int32): (r: Option<nat>)
    ensures r.Some? ==> r.value < |db| && db[r.value].isarId == isarId
    ensures r.Some? ==> forall j :: 0 <= j < r.value ==> db[j].isarId != isarId
    ensures r.None? <==> forall j :: 0 <= j < |db| ==> db[j].isarId != isarId
  {
    if |db| == 0 then None
    else if db[0].isarId == isarId then Some(0)
    else match IndexOfIsarId(db[1..], isarId)
      case None => None
      case Some(k) => Some(k + 1)
  }

  /** The position of the first trackable whose track carries the id. */
  function IndexOfTrackId(db: Database, id: TrackableId): (r: Option<nat>)
    ensures r.Some? ==> r.value < |db| && TrackIdOf(db[r.value]) == id
    ensures r.Some? ==> forall j :: 0 <= j < r.value ==> TrackIdOf(db[j]) != id
    ensures r.None? <==> forall j :: 0 <= j < |db| ==> TrackIdOf(db[j]) != id
  {
    if |db| == 0 then None
    else if TrackIdOf(db[0]) == id then Some(0)
    else match IndexOfTrackId(db[1..], id)
      case None => None
      case Some(k) => Some(k + 1)
  }

  /** `GetTrack(int id)`: the first trackable with that remote id, or null. */
  function GetTrack(db: Database, isarId: int32): (r: Option<Trackable>)
    ensures r.None? <==> forall j :: 0 <= j < |db| ==> db[j].isarId != isarId
    ensures r.Some? ==> r.value.isarId == isarId
    ensures r.Some? ==>
      exists i :: 0 <= i < |db| && db[i] == r.value && forall j :: 0 <= j < i ==> db[j].isarId != isarId
  {
    match IndexOfIsarId(db, isarId)
    case None => None
    case Some(i) => Some(db[i])
  }

  /** `GetTrack<T>(int id)`: the first trackable with that remote id, cast with `as T`, so a
      first match of the other kind gives null even when a later one has the kind. */
  function GetTrackOfKind(db: Database, isarId: int32, kind: Kind): (r: Option<Trackable>)
    ensures r.Some? ==> r == GetTrack(db, isarId) && KindOf(r.value) == kind
    ensures r.None? <==> GetTrack(db, isarId).None? || KindOf(GetTrack(db, isarId).value) != kind
  {
    match GetTrack(db, isarId)
    case Some(t) => if KindOf(t) == kind then Some(t) else None
    case None => None
  }

  /** `GetTrack(TrackableId id)`: the first trackable whose track carries that id. */
  function GetTrackById(db: Database, id: TrackableId): (r: Option<Trackable>)
    ensures r.None? <==> forall j :: 0 <= j < |db| ==> TrackIdOf(db[j]) != id
    ensures r.Some? ==> TrackIdOf(r.value) == id && r.value in db
  {
    match IndexOfTrackId(db, id)
    case None => None
    case Some(i) => Some(db[i])
  }

  /** `GetTrack<T>(TrackableId id)`: the first trackable whose track carries the id, cast
      with `as T`. */
  function GetTrackByIdOfKind(db: Database, id: TrackableId, kind: Kind): (r: Option<Trackable>)
    ensures r.Some? ==> r == GetTrackById(db, id) && KindOf(r.value) == kind
    ensures r.None? <==> GetTrackById(db, id).None? || KindOf(GetTrackById(db, id).value) != kind
  {
    match GetTrackById(db, id)
    case Some(t) => if KindOf(t) == kind then Some(t) else None
    case None => None
  }

  /** `Contains(int isarId)`: some trackable has that remote id. */
  predicate Contains(db: Database, isarId: int32)
    ensures Contains(db, isarId) <==> exists j :: 0 <= j < |db| && db[j].isarId == isarId
  {
    GetTrack(db, isarId).Some?
  }

  /** `Contains(TrackableId id)`. */
  predicate ContainsId(db: Database, id: TrackableId)
    ensures ContainsId(db, id) <==> exists j :: 0 <= j < |db| && TrackIdOf(db[j]) == id
  {
    GetTrackById(db, id).Some?
  }

  /** `GetTrackableOfTypes<T>`: the trackables of one kind, in list order. */
  function OfKind(db: Database, kind: Kind): (r: Database)
    ensures |r| <= |db|
    ensures forall t :: t in r <==> t in db && KindOf(t) == kind
  {
    if |db| == 0 then []
    else
      var rest := OfKind(db[1..], kind);
      assert forall t :: t in db[1..] ==> t in db;
      assert forall t :: t in db ==> t == db[0] || t in db[1..];
      if KindOf(db[0]) == kind then [db[0]] + rest else rest
  }

  /** Filtering distributes over concatenation, so it keeps the list order. */
  lemma {:induction false} OfKindAppend(a: Database, b: Database, kind: Kind)
    ensures OfKind(a + b, kind) == OfKind(a, kind) + OfKind(b, kind)
    decreases |a|
  {
    if |a| == 0 {
      assert a + b == b;
    } else {
      assert (a + b)[0] == a[0] && (a + b)[1..] == a[1..] + b;
      OfKindAppend(a[1..], b, kind);
    }
  }

  /** `GetTrackableTypeCount<T>`: the number of trackables of one kind. */
  function CountOfKind(db: Database, kind: Kind): (n: nat)
    ensures n == |OfKind(db, kind)|
  {
    if |db| == 0 then 0 else (if KindOf(db[0]) == kind then 1 else 0) + CountOfKind(db[1..], kind)
  }

  /** Removing the entry at `i`. */
  function RemoveAt(db: Database, i: nat): (r: Database)
    requires i < |db|
    ensures |r| == |db| - 1
    ensures forall j :: 0 <= j < i ==> r[j] == db[j]
    ensures forall j :: i <= j < |r| ==> r[j] == db[j + 1]
  {
    db[..i] + db[i + 1..]
  }

  /** `Remove(IsarTrackable)`: `List.Remove` deletes the first entry equal to the argument. */
  function RemoveTrack(db: Database, t: Trackable): (r: Database)
    ensures t !in db ==> r == db
    ensures t in db ==> |r| == |db| - 1 && multiset(r) == multiset(db) - multiset{t}
  {
    match Text.IndexOf(db, t)
    case None => db
    case Some(i) =>
      assert db == db[..i] + [db[i]] + db[i + 1..];
      RemoveAt(db, i)
  }

  /** `Remove(TrackableId)`: deletes the first trackable whose track carries the id; a no-op
      when there is none. */
  function RemoveById(db: Database, id: TrackableId): (r: Database)
    ensures !ContainsId(db, id) ==> r == db
    ensures ContainsId(db, id) ==> |r| == |db| - 1
    ensures ContainsId(db, id) ==>
      exists i :: 0 <= i < |db| && TrackIdOf(db[i]) == id && r == RemoveAt(db, i) && forall j :: 0 <= j < i ==> TrackIdOf(db[j]) != id
  {
    match IndexOfTrackId(db, id)
    case None => db
    case Some(i) => RemoveAt(db, i)
  }

  /** Dropping a trackable of another kind does not change the filtered list. */
  lemma OfKindSkip(a: Database, x: Trackable, b: Database, kind: Kind)
    requires KindOf(x) != kind
    ensures OfKind(a + [x] + b, kind) == OfKind(a + b, kind)
  {
    OfKindAppend(a + [x], b, kind);
    OfKindAppend(a, [x], kind);
    OfKindAppend(a, b, kind);
    assert OfKind([x], kind) == [];
  }

  /** A removal leaves every trackable of a kind that does not carry the id where it was. */
  lemma RemoveByIdKeepsOthers(db: Database, id: TrackableId, kind: Kind)
    requires forall j :: 0 <= j < |db| && KindOf(db[j]) == kind ==> TrackIdOf(db[j]) != id
    ensures OfKind(RemoveById(db, id), kind) == OfKind(db, kind)
  {
    var found := IndexOfTrackId(db, id);
    if found.Some? {
      var i := found.value;
      assert db == db[..i] + [db[i]] + db[i + 1..];
      OfKindSkip(db[..i], db[i], db[i + 1..], kind);
    }
  }

  /** Adding a trackable and looking up its remote id finds it when no earlier entry has
      that id. */
  lemma AddThenGet(db: Database, t: Trackable)
    requires !Contains(db, t.isarId)
    ensures GetTrack(AddTrack(db, t), t.isarId) == Some(t)
    ensures Contains(AddTrack(db, t), t.isarId)
  {
    var r := AddTrack(db, t);
    assert r[|db|] == t;
  }
}

=== FILE: types.dfy ===
/** The shared enumerations and sentinels of the C interface (`types.h`) and their C# mirrors. */
module Types {
  import opened Wrappers
  import opened Bytes
  import Text

  /** `HlrError`. Every name but `eUnknown` has a value implied by its position. */
  datatype HlrError =
    | ENone | EAlreadyInitialized | EInvalidHandle | EPeerConnectionFactory | EPeerConnection
    | EDataChannelCreation | EDataChannelSend | EDataChannelSendNotOpen | EAddTrack
    | EVideoSource | EVideoTrack | EStartRtcEventLog
    | EConfigUnsupportedOrMissingRole | EConfigUnsupportedOrMissingEncoder
    | EConfigUnsupportedOrMissingDecoder | EConfigUnsupportedOrMissingVideoSource
    | EConfigSignalingInvalidOrMissing | EConfigSignalingIpInvalidOrMissing
    | EConfigSignalingPortInvalidOrMissing
    | ENotConnected | EFileOpen | EConfigParse | ESdpParse | ENoFrame | EUnsupportedVersion
    | EInvalidArgument | EMessageTooLong | EAudioTrack | EAudioTrackNotInitialized
    | EUnknown

  /** The names of the native enum in declaration order, before the explicit `eUnknown`. */
  const NativeOrder: seq<HlrError> := [
    ENone, EAlreadyInitialized, EInvalidHandle, EPeerConnectionFactory, EPeerConnection,
    EDataChannelCreation, EDataChannelSend, EDataChannelSendNotOpen, EAddTrack,
    EVideoSource, EVideoTrack, EStartRtcEventLog,
    EConfigUnsupportedOrMissingRole, EConfigUnsupportedOrMissingEncoder,
    EConfigUnsupportedOrMissingDecoder, EConfigUnsupportedOrMissingVideoSource,
    EConfigSignalingInvalidOrMissing, EConfigSignalingIpInvalidOrMissing,
    EConfigSignalingPortInvalidOrMissing,
    ENotConnected, EFileOpen, EConfigParse, ESdpParse, ENoFrame, EUnsupportedVersion,
    EInvalidArgument, EMessageTooLong, EAudioTrack, EAudioTrackNotInitialized]

  /** The names of the C# `HlrError` in declaration order (it has no `eUnknown`). */
  const ManagedOrder: seq<HlrError> := [
    ENone, EAlreadyInitialized, EInvalidHandle, EPeerConnectionFactory, EPeerConnection,
    EDataChannelCreation, EDataChannelSend, EDataChannelSendNotOpen, EAddTrack,
    EVideoSource, EVideoTrack, EStartRtcEventLog,
    EConfigUnsupportedOrMissingRole, EConfigUnsupportedOrMissingEncoder,
    EConfigUnsupportedOrMissingDecoder, EConfigUnsupportedOrMissingVideoSource,
    EConfigSignalingInvalidOrMissing, EConfigSignalingIpInvalidOrMissing,
    EConfigSignalingPortInvalidOrMissing,
    ENotConnected, EFileOpen, EConfigParse, ESdpParse, ENoFrame, EUnsupportedVersion,
    EInvalidArgument, EMessageTooLong, EAudioTrack, EAudioTrackNotInitialized]

  /** The numeric value of a native error: its position, or the forced 32-bit `eUnknown`. */
  function NativeCode(e: HlrError): (c: uint32)
    ensures e != EUnknown ==> c < |NativeOrder| && NativeOrder[c] == e
    ensures e == EUnknown ==> c == 0xFFFF_FFFF
  {
    match e
    case ENone => 0
    case EAlreadyInitialized => 1
    case EInvalidHandle => 2
    case EPeerConnectionFactory => 3
    case EPeerConnection => 4
    case EDataChannelCreation => 5
    case EDataChannelSend => 6
    case EDataChannelSendNotOpen => 7
    case EAddTrack => 8
    case EVideoSource => 9
    case EVideoTrack => 10
    case EStartRtcEventLog => 11
    case EConfigUnsupportedOrMissingRole => 12
    case EConfigUnsupportedOrMissingEncoder => 13
    case EConfigUnsupportedOrMissingDecoder => 14
    case EConfigUnsupportedOrMissingVideoSource => 15
    case EConfigSignalingInvalidOrMissing => 16
    case EConfigSignalingIpInvalidOrMissing => 17
    case EConfigSignalingPortInvalidOrMissing => 18
    case ENotConnected => 19
    case EFileOpen => 20
    case EConfigParse => 21
    case ESdpParse => 22
    case ENoFrame => 23
    case EUnsupportedVersion => 24
    case EInvalidArgument => 25
    case EMessageTooLong => 26
    case EAudioTrack => 27
    case EAudioTrackNotInitialized => 28
    case EUnknown => 0xFFFF_FFFF
  }

  /** The value the C# enum gives a name, if the C# enum declares it: its position in the
      C# declaration, which starts at `eNone = 0` and numbers the rest consecutively. */
  function ManagedCode(e: HlrError): (c: Option<int32>)
    ensures c.Some? <==> e in ManagedOrder
    ensures c.Some? ==> 0 <= c.value < |ManagedOrder| && ManagedOrder[c.value] == e
  {
    match Text.IndexOf(ManagedOrder, e)
    case Some(i) => Some(i)
    case None => None
  }

  /** Interpreting a native 32-bit error value. */
  function FromNativeCode(c: uint32): (r: Option<HlrError>)
    ensures r.Some? ==> NativeCode(r.value) == c
  {
    if c < |NativeOrder| then
      NativeCodesConsecutive();
      Some(NativeOrder[c])
    else if c == 0xFFFF_FFFF then Some(EUnknown)
    else None
  }

  /** eNone is 0, the following errors are numbered consecutively, eUnknown is 0xFFFFFFFF, and
      no two names share a value. */
  lemma NativeCodesConsecutive()
    ensures NativeCode(ENone) == 0 && NativeCode(EUnknown) == 0xFFFF_FFFF
    ensures forall i :: 0 <= i < |NativeOrder| ==> NativeCode(NativeOrder[i]) == i
    ensures forall a: HlrError, b: HlrError :: NativeCode(a) == NativeCode(b) ==> a == b
  {
    PositionsFirst();
    PositionsSecond();
    PositionsThird();
    PositionsFourth();
    forall a: HlrError, b: HlrError | NativeCode(a) == NativeCode(b)
      ensures a == b
    {
      if a != EUnknown && b != EUnknown {
        assert NativeOrder[NativeCode(a)] == a && NativeOrder[NativeCode(b)] == b;
      }
    }
  }

  lemma PositionsFirst()
    ensures forall i :: 0 <= i < 8 ==> NativeCode(NativeOrder[i]) == i
  {
  }

  lemma PositionsSecond()
    ensures forall i :: 8 <= i < 15 ==> NativeCode(NativeOrder[i]) == i
  {
  }

  lemma PositionsThird()
    ensures forall i :: 15 <= i < 22 ==> NativeCode(NativeOrder[i]) == i
  {
  }

  lemma PositionsFourth()
    ensures forall i :: 22 <= i < |NativeOrder| ==> NativeCode(NativeOrder[i]) == i
  {
  }

  /** Every native value has exactly one reading, and every name is read back from its value. */
  lemma NativeCodeRoundTrip(e: HlrError, c: uint32)
    ensures FromNativeCode(NativeCode(e)) == Some(e)
    ensures FromNativeCode(c).Some? <==> c < 29 || c == 0xFFFF_FFFF
  {
  }

  /** The C# mirror gives every shared name the native value: the two declaration lists agree
      entry for entry. */
  lemma ManagedMirrorsNative(e: HlrError)
    ensures ManagedOrder == NativeOrder
    ensures e != EUnknown ==> ManagedCode(e) == Some(NativeCode(e) as int32)
    ensures e == EUnknown ==> ManagedCode(e) == None
  {
    OrdersAgree();
    if e != EUnknown {
      var c := ManagedCode(e);
      assert e in ManagedOrder by { assert ManagedOrder[NativeCode(e)] == e; }
      NativeCodesConsecutive();
      assert NativeCode(ManagedOrder[c.value]) == c.value;
    } else {
      UnknownNotDeclared();
    }
  }

  lemma OrdersAgree()
    ensures ManagedOrder == NativeOrder
  {
  }

  /** `eUnknown` has no position in either declaration list. */
  lemma UnknownNotDeclared()
    ensures EUnknown !in NativeOrder && EUnknown !in ManagedOrder
  {
    OrdersAgree();
    NativeCodesConsecutive();
  }

  /** `HlrConnectionState` and its C# mirror: DISCONNECTED = 0, CONNECTED = 1, FAILED = 2. */
  datatype ConnectionState = Disconnected | Connected | Failed

  function ConnectionStateCode(s: ConnectionState): (c: uint32)
    ensures c < 3
  {
    match s
    case Disconnected => 0
    case Connected => 1
    case Failed => 2
  }

  function ConnectionStateFromCode(c: uint32): (r: Option<ConnectionState>)
    ensures r.Some? <==> c < 3
  {
    if c == 0 then Some(Disconnected) else if c == 1 then Some(Connected) else if c == 2 then Some(Failed) else None
  }

  lemma ConnectionStateRoundTrip(s: ConnectionState, c: uint32)
    ensures ConnectionStateFromCode(ConnectionStateCode(s)) == Some(s)
    ensures ConnectionStateFromCode(c).Some? ==> ConnectionStateCode(ConnectionStateFromCode(c).value) == c
  {
  }

  /** `HlrSdpType`: OFFER = 0, ANSWER = 1. */
  datatype SdpType = Offer | Answer

  function SdpTypeCode(t: SdpType): (c: uint32)
    ensures c < 2
  {
    if t == Offer then 0 else 1
  }

  function SdpTypeFromCode(c: uint32): (r: Option<SdpType>)
    ensures r.Some? <==> c < 2
  {
    if c == 0 then Some(Offer) else if c == 1 then Some(Answer) else None
  }

  lemma SdpTypeRoundTrip(t: SdpType, c: uint32)
    ensures SdpTypeFromCode(SdpTypeCode(t)) == Some(t)
    ensures SdpTypeFromCode(c).Some? ==> SdpTypeCode(SdpTypeFromCode(c).value) == c
  {
  }

  /** Handle sentinels, as 64-bit pointer values: `(void*)-1` and `(void*)0xc0ffee`. */
  const PointerRange: nat := 0x1_0000_0000_0000_0000
  const InvalidHandle: nat := (-1) % PointerRange
  const ValidHandle: nat := 0xc0ffee

  lemma HandleSentinelsDistinct()
    ensures InvalidHandle == PointerRange - 1
    ensures InvalidHandle != ValidHandle && ValidHandle != 0 && InvalidHandle != 0
  {
  }
}

=== FILE: utf8.dfy ===
/** UTF-8 encoding of strings (`new UTF8Encoding(false, true)`: no byte-order mark). Dafny
    characters are Unicode scalar values, so a string here cannot hold the lone surrogate
    on which the .NET encoder throws. */
module Utf8 {
  import opened Bytes

  /** The one to four bytes of one scalar value. */
  function EncodeChar(c: char): (r: seq<byte>)
    ensures 1 <= |r| <= 4
    ensures (c as int) < 0x80 ==> r == [c as int]
  {
    var n := c as int;
    if n < 0x80 then [n]
    else if n < 0x800 then [0xC0 + n / 0x40, 0x80 + n % 0x40]
    else if n < 0x1_0000 then [0xE0 + n / 0x1000, 0x80 + (n / 0x40) % 0x40, 0x80 + n % 0x40]
    else [0xF0 + n / 0x4_0000, 0x80 + (n / 0x1000) % 0x40, 0x80 + (n / 0x40) % 0x40, 0x80 + n % 0x40]
  }

  function Encode(s: string): (r: seq<byte>)
    ensures |r| >= |s|
  {
    if |s| == 0 then [] else EncodeChar(s[0]) + Encode(s[1..])
  }

  /** The encoding of a concatenation is the concatenation of the encodings. */
  lemma {:induction false} EncodeAppend(a: string, b: string)
    ensures Encode(a + b) == Encode(a) + Encode(b)
    decreases |a|
  {
    if |a| == 0 {
      assert a + b == b;
    } else {
      assert (a + b)[0] == a[0] && (a + b)[1..] == a[1..] + b;
      EncodeAppend(a[1..], b);
    }
  }

  /** An ASCII first and last character are the first and last byte. */
  lemma EncodeEnds(s: string)
    requires |s| >= 1 && (s[0] as int) < 0x80 && (s[|s| - 1] as int) < 0x80
    ensures |Encode(s)| >= 1
    ensures Encode(s)[0] == s[0] as int && Encode(s)[|Encode(s)| - 1] == s[|s| - 1] as int
  {
    var init := s[..|s| - 1];
    assert s == init + [s[|s| - 1]];
    EncodeAppend(init, [s[|s| - 1]]);
    assert Encode([s[|s| - 1]]) == [s[|s| - 1] as int];
  }
}

=== FILE: version.dfy ===
/** The bit layout of a packed version: major in bits 22..31, minor in bits 12..21, patch in
    bits 0..11. */
module VersionBits {

  /** Fields that fit their bit widths. */
  predicate InRange(major: bv32, minor: bv32, patch: bv32) {
    major < 0x400 && minor < 0x400 && patch < 0x1000
  }

  /** `(major << 22) | (minor << 12) | patch` on 32-bit unsigned integers: shifts truncate and
      the fields are OR-ed, so out-of-range fields bleed into their neighbours. */
  function Pack(major: bv32, minor: bv32, patch: bv32): bv32 {
    (major << 22) | (minor << 12) | patch
  }

  /** Packing is strictly increasing in lexicographic (major, minor, patch) order: a larger
      major wins whatever the other fields, then a larger minor, then a larger patch. */
  lemma PackMonotonicMajor(a1: bv32, b1: bv32, c1: bv32, a2: bv32, b2: bv32, c2: bv32)
    requires InRange(a1, b1, c1) && InRange(a2, b2, c2) && a1 < a2
    ensures Pack(a1, b1, c1) < Pack(a2, b2, c2)
  {
  }

  lemma PackMonotonicMinor(a: bv32, b1: bv32, c1: bv32, b2: bv32, c2: bv32)
    requires InRange(a, b1, c1) && InRange(a, b2, c2) && b1 < b2
    ensures Pack(a, b1, c1) < Pack(a, b2, c2)
  {
  }

  lemma PackMonotonicPatch(a: bv32, b: bv32, c1: bv32, c2: bv32)
    requires InRange(a, b, c1) && InRange(a, b, c2) && c1 < c2
    ensures Pack(a, b, c1) < Pack(a, b, c2)
  {
  }

  /** Distinct in-range triples pack to distinct values. */
  lemma PackInjective(a1: bv32, b1: bv32, c1: bv32, a2: bv32, b2: bv32, c2: bv32)
    requires InRange(a1, b1, c1) && InRange(a2, b2, c2)
    ensures Pack(a1, b1, c1) == Pack(a2, b2, c2) <==> a1 == a2 && b1 == b2 && c1 == c2
  {
  }
}

/** Semantic versions packed into 32 bits: major in bits 22..31, minor in bits 12..21,
    patch in bits 0..11. The C macros and the C# `HlrVersion` struct use the same layout. */
module Version {
  import opened VersionBits
  import opened Wrappers
  import opened Decimal
  import opened Text

  /** The C `HlrVersion` typedef (`unsigned int`) and the C# struct's `PackedValue`. */
  datatype HlrVersion = HlrVersion(PackedValue: bv32)

  const InvalidVersion: bv32 := 0

  /** `HLR_MAKE_PACKED_VERSION` and the three-argument C# constructor: shifts truncate to 32
      bits and the fields are OR-ed, so out-of-range fields bleed into their neighbours. */
  function Make(major: bv32, minor: bv32, patch: bv32): (v: HlrVersion) {
    HlrVersion(Pack(major, minor, patch))
  }

  /** The default C# constructor. */
  function Default(): (v: HlrVersion)
    ensures !IsValid(v)
  {
    HlrVersion(InvalidVersion)
  }

  function GetMajor(v: HlrVersion): (major: bv32)
    ensures major < 0x400
  {
    v.PackedValue >> 22
  }

  function GetMinor(v: HlrVersion): (minor: bv32)
    ensures minor < 0x400
  {
    (v.PackedValue >> 12) & 0x3ff
  }

  function GetPatch(v: HlrVersion): (patch: bv32)
    ensures patch < 0x1000
  {
    v.PackedValue & 0xfff
  }

  predicate IsValid(v: HlrVersion) {
    v.PackedValue != InvalidVersion
  }

  /** `==` on versions: equality of the packed values; `!=` is its negation. */
  predicate Equal(a: HlrVersion, b: HlrVersion) {
    a.PackedValue == b.PackedValue
  }

  lemma EqualIsIdentity(a: HlrVersion, b: HlrVersion)
    ensures Equal(a, b) <==> a == b
    ensures !Equal(a, b) <==> a != b
  {
  }

  /** Unpacking recovers each in-range field. */
  lemma GetInvertsMake(major: bv32, minor: bv32, patch: bv32)
    requires InRange(major, minor, patch)
    ensures GetMajor(Make(major, minor, patch)) == major
    ensures GetMinor(Make(major, minor, patch)) == minor
    ensures GetPatch(Make(major, minor, patch)) == patch
  {
  }

  /** Packing the unpacked fields of any 32-bit value gives the value back. */
  lemma MakeInvertsGet(v: HlrVersion)
    ensures Make(GetMajor(v), GetMinor(v), GetPatch(v)) == v
  {
  }

  /** Only 0.0.0 packs to the invalid version. */
  lemma MakeValid(major: bv32, minor: bv32, patch: bv32)
    requires InRange(major, minor, patch)
    ensures IsValid(Make(major, minor, patch)) <==> (major != 0 || minor != 0 || patch != 0)
  {
  }

  const Latest: HlrVersion := Make(2, 6, 0)
  const NextMajor: HlrVersion := HlrVersion(Latest.PackedValue + Make(1, 0, 0).PackedValue)
  const NextMinor: HlrVersion := HlrVersion(Latest.PackedValue + Make(0, 1, 0).PackedValue)
  const NextPatch: HlrVersion := HlrVersion(Latest.PackedValue + Make(0, 0, 1).PackedValue)

  /** The library version is 2.6.0 and the "next" versions bump exactly one field. */
  lemma Constants()
    ensures (GetMajor(Latest), GetMinor(Latest), GetPatch(Latest)) == (2, 6, 0)
    ensures (GetMajor(NextMajor), GetMinor(NextMajor), GetPatch(NextMajor)) == (3, 6, 0)
    ensures (GetMajor(NextMinor), GetMinor(NextMinor), GetPatch(NextMinor)) == (2, 7, 0)
    ensures (GetMajor(NextPatch), GetMinor(NextPatch), GetPatch(NextPatch)) == (2, 6, 1)
    ensures IsValid(Latest) && Latest.PackedValue < NextPatch.PackedValue < NextMinor.PackedValue < NextMajor.PackedValue
  {
  }

  /** `ToSystemVersion`: the three fields as a `System.Version`. */
  datatype SystemVersion = SystemVersion(Major: nat, Minor: nat, Build: nat)

  function ToSystemVersion(v: HlrVersion): (r: SystemVersion)
    ensures r.Major < 0x400 && r.Minor < 0x400 && r.Build < 0x1000
  {
    SystemVersion(GetMajor(v) as nat, GetMinor(v) as nat, GetPatch(v) as nat)
  }

  lemma ToSystemVersionOfMake(major: bv32, minor: bv32, patch: bv32)
    requires InRange(major, minor, patch)
    ensures ToSystemVersion(Make(major, minor, patch)) == SystemVersion(major as nat, minor as nat, patch as nat)
  {
    GetInvertsMake(major, minor, patch);
  }

  /** `ToString()`: "major.minor.patch" in decimal. */
  function ToString(v: HlrVersion): (s: string) {
    NatToString(GetMajor(v) as nat) + "." + NatToString(GetMinor(v) as nat) + "." + NatToString(GetPatch(v) as nat)
  }

  /** Three dot-separated decimal fields. */
  function ParseFields(s: string): (r: Option<(nat, nat, nat)>)
    ensures r.Some? ==> |Split(s, '.')| == 3
  {
    var parts := Split(s, '.');
    if |parts| != 3 then None
    else
      match (ParseNat(parts[0]), ParseNat(parts[1]), ParseNat(parts[2]))
      case (Some(a), Some(b), Some(c)) => Some((a, b, c))
      case _ => None
  }

  /** The inverse of `ToString`: three dot-separated decimal fields within their widths. */
  function ParseVersion(s: string): (r: Option<HlrVersion>)
    ensures r.Some? ==> ParseFields(s).Some?
  {
    match ParseFields(s)
    case Some((a, b, c)) =>
      if a < 0x400 && b < 0x400 && c < 0x1000 then Some(Make(a as bv32, b as bv32, c as bv32)) else None
    case None => None
  }

  lemma NoDot(s: string)
    requires AllDigits(s)
    ensures '.' !in s
  {
    assert forall k :: 0 <= k < |s| ==> IsDigit(s[k]);
  }

  lemma ParseFieldsRoundTrip(a: nat, b: nat, c: nat)
    ensures ParseFields(NatToString(a) + "." + NatToString(b) + "." + NatToString(c)) == Some((a, b, c))
  {
    var x, y, z := NatToString(a), NatToString(b), NatToString(c);
    NoDot(x);
    NoDot(y);
    NoDot(z);
    assert x + "." + y + "." + z == x + ['.'] + y + ['.'] + z;
    Split3(x, y, z, '.');
    NatRoundTrip(a);
    NatRoundTrip(b);
    NatRoundTrip(c);
  }

  lemma BvNat(x: bv32)
    ensures (x as nat) as bv32 == x
  {
  }

  lemma FieldsInRange(v: HlrVersion)
    ensures GetMajor(v) as nat < 0x400 && GetMinor(v) as nat < 0x400 && GetPatch(v) as nat < 0x1000
  {
  }

  lemma MakeOfNatFields(v: HlrVersion, a: nat, b: nat, c: nat)
    requires a == GetMajor(v) as nat && b == GetMinor(v) as nat && c == GetPatch(v) as nat
    requires a < 0x400 && b < 0x400 && c < 0x1000
    ensures Make(a as bv32, b as bv32, c as bv32) == v
  {
    BvNat(GetMajor(v));
    BvNat(GetMinor(v));
    BvNat(GetPatch(v));
    MakeInvertsGet(v);
  }

  /** Rendering a version and parsing the text gives the same packed value. */
  lemma ParseToString(v: HlrVersion)
    ensures ParseVersion(ToString(v)) == Some(v)
  {
    var a, b, c := GetMajor(v) as nat, GetMinor(v) as nat, GetPatch(v) as nat;
    FieldsInRange(v);
    ParseFieldsRoundTrip(a, b, c);
    assert ToString(v) == NatToString(a) + "." + NatToString(b) + "." + NatToString(c);
    assert ParseFields(ToString(v)) == Some((a, b, c));
    MakeOfNatFields(v, a, b, c);
    assert ParseVersion(ToString(v)) == Some(Make(a as bv32, b as bv32, c as bv32));
  }
}

=== FILE: wrappers.dfy ===
/** Failure-compatible wrappers shared by the whole model. */
module Wrappers {

  /** A value that may be absent; stands for a nullable reference or a missing dictionary entry. */
  datatype Option<+T> = None | Some(value: T) {
    predicate IsFailure() { None? }

    function PropagateFailure<U>(): Option<U>
      requires None?
    {
      None
    }

    function Extract(): T
      requires Some?
    {
      value
    }

    function GetOr(default: T): T {
      match this
      case Some(v) => v
      case None => default
    }
  }

  /** Either a value or the error the modelled code raises or returns instead. */
  datatype Result<+R, +E> = Success(value: R) | Failure(error: E) {
    predicate IsFailure() { Failure? }

    function PropagateFailure<U>(): Result<U, E>
      requires Failure?
    {
      Failure(error)
    }

    function Extract(): R
      requires Success?
    {
      value
    }
  }
}

=== FILE: xmlrw.dfy ===
/** The XML schema of the debug-signaling messages: one element per message, `Version`,
    `Sdp` or `IceCandidate`, with fixed attribute names. Messages are modelled at the level
    of the element the framework's XML writer and reader see: its name, its attributes in
    order and its text content. */
module IsarXml {
  import opened Wrappers
  import opened Bytes
  import opened Decimal
  import Text

  const SdpToken := "Sdp"
  const SdpTypeToken := "Type"
  const SdpTypeOffer := "Offer"
  const SdpTypeAnswer := "Answer"
  const VersionToken := "Version"
  const IceCandidateToken := "IceCandidate"
  const IceMidToken := "sdp-mid"
  const IceMLineIndexToken := "mline-index"
  const DepthAlphaToken := "DepthAlphaEnabled"

  datatype Attribute = Attribute(name: string, value: string)

  datatype XmlElement = XmlElement(name: string, attributes: seq<Attribute>, content: string)

  /** `XmlReader.GetAttribute`: the value of the first attribute of that name, or null. */
  function GetAttribute(e: XmlElement, name: string): (r: Option<string>)
    ensures r.None? <==> forall i :: 0 <= i < |e.attributes| ==> e.attributes[i].name != name
    ensures r.Some? ==> exists i :: 0 <= i < |e.attributes| && e.attributes[i] == Attribute(name, r.value)
  {
    FirstAttribute(e.attributes, name)
  }

  function FirstAttribute(attrs: seq<Attribute>, name: string): (r: Option<string>)
    ensures r.None? <==> forall i :: 0 <= i < |attrs| ==> attrs[i].name != name
    ensures r.Some? ==> exists i :: 0 <= i < |attrs| && attrs[i] == Attribute(name, r.value)
  {
    if |attrs| == 0 then None
    else if attrs[0].name == name then Some(attrs[0].value)
    else
      var r := FirstAttribute(attrs[1..], name);
      assert forall i :: 1 <= i < |attrs| ==> attrs[i] == attrs[1..][i - 1];
      r
  }

  // Writers.

  /** `WriteVersion`: the version in invariant-culture decimal, the depth-alpha flag as
      "1" or "0". */
  function WriteVersion(version: uint32, supportDepthAlpha: bool): (e: XmlElement)
    ensures e.name == VersionToken && e.content == NatToString(version)
    ensures GetAttribute(e, DepthAlphaToken) == Some(if supportDepthAlpha then "1" else "0")
  {
    XmlElement(VersionToken, [Attribute(DepthAlphaToken, if supportDepthAlpha then "1" else "0")],
               NatToString(version))
  }

  function WriteSdp(sdpType: string, sdp: string): (e: XmlElement)
    ensures e.name == SdpToken && e.content == sdp
    ensures GetAttribute(e, SdpTypeToken) == Some(sdpType)
  {
    XmlElement(SdpToken, [Attribute(SdpTypeToken, sdpType)], sdp)
  }

  function WriteIceCandidate(mid: string, mlineIndex: int32, candidate: string): (e: XmlElement)
    ensures e.name == IceCandidateToken && e.content == candidate
    ensures GetAttribute(e, IceMidToken) == Some(mid)
    ensures GetAttribute(e, IceMLineIndexToken) == Some(IntToString(mlineIndex))
  {
    var attrs := [Attribute(IceMidToken, mid), Attribute(IceMLineIndexToken, IntToString(mlineIndex))];
    assert |IceMidToken| != |IceMLineIndexToken|;
    assert FirstAttribute(attrs[1..], IceMLineIndexToken) == Some(IntToString(mlineIndex));
    XmlElement(IceCandidateToken, attrs, candidate)
  }

  // Readers.

  /** `ReadVersion`: `uint.Parse` of the content, which throws on anything but a decimal
      uint; depth alpha only for the exact attribute value "1". */
  function ReadVersion(e: XmlElement): (r: Result<(uint32, bool), ParseError>)
    ensures r.Success? ==> ParseUInt32(e.content) == Success(r.value.0)
    ensures r.Success? ==> (r.value.1 <==> GetAttribute(e, DepthAlphaToken) == Some("1"))
    ensures r.Failure? <==> ParseUInt32(e.content).Failure?
  {
    var depthAlpha := GetAttribute(e, DepthAlphaToken);
    var version :- ParseUInt32(e.content);
    Success((version, depthAlpha == Some("1")))
  }

  /** `ReadSdp`: the type attribute, possibly null, and the content. */
  function ReadSdp(e: XmlElement): (r: (Option<string>, string))
    ensures r.0 == GetAttribute(e, SdpTypeToken) && r.1 == e.content
  {
    (GetAttribute(e, SdpTypeToken), e.content)
  }

  datatype IceError = MissingMLineIndex | BadMLineIndex(error: ParseError)

  /** `ReadIceCandidate`: `int.Parse` of the m-line index throws when it is absent or not a
      decimal int32. */
  function ReadIceCandidate(e: XmlElement): (r: Result<(Option<string>, int32, string), IceError>)
    ensures GetAttribute(e, IceMLineIndexToken).None? ==> r == Failure(MissingMLineIndex)
    ensures r.Success? ==>
      && GetAttribute(e, IceMLineIndexToken).Some?
      && ParseInt32(GetAttribute(e, IceMLineIndexToken).value) == Success(r.value.1)
      && r.value.0 == GetAttribute(e, IceMidToken) && r.value.2 == e.content
  {
    var mid := GetAttribute(e, IceMidToken);
    match GetAttribute(e, IceMLineIndexToken)
    case None => Failure(MissingMLineIndex)
    case Some(s) =>
      match ParseInt32(s)
      case Failure(err) => Failure(BadMLineIndex(err))
      case Success(i) => Success((mid, i, e.content))
  }

  // Round trips.

  lemma VersionRoundTrip(version: uint32, supportDepthAlpha: bool)
    ensures ReadVersion(WriteVersion(version, supportDepthAlpha)) == Success((version, supportDepthAlpha))
  {
    UInt32RoundTrip(version);
  }

  lemma SdpRoundTrip(sdpType: string, sdp: string)
    ensures ReadSdp(WriteSdp(sdpType, sdp)) == (Some(sdpType), sdp)
  {
  }

  lemma IceCandidateRoundTrip(mid: string, mlineIndex: int32, candidate: string)
    ensures ReadIceCandidate(WriteIceCandidate(mid, mlineIndex, candidate)) == Success((Some(mid), mlineIndex, candidate))
  {
    Int32RoundTrip(mlineIndex);
  }

  /** Only "1" reads as depth alpha: "0", an empty value or a missing attribute do not. */
  lemma DepthAlphaOnlyForOne(version: uint32, value: Option<string>)
    requires value != Some("1")
    ensures var attrs := if value.Some? then [Attribute(DepthAlphaToken, value.value)] else [];
      ReadVersion(XmlElement(VersionToken, attrs, NatToString(version))) == Success((version, false))
  {
    UInt32RoundTrip(version);
  }

  // Rendering.

  const XmlDeclaration := "<?xml version=\"1.0\" encoding=\"utf-8\"?>"

  /** `Environment.NewLine`, which the writer's default `NewLineChars` takes: it depends on
      the platform. */
  datatype NewLine = Lf | CrLf

  function NewLineChars(nl: NewLine): string {
    if nl == Lf then "\n" else "\r\n"
  }

  /** The `Char` production of section 2.2 of XML 1.0, which `CheckCharacters` enforces on
      text and attribute values. */
  predicate IsXmlChar(c: char) {
    || c == '\t' || c == '\n' || c == '\r'
    || 0x20 <= c as int <= 0xD7FF
    || 0xE000 <= c as int <= 0xFFFD
    || 0x10000 <= c as int
  }

  predicate XmlChars(s: string) {
    forall i :: 0 <= i < |s| ==> IsXmlChar(s[i])
  }

  /** The characters the writer would be asked to write are all allowed. */
  predicate ValidCharacters(e: XmlElement) {
    && XmlChars(e.content)
    && forall i :: 0 <= i < |e.attributes| ==> XmlChars(e.attributes[i].value)
  }

  /** The names the program writes are its fixed tokens: an ASCII letter, then letters and
      '-'. */
  predicate IsNameChar(c: char) {
    'A' <= c <= 'Z' || 'a' <= c <= 'z' || c == '-'
  }

  predicate NameOk(s: string) {
    && |s| > 0 && s[0] != '-'
    && forall i :: 0 <= i < |s| ==> IsNameChar(s[i])
  }

  /** An element whose names the writer accepts: valid names, and no attribute name twice. */
  predicate WellNamed(e: XmlElement) {
    && NameOk(e.name)
    && (forall i :: 0 <= i < |e.attributes| ==> NameOk(e.attributes[i].name))
    && (forall i, j :: 0 <= i < j < |e.attributes| ==> e.attributes[i].name != e.attributes[j].name)
  }

  /** The three writers name their elements and attributes with distinct tokens. */
  lemma WritersWellNamed(version: uint32, depthAlpha: bool, sdpType: string, sdp: string, mid: string, index: int32, candidate: string)
    ensures WellNamed(WriteVersion(version, depthAlpha))
    ensures WellNamed(WriteSdp(sdpType, sdp))
    ensures WellNamed(WriteIceCandidate(mid, index, candidate))
  {
    VersionNames();
    SdpNames();
    IceCandidateNames();
    assert |IceMidToken| == 7 && |IceMLineIndexToken| == 11;
  }

  lemma VersionNames()
    ensures NameOk(VersionToken) && NameOk(DepthAlphaToken)
  {
  }

  lemma SdpNames()
    ensures NameOk(SdpToken) && NameOk(SdpTypeToken)
  {
  }

  lemma IceCandidateNames()
    ensures NameOk(IceCandidateToken) && NameOk(IceMidToken) && NameOk(IceMLineIndexToken)
  {
  }

  /** One character of element text as `WriteString` writes it, new lines aside: '<', '>'
      and '&' become references, quotes and tabs are written as they are. */
  function TextUnit(c: char): string {
    if c == '<' then "&lt;" else if c == '>' then "&gt;" else if c == '&' then "&amp;" else [c]
  }

  /** Element text under the default `NewLineHandling.Replace`: "\r\n", a lone "\r" and "\n"
      are each written as the platform's new line. */
  function EscapeText(s: string, nl: NewLine): string
    decreases |s|
  {
    if |s| == 0 then ""
    else if s[0] == '\r' && |s| >= 2 && s[1] == '\n' then NewLineChars(nl) + EscapeText(s[2..], nl)
    else if s[0] == '\r' || s[0] == '\n' then NewLineChars(nl) + EscapeText(s[1..], nl)
    else TextUnit(s[0]) + EscapeText(s[1..], nl)
  }

  /** One character of an attribute value as `WriteAttributeString` writes it: the markup
      characters and '"' become references, and so do tab, line feed and carriage return,
      which the reader would otherwise normalise to spaces. */
  function AttributeUnit(c: char): string {
    if c == '<' then "&lt;" else if c == '>' then "&gt;" else if c == '&' then "&amp;"
    else if c == '"' then "&quot;" else if c == '\t' then "&#x9;"
    else if c == '\n' then "&#xA;" else if c == '\r' then "&#xD;" else [c]
  }

  function EscapeAttribute(s: string): string
    decreases |s|
  {
    if |s| == 0 then "" else AttributeUnit(s[0]) + EscapeAttribute(s[1..])
  }

  function RenderAttributes(attrs: seq<Attribute>): string {
    if |attrs| == 0 then ""
    else " " + attrs[0].name + "=\"" + EscapeAttribute(attrs[0].value) + "\"" + RenderAttributes(attrs[1..])
  }

  /** What follows the attributes: with no content the writer never closes the start tag
      and ends the element as an empty tag; otherwise the text and the end tag. */
  function RenderTail(e: XmlElement, nl: NewLine): string {
    if |e.content| == 0 then " />" else ">" + EscapeText(e.content, nl) + "</" + e.name + ">"
  }

  function Document(e: XmlElement, nl: NewLine): string {
    XmlDeclaration + "<" + e.name + RenderAttributes(e.attributes) + RenderTail(e, nl)
  }

  /** The `ArgumentException` `CheckCharacters` raises. */
  datatype WriteError = InvalidCharacter

  /** `WriteElement`: the declaration, the start tag with the attributes in order, then the
      text and the end tag, or an empty tag when there is no text. A character outside
      XML's `Char` production throws. */
  function Render(e: XmlElement, nl: NewLine): (r: Result<string, WriteError>)
    requires WellNamed(e)
    ensures r.Success? <==> ValidCharacters(e)
    ensures r.Success? ==> |r.value| >= 2 && r.value[0] == '<' && r.value[|r.value| - 1] == '>'
  {
    if !ValidCharacters(e) then Failure(InvalidCharacter)
    else
      var d := Document(e, nl);
      assert d[0] == XmlDeclaration[0];
      assert d[|d| - 1] == RenderTail(e, nl)[|RenderTail(e, nl)| - 1];
      Success(d)
  }

  /** What the written document says is what a reader reads back: the element, with the
      line ends of its text normalised. */
  lemma RenderReadBack(e: XmlElement, nl: NewLine)
    requires WellNamed(e) && ValidCharacters(e)
    ensures ReadDocument(Render(e, nl).value) == Some(Normalized(e))
  {
    DocumentReadBack(e, nl);
  }

  // Reading back.

  predicate StartsWith(t: string, p: string) {
    |p| <= |t| && forall i :: 0 <= i < |p| ==> t[i] == p[i]
  }

  /** The references the writer emits, with the character each stands for and its length. */
  function Reference(t: string): (r: Option<(char, nat)>)
    ensures r.Some? ==> 0 < r.value.1 <= |t|
  {
    if StartsWith(t, "&lt;") then Some(('<', 4))
    else if StartsWith(t, "&gt;") then Some(('>', 4))
    else if StartsWith(t, "&amp;") then Some(('&', 5))
    else if StartsWith(t, "&quot;") then Some(('"', 6))
    else if StartsWith(t, "&#x9;") then Some(('\t', 5))
    else if StartsWith(t, "&#xA;") then Some(('\n', 5))
    else if StartsWith(t, "&#xD;") then Some(('\r', 5))
    else None
  }

  function Prepend(c: char, rest: Option<string>): Option<string> {
    if rest.None? then None else Some([c] + rest.value)
  }

  /** Reading character data as sections 2.11, 3.3.3 and 4.6 of XML 1.0 describe: references
      are replaced, "\r\n" and a lone "\r" read as "\n", and in an attribute value a literal
      tab or line end reads as a space. A '<' or an unknown reference is rejected. */
  function ReadChars(t: string, attr: bool): Option<string>
    decreases |t|
  {
    if |t| == 0 then Some("")
    else if t[0] == '&' then
      var ref := Reference(t);
      if ref.None? then None else Prepend(ref.value.0, ReadChars(t[ref.value.1..], attr))
    else if t[0] == '<' then None
    else if t[0] == '\r' then
      var skip := if |t| >= 2 && t[1] == '\n' then 2 else 1;
      Prepend(if attr then ' ' else '\n', ReadChars(t[skip..], attr))
    else if attr && (t[0] == '\n' || t[0] == '\t') then Prepend(' ', ReadChars(t[1..], attr))
    else Prepend(t[0], ReadChars(t[1..], attr))
  }

  /** Line-end normalisation: "\r\n" and a lone "\r" become "\n". */
  function NormalizeNewlines(s: string): string
    decreases |s|
  {
    if |s| == 0 then ""
    else if s[0] == '\r' then "\n" + NormalizeNewlines(if |s| >= 2 && s[1] == '\n' then s[2..] else s[1..])
    else [s[0]] + NormalizeNewlines(s[1..])
  }

  /** Text without a carriage return is its own normalisation. */
  lemma {:induction false} NormalizeWithoutCr(s: string)
    requires '\r' !in s
    ensures NormalizeNewlines(s) == s
    decreases |s|
  {
    if |s| > 0 {
      assert '\r' !in s[1..] by { assert forall j :: 0 <= j < |s| - 1 ==> s[1..][j] == s[j + 1]; }
      NormalizeWithoutCr(s[1..]);
      assert [s[0]] + s[1..] == s;
    }
  }

  /** The element a reader sees: the text with its line ends normalised. */
  function Normalized(e: XmlElement): XmlElement {
    e.(content := NormalizeNewlines(e.content))
  }

  /** The length of the run of name characters at the start of `t`. */
  function NameLength(t: string): (n: nat)
    ensures n <= |t|
  {
    if |t| == 0 || !IsNameChar(t[0]) then 0 else 1 + NameLength(t[1..])
  }

  /** The attributes of a start tag, each a space, a name, '=' and a quoted value, and the
      text after the last. */
  function ReadAttributes(t: string): (r: Option<(seq<Attribute>, string)>)
    decreases |t|, 3
  {
    if |t| >= 2 && t[0] == ' ' && IsNameChar(t[1]) then ReadAttribute(t[1..])
    else Some(([], t))
  }

  /** An attribute from its name on. */
  function ReadAttribute(u: string): (r: Option<(seq<Attribute>, string)>)
    decreases |u| + 1, 2
  {
    var n := NameLength(u);
    ReadValue(u[..n], u[n..])
  }

  /** An attribute from the '=' after its name on. */
  function ReadValue(name: string, v: string): (r: Option<(seq<Attribute>, string)>)
    decreases |v| + 1, 1
  {
    if !StartsWith(v, "=\"") then None else ReadQuoted(name, v[2..])
  }

  /** An attribute from the first character of its value on: the value ends at the next
      '"', and the attributes after it follow. */
  function ReadQuoted(name: string, w: string): (r: Option<(seq<Attribute>, string)>)
    decreases |w| + 1, 0
  {
    var k := Text.IndexOf(w, '"');
    if k.None? then None
    else
      var value := ReadChars(w[..k.value], true);
      var rest := ReadAttributes(w[k.value + 1..]);
      if value.None? || rest.None? then None
      else Some(([Attribute(name, value.value)] + rest.value.0, rest.value.1))
  }

  /** What follows the attributes: an empty tag, or text up to the matching end tag. */
  function ReadContent(name: string, attrs: seq<Attribute>, t: string): Option<XmlElement> {
    if t == " />" then Some(XmlElement(name, attrs, ""))
    else if |t| >= 1 && t[0] == '>' then ReadText(name, attrs, t[1..])
    else None
  }

  /** The text after the start tag: it ends at the first '<', which must begin the end
      tag. */
  function ReadText(name: string, attrs: seq<Attribute>, body: string): Option<XmlElement> {
    var k := Text.IndexOf(body, '<');
    if k.None? || body[k.value..] != "</" + name + ">" then None
    else
      var text := ReadChars(body[..k.value], false);
      if text.None? then None else Some(XmlElement(name, attrs, text.value))
  }

  /** A reference reading of the documents `WriteElement` produces: the declaration, then
      one element. */
  function ReadDocument(t: string): Option<XmlElement> {
    var head := XmlDeclaration + "<";
    if !StartsWith(t, head) then None else ReadElement(t[|head|..])
  }

  /** An element from its name on. */
  function ReadElement(u: string): Option<XmlElement> {
    var n := NameLength(u);
    var attrs := ReadAttributes(u[n..]);
    if n == 0 || attrs.None? then None
    else ReadContent(u[..n], attrs.value.0, attrs.value.1)
  }

  // Round trip of the writer through the reader.

  lemma NewLineRead(nl: NewLine, rest: string)
    ensures ReadChars(NewLineChars(nl) + rest, false) == Prepend('\n', ReadChars(rest, false))
  {
    var t := NewLineChars(nl) + rest;
    if nl == Lf {
      assert t[1..] == rest;
    } else {
      assert t[0] == '\r' && t[1] == '\n' && t[2..] == rest;
    }
  }

  lemma TextUnitRead(c: char, rest: string)
    requires c != '\r' && c != '\n'
    ensures ReadChars(TextUnit(c) + rest, false) == Prepend(c, ReadChars(rest, false))
  {
    var u := TextUnit(c);
    var t := u + rest;
    assert t[|u|..] == rest;
    if c == '<' || c == '>' || c == '&' {
      assert t[1] == u[1] && t[2] == u[2];
      assert StartsWith(t, u);
      assert Reference(t) == Some((c, |u|));
    } else {
      assert t[0] == c;
    }
  }

  lemma AttributeUnitRead(c: char, rest: string)
    ensures ReadChars(AttributeUnit(c) + rest, true) == Prepend(c, ReadChars(rest, true))
  {
    var u := AttributeUnit(c);
    var t := u + rest;
    assert t[|u|..] == rest;
    if c == '<' || c == '>' || c == '&' || c == '"' || c == '\t' || c == '\n' || c == '\r' {
      assert t[1] == u[1] && t[2] == u[2] && t[3] == u[3];
      assert StartsWith(t, u);
      assert Reference(t) == Some((c, |u|));
    } else {
      assert t[0] == c;
    }
  }

  /** Reading written text gives it back with its line ends normalised. */
  lemma {:induction false} TextReadBack(s: string, nl: NewLine)
    ensures ReadChars(EscapeText(s, nl), false) == Some(NormalizeNewlines(s))
    decreases |s|
  {
    if |s| > 0 {
      if s[0] == '\r' && |s| >= 2 && s[1] == '\n' {
        NewLineRead(nl, EscapeText(s[2..], nl));
        TextReadBack(s[2..], nl);
      } else if s[0] == '\r' || s[0] == '\n' {
        NewLineRead(nl, EscapeText(s[1..], nl));
        TextReadBack(s[1..], nl);
      } else {
        TextUnitRead(s[0], EscapeText(s[1..], nl));
        TextReadBack(s[1..], nl);
      }
    }
  }

  /** Reading a written attribute value gives it back exactly. */
  lemma {:induction false} AttributeReadBack(s: string)
    ensures ReadChars(EscapeAttribute(s), true) == Some(s)
    decreases |s|
  {
    if |s| > 0 {
      AttributeUnitRead(s[0], EscapeAttribute(s[1..]));
      AttributeReadBack(s[1..]);
      assert [s[0]] + s[1..] == s;
    }
  }

  /** Written text holds no '<', so the text ends at the end tag. */
  lemma {:induction false} TextHasNoOpenAngle(s: string, nl: NewLine)
    ensures '<' !in EscapeText(s, nl)
    decreases |s|
  {
    if |s| > 0 {
      if s[0] == '\r' && |s| >= 2 && s[1] == '\n' {
        TextHasNoOpenAngle(s[2..], nl);
      } else {
        TextHasNoOpenAngle(s[1..], nl);
      }
    }
  }

  /** A written attribute value holds no '"', so the value ends at the closing quote. */
  lemma {:induction false} AttributeHasNoQuote(s: string)
    ensures '"' !in EscapeAttribute(s)
    decreases |s|
  {
    if |s| > 0 {
      AttributeHasNoQuote(s[1..]);
    }
  }

  lemma {:induction false} NameLengthOf(name: string, rest: string)
    requires forall i :: 0 <= i < |name| ==> IsNameChar(name[i])
    requires |rest| == 0 || !IsNameChar(rest[0])
    ensures NameLength(name + rest) == |name|
    decreases |name|
  {
    if |name| > 0 {
      assert (name + rest)[1..] == name[1..] + rest;
      NameLengthOf(name[1..], rest);
    } else {
      assert name + rest == rest;
    }
  }

  lemma QuotedStep(name: string, value: string, after: string)
    ensures var rest := ReadAttributes(after);
      ReadQuoted(name, EscapeAttribute(value) + "\"" + after)
        == if rest.None? then None else Some(([Attribute(name, value)] + rest.value.0, rest.value.1))
  {
    var esc := EscapeAttribute(value);
    var w := esc + "\"" + after;
    AttributeHasNoQuote(value);
    assert w[|esc|] == '"';
    assert forall j :: 0 <= j < |esc| ==> w[j] == esc[j];
    assert Text.IndexOf(w, '"') == Some(|esc|);
    assert w[..|esc|] == esc && w[|esc| + 1..] == after;
    AttributeReadBack(value);
  }

  lemma ValueStep(name: string, w: string)
    ensures ReadValue(name, "=\"" + w) == ReadQuoted(name, w)
  {
    var v := "=\"" + w;
    assert v[0] == '=' && v[1] == '"' && v[2..] == w;
    assert StartsWith(v, "=\"");
  }

  lemma NameStep(name: string, v: string)
    requires NameOk(name) && |v| > 0 && v[0] == '='
    ensures ReadAttributes(" " + name + v) == ReadValue(name, v)
  {
    var u := name + v;
    var t := " " + u;
    assert t == " " + name + v;
    assert t[1..] == u && t[0] == ' ' && t[1] == name[0];
    NameLengthOf(name, v);
    assert u[..|name|] == name && u[|name|..] == v;
  }

  /** One attribute of a start tag is read back, then the ones after it. */
  lemma AttributeStep(name: string, value: string, after: string)
    requires NameOk(name)
    ensures var rest := ReadAttributes(after);
      ReadAttributes(" " + name + "=\"" + EscapeAttribute(value) + "\"" + after)
        == if rest.None? then None else Some(([Attribute(name, value)] + rest.value.0, rest.value.1))
  {
    var w := EscapeAttribute(value) + "\"" + after;
    assert " " + name + "=\"" + EscapeAttribute(value) + "\"" + after == " " + name + ("=\"" + w);
    NameStep(name, "=\"" + w);
    ValueStep(name, w);
    QuotedStep(name, value, after);
  }

  /** The attributes read back from the start tag, up to what follows them. */
  lemma {:induction false} AttributesReadBack(attrs: seq<Attribute>, tail: string)
    requires forall i :: 0 <= i < |attrs| ==> NameOk(attrs[i].name)
    requires !(|tail| >= 2 && tail[0] == ' ' && IsNameChar(tail[1]))
    ensures ReadAttributes(RenderAttributes(attrs) + tail) == Some((attrs, tail))
    decreases |attrs|
  {
    if |attrs| == 0 {
      assert RenderAttributes(attrs) + tail == tail;
    } else {
      var a := attrs[0];
      var after := RenderAttributes(attrs[1..]) + tail;
      assert RenderAttributes(attrs) + tail == " " + a.name + "=\"" + EscapeAttribute(a.value) + "\"" + after;
      AttributeStep(a.name, a.value, after);
      AttributesReadBack(attrs[1..], tail);
      assert [a] + attrs[1..] == attrs;
    }
  }

  /** Text without '<' runs up to the end tag that follows it. */
  lemma EndTagFound(esc: string, name: string)
    requires '<' !in esc
    ensures var body := esc + "</" + name + ">";
      && Text.IndexOf(body, '<') == Some(|esc|)
      && body[|esc|..] == "</" + name + ">" && body[..|esc|] == esc
  {
    var tag := "</" + name + ">";
    var body := esc + "</" + name + ">";
    assert body == esc + tag;
    assert body[|esc|] == '<';
    assert forall j :: 0 <= j < |esc| ==> body[j] == esc[j] && body[j] != '<';
    var k := Text.IndexOf(body, '<');
    assert k.Some?;
    assert k.value <= |esc|;
    assert body[k.value] == '<';
  }

  lemma TextStep(name: string, attrs: seq<Attribute>, content: string, nl: NewLine)
    ensures ReadText(name, attrs, EscapeText(content, nl) + "</" + name + ">")
      == Some(XmlElement(name, attrs, NormalizeNewlines(content)))
  {
    var esc := EscapeText(content, nl);
    TextHasNoOpenAngle(content, nl);
    EndTagFound(esc, name);
    TextReadBack(content, nl);
  }

  /** The content read back after the start tag. */
  lemma ContentReadBack(e: XmlElement, nl: NewLine)
    ensures ReadContent(e.name, e.attributes, RenderTail(e, nl)) == Some(Normalized(e))
  {
    var t := RenderTail(e, nl);
    if |e.content| > 0 {
      var body := EscapeText(e.content, nl) + "</" + e.name + ">";
      assert t == ">" + body;
      assert t[0] == '>' && t[1..] == body;
      assert t != " />" by { assert t[0] != (" />")[0]; }
      TextStep(e.name, e.attributes, e.content, nl);
    } else {
      assert NormalizeNewlines(e.content) == e.content;
    }
  }

  lemma DocumentStep(u: string)
    ensures ReadDocument(XmlDeclaration + "<" + u) == ReadElement(u)
  {
    var head := XmlDeclaration + "<";
    var d := head + u;
    assert StartsWith(d, head);
    assert d[|head|..] == u;
  }

  lemma ElementStep(name: string, rest: string)
    requires NameOk(name) && |rest| > 0 && !IsNameChar(rest[0])
    ensures var attrs := ReadAttributes(rest);
      ReadElement(name + rest) == if attrs.None? then None else ReadContent(name, attrs.value.0, attrs.value.1)
  {
    var u := name + rest;
    NameLengthOf(name, rest);
    assert u[..|name|] == name && u[|name|..] == rest;
  }

  /** The document `WriteElement` produces reads back as the element, its text's line ends
      normalised. */
  lemma DocumentReadBack(e: XmlElement, nl: NewLine)
    requires WellNamed(e)
    ensures ReadDocument(Document(e, nl)) == Some(Normalized(e))
  {
    var rest := RenderAttributes(e.attributes) + RenderTail(e, nl);
    assert Document(e, nl) == XmlDeclaration + "<" + (e.name + rest);
    DocumentStep(e.name + rest);
    ElementReadBack(e, nl);
  }

  /** The start tag's name, attributes and what follows them read back as the element. */
  lemma ElementReadBack(e: XmlElement, nl: NewLine)
    requires WellNamed(e)
    ensures ReadElement(e.name + (RenderAttributes(e.attributes) + RenderTail(e, nl))) == Some(Normalized(e))
  {
    var tail := RenderTail(e, nl);
    var rest := RenderAttributes(e.attributes) + tail;
    assert tail[0] == ' ' || tail[0] == '>';
    assert |rest| > 0 && !IsNameChar(rest[0]) by {
      if |e.attributes| > 0 {
        assert rest[0] == ' ';
      } else {
        assert rest == tail;
      }
    }
    ElementStep(e.name, rest);
    assert !(|tail| >= 2 && tail[0] == ' ' && IsNameChar(tail[1]));
    AttributesReadBack(e.attributes, tail);
    ContentReadBack(e, nl);
  }
}
